=== FILE: README.md ===
# Advent of Code 2024 solvers, modelled in Dafny

This project models the puzzle logic of the 25 Advent of Code 2024
solvers in `aoc2024/src/bin/01.rs` to `25.rs`. Each solver becomes one
module, `Day01` to `Day25`, in `day01.dfy` to `day25.dfy`. A shared module,
`Prelude` (`prelude.dfy`), provides:

- an `Option` type for the places where a solver panics;
- unbounded integer helpers: powers, exclusive-or on naturals, decimal digit counts;
- a generic insertion sort;
- string splitting and joining;
- a decimal parser.

Reading input files is not modelled: where a solver's parsing is modelled,
a loader takes the file's text (`Day01.Load`, `Day08.Load`, `Day10.Load`,
`Day11.LoadStones`, `Day12.Load`, `Day20.Load`, `Day21.Codes`,
`Day22.LoadSecrets`, `Day23.Load`, `Day25.Load`), its first line
(`Day09.Parse`, the program line of day 17) or its lines (the day 3 scanner,
`Day15.Load` with `Day15.ParseMoves`); the other solvers take already-parsed
puzzle data. Most of the logic is pure functions with
contracts. Searches and loops with mutable state are methods with loop
invariants (for example `Day01.Part2`, `Day14.Part2`, `Day15.Solve`,
`Day18.Part1`, `Day20.FindPath`, `Day22.Part2`, `Day23.Part2`). Lemmas relate
each operation to an independent reference definition, an inverse, or an
invariant it keeps.

## Model

| member | source | states |
|---|---|---|
| Day17.New | aoc2024/src/bin/17.rs:17-26 | A new computer holds the program and register A, has B, C and the instruction counter at 0 and nothing printed. It halts at once exactly when the program has fewer than two numbers. |
| Day17.Combo | aoc2024/src/bin/17.rs:28-39 | Operands 0..3 stand for themselves. Operand 7 or more is the panic (`None`), and only those. |
| Day17.Step | aoc2024/src/bin/17.rs:47-78 | One instruction. It panics exactly when an opcode that reads a combo operand (0, 2, 5, 6, 7) meets operand 7 or more. The program is unchanged. Output grows only for opcode 5, and then by one octal digit. The instruction counter jumps to the operand for `jnz` with A ≠ 0 and otherwise advances by two. |
| Day17.Run | aoc2024/src/bin/17.rs:41-80 | A run that finishes ends halted (no full instruction left). It keeps the program. Its output extends the initial output with octal digits only. A computer that is already halted is its own result. |
| Day17.RunMoreFuel | aoc2024/src/bin/17.rs:41-80 | A run that ends (halts or panics) within a step budget ends identically with any larger budget, so the budget does not change the answer. |
| Prelude.ParseAll | aoc2024/src/bin/17.rs:101-104 | Parsing the comma-separated program fields yields one value per field, or fails if any field fails to parse. |
| Day17.RenderParses | aoc2024/src/bin/17.rs:101-104 | Part 1's comma-joined output, read back by the program-line parser, gives exactly the printed values. |
| Day17.Part1 | aoc2024/src/bin/17.rs:109-118 | An answer exists exactly when the run finishes. The answer string parses back to the run's output. |
| Day17.ExamplePass | aoc2024/src/bin/17.rs:41-80 | In the example program 0,1,5,4,3,0, three steps halve A and print the new A mod 8. They jump back while A is non-zero and halt otherwise. |
| Day17.ExampleLoops | aoc2024/src/bin/17.rs:41-80 | With enough step budget, the example program from any A halts with A = 0, having printed A halved, mod 8, on every pass. |
| Day17.ExampleRun | aoc2024/src/bin/17.rs:161-165 | From A = 729 the example program halts within 30 steps having printed 4,6,3,5,6,3,5,2,1,0. |
| Day17.Part1Example | aoc2024/src/bin/17.rs:161-165 | Part 1 on the example answers "4,6,3,5,6,3,5,2,1,0". |
| Day17.Accepts | aoc2024/src/bin/17.rs:136-138 | A candidate register A is judged only when its run finishes. It is accepted exactly when the program prints the target. |
| Day17.ExtendOne | aoc2024/src/bin/17.rs:135-141 | The kept candidates for one solution s are exactly the values 8s + d, with d from the given digit to 7, whose run prints the target. |
| Day17.Extend | aoc2024/src/bin/17.rs:132-144 | One search round keeps exactly the candidates whose value divided by 8 is an earlier solution and whose run prints the round's target. |
| Day17.Search | aoc2024/src/bin/17.rs:124-144 | After the last round, whose target is the whole program, every surviving candidate makes the program print itself. |
| Day17.Part2 | aoc2024/src/bin/17.rs:120-147 | The answer makes the program print itself exactly. It is the least surviving candidate. An empty program yields 0. |
| Day19.Code | aoc2024/src/bin/19.rs:10-22 | A letter's code is below 8. It is in 1..5 exactly for the colours w, u, b, r, g. |
| Day19.Convert | aoc2024/src/bin/19.rs:8-26 | Packing a string of n letters gives a number below 2^(3n). |
| Day19.RevertConvert | aoc2024/src/bin/19.rs:28-44 | Unpacking a packed design returns the design. |
| Day19.Revert | aoc2024/src/bin/19.rs:28-44 | Whenever unpacking succeeds, it yields a valid design that packs back to the same number; `RevertConvert` is the other direction of the round trip. |
| Day19.ConvertInjective | aoc2024/src/bin/19.rs:8-26 | Distinct valid designs pack to distinct numbers. |
| Day19.ConvertAppend | aoc2024/src/bin/19.rs:8-26 | Packing a concatenation shifts the left part by three bits per letter of the right part. |
| Day19.ConvertExamples | aoc2024/src/bin/19.rs:166-169 | "wu" packs to 10 and "burg" packs to 1701. |
| Day19.Log2Bounds | aoc2024/src/bin/19.rs:47 | `ilog2(n)` is the position of the highest set bit: 2^k ≤ n < 2^(k+1). |
| Day19.BitLength | aoc2024/src/bin/19.rs:46-48 | The bit length is a positive multiple of 3 and covers every bit of n. |
| Day19.BitLengthOfPattern | aoc2024/src/bin/19.rs:46-48 | A non-empty packed pattern is non-zero, and its bit length is three bits per letter. |
| Day19.End | aoc2024/src/bin/19.rs:86 | `d - ((d >> L) << L)` is d mod 2^L. |
| Day19.Shift | aoc2024/src/bin/19.rs:88 | `d >> L` strictly shrinks a non-zero design, which is why the matchers terminate. |
| Day19.SplitSuffix | aoc2024/src/bin/19.rs:85-88 | Shifting a packed design right by 3m bits drops its last m letters. The low 3m bits are those m letters. |
| Day19.MatchEnd | aoc2024/src/bin/19.rs:85-88 | The low-bits test `end == available` holds exactly when the design ends with the pattern. The shifted design then encodes the remaining prefix. |
| Day19.Count | aoc2024/src/bin/19.rs:97-118 | With all patterns non-empty, the empty design has no combination. `CountIsWays` relates the counter to the splittings of the design string. |
| Day19.Find | aoc2024/src/bin/19.rs:74-95 | The empty design is never found. `FindIffCount` ties the search to the counter. |
| Day19.FindIffCount | aoc2024/src/bin/19.rs:74-95 | `find_combination` holds exactly when `count_all_combinations` is positive. Skipping patterns larger than the design loses nothing. |
| Day19.CountIsWays | aoc2024/src/bin/19.rs:97-118 | For a non-empty valid design, the packed counter equals the number of ordered ways to write the design as a concatenation of patterns, each listed pattern counted separately. |
| Day19.CountFromIsWaysFrom | aoc2024/src/bin/19.rs:100-115 | The sum over the patterns from index i onward equals the same sum over the string splittings. |
| Day19.TermIsWays | aoc2024/src/bin/19.rs:100-115 | One pattern adds the same amount to the packed count as to the number of splittings whose last piece is that pattern. |
| Day19.Part1 | aoc2024/src/bin/19.rs:120-140 | The number of buildable designs is at most the number of designs. |
| Day19.Part2 | aoc2024/src/bin/19.rs:142-151 | Part 2 is at least part 1, and 0 exactly when part 1 is. |
| Day19.PartsAreWays | aoc2024/src/bin/19.rs:135-150 | On packed valid designs, part 1 counts the designs with at least one splitting, and part 2 sums the splittings. |
| Day07.UndoApply | aoc2024/src/bin/07.rs:57-76 | One backward step of the validator (subtract, divide exactly, strip a decimal suffix) yields e exactly when e combined forwards with the value gives the target. |
| Day07.ValidateIffEvals | aoc2024/src/bin/07.rs:47-84 | The backward validator accepts a target exactly when some left-to-right evaluation of the values with the allowed operators reaches it. |
| Day07.TryOpsIffEvals | aoc2024/src/bin/07.rs:53-81 | Trying the operators from position j onward succeeds exactly when one of those operators combines an earlier result with the last value to give the target. |
| Day07.EvalsMonotone | aoc2024/src/bin/07.rs:104-108 | A larger operator set reaches every value a smaller one reaches. |
| Day07.ValidateMonotone | aoc2024/src/bin/07.rs:104-108 | An equation valid with some operators stays valid when more operators are allowed. |
| Day07.Solve | aoc2024/src/bin/07.rs:86-97 | The calibration result is the sum of the targets that some left-to-right evaluation of their values with the allowed operators reaches, so at most the sum of all targets. |
| Day07.Validate | aoc2024/src/bin/07.rs:47-84 | An accepted equation's target is reached by some left-to-right evaluation with the allowed operators. |
| Day07.Part1 | aoc2024/src/bin/07.rs:86-97 | Part 1 sums the targets reachable with addition and multiplication. |
| Day07.Part2 | aoc2024/src/bin/07.rs:99-114 | Part 2 sums the targets reachable once concatenation is also allowed. |
| Day07.Example | aoc2024/src/bin/07.rs:128-143 | On the puzzle's nine example equations, part 1 is 3749 and part 2 is 11387. |
| Day07.Part1AtMostPart2 | aoc2024/src/bin/07.rs:86-114 | Adding concatenation never lowers the calibration result. |
| Day09.Parse | aoc2024/src/bin/09.rs:52-60 | No free block of the parsed disk has size zero. |
| Day09.ParseSizes | aoc2024/src/bin/09.rs:52-60 | The parsed disk is as long as the digit sum, and file x has exactly the size given by digit 2x (and none beyond the input). |
| Day09.ChecksumIsCellSum | aoc2024/src/bin/09.rs:65-83 | The block-wise checksum equals the sum, over the disk's cells, of position times file id. |
| Day09.Cells | aoc2024/src/bin/09.rs:65-83 | The cell view of a disk has one cell per unit of block size. |
| Day09.Compact | aoc2024/src/bin/09.rs:85-127 | Compaction succeeds exactly when the disk holds a file; popping from an all-free disk panics. The compacted disk has no free block and keeps every file's total size. |
| Day09.Fill | aoc2024/src/bin/09.rs:94-123 | Placing a held file piece by piece into the first free blocks always succeeds. It leaves no free block and adds exactly the held size to that file. |
| Day09.Part1 | aoc2024/src/bin/09.rs:85-130 | Part 1 has an answer exactly when the disk holds a file. |
| Day09.FindSlot | aoc2024/src/bin/09.rs:150-162 | The chosen slot is the first free block, in the searched range, large enough for the file; none is chosen only when no block there fits. |
| Day09.Free | aoc2024/src/bin/09.rs:169-184 | Freeing space at a position adds exactly that much disk length, keeps every file's size and leaves the blocks before it alone. |
| Day09.Relocate | aoc2024/src/bin/09.rs:166-168 | The file takes the slot's place and its old block goes; blocks before the slot are unchanged and every file keeps its size. |
| Day09.MoveFile | aoc2024/src/bin/09.rs:144-186 | Moving a file panics when the file is missing; otherwise only when the file is the first block and its slot's leftover would be written past the end. It keeps the disk length, every file's size and the ids, and keeps the first block unless the file is that block. A file right of the front lands in the first fitting free block left of it, with everything before that block unchanged; no fitting block leaves the disk alone. |
| Day09.MoveLeft | aoc2024/src/bin/09.rs:163-186 | Moving a file into a free block left of it keeps the disk length. |
| Day09.MoveFront | aoc2024/src/bin/09.rs:150-186 | A first-block file searches to the end of the disk. The move panics exactly when the slot has room to spare and its leftover index falls past the end. Otherwise it keeps every size and id, and the front becomes free space, merged with a free block behind it or new. |
| Day09.FrontMoveExample | aoc2024/src/bin/09.rs:150-186 | File 1 of size 1 at the front of [1][..][0] moves right into the free pair, leaving a free cell before and after it. |
| Day09.FrontOverrunExample | aoc2024/src/bin/09.rs:150-186 | The same move on a disk that ends with the free pair panics, although the file exists. |
| Day09.IdsFind | aoc2024/src/bin/09.rs:144-148 | The search for a file's block succeeds exactly for the ids on the disk. |
| Day09.MaxNumber | aoc2024/src/bin/09.rs:135-142 | The highest number exists exactly when the disk holds a file, and it is the id of some file block. |
| Day09.MoveAll | aoc2024/src/bin/09.rs:144-187 | Moving files from `number` down to 1 fails when one of those ids is missing, and succeeds when all are present and the first block is not one of them. It keeps the ids, the disk length, every file's size and, in that case, the first block. |
| Day09.Part2 | aoc2024/src/bin/09.rs:132-190 | Part 2 answers only when the disk holds a file and every id from 1 to the highest is present. It does answer when, in addition, the first block is not a moved file. |
| Day09.ParsedIds | aoc2024/src/bin/09.rs:52-60 | A parsed disk holds file x exactly for x below half the digit count, rounded up. |
| Day09.Part2Parsed | aoc2024/src/bin/09.rs:52-60 | On a parsed disk, part 2 answers exactly when the digit string is not empty. |
| Day05.IndexOf | aoc2024/src/bin/05.rs:51-52 | The position found holds the page, and no earlier position does. |
| Day05.Validate | aoc2024/src/bin/05.rs:48-59 | The rule scan accepts a page list exactly when every rule whose two pages both occur has its first page's first occurrence no later than its second's; with no rules every list is valid. |
| Day05.Correct | aoc2024/src/bin/05.rs:67-74 | Correcting one rule permutes the list (same length and multiset) and leaves that rule respected. A list already respecting the rule is unchanged. After a correction the first page sits directly before the second, at the second's old position. |
| Day05.FixPass | aoc2024/src/bin/05.rs:65-75 | A repair pass permutes the list, and leaves a valid list unchanged. |
| Day05.FixPage | aoc2024/src/bin/05.rs:61-80 | Repair permutes the list. Depth 0 returns the list unchanged, and a valid list is returned unchanged at any depth. |
| Day05.Middle | aoc2024/src/bin/05.rs:88 | The middle entry of a non-empty list is one of its pages. |
| Day05.Part1 | aoc2024/src/bin/05.rs:82-92 | Part 1 is at most the sum of the middles of all lists. |
| Day05.Part2 | aoc2024/src/bin/05.rs:94-105 | Part 2 is at most the sum of the largest page of each list that breaks a rule, and 0 when every list keeps the rules. |
| Day05.AllValid | aoc2024/src/bin/05.rs:82-105 | When every list is valid, part 1 sums every middle and part 2 is zero. |
| Day05.NoneValid | aoc2024/src/bin/05.rs:85-89 | When no list is valid, part 1 is zero. |
| Day05.RepairedMiddle | aoc2024/src/bin/05.rs:97-102 | The middle that part 2 adds for a repaired list is a page of the original list. |
| Day06.FourTurns | aoc2024/src/bin/06.rs:121-126 | A right turn always changes the facing, and four right turns restore it. |
| Day06.Move | aoc2024/src/bin/06.rs:103-134 | A move fails exactly when the cell ahead is off the map. Onto a free cell the guard steps one cell ahead keeping its facing. Before an obstacle it stays put and turns clockwise. Either way it ends on the map or where it stood. |
| Day06.RecursForever | aoc2024/src/bin/06.rs:136-152 | Once a (facing, position) state recurs, the walk is periodic and never leaves the map. |
| Day06.StepKeeps | aoc2024/src/bin/06.rs:140-149 | Each recorded move keeps the recorded set equal to the walk's states so far, inside the finite set of reachable states. A state met again is a recurrence, and a new state shrinks what is left to record. |
| Day06.PathFromSound | aoc2024/src/bin/06.rs:136-152 | A reported loop is a recurring state. A reported exit happens right after the last recorded move, and the set returned holds every state of the walk. |
| Day06.GuardPath | aoc2024/src/bin/06.rs:136-152 | From the start state alone: a loop means a state recurs, and an exit returns exactly the walk's states, start included. |
| Day06.GuardPathClassifies | aoc2024/src/bin/06.rs:136-152 | The search reports a loop exactly when the guard never leaves the map. |
| Day06.GuardVisited | aoc2024/src/bin/06.rs:154-159 | The visited positions exist exactly when the guard leaves (a loop panics), and they include the start position. |
| Day06.Part1 | aoc2024/src/bin/06.rs:161-166 | Part 1 has an answer exactly when the guard leaves, and it counts at least the start. |
| Day06.Part2 | aoc2024/src/bin/06.rs:168-188 | Part 2 counts exactly the visited positions where one extra obstacle on the same-sized map keeps the guard on the map forever. The count is at most the number of visited positions. |
| Day15.RunCard | aoc2024/src/bin/15.rs:49-59 | The cells between the robot and k steps ahead are k - 1 distinct cells. So the box scan is bounded by the number of boxes. |
| Day15.Scan | aoc2024/src/bin/15.rs:47-59 | The scan returns the distance of the first cell ahead that holds no box and no obstacle, with every cell before it a box, and nothing when an obstacle comes first. Obstacles are checked before boxes. |
| Day15.MoveSingle | aoc2024/src/bin/15.rs:38-68 | A blocked push changes nothing. Otherwise the robot moves exactly one step. The walls stay and the number of boxes is unchanged. |
| Day15.SinglePushShifts | aoc2024/src/bin/15.rs:60-67 | Inserting at the free cell and removing at the robot's new cell is the same as moving every box of the run one step. |
| Day15.ShiftRun | aoc2024/src/bin/15.rs:60-67 | Shifting the run one step gives the run one cell longer without its first cell. |
| Day15.SingleKeepsValid | aoc2024/src/bin/15.rs:52-67 | In the single grid, boxes never sit on walls and the robot never stands on a wall or a box. |
| Day15.ShiftCard | aoc2024/src/bin/15.rs:129-137 | Moving a set of boxes one step keeps their number. |
| Day15.NewBoxes | aoc2024/src/bin/15.rs:91-97 | The boxes found in a round are boxes of the grid. Each covers a checked cell, being stored at that cell or the one west of it. |
| Day15.NewBoxesFresh | aoc2024/src/bin/15.rs:85-120 | Each round finds boxes strictly beyond every box gathered before. So no box is gathered twice. |
| Day15.GatherStep | aoc2024/src/bin/15.rs:98-120 | After a round, the next cells to check lie at one level beyond all gathered boxes. Sideways there is only one next cell. |
| Day15.Gather | aoc2024/src/bin/15.rs:79-123 | The gathering loop ends, and when it succeeds it returns a set of grid boxes that contains those already gathered. |
| Day15.MoveDouble | aoc2024/src/bin/15.rs:70-139 | A blocked push changes nothing. Otherwise the robot moves one step and a set of its boxes is shifted as a whole. |
| Day15.GatherResolves | aoc2024/src/bin/15.rs:79-123 | On success, every cell the robot or a gathered box moves into is wall-free, and every box covering such a cell was gathered. |
| Day15.DoubleKeepsCount | aoc2024/src/bin/15.rs:124-138 | On a valid doubled grid a push neither gains nor loses a box. |
| Day15.DoubleKeepsValid | aoc2024/src/bin/15.rs:70-139 | On a valid doubled grid, pushes keep boxes off walls and apart from each other, and keep the robot off walls and out from under boxes. |
| Day15.MoveRobot | aoc2024/src/bin/15.rs:30-36 | A move keeps the walls and the mode. On a valid grid it keeps the grid valid and keeps the number of boxes. |
| Day15.MoveKeeps | aoc2024/src/bin/15.rs:38-139 | Each push rule keeps its kind of grid valid; the doubled rule also keeps the number of boxes. |
| Day15.WalkKeeps | aoc2024/src/bin/15.rs:227-241 | Walking any list of moves keeps a valid grid valid and keeps the number of boxes. |
| Day15.GpsRemove | aoc2024/src/bin/15.rs:141-145 | The GPS sum does not depend on the order in which boxes are visited. |
| Day15.GpsShift | aoc2024/src/bin/15.rs:141-145 | Moving n boxes one step changes the GPS sum by n times dx + 100 dy. |
| Day15.DoublePushGps | aoc2024/src/bin/15.rs:124-145 | A doubled-grid push changes the GPS sum by one step's weight per box moved. |
| Day15.SinglePushGps | aoc2024/src/bin/15.rs:60-67 | A single-grid push changes the GPS sum by one step's weight per box in the run. |
| Day15.SumGps | aoc2024/src/bin/15.rs:141-145 | The fold over the boxes computes the sum of x + 100 y over all boxes. |
| Day15.FindLast | aoc2024/src/bin/15.rs:169-197 | The robot's start is the last '@' in reading order, and when there is none the origin is kept. |
| Day15.LoadDoubledIsWiden | aoc2024/src/bin/15.rs:173-203 | Reading the doubled grid equals doubling the single grid: walls fill x = 2i and 2i+1, while robot and boxes take x = 2i. |
| Day15.LoadValid | aoc2024/src/bin/15.rs:169-207 | A grid with a robot is read into a valid single grid. |
| Day15.WidenValid | aoc2024/src/bin/15.rs:173-203 | Doubling a valid single grid gives a valid doubled grid with as many boxes. |
| Day15.ParseMovesRoundTrip | aoc2024/src/bin/15.rs:209-222 | Reading the written form of a move list, after any line breaks, gives back the moves. |
| Day15.PartsKeepBoxes | aoc2024/src/bin/15.rs:227-241 | Both parts end with as many boxes as the grid started with, and the doubled walk ends valid. |
| Day15.Solve | aoc2024/src/bin/15.rs:227-241 | The answer is the GPS sum of the boxes after walking the parsed moves on the loaded grid. |
| Day11.Blink | aoc2024/src/bin/11.rs:38-52 | A stone becomes one or two stones. It becomes two exactly when it is positive with an even number of digits. 0 becomes 1, and odd-length stones are multiplied by 2024. |
| Day11.DigitsExact | aoc2024/src/bin/11.rs:38-42 | The digit count, `ilog10 + 1`, is d exactly on [10^(d-1), 10^d). |
| Day11.SplitHalves | aoc2024/src/bin/11.rs:45-49 | The split gives the left half, with exactly half the digits, and the right half, below 10^half. Writing the left half before the padded right half gives the stone back. |
| Day11.Score | aoc2024/src/bin/11.rs:31-58 | A score is at least 1, and it is exactly 1 with no blinks left. |
| Day11.ScoreAllIsLength | aoc2024/src/bin/11.rs:54-57 | Summing the children's scores equals the length of the row the stones really become after n blinks. |
| Day11.ScoreIsLength | aoc2024/src/bin/11.rs:31-58 | One stone's score is the number of stones it becomes after n blinks. |
| Day11.ScoreMonotone | aoc2024/src/bin/11.rs:54-57 | One more blink never lowers a stone's score. |
| Day11.OneBlinkExample | aoc2024/src/bin/11.rs:43-52 | One blink turns 0 1 10 99 999 into 1 2024 0 1 9 9 2021976. The split lists the right half first. |
| Day11.Solve | aoc2024/src/bin/11.rs:60-68 | The answer is the number of stones after the given blinks, at least the number of starting stones. |
| Day11.Part1AtMostPart2 | aoc2024/src/bin/11.rs:60-68 | 75 blinks give at least as many stones as 25. |
| Day11.LoadStones | aoc2024/src/bin/11.rs:8-28 | The first line is split at single spaces. Loading succeeds exactly when every field parses, and then gives one stone per field. |
| Day11.LoadStonesRoundTrip | aoc2024/src/bin/11.rs:19-28 | Stones written in decimal, separated by single spaces, read back as those stones whatever lines follow. |
| Day11.Part1 | aoc2024/src/bin/11.rs:60-63 | Part 1 is the number of stones after 25 blinks, at least the number of starting stones. |
| Day11.Part2 | aoc2024/src/bin/11.rs:65-68 | Part 2 is the number of stones after 75 blinks, at least the number of starting stones. |
| Day22.NextSecret | aoc2024/src/bin/22.rs:29-38 | The next secret always lies in [0, 2^24). |
| Day22.NextSecretLowBits | aoc2024/src/bin/22.rs:29-35 | Because each mix is followed by a prune, the next secret depends only on the low 24 bits of the current one. |
| Day22.MixLowBits | aoc2024/src/bin/22.rs:30-31 | Mixing with a shifted-left copy and pruning sees only the low bits of the input. |
| Day22.Iterate | aoc2024/src/bin/22.rs:44 | After at least one step the secret lies below 2^24. `SecretsFollow` shows it is the last entry of the step-by-step list of secrets. |
| Day22.SecretsFollow | aoc2024/src/bin/22.rs:44 | The list of a buyer's secrets follows `next_secret` step by step, and its last entry is the 2000-fold iteration of part 1. |
| Day22.Part1 | aoc2024/src/bin/22.rs:40-46 | Part 1 is at most the number of buyers times 2^24 - 1. |
| Day22.Change | aoc2024/src/bin/22.rs:58-63 | Each price change lies in -9..9. |
| Day22.RegisterIsWindow | aoc2024/src/bin/22.rs:55-63 | From iteration 3 on, the shifted four-tuple holds exactly the last four price changes; the starting zeros are gone. |
| Day22.FirstSaleFrom | aoc2024/src/bin/22.rs:65-69 | A buyer sells for a window only if that window occurs at some step k >= 3, and the sale price is below 10. |
| Day22.ScanCredits | aoc2024/src/bin/22.rs:56-71 | From step k, the loop adds to each window not yet met the price at its first later occurrence. A window gets an entry exactly when it occurs. |
| Day22.CreditFresh | aoc2024/src/bin/22.rs:65-69 | A window first met at step k earns that step's new price, and only once. |
| Day22.CreditSeen | aoc2024/src/bin/22.rs:65 | A step whose window was met already, or any step before the fourth, credits nothing. |
| Day22.BuyerCredits | aoc2024/src/bin/22.rs:52-72 | Each buyer adds, for every window, the price at its first occurrence or nothing. |
| Day22.TotalsAreEarned | aoc2024/src/bin/22.rs:51-72 | After all buyers, each window's total is what that window earns summed over the buyers. |
| Day22.Earned | aoc2024/src/bin/22.rs:65-69 | A window earns at most 9 per buyer. |
| Day22.MaxValue | aoc2024/src/bin/22.rs:74 | The maximum is one of the map's values and no value exceeds it. |
| Day22.Part2 | aoc2024/src/bin/22.rs:48-75 | Part 2 is the most any single window earns over all buyers, and it fails (the `unwrap` panic) exactly when no window was ever met. |
| Day22.LoadSecrets | aoc2024/src/bin/22.rs:8-27 | Loading fails exactly when some non-empty line is not a number. Empty lines are skipped, so there are at most as many secrets as lines. |
| Day22.LoadSecretsRoundTrip | aoc2024/src/bin/22.rs:19-27 | Secrets written one per line, followed by any number of empty lines, read back as those secrets. |
| Day24.Eval | aoc2024/src/bin/24.rs:81-83 | Evaluating a name that is not a gate is a panic. |
| Day24.EvalMemo | aoc2024/src/bin/24.rs:75-106 | A name that is not a gate fails. On success the memo afterwards holds the answer under the gate's name. `EvalMemoSound` relates it to plain evaluation. |
| Day24.EvalMemoSound | aoc2024/src/bin/24.rs:75-106 | Memoised evaluation from a memo holding only true values fails exactly when plain evaluation fails. Otherwise it returns the same value and leaves a memo that is still true and keeps every earlier entry. |
| Day24.EvalDefined | aoc2024/src/bin/24.rs:86-100 | A gate whose every ancestor wire is an input or a gate evaluates without panic. |
| Day24.RegisterCases | aoc2024/src/bin/24.rs:108-121 | The register panics exactly when one of its gates panics. It is 0 exactly when no gate named after the prefix is on. |
| Day24.RegisterPermutation | aoc2024/src/bin/24.rs:115 | The register value does not depend on the order in which the map yields its keys. |
| Day24.GetRegister | aoc2024/src/bin/24.rs:108-121 | The loop, sharing its memo across gates, computes the register sum of 2^i over the named gates that are on, and keeps the memo true. |
| Day24.Part1 | aoc2024/src/bin/24.rs:253-257 | Part 1 is the 'z' register and is the same for every ordering of the gate names. It fails exactly when some gate's contribution fails. |
| Day24.Parents | aoc2024/src/bin/24.rs:123-136 | A wire that is not a gate has no ancestors; a gate's two inputs are among its ancestors. |
| Day24.ParentsClosed | aoc2024/src/bin/24.rs:131-133 | An ancestor's inputs are ancestors too. |
| Day24.ParentsLeast | aoc2024/src/bin/24.rs:123-136 | Any closed set holding a gate's inputs holds all its ancestors. So the ancestors are exactly the transitive closure of "is an input of". |
| Day24.NotOwnAncestor | aoc2024/src/bin/24.rs:123-136 | In an acyclic circuit no gate is its own ancestor. |
| Day24.CanSwap | aoc2024/src/bin/24.rs:138-147 | Two gates where one reads the other directly can never be swapped. |
| Day24.CanSwapReach | aoc2024/src/bin/24.rs:138-147 | A swap is refused exactly when one gate lies in every closed set around the other's inputs, that is, when it reaches the other through a chain of inputs. |
| Day24.CanSwapSelf | aoc2024/src/bin/24.rs:146 | A gate can always be swapped with itself. |
| Day24.Swap | aoc2024/src/bin/24.rs:149-162 | The two named gates trade definitions. Every other gate and the set of names stay unchanged, and a name that is not a gate is a panic. |
| Day24.SwapTwice | aoc2024/src/bin/24.rs:149-162 | Swapping the same pair twice restores the circuit. |
| Day24.SwapSymmetric | aoc2024/src/bin/24.rs:149-162 | Swapping (a, b) and swapping (b, a) give the same circuit. |
| Day24.CountCombinations | aoc2024/src/bin/24.rs:245-251 | The count is the binomial coefficient C(n, r) from Pascal's triangle, so it is 0 when r > n. |
| Day24.FoldIsBinom | aoc2024/src/bin/24.rs:249 | Each fold step divides exactly: after the values 1..k the accumulator is C(n, k). |
| Day24.Absorb | aoc2024/src/bin/24.rs:249 | k * C(n, k) == n * C(n - 1, k - 1), the identity behind the exact division. |
| Day13.TruncExact | aoc2024/src/bin/13.rs:73-75 | Rust's truncating `%` is zero exactly when the divisor divides the value, whatever the signs. In that case the truncating `/` gives the exact quotient. |
| Day13.TruncDivExact | aoc2024/src/bin/13.rs:73-75 | Dividing an exact multiple d * k leaves no remainder and gives back k. |
| Day13.Cost | aoc2024/src/bin/13.rs:69-81 | The cost panics exactly when the determinant is zero. Otherwise it is never negative. |
| Day13.CramerNecessary | aoc2024/src/bin/13.rs:70-72 | Any presses that land on the prize satisfy det * n_a == d_a and det * n_b == d_b. |
| Day13.CramerSufficient | aoc2024/src/bin/13.rs:70-75 | With a non-zero determinant, presses satisfying Cramer's equations land on the prize. |
| Day13.CostSound | aoc2024/src/bin/13.rs:73-78 | A non-zero cost is 3 n_a + n_b for whole, positive presses that land the claw on the prize. |
| Day13.CostComplete | aoc2024/src/bin/13.rs:69-81 | Whole positive presses that land on the prize make the cost 3 n_a + n_b, so none is missed. |
| Day13.CostPositiveIff | aoc2024/src/bin/13.rs:76-80 | A machine costs more than 0 exactly when it can be won with positive press counts. |
| Day13.Total | aoc2024/src/bin/13.rs:83-89 | The sum of the costs panics exactly when some machine has a zero determinant, and is otherwise non-negative. |
| Day13.FarSameDet | aoc2024/src/bin/13.rs:91-106 | Part 2 only moves the prize, so it panics exactly when part 1 does. |
| Day13.FarCost | aoc2024/src/bin/13.rs:96-103 | A part-2 machine is worth something exactly when whole positive presses reach the prize moved by 10^13 on both axes. |
| Day13.Part1 | aoc2024/src/bin/13.rs:83-89 | Part 1 panics exactly when some machine has a zero determinant. Otherwise it is non-negative, and positive exactly when some machine can be won with positive whole presses. |
| Day13.Part2 | aoc2024/src/bin/13.rs:91-106 | The same for every prize moved by 10^13 along both axes. |
| Day13.TotalPositive | aoc2024/src/bin/13.rs:83-89 | A sum of non-negative costs is positive exactly when one of the costs is. |
| Day13.AllWinnable | aoc2024/src/bin/13.rs:69-81 | On machines with non-zero determinants, a positive cost marks exactly the machines that can be won. |
| Day13.Part1Example | aoc2024/src/bin/13.rs:120-123 | Part 1 on the example's four machines is 480: 280 for the first, 200 for the third, nothing for the others. |
| Day13.ExampleCost0 | aoc2024/src/bin/13.rs:69-81 | The first example machine costs 280: 80 presses of A and 40 of B. |
| Day13.ExampleCost2 | aoc2024/src/bin/13.rs:69-81 | The third example machine costs 200: 38 presses of A and 86 of B. |
| Day02.FirstBad | aoc2024/src/bin/02.rs:42-55 | Returns the first step whose change, signed by the direction, lies outside 1..3, or reports that every step is good. |
| Day02.Safe | aoc2024/src/bin/02.rs:35-60 | A negative tolerance is never safe. |
| Day02.SafeStrict | aoc2024/src/bin/02.rs:40-59 | At tolerance 0 a report is safe exactly when all its steps rise by 1..3 or all fall by 1..3. |
| Day02.SafeMonotone | aoc2024/src/bin/02.rs:35-60 | A report safe at tolerance t is safe at t + 1. |
| Day02.SafeDampened | aoc2024/src/bin/02.rs:44-55 | A report safe at tolerance 1 is gradual, or becomes gradual once one level is removed. |
| Day02.CountSafe | aoc2024/src/bin/02.rs:62-86 | The count of safe reports never exceeds the number of reports. |
| Day02.CountMonotone | aoc2024/src/bin/02.rs:62-86 | More tolerance never lowers the count. |
| Day02.Part1 | aoc2024/src/bin/02.rs:62-73 | Part 1, run with the corrected `Safe`, counts exactly the gradual reports (all steps rising by 1..3 or all falling by 1..3), and never more than there are reports. |
| Day02.Part2 | aoc2024/src/bin/02.rs:75-86 | Part 2, run with the corrected `Safe`, counts at least every gradual report and at most the reports that are gradual or become gradual once one level is removed. |
| Day02.CountStrict | aoc2024/src/bin/02.rs:62-73 | Counting at tolerance 0 is counting the gradual reports. |
| Day02.CountDampened | aoc2024/src/bin/02.rs:75-86 | Counting at tolerance 1 finds no more reports than the nearly gradual ones. |
| Day02.Example | aoc2024/src/bin/02.rs:100-116 | On the puzzle's six example reports, part 1 counts 2 and part 2 counts 4. |
| Day02.AsWrittenAgrees | aoc2024/src/bin/02.rs:35-60 | Wherever the code as written returns without panicking, it gives the corrected verdict. |
| Day02.TwoLevelPanic | aoc2024/src/bin/02.rs:40-54 | The two-level report 1 1 at tolerance 1 panics as written, while the corrected verdict is safe. |
| Prelude.SplitOn | aoc2024/src/bin/01.rs:27 | Splitting at a non-empty separator gives at least one piece, no piece contains the separator, and joining the pieces with the separator gives back the original text. |
| Day01.LoadLines | aoc2024/src/bin/01.rs:22-43 | Every kept line adds one value to each list, so the two lists have equal length and never outnumber the lines. |
| Day01.LoadLineRoundTrip | aoc2024/src/bin/01.rs:27-38 | Two numbers written with the three-space separator between them are read back as that pair. |
| Day01.Distance | aoc2024/src/bin/01.rs:51-58 | The summed distance over the zipped pairs is 0 exactly when the lists agree up to the shorter length. |
| Day01.SortedUnique | aoc2024/src/bin/01.rs:48-49 | Two sorted lists with the same elements are equal, so the sorted order is determined by the contents alone. |
| Day01.Part1Permutation | aoc2024/src/bin/01.rs:46-60 | Part 1 depends only on the multiset of each list, not on the input order. |
| Day01.Part1Symmetric | aoc2024/src/bin/01.rs:52-58 | Swapping the two lists leaves part 1 unchanged. |
| Day01.Part1 | aoc2024/src/bin/01.rs:46-61 | Part 1 on lists of equal length is 0 exactly when the two lists are permutations of each other. |
| Day01.SortedDistanceZero | aoc2024/src/bin/01.rs:46-60 | For lists of equal length, the summed distance of the sorted lists is 0 exactly when the lists hold the same values the same number of times. |
| Day01.Part2 | aoc2024/src/bin/01.rs:63-76 | The count map plus the summing loop give the reference score: each left value times its number of occurrences on the right. |
| Day01.SimilarityCons | aoc2024/src/bin/01.rs:66-74 | One more right value y adds y once for each y on the left. |
| Day01.SimilaritySymmetric | aoc2024/src/bin/01.rs:66-75 | The score is the same with the lists swapped. |
| Day01.Example | aoc2024/src/bin/01.rs:90-106 | On the puzzle's example lists, part 1 is 11 and part 2 is 31. |
| Day03.NumberAt | aoc2024/src/bin/03.rs:29 | A `\d{1,3}` group followed by its delimiter spans two to four characters, ends at the delimiter, and its value is below 1000. |
| Day03.MulAt | aoc2024/src/bin/03.rs:29-40 | A `mul` match starts with 'm', is at least eight characters long, and both factors are below 1000. |
| Day03.InstructionAt | aoc2024/src/bin/03.rs:59-79 | The part 2 pattern yields a multiplication exactly where the part 1 pattern matches. A `do()` or `don't()` match starts with 'd' and contains no 'm'. |
| Day03.MulRoundTrip | aoc2024/src/bin/03.rs:29-40 | `mul(a,b)` written out with factors below 1000 is matched as exactly those factors, consuming the whole text. |
| Day03.Fold | aoc2024/src/bin/03.rs:82-93 | The enabled-only total never exceeds the sum of all products. |
| Day03.FoldIsGated | aoc2024/src/bin/03.rs:82-93 | The fold equals the reference sum, in which a multiplication counts exactly when the most recent `do()`/`don't()` before it (or the starting state) enables it. |
| Day03.FoldNoDisable | aoc2024/src/bin/03.rs:82-93 | Starting enabled, with no `don't()` in the list, the fold adds every product. |
| Day03.SwitchIdempotent | aoc2024/src/bin/03.rs:84-86 | Repeating a `do()` or a `don't()` leaves the total unchanged. |
| Day03.MultsOfScan | aoc2024/src/bin/03.rs:59-79 | Dropping the switches from the part 2 scan leaves exactly the part 1 scan, in order. |
| Day03.Part1 | aoc2024/src/bin/03.rs:25-47 | Part 1 is the sum of the products of every multiplication that the part 2 scan finds, in any line. |
| Day03.Part2 | aoc2024/src/bin/03.rs:55-95 | Part 2 is the reference sum in which a multiplication counts only when the latest `do()`/`don't()` before it, across lines and starting enabled, is a `do()`. It never exceeds part 1. |
| Day03.Part2AtMostPart1 | aoc2024/src/bin/03.rs:55-95 | Part 2 never exceeds part 1, and equals it when the input has no `don't()`. |
| Day03.Example | aoc2024/src/bin/03.rs:121-125 | The second example's instruction list gives 48 when started enabled, out of 161 for all its products. |
| Day04.Part1 | aoc2024/src/bin/04.rs:32-85 | The count is missing (a panic) exactly when the grid is narrower or shorter than 3: `width - 3` and `height - 3` underflow at the first cell. |
| Day04.MatchesReverse | aoc2024/src/bin/04.rs:77-80 | A window read backwards matches exactly when it matches, since XMAS and SAMX are each other's reverse. |
| Day04.CellCountIsHits | aoc2024/src/bin/04.rs:40-80 | The windows collected at a cell that read XMAS or SAMX are exactly the directions with an occurrence starting there. |
| Day04.GridHitsCard | aoc2024/src/bin/04.rs:38-82 | Adding up hits cell by cell and row by row counts each hit candidate once. |
| Day04.Part1IsOccurrences | aoc2024/src/bin/04.rs:32-85 | Part 1 is the number of (cell, direction) occurrences: windows that fit the guards and read XMAS either way. |
| Day04.OccurrencesFlip | aoc2024/src/bin/04.rs:41-76 | Turning the grid upside down maps the occurrences one to one. A vertical window starts at its other end, and the two diagonals swap. |
| Day04.Part1Flip | aoc2024/src/bin/04.rs:32-85 | Part 1 gives the same answer for the grid turned upside down. |
| Day04.Part2 | aoc2024/src/bin/04.rs:87-107 | The count is missing exactly when the grid is empty (`data[0]`). |
| Day04.Part2IsCrosses | aoc2024/src/bin/04.rs:93-104 | Part 2 is the number of 'A' cells off the border whose two diagonals both read MAS one way or the other. |
| Day04.CrossFlip | aoc2024/src/bin/04.rs:95-101 | Upside down, a cross stays a cross, because each diagonal becomes the other one read backwards. |
| Day04.Part2Flip | aoc2024/src/bin/04.rs:87-107 | Part 2 gives the same answer for the grid turned upside down. |
| Prelude.ImageCard | aoc2024/src/bin/04.rs:41-76 | An injective map sends a set to a set of the same size. |
| Day12.Load | aoc2024/src/bin/12.rs:22-31 | Every plot gets coordinates of at least 1, so stepping left or up from a plot never goes below 0. |
| Day12.Plant | aoc2024/src/bin/12.rs:23-30 | (x, y) is a plot exactly when line y has a column x, and it holds that character. An empty line adds nothing. |
| Day12.NeighboursAdjacent | aoc2024/src/bin/12.rs:41 | The four neighbours visited are exactly the plots one step away. |
| Day12.FindRegion | aoc2024/src/bin/12.rs:34-53 | The result holds the region passed in and the start. Every plot it adds has the start's plant and all of its same-plant neighbours in the result. |
| Day12.Region | aoc2024/src/bin/12.rs:34-53 | A region grown from a plot contains it, carries its plant throughout, and is closed under same-plant neighbours. |
| Day12.RegionLeast | aoc2024/src/bin/12.rs:39-50 | A region lies inside every closed set holding its start, so it is the connected same-plant component. |
| Day12.ComplementClosed | aoc2024/src/bin/12.rs:41-47 | The plots outside a closed set form a closed set, because being same-plant neighbours is symmetric. |
| Day12.FindAllRegions | aoc2024/src/bin/12.rs:55-67 | For any key order that lists exactly the plots, the regions are pairwise disjoint components that together cover exactly the plots. |
| Day12.AllRegionsNonEmpty | aoc2024/src/bin/12.rs:58-65 | Every region listed holds at least the key it was started from. |
| Day12.Perimeter | aoc2024/src/bin/12.rs:69-81 | For any iteration order, the perimeter is the number of (plot, direction) pairs whose neighbour lies outside the region. |
| Day12.PerimeterAtMost | aoc2024/src/bin/12.rs:69-81 | The perimeter is at most four times the area. |
| Day12.PerimeterSingle | aoc2024/src/bin/12.rs:69-81 | A single plot has perimeter 4. |
| Day12.CollectFences | aoc2024/src/bin/12.rs:84-95 | The collected sections are the region's fences, each exactly once. |
| Day12.BreakIffStart | aoc2024/src/bin/12.rs:97-111 | After sorting, two adjacent sections break a side exactly when the later one's predecessor on the same straight line is missing. |
| Day12.PerimeterSections | aoc2024/src/bin/12.rs:83-114 | The count is 1 when there are no fences. Otherwise it is the number of fences that start a straight side. |
| Day12.HasFence | aoc2024/src/bin/12.rs:83-99 | A non-empty region has a fence, so the count starting at 1 is never taken for an empty list. |
| Day12.HasSideStart | aoc2024/src/bin/12.rs:99-113 | A non-empty set of fences has a fence that starts a side. |
| Day12.RegionSides | aoc2024/src/bin/12.rs:83-114 | For a non-empty region, the section count is its number of sides, and that is at least 1. |
| Day12.SidesAtMostPerimeter | aoc2024/src/bin/12.rs:69-114 | A region has no more sides than fence segments. |
| Day12.SidesSingle | aoc2024/src/bin/12.rs:83-114 | A single plot has four sides. |
| Day12.Part1 | aoc2024/src/bin/12.rs:116-123 | The answer is the sum over the regions of area times the number of fence segments. |
| Day12.Part2 | aoc2024/src/bin/12.rs:125-132 | The answer is the sum over the regions of area times the number of sides. |
| Day12.SidePriceAtMost | aoc2024/src/bin/12.rs:116-132 | Part 2's price never exceeds part 1's. |
| Day10.LoadRoundTrip | aoc2024/src/bin/10.rs:22-33 | A map of digit rows, written one line per row and loaded again, comes back unchanged. |
| Day10.LinesRoundTrip | aoc2024/src/bin/10.rs:23-32 | Line by line, every rendered row parses back to itself, so the loaded map is the original. |
| Day10.RowRoundTrip | aoc2024/src/bin/10.rs:27-31 | Each character of a rendered row parses back to the digit it came from. |
| Day10.Trailheads | aoc2024/src/bin/10.rs:36-46 | The result holds exactly the height-0 cells of the map, in row-major order. |
| Day10.OffEdgeIsOutside | aoc2024/src/bin/10.rs:57 | For a neighbour of a map cell, the source's edge test holds exactly when the neighbour is outside the map. |
| Day10.Merge | aoc2024/src/bin/10.rs:61-68 | Merging keeps every peak of both maps, and a shared peak gets the sum of both scores. |
| Day10.Climb | aoc2024/src/bin/10.rs:56-69 | A neighbour contributes only height-9 cells of the map, each with a score of at least 1. |
| Day10.ScorePeaks | aoc2024/src/bin/10.rs:48-73 | Every reported peak is a cell of the map with a score of at least 1. When the start has the given elevation, every reported peak has height 9. |
| Day10.KeysAreReach | aoc2024/src/bin/10.rs:48-73 | The reported peaks are exactly those in the reference definition: the start itself at 9, otherwise the union over in-map neighbours exactly one higher. |
| Day10.TrailInReach | aoc2024/src/bin/10.rs:50-69 | The last cell of every hiking trail is reachable from its first cell. |
| Day10.ReachHasTrail | aoc2024/src/bin/10.rs:50-69 | Every reachable peak is the end of some hiking trail from the start. |
| Day10.TrailReachesPeak | aoc2024/src/bin/10.rs:48-73 | The end of every hiking trail is among the peaks reported for its start. |
| Day10.PeakHasTrail | aoc2024/src/bin/10.rs:48-73 | Every peak reported for a start at its own elevation is the end of a hiking trail from it. |
| Day10.KeysAtMostValueSum | aoc2024/src/bin/10.rs:81-91 | When every score is at least 1, the number of peaks is at most the sum of the scores. |
| Day10.SumValues | aoc2024/src/bin/10.rs:91 | The loop adds up every value of the map once, in whatever order the keys come out. |
| Day10.Part1 | aoc2024/src/bin/10.rs:75-83 | The answer is the number of reachable peaks, summed over the row-major list of exactly the height-0 cells. |
| Day10.Part2 | aoc2024/src/bin/10.rs:85-93 | The answer is the sum of all peak scores, over the same trailhead list. |
| Day10.PeaksAtMostTrails | aoc2024/src/bin/10.rs:75-93 | The part 1 answer never exceeds the part 2 answer. |
| Day14.Move | aoc2024/src/bin/14.rs:21-24 | With a positive width and height the robot ends on the grid, keeps its velocity, and on each axis is congruent to its straight-line position, which fixes it uniquely. |
| Day14.MoveCompose | aoc2024/src/bin/14.rs:21-24 | Moving for dt1 and then dt2 seconds is the same as moving for dt1 + dt2. |
| Day14.AxisCompose | aoc2024/src/bin/14.rs:22-23 | On one axis, taking the remainder after the first move does not change where the second move ends. |
| Day14.MoveZero | aoc2024/src/bin/14.rs:21-24 | A robot on the grid that moves for 0 seconds stays where it is. |
| Day14.MoveAxisPeriods | aoc2024/src/bin/14.rs:22-23 | After a multiple of width seconds a robot's x is back where it started, and after a multiple of height seconds its y is. |
| Day14.MovePeriod | aoc2024/src/bin/14.rs:21-24 | Adding a multiple of width * height seconds does not change where a robot ends up. |
| Day14.MoveAll | aoc2024/src/bin/14.rs:116-118 | Every robot is moved for the same time, in order, and none is added or dropped. |
| Day14.SectorsDisjoint | aoc2024/src/bin/14.rs:66-83 | No position passes two of the four quadrant filters. |
| Day14.OffSectorsIffMiddle | aoc2024/src/bin/14.rs:66-83 | A position passes none of the filters exactly when it lies on the middle column (`width / 2`) or the middle row (`height / 2`). |
| Day14.SectorsPartition | aoc2024/src/bin/14.rs:66-83 | The four quadrant counts plus the robots on the middle lines add up to the number of robots. |
| Day14.Sectors | aoc2024/src/bin/14.rs:66-83 | The sector vector has four entries, and entry q counts the robots that pass filter q. |
| Day14.SafetyFactor | aoc2024/src/bin/14.rs:63-87 | The product of the four quadrant counts is 0 exactly when one of the counts is 0. |
| Day14.SectorCountZero | aoc2024/src/bin/14.rs:66-83 | A quadrant's count is 0 exactly when no robot stands in that quadrant. |
| Day14.SafetyZeroIff | aoc2024/src/bin/14.rs:63-87 | The safety factor is 0 exactly when some quadrant holds no robot. |
| Day14.Part1 | aoc2024/src/bin/14.rs:114-121 | Part 1 equals the safety factor after 100 + width * height seconds. It is 0 exactly when a quadrant is empty after 100 seconds. |
| Day14.SafetyPeriodic | aoc2024/src/bin/14.rs:114-121 | The safety factor after dt + k * width * height seconds equals the one after dt seconds. |
| Day14.Example | aoc2024/src/bin/14.rs:171-173 | The example robots on the 11 by 7 grid give 12 after 100 seconds. |
| Day14.MinOf | aoc2024/src/bin/14.rs:138-139 | The folded minimum is an entry of the list and no entry is smaller. |
| Day14.Position | aoc2024/src/bin/14.rs:141-142 | The index found holds the value, and no earlier entry equals it. |
| Day14.FirstMinimum | aoc2024/src/bin/14.rs:138-142 | The 1-based index lies within the list, holds a minimum, and every earlier entry is strictly larger. |
| Day14.Search | aoc2024/src/bin/14.rs:144-155 | A non-zero answer is the first candidate iy + j * height in the range that lies in `x_steps`. A zero answer means no candidate in the range does. |
| Day14.AlignAsWritten | aoc2024/src/bin/14.rs:147-155 | As written, a non-zero answer is always later than iy, because the first candidate tried is iy + height. |
| Day14.AlignSkipsFirst | aoc2024/src/bin/14.rs:147-152 | With ix = iy = 5, width 11, height 7 and 11 seconds, the answer is 82 although 5 is already in `x_steps`. |
| Day14.AlignIsFirstMeeting | aoc2024/src/bin/14.rs:144-155 | The corrected answer is congruent to iy modulo height and lies in `x_steps`, and no earlier candidate from iy onward does. Zero means none of the max_dim candidates does. |
| Day14.AlignFindsFirst | aoc2024/src/bin/14.rs:147-152 | When iy itself lies in `x_steps`, the corrected search returns iy. |
| Day14.AlignAsWrittenIsFirstMeeting | aoc2024/src/bin/14.rs:144-155 | As written, a non-zero answer is later than iy, congruent to iy modulo height and in `x_steps`, and no earlier candidate iy + j * height with 1 <= j <= max_dim is. Zero means none of those max_dim candidates is. |
| Day14.Part2 | aoc2024/src/bin/14.rs:123-156 | Part 2 as written, from the per-second spreads. The answer is the first candidate after the y-minimum's second, stepping by height, that lies in the x-minimum's steps, or 0 when none of the max_dim candidates does. The y-minimum's own second is never tried. |
| Day14.Part2Corrected | aoc2024/src/bin/14.rs:123-156 | Part 2 with the corrected search: the first meeting of the y-minimum's period with the x-minimum's steps, starting at the y-minimum's own second, or 0 when there is none. |
| Day18.GoalIsCorner | aoc2024/src/bin/18.rs:47-50 | The goal is at least every byte's x and y, and each of its coordinates is some byte's. |
| Day18.NeighboursAdjacent | aoc2024/src/bin/18.rs:58-75 | The four neighbours tried are exactly the cells one step away. |
| Day18.WalkExtend | aoc2024/src/bin/18.rs:85-87 | Appending an adjacent free cell to a walk gives a walk that ends on that cell. |
| Day18.Offer | aoc2024/src/bin/18.rs:77-89 | A neighbour is queued at the front exactly when it is in the rectangle, unvisited and not a byte. Its walk is one step longer than the current one. The rest of the queue and the levels of visited cells are unchanged. |
| Day18.Expand | aoc2024/src/bin/18.rs:58-90 | After the four neighbours, every free neighbour of the current cell is visited at most one level deeper. The new entries sit in front of the remaining queue, one per newly visited cell. |
| Day18.ShortWalksVisited | aoc2024/src/bin/18.rs:52-90 | While every cell above a level has been expanded, every walk no longer than that level ends on a visited cell whose level is no deeper than the walk. |
| Day18.LevelsBounded | aoc2024/src/bin/18.rs:52-90 | Visited cells are at most one level deeper than the back of the queue, and queued cells are no shallower. |
| Day18.ExpandKeepsInv | aoc2024/src/bin/18.rs:52-90 | Popping a non-goal cell and expanding it keeps the search invariant. The queue still holds two adjacent levels, each cell once, and every cell that left the queue has been expanded. |
| Day18.ShortestAtBack | aoc2024/src/bin/18.rs:53-56 | When the goal is popped, its walk is no longer than any walk to the goal. |
| Day18.DryUnreachable | aoc2024/src/bin/18.rs:52-93 | When the queue runs dry, no walk reaches the goal. |
| Day18.FindPath | aoc2024/src/bin/18.rs:43-94 | The result is a shortest walk from (0, 0) to the goal, avoiding the bytes and not revisiting the start. It is None exactly when no walk reaches the goal. |
| Day18.Part1 | aoc2024/src/bin/18.rs:96-103 | After the first n bytes, the answer is the length of a shortest walk to the goal. None (a panic) comes exactly when n is 0 (the goal's `max().unwrap()`), when n exceeds the byte count (the slice), or when there is no walk. |
| Day18.Bisect | aoc2024/src/bin/18.rs:108-117 | The bisection ends with adjacent bounds. An upper bound that moved is a blocked prefix and a lower bound that moved is an open one. The last probe lies strictly between the starting bounds. |
| Day18.BisectCuts | aoc2024/src/bin/18.rs:108-117 | A moved upper bound m is a byte that cuts the goal off: the first m bytes block it and the first m - 1 do not. A bound that never moved means the full sequence is open or nothing was probed. |
| Day18.Part2AsWritten | aoc2024/src/bin/18.rs:105-121 | The source prints the byte of the last probe. It gives None where the loop never runs and `mid_n - 1` underflows, and where a start count beyond the byte count plus one makes `max_n - min_n` underflow. |
| Day18.Part2 | aoc2024/src/bin/18.rs:105-121 | The corrected answer is the byte at the final upper bound, which cuts the goal off. It is None only when the full sequence leaves the goal reachable or there is nothing to probe, which covers the start counts where the source's subtractions underflow. |
| Day18.LastProbeNotBlocker | aoc2024/src/bin/18.rs:119 | On five bytes from count 2, the last probe is the open prefix of 3, so the source prints (1,0). The byte that cuts the goal off is the fourth, (0,1). |
| Day08.RowAntennas | aoc2024/src/bin/08.rs:41-53 | The antennas of a line are exactly its non-'.' characters, at their x index and the line's y. |
| Day08.GridAntennas | aoc2024/src/bin/08.rs:37-55 | The antennas of the input are exactly the non-'.' cells of all lines; empty lines add none but still take up a y index. |
| Day08.Positions | aoc2024/src/bin/08.rs:45-51 | The list for a frequency holds exactly the positions of its antennas. |
| Day08.LoadLines | aoc2024/src/bin/08.rs:34-61 | The width is the first line's length and the height the number of non-empty lines. A frequency lists a position exactly when that cell holds that character and it is not '.'. |
| Day08.TidyOnGrid | aoc2024/src/bin/08.rs:34-35 | If the non-empty lines come first and all have the first line's length, every antenna lies inside width × height. |
| Day08.FarOff | aoc2024/src/bin/08.rs:76-95 | With a nonzero direction, the ray leaves the grid after a bounded number of steps, so the unlimited loop ends. |
| Day08.Ray | aoc2024/src/bin/08.rs:75-98 | Every point the inner loop inserts lies inside the grid. |
| Day08.RayExact | aoc2024/src/bin/08.rs:75-98 | The ray holds exactly the points k steps beyond the second antenna, for k from the start and within the limit, where no step from the start up to k has left the grid. |
| Day08.Nodes | aoc2024/src/bin/08.rs:64-103 | Every antinode lies inside [0, width) × [0, height). |
| Day08.NodeOnLine | aoc2024/src/bin/08.rs:66-88 | Every antinode comes from an ordered pair of distinct antennas of one frequency. It lies k ≥ start steps of their difference beyond the second antenna, with k within the limit. |
| Day08.PairPart1 | aoc2024/src/bin/08.rs:75-88 | With start 1 and limit 1, a pair casts exactly the point l2 + (l2 − l1) when it is on the grid, and nothing otherwise. |
| Day08.PairPart2HasAntenna | aoc2024/src/bin/08.rs:85-88 | With start 0 and no limit, the second antenna of a pair is itself cast when it is on the grid. |
| Day08.AntennaIsNode | aoc2024/src/bin/08.rs:112 | An antenna on the grid that shares its frequency with an antenna at another position is a part 2 antinode. |
| Day08.PairPart1InPart2 | aoc2024/src/bin/08.rs:107-112 | For one pair, the part 1 ray is contained in the part 2 ray. |
| Day08.NodesNested | aoc2024/src/bin/08.rs:105-113 | When all antennas lie on the grid, the part 1 antinodes are part 2 antinodes, so there are at most as many. |
| Day08.NodesFar | aoc2024/src/bin/08.rs:64-108 | The part 1 antinodes are exactly the on-grid points as far beyond one antenna as a same-frequency antenna is before it. |
| Day08.PairedAreNodes | aoc2024/src/bin/08.rs:64-113 | Every on-grid antenna that shares its frequency with an antenna elsewhere is a part 2 antinode. |
| Day08.Part1 | aoc2024/src/bin/08.rs:105-108 | Part 1 counts exactly the on-grid points at twice the distance of a same-frequency pair from its first antenna. |
| Day08.Part2 | aoc2024/src/bin/08.rs:110-113 | Part 2 counts at least every on-grid antenna that has a partner, and, with all antennas on the grid, at least the part 1 points. |
| Day25.Columns | aoc2024/src/bin/25.rs:31-37 | Each column height is the number of counted rows with a '#' in that column, so at most the number of rows. The result is None (the index panic) exactly when some row has a '#' past the fifth column. |
| Day25.ReverseHashRows | aoc2024/src/bin/25.rs:28-30 | Reversing a key's rows does not change how many rows have a '#' in a column. |
| Day25.ReadBlock | aoc2024/src/bin/25.rs:25-42 | A block that reads gives five heights. |
| Day25.ReadBlockHeights | aoc2024/src/bin/25.rs:25-37 | A block is a lock exactly when it starts with "#####". Its heights count '#' per column over every row except the solid edge: the top row of a lock, the bottom row of a key. So each height is at most the number of rows less one. |
| Day25.Collect | aoc2024/src/bin/25.rs:24-45 | Loading fails exactly when some block panics. Otherwise every block becomes one lock or one key, and each lock or key is the heights of a block of that kind. |
| Day25.FitKeysStep | aoc2024/src/bin/25.rs:53-57 | Trying one more key adds one to the count exactly when it fits. |
| Day25.FitPairsStep | aoc2024/src/bin/25.rs:52-58 | Trying one more lock adds the number of keys that fit it. |
| Day25.Part1 | aoc2024/src/bin/25.rs:48-61 | The total is the number of (lock, key) index pairs where every column sums to at most 5. |
| Day25.ExampleCount | aoc2024/src/bin/25.rs:73-75 | The example's locks 0,5,3,4,3 and 1,2,0,5,3 and its keys 5,0,2,1,3, 4,3,4,0,2 and 3,0,2,0,1 give 3 fitting pairs. |
| Day23.ParseLink | aoc2024/src/bin/23.rs:27-28 | A line fails exactly when it has no '-'. Otherwise the two names hold no '-', and the line starts with the first name, a '-' and the second name. |
| Day23.LoadLinks | aoc2024/src/bin/23.rs:22-31 | Loading fails exactly when some non-empty line has no '-'. Empty lines are skipped, and every link comes from some line. |
| Day23.Connect | aoc2024/src/bin/23.rs:39-46 | Adding a link gives both ends an entry. It makes each end a neighbour of the other and changes no other neighbour set. |
| Day23.LinkedStep | aoc2024/src/bin/23.rs:38-47 | One more link adds its two ends to the computers. It joins exactly the pairs the earlier links joined plus its own two ends, in either direction. |
| Day23.ConnectLinks | aoc2024/src/bin/23.rs:38-47 | Adding the last link to the map of the earlier links gives the map of all of them, and that map is symmetric. |
| Day23.GroupConnections | aoc2024/src/bin/23.rs:34-49 | The computers are exactly the link ends. v is a neighbour of u exactly when some link joins them in either direction. So the map is symmetric, and every neighbour has its own entry. |
| Day23.MaxDegreeIsMax | aoc2024/src/bin/23.rs:55 | The computed maximum is the neighbour count of some listed computer, and no listed computer has more. |
| Day23.MaxDegreeOfMap | aoc2024/src/bin/23.rs:55 | Over an iteration order of the whole map, the maximum bounds every computer's neighbour count and is attained by one. |
| Day23.CliqueBound | aoc2024/src/bin/23.rs:55-65 | A clique through a computer has at most max degree + 1 members. |
| Day23.Extend | aoc2024/src/bin/23.rs:59-62 | A computer whose neighbours include the whole clique can be added, and the result is still a clique. |
| Day23.Grow | aoc2024/src/bin/23.rs:58-66 | The loop only adds to the clique, adds only computers, and keeps it a clique. Each computer it looks at is taken, or misses a member of the final clique, unless the loop stopped at max_len members. |
| Day23.FindMaximumClique | aoc2024/src/bin/23.rs:51-69 | The clique holds the vertex it starts from, and all its members are computers. |
| Day23.FindMaximumCliqueIsMaximal | aoc2024/src/bin/23.rs:55-68 | The greedy clique's members are pairwise neighbours. It has at most max degree + 1 members, and no computer outside it neighbours all its members, so the early stop cuts nothing off. |
| Day23.CannotExtend | aoc2024/src/bin/23.rs:58-66 | A computer outside the greedy clique misses one of its members, whether the loop ran to the end or stopped at max_len. |
| Day23.SortedGroup | aoc2024/src/bin/23.rs:87-88 | The group is its three names in lexicographic order, each name as often as it was given. |
| Day23.GroupMembers | aoc2024/src/bin/23.rs:87-88 | A sorted group holds exactly its three names. |
| Day23.TriangleClique | aoc2024/src/bin/23.rs:81-86 | Three names that pass part 1's checks are pairwise neighbours. |
| Day23.GroupsByMembers | aoc2024/src/bin/23.rs:87-89 | Two sorted groups of three different names that hold the same names are the same group. |
| Day23.GroupShape | aoc2024/src/bin/23.rs:76-93 | Every collected group is three names in sorted order. One name starts with 't', and the names are pairwise neighbours. |
| Day23.GroupsAreTriangles | aoc2024/src/bin/23.rs:76-93 | Without self-links, every group's names are a three-computer clique with a 't' member. |
| Day23.TrianglesAreGroups | aoc2024/src/bin/23.rs:76-93 | Every three-computer clique with a 't' member is the names of some collected group. |
| Day23.GroupsDiffer | aoc2024/src/bin/23.rs:87-89 | Without self-links, two groups with the same names are equal, so the set counts each triangle once. |
| Day23.Part1 | aoc2024/src/bin/23.rs:71-95 | On a symmetric map without self-links, part 1's count is the number of three-computer cliques with a member starting with 't'. |
| Day23.GroupsCountTriangles | aoc2024/src/bin/23.rs:71-95 | On a symmetric map without self-links, the collected groups are as many as the triangles with a 't' member. |
| Day23.ListOf | aoc2024/src/bin/23.rs:109 | Collecting a set gives each of its names exactly once. |
| Day23.FirstLargest | aoc2024/src/bin/23.rs:101-107 | The kept set is at least as large as every candidate. It is the first of the largest, because a later one replaces it only when strictly larger. With no candidates it is empty. |
| Day23.LargestClique | aoc2024/src/bin/23.rs:101-107 | The kept clique is the greedy clique of some computer and is at least as large as every computer's. No earlier computer's clique is as large. An empty map keeps the empty set. |
| Day23.Part2 | aoc2024/src/bin/23.rs:97-112 | The answer joins with commas the names of the largest found clique, each once, in lexicographic order. An empty map gives the empty string. |
| Day21.NumPadTable | aoc2024/src/bin/21.rs:32-48 | The numeric pad's keys are exactly the digits and 'A', each at its table cell. The table's cells are exactly the three-by-four box less its bottom-left corner. |
| Day21.DirPadTable | aoc2024/src/bin/21.rs:74-84 | The directional pad's keys are exactly the four arrows and 'A', each at its table cell. The table's cells are exactly the three-by-two box less its top-left corner. |
| Day21.Spell | aoc2024/src/bin/21.rs:53-63 | Either order presses \|dx\| + \|dy\| arrows and then 'A', and every press is a directional key. |
| Day21.SameSpelling | aoc2024/src/bin/21.rs:58-64 | The horizontal-first and vertical-first presses are the same string exactly when the move is straight (dx or dy is zero). |
| Day21.OptionsAsSet | aoc2024/src/bin/21.rs:58-66 | The spelled options are exactly the set the source builds: the horizontal-first presses when the corner (end x, start y) is a key, and the vertical-first presses when (start x, end y) is one. There are at most two, and two options are never the same string. |
| Day21.OptionsAvoidGap | aoc2024/src/bin/21.rs:45-64 | Every offered option moves the arm from the start key to the end key, and every cell it passes over is a key, so it never crosses the gap. |
| Day21.OptionsNonEmpty | aoc2024/src/bin/21.rs:58-64 | There is always at least one option, so `min().unwrap()` never fails. |
| Day21.PressCost | aoc2024/src/bin/21.rs:103-109 | Typing a sequence of keys at any level costs at least one human press per key. |
| Day21.PressCostLevel1 | aoc2024/src/bin/21.rs:70-73 | At the human's own level, typing a sequence costs exactly its length. |
| Day21.CheapestIsMin | aoc2024/src/bin/21.rs:102-112 | The chosen cost is at most the cost of every listed order. |
| Day21.CheapestAttained | aoc2024/src/bin/21.rs:102-112 | Some listed order costs exactly the chosen cost. |
| Day21.CountIsMin | aoc2024/src/bin/21.rs:69-113 | Above the human, moving between two directional keys costs at most what any of its options costs one level down. |
| Day21.CountAttained | aoc2024/src/bin/21.rs:69-113 | Above the human, the cost of a move is exactly the cost of one of its options one level down. |
| Day21.CountLevel2 | aoc2024/src/bin/21.rs:69-113 | With one robot between, a move costs exactly its Manhattan distance plus one press. |
| Day21.Count | aoc2024/src/bin/21.rs:70-113 | At any level above the human, a move between directional keys costs at least its Manhattan distance plus one press. |
| Day21.NumericCostIsMin | aoc2024/src/bin/21.rs:125-135 | For a numeric-pad move, the cost taken is at most the cost of every option. |
| Day21.NumericCostAttained | aoc2024/src/bin/21.rs:125-135 | For a numeric-pad move, one option costs exactly the cost taken. |
| Day21.NumericCost | aoc2024/src/bin/21.rs:125-135 | A numeric-pad move costs at least its Manhattan distance plus one press. |
| Day21.HumanCount | aoc2024/src/bin/21.rs:115-139 | A code costs the human at least the numeric arm's travel plus one press per key. |
| Day21.HumanCountLevel1 | aoc2024/src/bin/21.rs:115-139 | With a single directional level the code costs exactly the numeric arm's travel plus one press per key. |
| Day21.Score | aoc2024/src/bin/21.rs:145 | A code scores nothing (the source panics) exactly when it is not a valid code: non-empty, every key on the numeric pad, and a number before the last key. |
| Day21.Scores | aoc2024/src/bin/21.rs:143-145 | Each code's score appears in order, one per code. |
| Day21.TotalFails | aoc2024/src/bin/21.rs:143-146 | The sum is missing exactly when some score is missing. |
| Day21.TotalAppend | aoc2024/src/bin/21.rs:143-146 | The sum over two lists of scores is the sum of the two sums. |
| Day21.Solve | aoc2024/src/bin/21.rs:141-147 | The answer is missing exactly when some code is not a valid code, where the source panics. |
| Day21.Codes | aoc2024/src/bin/21.rs:9-28 | The codes are the non-empty lines of the text: each is a line without a line break, every non-empty line is a code, and there are no more codes than lines. |
| Prelude.NonEmpty | aoc2024/src/bin/21.rs:23-27 | Exactly the non-empty lines are kept: each kept line is a non-empty input line, each non-empty line is kept, and all are kept exactly when none is empty. |
| Prelude.NonEmptyAppend | aoc2024/src/bin/21.rs:23-27 | Filtering a concatenation filters each part. |
| Day21.CodesFail | aoc2024/src/bin/21.rs:141-147 | Some kept code is invalid exactly when some non-empty line is invalid. |
| Day21.Part1 | aoc2024/src/bin/21.rs:149-151 | Part 1, with three directional levels, fails exactly when some non-empty line is not a valid code. |
| Day21.Part2 | aoc2024/src/bin/21.rs:153-154 | Part 2, with 26 directional levels, fails exactly when some non-empty line is not a valid code. |
| Day20.Walls | aoc2024/src/bin/20.rs:39-51 | A cell is a wall exactly when the input has a '#' there. |
| Day20.LastInLine | aoc2024/src/bin/20.rs:43-57 | Gives the last column of a line holding the marker, or nothing when the line has none. |
| Day20.Marker | aoc2024/src/bin/20.rs:34-61 | The start and the end are the last 'S' or 'E' in reading order, since later ones overwrite earlier ones. When there is none, the default (0, 0) is kept. |
| Day20.Load | aoc2024/src/bin/20.rs:20-64 | The walls are exactly the '#' cells of the text's lines. The start and end are the last 'S' and 'E' in reading order, or (0, 0) when missing. |
| Day20.MoveAdjacent | aoc2024/src/bin/20.rs:75-79 | Every cell adjacent to another is one of the four moves the search tries from it. |
| Day20.ClosedHoldsPaths | aoc2024/src/bin/20.rs:69-89 | A set of cells that holds every free neighbour of its own cells holds the end of every path that starts in it. |
| Day20.Extend | aoc2024/src/bin/20.rs:80-84 | Appending a free, unvisited neighbour to a queued path gives a path to that neighbour that still repeats no cell. |
| Day20.QueueCons | aoc2024/src/bin/20.rs:84 | Inserting an entry at the front keeps the queue well formed and adds the entry's cell. |
| Day20.QueuePop | aoc2024/src/bin/20.rs:70 | Popping the back gives a well-formed entry and leaves a well-formed queue. The queue's cells are the popped cell plus the rest. |
| Day20.Offer | aoc2024/src/bin/20.rs:75-85 | Each direction visits and queues the neighbour exactly when it is neither visited nor a wall. Afterwards that neighbour is a wall or visited. |
| Day20.Expand | aoc2024/src/bin/20.rs:75-86 | After the four directions, every free neighbour of the popped cell is visited, and each new entry's path is a wall-free path from the start. |
| Day20.Exhausted | aoc2024/src/bin/20.rs:69-89 | When the queue runs dry without meeting the end, the end is unreachable from the start. |
| Day20.FindPath | aoc2024/src/bin/20.rs:66-90 | A non-empty result is a path from start to end: 4-adjacent steps, never into a wall, repeating no cell. The result is empty exactly when the end cannot be reached. |
| Day20.PathMap | aoc2024/src/bin/20.rs:95-98 | The map's keys are exactly the path's cells. Each key maps to an index holding that cell, and to its last such index. |
| Day20.PathMapIndex | aoc2024/src/bin/20.rs:95-98 | On a path with no repeated cell, each cell maps to its own index. |
| Day20.Scale | aoc2024/src/bin/20.rs:112-119 | k steps along a unit direction move exactly \|k\| in Manhattan distance. |
| Day20.TriedInDiamond | aoc2024/src/bin/20.rs:102-119 | Every offset the loops try has Manhattan length 1 to `max_dist_cheat`. |
| Day20.DiamondTried | aoc2024/src/bin/20.rs:102-119 | Every nonzero offset of Manhattan length at most `max_dist_cheat` is tried by some main direction, secondary direction and step counts. |
| Day20.OffsetsAreDiamond | aoc2024/src/bin/20.rs:102-119 | The offsets tried are exactly the nonzero offsets of Manhattan length at most `max_dist_cheat`. |
| Day20.CheatsExactly | aoc2024/src/bin/20.rs:120-128 | A pair (p, q) is recorded exactly when both cells are on the path, the jump is 1 to `max_dist_cheat` long, and t(q) - t(p) - dist is at least `min_dt`. The recorded value is that saving. |
| Day20.CheatsByIndex | aoc2024/src/bin/20.rs:95-128 | On a path with no repeated cell, the recorded pairs are exactly the pairs of path indices i, j within the jump bound whose saving j - i - dist is at least `min_dt`. |
| Day20.CountFallsWithMinDt | aoc2024/src/bin/20.rs:126 | Raising `min_dt` only removes cheats, so the count never grows, as the example tables at lines 158-195 show. |
| Day20.CountGrowsWithReach | aoc2024/src/bin/20.rs:110-126 | A larger `max_dist_cheat` keeps every cheat, so part 2 (reach 20) counts at least as many as part 1 (reach 2) at the same `min_dt`. |
| Day20.Solve | aoc2024/src/bin/20.rs:139-144 | The answer is the number of index pairs on the found path that make a cheat. |
| Day16.StepOf | aoc2024/src/bin/16.rs:98-105 | Every facing's step is a unit vector. |
| Day16.TurnRight | aoc2024/src/bin/16.rs:89-96 | Turning right rotates the step a quarter clockwise on a y-down grid: (x, y) becomes (-y, x). |
| Day16.TurnLeft | aoc2024/src/bin/16.rs:80-87 | Turning left is undone by turning right, and rotates the step a quarter counter-clockwise: (x, y) becomes (y, -x). |
| Day16.TurnsInverse | aoc2024/src/bin/16.rs:80-96 | Turning left and turning right undo each other, in either order. |
| Day16.FourTurns | aoc2024/src/bin/16.rs:80-96 | Four turns the same way give back the starting facing, and one, two or three right turns never do. |
| Day16.Forward | aoc2024/src/bin/16.rs:130-141 | A forward move keeps the facing and goes to an adjacent cell. |
| Day16.Options | aoc2024/src/bin/16.rs:130-156 | The three options are exactly the moves from a state. Forward costs one point more; the two turns stay on the cell and cost a thousand more. |
| Day16.CostBounds | aoc2024/src/bin/16.rs:131-156 | A route costs at least one point per move, and at least a thousand if it turns anywhere. |
| Day16.Extend | aoc2024/src/bin/16.rs:179-184 | Extending a route by a move into a non-wall cell gives a route that ends at the new state. |
| Day16.ExtendCost | aoc2024/src/bin/16.rs:131-156 | Extending a route by a move adds exactly that move's cost. |
| Day16.ExtendAll | aoc2024/src/bin/16.rs:179-182 | Each route is extended by the same state, and no route is lost. |
| Day16.ExtendAllRoutes | aoc2024/src/bin/16.rs:169-184 | Extending every route to a state by one move gives routes to the next state whose score is the old score plus the move's cost. |
| Day16.FirstMatch | aoc2024/src/bin/16.rs:163-165 | Finds the first queue entry with the given state and score, or reports that there is none. |
| Day16.Reorder | aoc2024/src/bin/16.rs:186-187 | Reordering keeps the same entries, with scores falling from front to back. |
| Day16.ReorderOk | aoc2024/src/bin/16.rs:186-187 | Reordering keeps every entry's routes valid. |
| Day16.PopTakesLowest | aoc2024/src/bin/16.rs:123 | After reordering, `pop` takes an entry of lowest score. |
| Day16.Consider | aoc2024/src/bin/16.rs:158-185 | A wall option changes nothing. Any other option ends visited, and every queued entry keeps routes from the start that reach its state at its score. |
| Day16.Search | aoc2024/src/bin/16.rs:107-188 | The search starts with the empty route at the start cell facing East with score 0. Every route it records at the end reaches the end from there without entering a wall, and its cost is the recorded score. |
| Day16.WithScore | aoc2024/src/bin/16.rs:191-195 | Keeps exactly the entries with the given score. |
| Day16.Best | aoc2024/src/bin/16.rs:190-195 | With no recorded route, `min().unwrap()` panics. Otherwise the best score is the lowest recorded score, and exactly the entries with that score are kept. |
| Day16.BestRoutesShareLowest | aoc2024/src/bin/16.rs:190-195 | Every kept route reaches the end from the start, stays off the walls, and costs the lowest score. |
| Day16.FindBestRoutes | aoc2024/src/bin/16.rs:107-196 | The result is missing exactly when no route reached the end. Otherwise every returned route is a valid route to the end at the lowest recorded score. |
| Day16.Part1 | aoc2024/src/bin/16.rs:216-220 | Part 1 is a recorded score that no recorded score is below, and is missing exactly when none was recorded. |
| Day16.RouteTiles | aoc2024/src/bin/16.rs:229-233 | The cells of a route are exactly the cells of its states. |
| Day16.TileOnRoute | aoc2024/src/bin/16.rs:227-234 | Every collected cell is the cell of a state on some best route. |
| Day16.Part2AsWritten | aoc2024/src/bin/16.rs:222-238 | Part 2 as written counts the cells of the best routes' states, and is missing exactly when no route was recorded. |
| Day16.OneStepRoute | aoc2024/src/bin/16.rs:108-115 | On a maze whose end is the free cell just east of the start, one step east is a route to the end that costs 1. |
| Day16.StartCellMissed | aoc2024/src/bin/16.rs:227-237 | For that one-step route, part 2 as written counts one cell, while the corrected count gives the two cells the route covers. |
| Day16.OneStepCount | aoc2024/src/bin/16.rs:227-237 | The cells collected from a single one-state route are just that state's cell. |
| Day16.OneStepCorrected | aoc2024/src/bin/16.rs:227-237 | For the one-step route, the corrected count is 2: the start and the end. |
| Day16.RouteCells | aoc2024/src/bin/16.rs:227-234 | The covered cells are the start cell plus every cell of the best routes' states, and nothing else. |
| Day16.Part2 | aoc2024/src/bin/16.rs:222-238 | The corrected part 2 counts at least one cell, the start, and is missing exactly when no route was recorded. |
| Day16.Part2Corrected | aoc2024/src/bin/16.rs:227-237 | The corrected count exceeds the count as written by one exactly when no best route's state lies on the start cell, and equals it otherwise. |

## Left out

- Reading and splitting the puzzle input files is not modelled, except where a property is about parsing. Every solver takes its parsed data as parameters.
- Fixed-width integer types (`usize`, `isize`, `i32`, `u64`) are modelled as unbounded `int`/`nat`. Overflow and wrap-around are not modelled.
- Day17.Run: bounded by a step budget (`fuel`), because the source's loop need not terminate. A program that never halts has no answer in the model, while the source loops forever.
- Day17: registers are naturals. Rust's `isize` allows negative values, but no instruction can make a register negative when A starts non-negative and program values are 0..7.
- Day17.Combo: the contract states the literal operands and the panic, but not that operands 4, 5 and 6 read registers A, B and C. Those cases are in the body, and Step's contract and the example runs rely on them.
- Day17.Part2: the example answer 117440 (17.rs:171-175) is not restated, because its program is not part of this model and the search evaluates a run for every candidate of every round. Part 1's example is restated by Part1Example.
- Day07.Validate: requires every value after the first to be positive. A zero value panics in the source only when the Multiply branch (`target % 0`) or the Concatenate branch (`0.ilog10()`) reaches it; the Add branch is tried first and can answer before that, so the requires also excludes some inputs the source answers without panicking. The puzzle's values are all positive.
- Day09: the input line is given directly; the source takes the first line of the file.
- Day09.Part1, Day09.Part2: the example answers 1928 and 2858 (09.rs:205-220) are not restated. The example input file is not part of this model, and evaluating the moves of a disk that size exceeds the verifier's per-proof budget. Part2Parsed states when part 2 answers on any parsed disk.
- Day09.MoveAll: success is promised only when the first block is not one of the moved files (FrontStays). When it is, the move may panic, as MoveFront and FrontOverrunExample show. A parsed disk's first block is file 0, which is never moved.
- Day05.Part1: requires every page list to be non-empty. The source indexes the middle of each list, and its parser skips empty lines, so every list has a page.
- Day05: the example answers 143 and 123 (05.rs:119-134) are not restated, because the example's rules and page lists are not part of this model. AllValid and NoneValid state what the two parts give at the extremes.
- Day06: the map's width and height are given with the map. The source derives them from the input lines. Coordinates are unbounded integers rather than `i16`.
- Day06: the example answers 41 and 6 (06.rs:202-217) are not restated, because the example map is not part of this model. Following the guard over a 10 by 10 map, and trying every obstruction for part 2, is also beyond the verifier's per-proof budget.
- Day15: coordinates are unbounded integers rather than `i8`. The sum is taken over integers rather than casting each coordinate to `usize`; the two agree on grids with non-negative coordinates below 128. Splitting the input at the blank line is not modelled; the grid lines and the move text are given separately.
- Day15: the example answers 10092 and 9021 (15.rs:255-270) are not restated, because the example warehouse and its list of moves are not part of this model and too long to evaluate in a proof.
- Day11: `#[memoize]` is a cache and is not modelled; the model computes the same function. Stones are unbounded, so a `usize` overflow of `stone * 2024` is not modelled. The example answer 55312 after 25 blinks is too deep to unfold in the verifier; the one-blink example stands in for it.
- Day22: secrets are natural numbers. The source's `isize` also accepts negative input, where `%` truncates toward zero; such input is not modelled, and a '-' line fails to parse here. A shift left is multiplication by a power of two, and the 64-bit overflow of that multiplication is not modelled. The example secret 123 -> 15887950, and the example answers 37327623 and 23 (22.rs:89-104), are too costly to evaluate in the verifier: each needs 2000 rounds of `next_secret` per buyer.
- Day24: `load_data`, the text parsing of the two maps, is not modelled; the circuit is given as maps.
- Day24: the example answer 2024 (24.rs:353-356) is not restated, because the example circuit is not part of this model and evaluating its gates is too long for a proof.
- Day24: `get_suspicious_gates` is not modelled, because its result is only printed. `solve_part_2` returns the constant "wrong" right after printing it. The swap search after that return is unreachable, and it tests swaps on random inputs.
- Day24.CountCombinations: models unbounded naturals, not the `u64` overflow of the intermediate product.
- Day24.CanSwap: the claim that a permitted swap leaves the circuit acyclic is not proved.
- Day24.Acyclic: the source recurses without a visited set, so a cyclic circuit overflows its stack. The model requires a ranking of the gates instead.
- Day13: the regular-expression parsing in `load_data` and its pairing of the button and prize lines are not modelled; machines are given as values. The `i64` overflow of the products is not modelled.
- Day02.Part2: the converse bound, that every nearly gradual report is counted, is not proved; the count is bounded below by the gradual reports and above by the nearly gradual ones.
- Day02: `load_data`'s parsing is not modelled, and neither is the `i8` tolerance; reports are given as integer sequences.
- Day01: values are unbounded naturals; the `usize` overflow of the sums is not modelled. Reading the input file is left out; `Load` takes the file's text.
- Day03: `\d` is taken as an ASCII digit. The regex crate's `\d` also matches other Unicode decimal digits, which would make `parse` panic; that path is not modelled. The input is given as its lines, and the `usize` overflow of the sums is not modelled.
- Day04: the grid is required to be rectangular. A ragged input may make the indexing panic in some cells, and that is not modelled. The ten-by-ten example grid (18 and 9) is not restated as a lemma.
- Day12: coordinates are `u8` in the source. The model uses unbounded integers, which agrees for maps up to 254 columns and rows. Beyond that, `(x + 1) as u8` wraps and `x + 1` overflows. The hash map and hash set orders are parameters (`order`) or arbitrary choices. The example file's totals (1930 and 1206) are not restated.
- Day10: coordinates are `u8`, and the neighbour arithmetic is `i8` in the source. The model uses unbounded integers, which agrees for maps up to 127 columns and rows. Scores and totals are `u32` and `usize`, and their overflow is not modelled. Rows are assumed to be of equal length (`Rectangular`), since the source indexes row 0's width on every row. The example file's totals (36 and 81) are not restated.
- Day10.ScorePeaks: proves which peaks are reported (`KeysAreReach`), but not that each score equals the number of distinct trails to that peak.
- Day14: the regular-expression parsing of `load_data` is not modelled; robots are given as values. `isize` and `usize` overflow is not modelled. The debug `println!` calls are dropped.
- Day14.Part2, Day14.Part2Corrected: the per-second spreads are parameters. `variance` computes them in `f32` floating point, which is not modelled, and the model uses exact reals. A NaN spread, where `position` would find nothing and panic, cannot occur in the model.
- Day18: coordinates are unbounded integers. The source's `i8` points, whose `x + 1` would overflow at 127, are not modelled. Reading the input file is left out too.
- Day18.FindPath: proves that the walk returned is a shortest one, but not which of several shortest walks the queue order picks.
- Day18.Part2: the goal is recomputed for every prefix, so being blocked need not be monotone in the number of bytes. The contract therefore claims only what the probes saw, not that the byte is the first blocker overall.
- Day19: the example answer 6 and part 2's `assert_ne!(…, 16)` (19.rs:208-223) are not restated, because the example's patterns and designs are not part of this model. ConvertExamples restates the packing examples of the same file.
- Day18: the example answers 22 and "6,1" (18.rs:135-150) are not restated, because the example's byte list is not part of this model and the breadth-first search over a 7 by 7 grid is too long to evaluate in a proof.
- Day08: the `u8` width and height and the `i16` points are unbounded integers, so their casts and the `u8` step counter are not modelled. The example answers 14 and 34 are not restated, because the example grid is too large to evaluate in a proof.
- Day08.Part2: the part 1 bound needs every antenna on the grid. A ray from an antenna off the grid stops at step 0 in part 2 but not in part 1. TidyOnGrid gives the condition for a tidy input.
- Day25: the `u8` counters are unbounded. `str::lines` is modelled as a split at '\n' that drops a final empty piece; it does not strip a trailing '\r'. The example is restated from its heights, not parsed from its text.
- Day23: Rust's hash-map iteration order is not known. It is a parameter `order` that lists every computer once, and the greedy clique depends on it as the source's does. The example answers 7 and "co,de,ka,ta" are not restated, because the example network is too large to evaluate in a proof.
- Day23.Part1: assumes no link joins a computer to itself. With such a link, a group can repeat a name, and the count is no longer the number of triangles.
- Day21.Count: `n_robots` is a `u8` in the source. The model takes any level n >= 1, because level 0 would underflow `n_robots - 1`. The two levels `main` uses, 3 and 26, fit a `u8`.
- Day21.Count: `#[memoize]` caches results and does not change them, so the model recomputes.
- Day21.Options: the source collects the options in a `HashSet`, whose iteration order is unspecified. Only their minimum is used, so the model lists the horizontal-first order first.
- Day21.Solve: the answer 126384 for the five example codes is not restated, because evaluating it needs the whole recursive cost chain.
- Day20.FindPath: the source searches an unbounded plane and stops only if the walls enclose the start. The model requires a finite region around the start that no free step leaves, and takes it as a ghost argument. The inputs' border of walls supplies one.
- Day20.FindPath: coordinates and path indices are `i16` in the source and unbounded integers here. Overflow of long tracks is not modelled.
- Day20.Cheats: the source keys a `HashMap` by (p, q). The model is a map with the same keys and values. Iteration order does not affect the count.
- Day20.Solve: the example counts at lines 158-195 are not restated, because the example maze is not part of this model. Their falling trend is CountFallsWithMinDt.
- Day16.Search: the source searches an unbounded plane and stops only if the walls enclose the start. The model requires a finite region around the start that no free step leaves, and takes it as a ghost argument.
- Day16.Search: scores are `u32` and coordinates `i16` in the source and unbounded here. Overflow is not modelled.
- Day16.FindBestRoutes: states that every returned route is a valid route at the lowest recorded score. It does not claim that the search finds the cheapest route in the maze, or every cheapest one, since the route merging is a heuristic.
- Day16.Search: the queue is ordered by a stable insertion sort on the score and then reversed, matching `sort_by_key` (stable) and `reverse`. No proof depends on how equal scores are ordered.
- Day16: `print_maze_visited` and the `println!` in `solve_part_2` are debug output and are not modelled. The example answers 7036, 11048, 45 and 64 are not restated, because the example mazes are not part of this model.

## Findings

| source | as written | input that shows it | evidently intended | confidence | as-written member | corrected member |
|---|---|---|---|---|---|---|
| aoc2024/src/bin/02.rs:40-54 | `is_report_safe` reads `report[0]` and `report[1]` before checking the length. A retry after removing a level can leave one level. | The report 1 1 with tolerance 1: the first step is bad, and each retry is the one-level report 1 at tolerance 0, where `report[1]` is out of range. | A report of fewer than two levels has no step and is safe. | medium; not executed | Day02.SafeAsWritten, Day02.TwoLevelPanic | Day02.Safe, Day02.AsWrittenAgrees |
| aoc2024/src/bin/14.rs:147-152 | `result` starts at the y index, but `height` is added before the first membership test, so the y index itself is never tried. | ix = iy = 5, width 11, height 7, max_dim 11: the answer is 82 although 5 is in `x_steps`. | Test `result` before adding `height`, so candidates run from iy upward. | medium; not executed | Day14.AlignAsWritten, Day14.AlignSkipsFirst, Day14.Part2 | Day14.Align, Day14.AlignIsFirstMeeting, Day14.Part2Corrected |
| aoc2024/src/bin/18.rs:119 | The answer is read from `mid_n`, the last probe. When that probe found a path, `mid_n` is the lower bound, and its byte does not block. | Bytes (0,3), (3,0), (1,0), (0,1), (2,2) from count 2: probe 4 is blocked and probe 3 is open. The source prints "1,0". | Read the byte at `max_n - 1`, the smallest count seen blocked: (0,1). | medium; not executed | Day18.Part2AsWritten, Day18.LastProbeNotBlocker | Day18.Part2, Day18.BisectCuts |
| aoc2024/src/bin/16.rs:227-237 | Routes start as the empty list (line 113), so they never hold the start state. Part 2 counts the cells of route states, so the start cell is counted only when a best route turns on it. | The maze `#####`, `#SE.#`, `#####`: the best route is one step east at score 1, and part 2 counts 1 cell. | Count every cell of a best route, the start cell included: 2 here. | medium; not executed | Day16.Part2AsWritten, Day16.StartCellMissed | Day16.Part2, Day16.OneStepCorrected, Day16.Part2Corrected |

=== FILE: day01.dfy ===
/** Day 1: two lists of location IDs. Part 1 pairs the lists in sorted
    order and adds up the distances. Part 2 adds up each left value times
    the number of times it appears in the right list. */
module Day01 {
  import opened Prelude

  // ---------------------------------------------------------------------
  // Reading the lists

  /** A line is kept only when it splits at the three-space separator into
      exactly two fields; then both fields must be numbers. */
  function LoadLine(line: string): (r: Option<Option<(nat, nat)>>)
  {
    var fields := SplitOn(line, "   ");
    if |fields| != 2 then Some(None)
    else
      match (ParseNat(fields[0]), ParseNat(fields[1]))
      case (Some(a), Some(b)) => Some(Some((a, b)))
      case _ => None
  }

  /** `load_data` on the lines of the input: the left and the right list.
      A kept line whose field is not a number is a panic (`None`). */
  function LoadLines(lines: seq<string>): (r: Option<(seq<nat>, seq<nat>)>)
    ensures r.Some? ==> |r.value.0| == |r.value.1| <= |lines|
  {
    if |lines| == 0 then Some(([], []))
    else
      match (LoadLine(lines[0]), LoadLines(lines[1..]))
      case (Some(None), Some(rest)) => Some(rest)
      case (Some(Some((a, b))), Some(rest)) => Some(([a] + rest.0, [b] + rest.1))
      case _ => None
  }

  function Load(input: string): Option<(seq<nat>, seq<nat>)>
  {
    LoadLines(Split(input, '\n'))
  }

  /** A line of two numbers with the separator between them is kept. */
  lemma LoadLineRoundTrip(a: nat, b: nat)
    ensures LoadLine(NatString(a) + "   " + NatString(b)) == Some(Some((a, b)))
  {
    var line := NatString(a) + "   " + NatString(b);
    NatStringParses(a);
    NatStringParses(b);
    NatStringHasNoSpace(a);
    NatStringHasNoSpace(b);
    var n := |NatString(a)|;
    FindFromMisses(line, "   ", 0, n);
    assert line[n..n + 3] == "   ";
    assert FindFrom(line, "   ", n) == Some(n);
    var tail := line[n + 3..];
    assert tail == NatString(b);
    FindFromMisses(tail, "   ", 0, |tail|);
    assert SplitOn(line, "   ") == [NatString(a), NatString(b)];
  }

  lemma NatStringHasNoSpace(n: nat)
    ensures forall i | 0 <= i < |NatString(n)| :: NatString(n)[i] != ' '
  {
  }

  /** No separator starts before index k when the first k characters hold
      no space. */
  lemma {:induction false} FindFromMisses(s: string, sep: string, i: nat, k: nat)
    requires |sep| > 0 && sep[0] == ' ' && i <= k <= |s|
    requires forall j | i <= j < k :: s[j] != ' '
    ensures FindFrom(s, sep, i) == FindFrom(s, sep, k)
    decreases k - i
  {
    if i < k && i + |sep| <= |s| {
      assert s[i..i + |sep|][0] == s[i];
      FindFromMisses(s, sep, i + 1, k);
    }
  }

  // ---------------------------------------------------------------------
  // Part 1: distance between the sorted lists

  predicate NatLe(x: nat, y: nat)
  {
    x <= y
  }

  lemma NatLeIsTotalPreorder()
    ensures TotalPreorder(NatLe)
  {
  }

  function SortInts(s: seq<nat>): (r: seq<nat>)
    ensures SortedBy(r, NatLe)
    ensures multiset(r) == multiset(s)
  {
    NatLeIsTotalPreorder();
    Sort(s, NatLe)
  }

  /** The sum of |a_i - b_i| over the pairs `zip` forms, up to the shorter
      list. */
  function Distance(a: seq<nat>, b: seq<nat>): (d: nat)
    ensures d == 0 <==> a[..Min2(|a|, |b|)] == b[..Min2(|a|, |b|)]
  {
    if |a| == 0 || |b| == 0 then 0
    else
      var rest := Distance(a[1..], b[1..]);
      assert a[..Min2(|a|, |b|)] == [a[0]] + a[1..][..Min2(|a| - 1, |b| - 1)];
      assert b[..Min2(|a|, |b|)] == [b[0]] + b[1..][..Min2(|a| - 1, |b| - 1)];
      Abs(a[0] as int - b[0]) + rest
  }

  function Min2(x: nat, y: nat): nat
  {
    if x <= y then x else y
  }

  /** For lists of one length, the distance is 0 exactly when they hold the
      same values the same number of times. */
  function Part1(left: seq<nat>, right: seq<nat>): (r: nat)
    ensures |left| == |right| ==> (r == 0 <==> multiset(left) == multiset(right))
  {
    SortedDistanceZero(left, right);
    Distance(SortInts(left), SortInts(right))
  }

  /** Two sorted sequences with the same elements are the same sequence. */
  lemma {:induction false} SortedUnique(a: seq<nat>, b: seq<nat>)
    requires SortedBy(a, NatLe) && SortedBy(b, NatLe) && multiset(a) == multiset(b)
    ensures a == b
  {
    if |a| > 0 {
      assert a[0] in multiset(b) && b[0] in multiset(a);
      SortedHeadLeast(a, b[0]);
      SortedHeadLeast(b, a[0]);
      assert a == [a[0]] + a[1..] && b == [b[0]] + b[1..];
      assert a[0] == b[0];
      assert multiset(a) == multiset{a[0]} + multiset(a[1..]);
      assert multiset(b) == multiset{b[0]} + multiset(b[1..]);
      assert multiset(a[1..]) == multiset(a) - multiset{a[0]};
      assert multiset(b[1..]) == multiset(b) - multiset{b[0]};
      SortedTail(a);
      SortedTail(b);
      SortedUnique(a[1..], b[1..]);
    } else {
      assert |b| == |multiset(b)|;
    }
  }

  lemma SortedHeadLeast(a: seq<nat>, x: nat)
    requires SortedBy(a, NatLe) && x in multiset(a)
    ensures a[0] <= x
  {
    var j :| 0 <= j < |a| && a[j] == x;
    if j > 0 {
      assert NatLe(a[0], a[j]);
    }
  }

  lemma SortedTail(a: seq<nat>)
    requires SortedBy(a, NatLe) && |a| > 0
    ensures SortedBy(a[1..], NatLe)
  {
    forall k, l | 0 <= k < l < |a| - 1 ensures NatLe(a[1..][k], a[1..][l]) {
      assert NatLe(a[k + 1], a[l + 1]);
    }
  }

  /** Part 1 depends on each list only through its elements, not their
      order. */
  lemma Part1Permutation(left: seq<nat>, right: seq<nat>, left': seq<nat>, right': seq<nat>)
    requires multiset(left) == multiset(left') && multiset(right) == multiset(right')
    ensures Part1(left, right) == Part1(left', right')
  {
    SortedUnique(SortInts(left), SortInts(left'));
    SortedUnique(SortInts(right), SortInts(right'));
  }

  lemma {:induction false} DistanceSymmetric(a: seq<nat>, b: seq<nat>)
    ensures Distance(a, b) == Distance(b, a)
  {
    if |a| > 0 && |b| > 0 {
      DistanceSymmetric(a[1..], b[1..]);
    }
  }

  /** Swapping the two lists does not change part 1. */
  lemma Part1Symmetric(left: seq<nat>, right: seq<nat>)
    ensures Part1(left, right) == Part1(right, left)
  {
    DistanceSymmetric(SortInts(left), SortInts(right));
  }

  lemma SortedDistanceZero(left: seq<nat>, right: seq<nat>)
    ensures |left| == |right| ==>
      (Distance(SortInts(left), SortInts(right)) == 0 <==> multiset(left) == multiset(right))
  {
    var a, b := SortInts(left), SortInts(right);
    assert |a| == |multiset(left)| == |left| && |b| == |multiset(right)| == |right|;
    assert a[..|a|] == a && b[..|b|] == b;
    if multiset(left) == multiset(right) {
      SortedUnique(a, b);
    }
  }

  // ---------------------------------------------------------------------
  // Part 2: similarity score

  /** Each left value times its number of occurrences in the right list. */
  function Similarity(left: seq<nat>, right: seq<nat>): nat
  {
    if |left| == 0 then 0
    else left[0] * multiset(right)[left[0]] + Similarity(left[1..], right)
  }

  /** One more right value y adds y once for every y on the left. */
  lemma {:induction false} SimilarityCons(left: seq<nat>, y: nat, right: seq<nat>)
    ensures Similarity(left, [y] + right) == y * multiset(left)[y] + Similarity(left, right)
  {
    if |left| > 0 {
      SimilarityCons(left[1..], y, right);
      var x: nat := left[0];
      assert left == [x] + left[1..];
      var c, d := multiset(right)[x], multiset(left[1..])[y];
      assert multiset([y] + right)[x] == (if x == y then 1 else 0) + c;
      assert multiset(left)[y] == (if x == y then 1 else 0) + d;
      if x == y {
        MulSucc(x, c);
        MulSucc(y, d);
      }
    }
  }

  lemma MulSucc(x: nat, c: nat)
    ensures x * (1 + c) == x + x * c
  {
  }

  /** The score counts every equal left/right pair once, so it is the same
      with the lists swapped. */
  lemma {:induction false} SimilaritySymmetric(left: seq<nat>, right: seq<nat>)
    ensures Similarity(left, right) == Similarity(right, left)
  {
    if |right| > 0 {
      var y := right[0];
      assert right == [y] + right[1..];
      SimilarityCons(left, y, right[1..]);
      SimilaritySymmetric(left, right[1..]);
    } else {
      SimilarityEmpty(left);
    }
  }

  lemma {:induction false} SimilarityEmpty(left: seq<nat>)
    ensures Similarity(left, []) == 0
  {
    if |left| > 0 {
      SimilarityEmpty(left[1..]);
    }
  }

  /** `solve_part_2` as written: count the right list into a map, then add
      each left value times its count, or 0 when it is absent. */
  method Part2(left: seq<nat>, right: seq<nat>) returns (result: nat)
    ensures result == Similarity(left, right)
  {
    var count: map<nat, nat> := map[];
    var i := 0;
    while i < |right|
      invariant 0 <= i <= |right|
      invariant forall v :: v in count <==> v in multiset(right[..i])
      invariant forall v | v in count :: count[v] == multiset(right[..i])[v]
    {
      assert right[..i + 1] == right[..i] + [right[i]];
      var v := right[i];
      if v in count {
        count := count[v := count[v] + 1];
      } else {
        count := count[v := 1];
      }
      i := i + 1;
    }
    assert right[..i] == right;
    result := 0;
    var j := 0;
    while j < |left|
      invariant 0 <= j <= |left|
      invariant result + Similarity(left[j..], right) == Similarity(left, right)
    {
      var v := left[j];
      var c := if v in count then count[v] else 0;
      assert left[j..][1..] == left[j + 1..];
      result := result + v * c;
      j := j + 1;
    }
  }

  /** The puzzle's example lists: part 1 gives 11 and part 2 gives 31. */
  lemma Example(left: seq<nat>, right: seq<nat>)
    requires left == [3, 4, 2, 1, 3, 3] && right == [4, 3, 5, 3, 9, 3]
    ensures Part1(left, right) == 11
    ensures Similarity(left, right) == 31
  {
    ExampleLeft(left);
    ExampleRight(right);
    ExampleDistance();
    ExampleSimilarity();
  }

  lemma ExampleLeft(left: seq<nat>)
    requires left == [3, 4, 2, 1, 3, 3]
    ensures SortInts(left) == [1, 2, 3, 3, 3, 4]
  {
    var sorted := [1, 2, 3, 3, 3, 4];
    assert multiset(left) == multiset(sorted) by {
      assert multiset(left) == multiset{3, 4, 2, 1, 3, 3};
    }
    ExampleSorted(left, sorted);
  }

  lemma ExampleRight(right: seq<nat>)
    requires right == [4, 3, 5, 3, 9, 3]
    ensures SortInts(right) == [3, 3, 3, 4, 5, 9]
  {
    var sorted := [3, 3, 3, 4, 5, 9];
    assert multiset(right) == multiset(sorted) by {
      assert multiset(right) == multiset{4, 3, 5, 3, 9, 3};
    }
    ExampleSorted(right, sorted);
  }

  lemma ExampleSorted(s: seq<nat>, sorted: seq<nat>)
    requires multiset(s) == multiset(sorted)
    requires forall i | 0 <= i < |sorted| - 1 :: sorted[i] <= sorted[i + 1]
    ensures SortInts(s) == sorted
  {
    forall i, j | 0 <= i < j < |sorted| ensures NatLe(sorted[i], sorted[j]) {
      ChainLe(sorted, i, j);
    }
    SortedUnique(SortInts(s), sorted);
  }

  lemma {:induction false} ChainLe(s: seq<nat>, i: nat, j: nat)
    requires i <= j < |s|
    requires forall k | 0 <= k < |s| - 1 :: s[k] <= s[k + 1]
    ensures s[i] <= s[j]
    decreases j - i
  {
    if i < j {
      ChainLe(s, i + 1, j);
    }
  }

  lemma ExampleDistance()
    ensures Distance([1, 2, 3, 3, 3, 4], [3, 3, 3, 4, 5, 9]) == 11
  {
    var a, b := [1, 2, 3, 3, 3, 4], [3, 3, 3, 4, 5, 9];
    assert a[1..] == [2, 3, 3, 3, 4] && b[1..] == [3, 3, 4, 5, 9];
    assert a[2..] == [3, 3, 3, 4] && b[2..] == [3, 4, 5, 9];
    assert a[3..] == [3, 3, 4] && b[3..] == [4, 5, 9];
    assert a[4..] == [3, 4] && b[4..] == [5, 9];
    assert a[5..] == [4] && b[5..] == [9];
  }

  lemma ExampleSimilarity()
    ensures Similarity([3, 4, 2, 1, 3, 3], [4, 3, 5, 3, 9, 3]) == 31
  {
    var r := [4, 3, 5, 3, 9, 3];
    assert multiset(r)[3] == 3 && multiset(r)[4] == 1;
    assert multiset(r)[2] == 0 && multiset(r)[1] == 0;
    var l := [3, 4, 2, 1, 3, 3];
    assert l[1..] == [4, 2, 1, 3, 3] && l[2..] == [2, 1, 3, 3];
    assert l[3..] == [1, 3, 3] && l[4..] == [3, 3] && l[5..] == [3];
  }
}

=== FILE: day02.dfy ===
/** Day 2: reactor reports. A report is a row of levels, and it is safe
    when the levels move in one direction by 1 to 3 at every step. Part 2
    tolerates one bad level. The solver finds the first bad step and
    retries without one of three levels, at one less tolerance. */
module Day02 {
  import opened Prelude

  /** The report without the level at index i (`Vec::remove`). */
  function Remove(r: seq<int>, i: nat): (s: seq<int>)
    requires i < |r|
    ensures |s| == |r| - 1
  {
    r[..i] + r[i + 1..]
  }

  /** The direction the first two levels set: up or, for a tie too, down. */
  function Direction(r: seq<int>): int
    requires |r| >= 2
  {
    if r[1] > r[0] then 1 else -1
  }

  /** Step k, from level k to level k + 1, is bad when its change, signed
      by the direction, is not within 1..3. */
  predicate BadStep(r: seq<int>, dir: int, k: nat)
    requires k + 1 < |r|
  {
    var change := (r[k + 1] - r[k]) * dir;
    change > 3 || change <= 0
  }

  /** The first bad step at or after k, if any. */
  function FirstBad(r: seq<int>, dir: int, k: nat): (b: Option<nat>)
    requires k < |r|
    ensures b.None? ==> forall i | k <= i < |r| - 1 :: !BadStep(r, dir, i)
    ensures b.Some? ==> k <= b.value < |r| - 1 && BadStep(r, dir, b.value)
    decreases |r| - k
  {
    if k + 1 >= |r| then None
    else if BadStep(r, dir, k) then Some(k)
    else FirstBad(r, dir, k + 1)
  }

  /** `is_report_safe` with a report of fewer than two levels counted as
      safe: such a report has no step to break the rules. */
  function Safe(r: seq<int>, tolerance: int): (ok: bool)
    ensures tolerance < 0 ==> !ok
    decreases |r|
  {
    if tolerance < 0 then false
    else if |r| < 2 then true
    else
      match FirstBad(r, Direction(r), 0)
      case None => true
      case Some(k) =>
        Safe(Remove(r, k), tolerance - 1)
        || Safe(Remove(r, k + 1), tolerance - 1)
        || Safe(Remove(r, 0), tolerance - 1)
  }

  // ---------------------------------------------------------------------
  // Reference: gradual reports

  /** Every step rises by 1 to 3. */
  predicate Rising(r: seq<int>)
  {
    forall i | 0 <= i < |r| - 1 :: 1 <= r[i + 1] - r[i] <= 3
  }

  /** Every step falls by 1 to 3. */
  predicate Falling(r: seq<int>)
  {
    forall i | 0 <= i < |r| - 1 :: 1 <= r[i] - r[i + 1] <= 3
  }

  /** The puzzle's rule: all steps rise, or all fall, by 1 to 3. */
  predicate Gradual(r: seq<int>)
  {
    Rising(r) || Falling(r)
  }

  /** Without tolerance, the solver's verdict is exactly the puzzle's rule. */
  lemma SafeStrict(r: seq<int>)
    ensures Safe(r, 0) <==> Gradual(r)
  {
    if |r| >= 2 {
      var dir := Direction(r);
      var b := FirstBad(r, dir, 0);
      if b.None? {
        forall i | 0 <= i < |r| - 1
          ensures if dir == 1 then 1 <= r[i + 1] - r[i] <= 3 else 1 <= r[i] - r[i + 1] <= 3
        {
          assert !BadStep(r, dir, i);
          assert (r[i + 1] - r[i]) * dir == if dir == 1 then r[i + 1] - r[i] else r[i] - r[i + 1];
        }
      } else {
        var k := b.value;
        assert BadStep(r, dir, k);
        if dir == 1 {
          assert !Rising(r);
          assert !Falling(r) by {
            assert !(1 <= r[0] - r[1]);
          }
        } else {
          assert !Falling(r);
          assert !Rising(r) by {
            assert !(1 <= r[1] - r[0]);
          }
        }
      }
    }
  }

  /** More tolerance never makes a safe report unsafe. */
  lemma {:induction false} SafeMonotone(r: seq<int>, t: int)
    requires Safe(r, t)
    ensures Safe(r, t + 1)
    decreases |r|
  {
    if |r| >= 2 {
      var b := FirstBad(r, Direction(r), 0);
      if b.Some? {
        var k := b.value;
        if Safe(Remove(r, k), t - 1) {
          SafeMonotone(Remove(r, k), t - 1);
        } else if Safe(Remove(r, k + 1), t - 1) {
          SafeMonotone(Remove(r, k + 1), t - 1);
        } else {
          SafeMonotone(Remove(r, 0), t - 1);
        }
      }
    }
  }

  /** A report safe with tolerance 1 is gradual, or becomes gradual once
      one of its levels is removed. */
  lemma SafeDampened(r: seq<int>)
    requires Safe(r, 1)
    ensures Gradual(r) || exists i | 0 <= i < |r| :: Gradual(Remove(r, i))
  {
    if |r| >= 2 {
      var b := FirstBad(r, Direction(r), 0);
      if b.None? {
        SafeStrict(r);
        assert Safe(r, 0);
      } else {
        var k := b.value;
        SafeStrict(Remove(r, k));
        SafeStrict(Remove(r, k + 1));
        SafeStrict(Remove(r, 0));
      }
    } else {
      SafeStrict(r);
    }
  }

  // ---------------------------------------------------------------------
  // The two parts

  /** How many reports are safe at the given tolerance. */
  function CountSafe(reports: seq<seq<int>>, tolerance: int): (n: nat)
    ensures n <= |reports|
  {
    if |reports| == 0 then 0
    else (if Safe(reports[0], tolerance) then 1 else 0) + CountSafe(reports[1..], tolerance)
  }

  /** With more tolerance, the count can only grow. */
  lemma {:induction false} CountMonotone(reports: seq<seq<int>>, t: int)
    ensures CountSafe(reports, t) <= CountSafe(reports, t + 1)
  {
    if |reports| > 0 {
      if Safe(reports[0], t) {
        SafeMonotone(reports[0], t);
      }
      CountMonotone(reports[1..], t);
    }
  }

  /** Reference: the number of reports that follow the puzzle's rule as
      they stand. */
  function CountGradual(reports: seq<seq<int>>): nat
  {
    if |reports| == 0 then 0
    else (if Gradual(reports[0]) then 1 else 0) + CountGradual(reports[1..])
  }

  /** A report that follows the rule once at most one level is removed. */
  predicate NearlyGradual(r: seq<int>)
  {
    Gradual(r) || exists i | 0 <= i < |r| :: Gradual(Remove(r, i))
  }

  function CountNearlyGradual(reports: seq<seq<int>>): nat
  {
    if |reports| == 0 then 0
    else (if NearlyGradual(reports[0]) then 1 else 0) + CountNearlyGradual(reports[1..])
  }

  lemma {:induction false} CountStrict(reports: seq<seq<int>>)
    ensures CountSafe(reports, 0) == CountGradual(reports)
  {
    if |reports| > 0 {
      SafeStrict(reports[0]);
      CountStrict(reports[1..]);
    }
  }

  lemma {:induction false} CountDampened(reports: seq<seq<int>>)
    ensures CountSafe(reports, 1) <= CountNearlyGradual(reports)
  {
    if |reports| > 0 {
      if Safe(reports[0], 1) {
        SafeDampened(reports[0]);
      }
      CountDampened(reports[1..]);
    }
  }

  /** Part 1 counts exactly the gradual reports. */
  function Part1(reports: seq<seq<int>>): (r: nat)
    ensures r == CountGradual(reports) && r <= |reports|
  {
    CountStrict(reports);
    CountSafe(reports, 0)
  }

  /** Part 2 counts every gradual report, and only reports that are
      gradual after removing at most one level. */
  function Part2(reports: seq<seq<int>>): (r: nat)
    ensures CountGradual(reports) <= r <= CountNearlyGradual(reports)
    ensures r <= |reports|
  {
    CountStrict(reports);
    CountMonotone(reports, 0);
    CountDampened(reports);
    CountSafe(reports, 1)
  }

  /** The puzzle's example: two reports are safe as they stand, and four
      with one bad level tolerated. */
  lemma Example()
    ensures var reports := [[7, 6, 4, 2, 1], [1, 2, 7, 8, 9], [9, 7, 6, 2, 1],
                            [1, 3, 2, 4, 5], [8, 6, 4, 4, 1], [1, 3, 6, 7, 9]];
      Part1(reports) == 2 && Part2(reports) == 4
  {
    var r1, r2, r3 := [7, 6, 4, 2, 1], [1, 2, 7, 8, 9], [9, 7, 6, 2, 1];
    var r4, r5, r6 := [1, 3, 2, 4, 5], [8, 6, 4, 4, 1], [1, 3, 6, 7, 9];
    ExampleSafe();
    ExampleUnsafe();
    ExampleDampened();
    var reports := [r1, r2, r3, r4, r5, r6];
    assert reports[1..] == [r2, r3, r4, r5, r6];
    assert reports[1..][1..] == [r3, r4, r5, r6];
    assert reports[1..][1..][1..] == [r4, r5, r6];
    assert reports[1..][1..][1..][1..] == [r5, r6];
    assert reports[1..][1..][1..][1..][1..] == [r6];
    assert CountSafe([r6], 0) == 1 && CountSafe([r6], 1) == 1;
  }

  lemma ExampleSafe()
    ensures Safe([7, 6, 4, 2, 1], 0) && Safe([7, 6, 4, 2, 1], 1)
    ensures Safe([1, 3, 6, 7, 9], 0) && Safe([1, 3, 6, 7, 9], 1)
  {
    SafeBoth([7, 6, 4, 2, 1]);
    SafeBoth([1, 3, 6, 7, 9]);
  }

  lemma ExampleUnsafe()
    ensures !Safe([1, 2, 7, 8, 9], 0) && !Safe([1, 2, 7, 8, 9], 1)
    ensures !Safe([9, 7, 6, 2, 1], 0) && !Safe([9, 7, 6, 2, 1], 1)
  {
    ExampleJump();
    ExampleDrop();
  }

  lemma ExampleDrop()
    ensures !Safe([9, 7, 6, 2, 1], 0) && !Safe([9, 7, 6, 2, 1], 1)
  {
    assert Remove([9, 7, 6, 2, 1], 2) == [9, 7, 2, 1];
    assert Remove([9, 7, 6, 2, 1], 3) == [9, 7, 6, 1];
    assert Remove([9, 7, 6, 2, 1], 0) == [7, 6, 2, 1];
    assert !BadStep([9, 7, 6, 2, 1], -1, 0) && !BadStep([9, 7, 6, 2, 1], -1, 1);
    assert FirstBad([9, 7, 6, 2, 1], -1, 0) == FirstBad([9, 7, 6, 2, 1], -1, 1)
      == FirstBad([9, 7, 6, 2, 1], -1, 2) == Some(2);
    NotGradual([9, 7, 2, 1], 0, 1);
    NotGradual([9, 7, 6, 1], 0, 2);
    NotGradual([7, 6, 2, 1], 0, 1);
    Unsafe([9, 7, 6, 2, 1], 2, [9, 7, 2, 1], [9, 7, 6, 1], [7, 6, 2, 1]);
  }

  lemma ExampleJump()
    ensures !Safe([1, 2, 7, 8, 9], 0) && !Safe([1, 2, 7, 8, 9], 1)
  {
    assert Remove([1, 2, 7, 8, 9], 1) == [1, 7, 8, 9];
    assert Remove([1, 2, 7, 8, 9], 2) == [1, 2, 8, 9];
    assert Remove([1, 2, 7, 8, 9], 0) == [2, 7, 8, 9];
    assert !BadStep([1, 2, 7, 8, 9], 1, 0);
    assert FirstBad([1, 2, 7, 8, 9], 1, 0) == FirstBad([1, 2, 7, 8, 9], 1, 1) == Some(1);
    NotGradual([1, 7, 8, 9], 0, 0);
    NotGradual([1, 2, 8, 9], 1, 0);
    NotGradual([2, 7, 8, 9], 0, 0);
    Unsafe([1, 2, 7, 8, 9], 1, [1, 7, 8, 9], [1, 2, 8, 9], [2, 7, 8, 9]);
  }

  lemma ExampleDampened()
    ensures !Safe([1, 3, 2, 4, 5], 0) && Safe([1, 3, 2, 4, 5], 1)
    ensures !Safe([8, 6, 4, 4, 1], 0) && Safe([8, 6, 4, 4, 1], 1)
  {
    Dampened([1, 3, 2, 4, 5], 1, [1, 2, 4, 5]);
    Dampened([8, 6, 4, 4, 1], 2, [8, 6, 4, 1]);
  }

  /** A rising step that is too long and a step that does not fall rule
      out both directions. */
  lemma NotGradual(r: seq<int>, i: nat, j: nat)
    requires i + 1 < |r| && j + 1 < |r|
    requires !(1 <= r[i + 1] - r[i] <= 3) && !(1 <= r[j] - r[j + 1] <= 3)
    ensures !Gradual(r)
  {
  }

  lemma SafeBoth(r: seq<int>)
    requires Gradual(r)
    ensures Safe(r, 0) && Safe(r, 1)
  {
    SafeStrict(r);
    SafeMonotone(r, 0);
  }

  /** A report whose first bad step is k and whose three retries are not
      gradual is unsafe at both tolerances. */
  lemma Unsafe(r: seq<int>, k: nat, o1: seq<int>, o2: seq<int>, o3: seq<int>)
    requires k + 1 < |r| && FirstBad(r, Direction(r), 0) == Some(k)
    requires o1 == Remove(r, k) && o2 == Remove(r, k + 1) && o3 == Remove(r, 0)
    requires !Gradual(o1) && !Gradual(o2) && !Gradual(o3)
    ensures !Safe(r, 0) && !Safe(r, 1)
  {
    SafeStrict(o1);
    SafeStrict(o2);
    SafeStrict(o3);
  }

  /** A report whose first bad step is k, and which turns gradual without
      level k or level k + 1, is unsafe alone and safe with tolerance 1. */
  lemma Dampened(r: seq<int>, k: nat, o: seq<int>)
    requires k + 1 < |r| && FirstBad(r, Direction(r), 0) == Some(k)
    requires o == Remove(r, k) || o == Remove(r, k + 1)
    requires Gradual(o)
    ensures !Safe(r, 0) && Safe(r, 1)
  {
    SafeStrict(o);
    BadStepUnsafe(r, k);
    RemovalSafe(r, k, o);
  }

  /** A report with a bad step is not safe with tolerance 0. */
  lemma BadStepUnsafe(r: seq<int>, k: nat)
    requires |r| >= 2 && FirstBad(r, Direction(r), 0) == Some(k)
    ensures !Safe(r, 0)
  {
  }

  /** Removing the level at or after the first bad step, leaving a report
      safe with tolerance 0, makes the report safe with tolerance 1. */
  lemma RemovalSafe(r: seq<int>, k: nat, o: seq<int>)
    requires |r| >= 2 && FirstBad(r, Direction(r), 0) == Some(k)
    requires o == Remove(r, k) || o == Remove(r, k + 1)
    requires Safe(o, 0)
    ensures Safe(r, 1)
  {
  }

  // ---------------------------------------------------------------------
  // The source as written

  /** `is_report_safe` as written. It reads `report[0]` and `report[1]`
      whenever the tolerance is not negative, so a report of fewer than two
      levels is a panic (`None`). `||` stops at the first true option, so a
      later option is not evaluated and cannot panic. */
  function SafeAsWritten(r: seq<int>, tolerance: int): (ok: Option<bool>)
    decreases |r|
  {
    if tolerance < 0 then Some(false)
    else if |r| < 2 then None
    else
      match FirstBad(r, Direction(r), 0)
      case None => Some(true)
      case Some(k) =>
        match SafeAsWritten(Remove(r, k), tolerance - 1)
        case None => None
        case Some(true) => Some(true)
        case Some(false) =>
          match SafeAsWritten(Remove(r, k + 1), tolerance - 1)
          case None => None
          case Some(true) => Some(true)
          case Some(false) => SafeAsWritten(Remove(r, 0), tolerance - 1)
  }

  /** Where the code as written answers, it answers as Safe does. */
  lemma {:induction false} AsWrittenAgrees(r: seq<int>, t: int)
    requires SafeAsWritten(r, t).Some?
    ensures SafeAsWritten(r, t).value == Safe(r, t)
    decreases |r|
  {
    if t >= 0 && |r| >= 2 {
      var b := FirstBad(r, Direction(r), 0);
      if b.Some? {
        var k := b.value;
        AsWrittenAgrees(Remove(r, k), t - 1);
        if SafeAsWritten(Remove(r, k), t - 1) == Some(false) {
          AsWrittenAgrees(Remove(r, k + 1), t - 1);
          if SafeAsWritten(Remove(r, k + 1), t - 1) == Some(false) {
            AsWrittenAgrees(Remove(r, 0), t - 1);
          }
        }
      }
    }
  }

  /** The code panics on a well-formed report: with one level tolerated,
      the two-level report 1 1 has a bad first step, and each retry is a
      one-level report whose `report[1]` is out of range. Without the bad
      level the report has no step at all, so it is safe. */
  lemma TwoLevelPanic()
    ensures SafeAsWritten([1, 1], 1).None?
    ensures Safe([1, 1], 1)
  {
    assert Remove([1, 1], 0) == [1];
  }
}

=== FILE: day03.dfy ===
/** Day 3: corrupted memory. Part 1 finds every `mul(a,b)` with one to
    three digits per factor and adds up the products. Part 2 also finds
    `do()` and `don't()`, which switch the following multiplications on
    and off. */
module Day03 {
  import opened Prelude

  datatype Instruction = Disable | Enable | Mult(a: nat, b: nat)

  // ---------------------------------------------------------------------
  // The scanner: the regular expressions as leftmost, non-overlapping
  // matches

  /** The number of consecutive ASCII digits starting at index i. */
  function DigitRun(s: string, i: nat): (k: nat)
    requires i <= |s|
    ensures i + k <= |s|
    ensures forall j | i <= j < i + k :: IsDigit(s[j])
    ensures i + k < |s| ==> !IsDigit(s[i + k])
    decreases |s| - i
  {
    if i < |s| && IsDigit(s[i]) then 1 + DigitRun(s, i + 1) else 0
  }

  /** A run of one to three digits at index i, ended by the character
      `stop`: the value and the index after `stop`. A longer run cannot
      match, because `\d{1,3}` must be followed directly by `stop`. */
  function NumberAt(s: string, i: nat, stop: char): (r: Option<(nat, nat)>)
    requires i <= |s|
    ensures r.Some? ==> i + 2 <= r.value.1 <= i + 4 && r.value.1 <= |s|
    ensures r.Some? ==> s[r.value.1 - 1] == stop && r.value.0 < 1000
  {
    var k := DigitRun(s, i);
    if 1 <= k <= 3 && i + k < |s| && s[i + k] == stop then
      NumberAt3(s[i..i + k]);
      Some((DigitsValue(s[i..i + k]), i + k + 1))
    else None
  }

  lemma NumberAt3(d: string)
    requires 1 <= |d| <= 3 && forall j | 0 <= j < |d| :: IsDigit(d[j])
    ensures DigitsValue(d) < 1000
  {
    DigitsBelow(d);
    assert Pow(10, |d|) <= 1000 by {
      assert Pow(10, 1) == 10 && Pow(10, 2) == 100 && Pow(10, 3) == 1000;
    }
  }

  lemma {:induction false} DigitsBelow(d: string)
    requires forall j | 0 <= j < |d| :: IsDigit(d[j])
    ensures DigitsValue(d) < Pow(10, |d|)
  {
    if |d| > 0 {
      var p := d[..|d| - 1];
      DigitsBelow(p);
      assert DigitsValue(d) == 10 * DigitsValue(p) + (d[|d| - 1] as int - '0' as int);
    }
  }

  /** `mul\((\d{1,3}),(\d{1,3})\)` matching at index i: both factors and
      the index after the match. */
  function MulAt(s: string, i: nat): (r: Option<(nat, nat, nat)>)
    requires i <= |s|
    ensures r.Some? ==> i < |s| && s[i] == 'm' && i + 8 <= r.value.2 <= |s|
    ensures r.Some? ==> r.value.0 < 1000 && r.value.1 < 1000
  {
    if i + 4 <= |s| && s[i..i + 4] == "mul(" then
      match NumberAt(s, i + 4, ',')
      case None => None
      case Some((a, j)) =>
        match NumberAt(s, j, ')')
        case None => None
        case Some((b, e)) =>
          assert s[i..i + 4][0] == s[i];
          Some((a, b, e))
    else None
  }

  /** The factors of every `mul` match from index i on, in order: the
      regex engine tries each start position in turn and resumes after a
      match. */
  function ScanMul(s: string, i: nat): (r: seq<(nat, nat)>)
    requires i <= |s|
    decreases |s| - i
  {
    if i == |s| then []
    else
      match MulAt(s, i)
      case Some((a, b, e)) => [(a, b)] + ScanMul(s, e)
      case None => ScanMul(s, i + 1)
  }

  /** The part 2 regex at index i: a `mul`, a `do()` or a `don't()`. */
  function InstructionAt(s: string, i: nat): (r: Option<(Instruction, nat)>)
    requires i <= |s|
    ensures r.Some? ==> i < r.value.1 <= |s|
    ensures r.Some? && r.value.0.Mult? <==> MulAt(s, i).Some?
    ensures r.Some? && !r.value.0.Mult? ==> s[i] == 'd'
    ensures r.Some? && !r.value.0.Mult? ==> forall j | i <= j < r.value.1 :: s[j] != 'm'
  {
    match MulAt(s, i)
    case Some((a, b, e)) => Some((Mult(a, b), e))
    case None =>
      if i + 4 <= |s| && s[i..i + 4] == "do()" then
        assert forall j | i <= j < i + 4 :: s[j] == "do()"[j - i];
        Some((Enable, i + 4))
      else if i + 7 <= |s| && s[i..i + 7] == "don't()" then
        assert forall j | i <= j < i + 7 :: s[j] == "don't()"[j - i];
        Some((Disable, i + 7))
      else None
  }

  function ScanInstructions(s: string, i: nat): (r: seq<Instruction>)
    requires i <= |s|
    decreases |s| - i
  {
    if i == |s| then []
    else
      match InstructionAt(s, i)
      case Some((x, e)) => [x] + ScanInstructions(s, e)
      case None => ScanInstructions(s, i + 1)
  }

  // ---------------------------------------------------------------------
  // The enable/disable fold

  /** The multiplications of an instruction list, switches dropped. */
  function Mults(xs: seq<Instruction>): (r: seq<(nat, nat)>)
    ensures |r| <= |xs|
  {
    if |xs| == 0 then []
    else if xs[0].Mult? then [(xs[0].a, xs[0].b)] + Mults(xs[1..])
    else Mults(xs[1..])
  }

  /** The sum of the products, as part 1 adds them. */
  function Products(ps: seq<(nat, nat)>): nat
  {
    if |ps| == 0 then 0 else ps[0].0 * ps[0].1 + Products(ps[1..])
  }

  /** The state after one instruction. */
  function Switch(x: Instruction, enabled: bool): bool
  {
    match x
    case Enable => true
    case Disable => false
    case Mult(_, _) => enabled
  }

  /** The loop of `solve_part_2`: a product is added only while enabled. */
  function Fold(xs: seq<Instruction>, enabled: bool): (r: nat)
    ensures r <= Products(Mults(xs))
  {
    if |xs| == 0 then 0
    else
      var rest := Fold(xs[1..], Switch(xs[0], enabled));
      match xs[0]
      case Mult(a, b) => (if enabled then a * b else 0) + rest
      case _ => rest
  }

  /** Reference for the state before index k: the most recent switch
      before k decides, and the initial state holds when there is none. */
  function LastSwitch(p: seq<Instruction>, init: bool): bool
  {
    if |p| == 0 then init
    else if p[|p| - 1].Enable? then true
    else if p[|p| - 1].Disable? then false
    else LastSwitch(p[..|p| - 1], init)
  }

  /** Reference sum: every multiplication whose most recent preceding
      switch enables it, or, with none, when the initial state does. */
  function Gated(xs: seq<Instruction>, init: bool): nat
  {
    if |xs| == 0 then 0
    else
      var p := xs[..|xs| - 1];
      var x := xs[|xs| - 1];
      Gated(p, init) + (if x.Mult? && LastSwitch(p, init) then x.a * x.b else 0)
  }

  lemma {:induction false} LastSwitchCons(x: Instruction, p: seq<Instruction>, init: bool)
    ensures LastSwitch([x] + p, init) == LastSwitch(p, Switch(x, init))
    decreases |p|
  {
    if |p| > 0 {
      assert ([x] + p)[..|p|] == [x] + p[..|p| - 1];
      LastSwitchCons(x, p[..|p| - 1], init);
    }
  }

  lemma {:induction false} GatedCons(x: Instruction, p: seq<Instruction>, init: bool)
    ensures Gated([x] + p, init)
      == (if x.Mult? && init then x.a * x.b else 0) + Gated(p, Switch(x, init))
    decreases |p|
  {
    if |p| == 0 {
      assert ([x] + p)[..0] == [];
    } else {
      var q := p[..|p| - 1];
      assert ([x] + p)[..|p|] == [x] + q;
      GatedCons(x, q, init);
      LastSwitchCons(x, q, init);
    }
  }

  /** The fold computes the reference: whether a multiplication counts
      depends only on the most recent switch before it. */
  lemma {:induction false} FoldIsGated(xs: seq<Instruction>, init: bool)
    ensures Fold(xs, init) == Gated(xs, init)
  {
    if |xs| > 0 {
      FoldIsGated(xs[1..], Switch(xs[0], init));
      assert xs == [xs[0]] + xs[1..];
      GatedCons(xs[0], xs[1..], init);
    }
  }

  /** Without a `don't()`, the enabled fold adds every product, as part 1
      does. */
  lemma {:induction false} FoldNoDisable(xs: seq<Instruction>)
    requires forall k | 0 <= k < |xs| :: !xs[k].Disable?
    ensures Fold(xs, true) == Products(Mults(xs))
  {
    if |xs| > 0 {
      assert forall k | 0 <= k < |xs| - 1 :: xs[1..][k] == xs[k + 1];
      FoldNoDisable(xs[1..]);
    }
  }

  /** Repeating a switch changes nothing. */
  lemma SwitchIdempotent(x: Instruction, rest: seq<Instruction>, enabled: bool)
    requires !x.Mult?
    ensures Fold([x, x] + rest, enabled) == Fold([x] + rest, enabled)
  {
    assert ([x, x] + rest)[1..] == [x] + rest;
    assert ([x] + rest)[1..] == rest;
    assert ([x, x] + rest)[1..][1..] == rest;
  }

  // ---------------------------------------------------------------------
  // The two parts

  /** Part 1 adds the products of exactly the multiplications part 2
      sees. */
  function Part1(lines: seq<string>): (r: nat)
    ensures r == Products(Mults(AllInstructions(lines)))
  {
    if |lines| == 0 then 0
    else
      MultsOfScan(lines[0], 0);
      MultsAppend(ScanInstructions(lines[0], 0), AllInstructions(lines[1..]));
      ProductsAppend(ScanMul(lines[0], 0), Mults(AllInstructions(lines[1..])));
      Products(ScanMul(lines[0], 0)) + Part1(lines[1..])
  }

  /** The instructions of every line, in order. */
  function AllInstructions(lines: seq<string>): seq<Instruction>
  {
    if |lines| == 0 then [] else ScanInstructions(lines[0], 0) + AllInstructions(lines[1..])
  }

  /** The fold starts enabled and carries its state across lines, so a
      multiplication counts exactly when the last switch before it, on any
      line, is a `do()` or there is none. */
  function Part2(lines: seq<string>): (r: nat)
    ensures r == Gated(AllInstructions(lines), true)
    ensures r <= Products(Mults(AllInstructions(lines)))
  {
    FoldIsGated(AllInstructions(lines), true);
    Fold(AllInstructions(lines), true)
  }

  /** Skipping over characters that are not 'm' skips no `mul` match. */
  lemma {:induction false} ScanMulSkip(s: string, i: nat, e: nat)
    requires i <= e <= |s|
    requires forall j | i <= j < e :: s[j] != 'm'
    ensures ScanMul(s, i) == ScanMul(s, e)
    decreases e - i
  {
    if i < e {
      ScanMulSkip(s, i + 1, e);
    }
  }

  /** The part 2 scanner finds exactly the multiplications part 1 finds,
      in the same order. */
  lemma {:induction false} MultsOfScan(s: string, i: nat)
    requires i <= |s|
    ensures Mults(ScanInstructions(s, i)) == ScanMul(s, i)
    decreases |s| - i
  {
    if i < |s| {
      match InstructionAt(s, i)
      case Some((x, e)) =>
        MultsOfScan(s, e);
        assert ([x] + ScanInstructions(s, e))[1..] == ScanInstructions(s, e);
        if !x.Mult? {
          ScanMulSkip(s, i, e);
        }
      case None =>
        MultsOfScan(s, i + 1);
    }
  }

  lemma {:induction false} MultsAppend(xs: seq<Instruction>, ys: seq<Instruction>)
    ensures Mults(xs + ys) == Mults(xs) + Mults(ys)
  {
    if |xs| > 0 {
      assert (xs + ys)[0] == xs[0];
      assert (xs + ys)[1..] == xs[1..] + ys;
      MultsAppend(xs[1..], ys);
    } else {
      assert xs + ys == ys;
    }
  }

  lemma {:induction false} ProductsAppend(a: seq<(nat, nat)>, b: seq<(nat, nat)>)
    ensures Products(a + b) == Products(a) + Products(b)
  {
    if |a| > 0 {
      assert (a + b)[0] == a[0];
      assert (a + b)[1..] == a[1..] + b;
      ProductsAppend(a[1..], b);
    } else {
      assert a + b == b;
    }
  }

  /** Switching products off only removes them: part 2 never exceeds
      part 1, and equals it when no `don't()` is found. */
  lemma Part2AtMostPart1(lines: seq<string>)
    ensures Part2(lines) <= Part1(lines)
    ensures (forall k | 0 <= k < |AllInstructions(lines)| :: !AllInstructions(lines)[k].Disable?)
            ==> Part2(lines) == Part1(lines)
  {
    if forall k | 0 <= k < |AllInstructions(lines)| :: !AllInstructions(lines)[k].Disable? {
      FoldNoDisable(AllInstructions(lines));
    }
  }

  /** `mul(a,b)` written out with factors below 1000 is matched as
      exactly those factors. */
  lemma MulRoundTrip(s: string, a: nat, b: nat)
    requires a < 1000 && b < 1000
    requires s == "mul(" + NatString(a) + "," + NatString(b) + ")"
    ensures MulAt(s, 0) == Some((a, b, |s|))
  {
    var sa, sb := NatString(a), NatString(b);
    FirstFactor(s, a, sb);
    SecondFactor(s, sa, b);
    assert s[0..4] == "mul(";
    MulAtFactors(s, a, b, 5 + |sa|, |s|);
  }

  /** A `mul(` followed by two factors that read back is matched as them. */
  lemma MulAtFactors(s: string, a: nat, b: nat, j: nat, e: nat)
    requires 4 <= |s| && s[0..4] == "mul("
    requires NumberAt(s, 4, ',') == Some((a, j))
    requires NumberAt(s, j, ')') == Some((b, e))
    ensures MulAt(s, 0) == Some((a, b, e))
  {
  }

  /** The first factor of a written-out `mul` is read back. */
  lemma FirstFactor(s: string, a: nat, sb: string)
    requires a < 1000 && s == "mul(" + NatString(a) + "," + sb + ")"
    ensures NumberAt(s, 4, ',') == Some((a, 5 + |NatString(a)|))
  {
    var sa := NatString(a);
    assert Pow(10, 3) == 1000 by {
      assert Pow(10, 1) == 10 && Pow(10, 2) == 100;
    }
    NatStringLength(a, 3);
    NatStringParses(a);
    forall j | 4 <= j < 4 + |sa| ensures IsDigit(s[j]) {
      assert s[j] == sa[j - 4];
    }
    assert s[4 + |sa|] == ',';
    DigitRunIs(s, 4, |sa|);
    assert s[4..4 + |sa|] == sa;
  }

  /** The second factor of a written-out `mul` is read back. */
  lemma SecondFactor(s: string, sa: string, b: nat)
    requires b < 1000 && s == "mul(" + sa + "," + NatString(b) + ")"
    ensures NumberAt(s, 5 + |sa|, ')') == Some((b, |s|))
  {
    var sb := NatString(b);
    var i := 5 + |sa|;
    assert Pow(10, 3) == 1000 by {
      assert Pow(10, 1) == 10 && Pow(10, 2) == 100;
    }
    NatStringLength(b, 3);
    NatStringParses(b);
    forall j | i <= j < i + |sb| ensures IsDigit(s[j]) {
      assert s[j] == sb[j - i];
    }
    assert s[i + |sb|] == ')';
    DigitRunIs(s, i, |sb|);
    assert s[i..i + |sb|] == sb;
  }

  lemma DigitRunIs(s: string, i: nat, k: nat)
    requires i + k < |s| && !IsDigit(s[i + k])
    requires forall j | i <= j < i + k :: IsDigit(s[j])
    ensures DigitRun(s, i) == k
    decreases k
  {
    if k > 0 {
      DigitRunIs(s, i + 1, k - 1);
    }
  }

  /** The second puzzle example's instructions: the products enabled
      give 48, while all products give 161. */
  lemma Example(xs: seq<Instruction>)
    requires xs == [Mult(2, 4), Disable, Mult(5, 5), Mult(11, 8), Enable, Mult(8, 5)]
    ensures Fold(xs, true) == 48
    ensures Products(Mults(xs)) == 161
  {
    assert xs[5..] == [Mult(8, 5)];
    assert Fold(xs[5..], true) == 40 && Products(Mults(xs[5..])) == 40;
    assert xs[4..] == [Enable] + xs[5..];
    assert Fold(xs[4..], false) == 40 && Products(Mults(xs[4..])) == 40;
    assert xs[3..] == [Mult(11, 8)] + xs[4..];
    assert Fold(xs[3..], false) == 40 && Products(Mults(xs[3..])) == 128;
    assert xs[2..] == [Mult(5, 5)] + xs[3..];
    assert Fold(xs[2..], false) == 40 && Products(Mults(xs[2..])) == 153;
    assert xs[1..] == [Disable] + xs[2..];
    assert Fold(xs[1..], true) == 40 && Products(Mults(xs[1..])) == 153;
    assert xs == [Mult(2, 4)] + xs[1..];
  }
}

=== FILE: day04.dfy ===
/** Day 4: a word search. Part 1 counts the windows of four letters that
    read XMAS in either direction, going right, down, up-right or
    down-right. Part 2 counts the 'A's crossed by two diagonal MAS. */
module Day04 {
  import opened Prelude

  /** The puzzle rows, as `load_data` keeps them: no row is empty. */
  type Grid = seq<string>

  /** Every row is non-empty and as wide as the first. */
  predicate Rectangular(g: Grid)
  {
    forall y | 0 <= y < |g| :: |g[y]| == |g[0]| > 0
  }

  function Width(g: Grid): nat
  {
    if |g| == 0 then 0 else |g[0]|
  }

  datatype Dir = Right | Down | UpRight | DownRight

  const AllDirs: set<Dir> := {Right, Down, UpRight, DownRight}

  /** The guard `solve_part_1` puts on each window. */
  predicate Fits(g: Grid, x: int, y: int, d: Dir)
  {
    0 <= x < Width(g) && 0 <= y < |g| &&
    match d
    case Right => x < Width(g) - 3
    case Down => y < |g| - 3
    case UpRight => x < Width(g) - 3 && y > 2
    case DownRight => x < Width(g) - 3 && y < |g| - 3
  }

  /** The four letters of a window, starting at (x, y). */
  function Word(g: Grid, x: int, y: int, d: Dir): (w: string)
    requires Rectangular(g) && Fits(g, x, y, d)
    ensures |w| == 4 && w[0] == g[y][x]
  {
    match d
    case Right => [g[y][x], g[y][x + 1], g[y][x + 2], g[y][x + 3]]
    case Down => [g[y][x], g[y + 1][x], g[y + 2][x], g[y + 3][x]]
    case UpRight => [g[y][x], g[y - 1][x + 1], g[y - 2][x + 2], g[y - 3][x + 3]]
    case DownRight => [g[y][x], g[y + 1][x + 1], g[y + 2][x + 2], g[y + 3][x + 3]]
  }

  predicate Matches(w: string)
  {
    w == "XMAS" || w == "SAMX"
  }

  function Reverse(w: string): (r: string)
    requires |w| == 4
  {
    [w[3], w[2], w[1], w[0]]
  }

  /** A window read backwards matches exactly when it matches. */
  lemma MatchesReverse(w: string)
    requires |w| == 4
    ensures Matches(Reverse(w)) <==> Matches(w)
  {
    if Matches(Reverse(w)) {
      assert w == Reverse(Reverse(w));
    }
  }

  /** An occurrence: the window at (x, y) in direction d fits and matches. */
  predicate Found(g: Grid, x: int, y: int, d: Dir)
    requires Rectangular(g)
  {
    Fits(g, x, y, d) && Matches(Word(g, x, y, d))
  }

  // ---------------------------------------------------------------------
  // Part 1 as written: per cell, collect the windows and count the hits

  function WindowIf(g: Grid, x: int, y: int, d: Dir): seq<string>
    requires Rectangular(g)
  {
    if Fits(g, x, y, d) then [Word(g, x, y, d)] else []
  }

  /** The windows the loop body collects at one cell, in its order. */
  function WindowsAt(g: Grid, x: int, y: int): seq<string>
    requires Rectangular(g)
  {
    WindowIf(g, x, y, Right) + WindowIf(g, x, y, Down)
      + WindowIf(g, x, y, UpRight) + WindowIf(g, x, y, DownRight)
  }

  function CountMatches(ws: seq<string>): (n: nat)
    ensures n <= |ws|
  {
    if |ws| == 0 then 0 else (if Matches(ws[0]) then 1 else 0) + CountMatches(ws[1..])
  }

  function CellCount(g: Grid, x: int, y: int): nat
    requires Rectangular(g)
  {
    CountMatches(WindowsAt(g, x, y))
  }

  /** The cells 0 .. n-1 of row y. */
  function RowCount(g: Grid, y: int, n: nat): nat
    requires Rectangular(g)
  {
    if n == 0 then 0 else RowCount(g, y, n - 1) + CellCount(g, n - 1, y)
  }

  /** The rows 0 .. n-1. */
  function GridCount(g: Grid, n: nat): nat
    requires Rectangular(g)
  {
    if n == 0 then 0 else GridCount(g, n - 1) + RowCount(g, n - 1, Width(g))
  }

  /** `solve_part_1`. An empty grid panics at `data[0]`; a width or
      height below 3 panics at `width - 3` or `height - 3` on the first
      cell. */
  function Part1(g: Grid): (r: Option<nat>)
    requires Rectangular(g)
    ensures r.None? <==> Width(g) < 3 || |g| < 3
  {
    if Width(g) < 3 || |g| < 3 then None else Some(GridCount(g, |g|))
  }

  // ---------------------------------------------------------------------
  // Part 1 as a set: every occurrence is counted exactly once

  /** A candidate (x, y, d) is an occurrence. */
  predicate IsOcc(g: Grid, o: (int, int, Dir))
    requires Rectangular(g)
  {
    Found(g, o.0, o.1, o.2)
  }

  /** The candidates of rows lo .. hi-1, cells 0 .. n-1 of each. */
  function Box(n: int, lo: int, hi: int): set<(int, int, Dir)>
  {
    set x: int, y: int, d: Dir | 0 <= x < n && lo <= y < hi && d in AllDirs :: (x, y, d)
  }

  /** Every occurrence in the grid. */
  function Occurrences(g: Grid): set<(int, int, Dir)>
    requires Rectangular(g)
  {
    set o | o in Box(Width(g), 0, |g|) && IsOcc(g, o)
  }

  // Counting hits cell by cell, for any test `hit` on candidates.

  function Hits(hit: ((int, int, Dir)) -> bool, s: set<(int, int, Dir)>): set<(int, int, Dir)>
  {
    set o | o in s && hit(o)
  }

  function Bit(b: bool): nat
  {
    if b then 1 else 0
  }

  function CellHits(hit: ((int, int, Dir)) -> bool, x: int, y: int): nat
  {
    Bit(hit((x, y, Right))) + Bit(hit((x, y, Down))) + Bit(hit((x, y, UpRight))) + Bit(hit((x, y, DownRight)))
  }

  function RowHits(hit: ((int, int, Dir)) -> bool, y: int, n: nat): nat
  {
    if n == 0 then 0 else RowHits(hit, y, n - 1) + CellHits(hit, n - 1, y)
  }

  function GridHits(hit: ((int, int, Dir)) -> bool, w: nat, n: nat): nat
  {
    if n == 0 then 0 else GridHits(hit, w, n - 1) + RowHits(hit, n - 1, w)
  }

  function Single(hit: ((int, int, Dir)) -> bool, o: (int, int, Dir)): set<(int, int, Dir)>
  {
    if hit(o) then {o} else {}
  }

  lemma CellHitsCard(hit: ((int, int, Dir)) -> bool, x: int, y: int)
    ensures CellHits(hit, x, y) == |Hits(hit, Cell(x, y))|
  {
    var a, b, c, e := Single(hit, (x, y, Right)), Single(hit, (x, y, Down)),
                      Single(hit, (x, y, UpRight)), Single(hit, (x, y, DownRight));
    CellHitsSplit(hit, x, y);
    assert |a + b| == |a| + |b| by {
      assert a * b == {};
    }
    assert |a + b + c| == |a + b| + |c| by {
      assert (a + b) * c == {};
    }
    assert |a + b + c + e| == |a + b + c| + |e| by {
      assert (a + b + c) * e == {};
    }
  }

  lemma CellHitsSplit(hit: ((int, int, Dir)) -> bool, x: int, y: int)
    ensures Hits(hit, Cell(x, y)) == Single(hit, (x, y, Right)) + Single(hit, (x, y, Down))
              + Single(hit, (x, y, UpRight)) + Single(hit, (x, y, DownRight))
  {
  }

  function Cell(x: int, y: int): set<(int, int, Dir)>
  {
    {(x, y, Right), (x, y, Down), (x, y, UpRight), (x, y, DownRight)}
  }

  lemma RowSplit(n: int, y: int)
    requires n > 0
    ensures Box(n, y, y + 1) == Box(n - 1, y, y + 1) + Cell(n - 1, y)
  {
    var prev, cell := Box(n - 1, y, y + 1), Cell(n - 1, y);
    forall o | o in Box(n, y, y + 1) ensures o in prev + cell {
      if o.0 < n - 1 {
        assert o in prev;
      }
    }
    forall o | o in prev + cell ensures o in Box(n, y, y + 1) {
      if o in cell {
        assert o.2 in AllDirs;
      }
    }
  }

  lemma GridSplit(w: int, n: int)
    requires n > 0
    ensures Box(w, 0, n) == Box(w, 0, n - 1) + Box(w, n - 1, n)
  {
    var prev, row := Box(w, 0, n - 1), Box(w, n - 1, n);
    forall o | o in Box(w, 0, n) ensures o in prev + row {
      if o.1 < n - 1 {
        assert o in prev;
      } else {
        assert o in row;
      }
    }
  }

  lemma BoxDisjoint(w: int, n: int)
    ensures Box(w, 0, n - 1) * Box(w, n - 1, n) == {}
  {
    var a, b := Box(w, 0, n - 1), Box(w, n - 1, n);
    forall o | o in a ensures o !in b {
      assert o.1 < n - 1;
    }
  }

  /** Hits in two disjoint candidate sets add up. */
  lemma HitsUnion(hit: ((int, int, Dir)) -> bool, s: set<(int, int, Dir)>, t: set<(int, int, Dir)>)
    requires s * t == {}
    ensures |Hits(hit, s + t)| == |Hits(hit, s)| + |Hits(hit, t)|
  {
    var hs, ht := Hits(hit, s), Hits(hit, t);
    assert Hits(hit, s + t) == hs + ht;
    assert hs * ht == {};
  }

  lemma {:induction false} RowHitsCard(hit: ((int, int, Dir)) -> bool, y: int, n: nat)
    ensures RowHits(hit, y, n) == |Hits(hit, Box(n, y, y + 1))|
  {
    if n > 0 {
      RowHitsCard(hit, y, n - 1);
      CellHitsCard(hit, n - 1, y);
      RowSplit(n, y);
      assert Box(n - 1, y, y + 1) * Cell(n - 1, y) == {};
      HitsUnion(hit, Box(n - 1, y, y + 1), Cell(n - 1, y));
    } else {
      assert Hits(hit, Box(n, y, y + 1)) == {};
    }
  }

  lemma {:induction false} GridHitsCard(hit: ((int, int, Dir)) -> bool, w: nat, n: nat)
    ensures GridHits(hit, w, n) == |Hits(hit, Box(w, 0, n))|
  {
    if n > 0 {
      GridHitsCard(hit, w, n - 1);
      RowHitsCard(hit, n - 1, w);
      GridSplit(w, n);
      BoxDisjoint(w, n);
      HitsUnion(hit, Box(w, 0, n - 1), Box(w, n - 1, n));
    } else {
      assert Hits(hit, Box(w, 0, n)) == {};
    }
  }

  // The loop's count is the hit count of `IsOcc`.

  lemma {:induction false} CountMatchesAppend(a: seq<string>, b: seq<string>)
    ensures CountMatches(a + b) == CountMatches(a) + CountMatches(b)
  {
    if |a| == 0 {
      assert a + b == b;
    } else {
      assert (a + b)[0] == a[0];
      assert (a + b)[1..] == a[1..] + b;
      CountMatchesAppend(a[1..], b);
    }
  }

  /** The windows collected at a cell that match are the occurrences
      starting there. */
  lemma CellCountIsHits(g: Grid, hit: ((int, int, Dir)) -> bool, x: int, y: int)
    requires Rectangular(g) && forall o :: hit(o) == IsOcc(g, o)
    ensures CellCount(g, x, y) == CellHits(hit, x, y)
  {
    var r, dn, ur, dr := WindowIf(g, x, y, Right), WindowIf(g, x, y, Down),
                         WindowIf(g, x, y, UpRight), WindowIf(g, x, y, DownRight);
    CountMatchesAppend(r + dn + ur, dr);
    CountMatchesAppend(r + dn, ur);
    CountMatchesAppend(r, dn);
    assert hit((x, y, Right)) == IsOcc(g, (x, y, Right));
    assert hit((x, y, Down)) == IsOcc(g, (x, y, Down));
    assert hit((x, y, UpRight)) == IsOcc(g, (x, y, UpRight));
    assert hit((x, y, DownRight)) == IsOcc(g, (x, y, DownRight));
  }

  lemma {:induction false} RowCountIsHits(g: Grid, hit: ((int, int, Dir)) -> bool, y: int, n: nat)
    requires Rectangular(g) && forall o :: hit(o) == IsOcc(g, o)
    ensures RowCount(g, y, n) == RowHits(hit, y, n)
  {
    if n > 0 {
      RowCountIsHits(g, hit, y, n - 1);
      CellCountIsHits(g, hit, n - 1, y);
    }
  }

  lemma {:induction false} GridCountIsHits(g: Grid, hit: ((int, int, Dir)) -> bool, n: nat)
    requires Rectangular(g) && forall o :: hit(o) == IsOcc(g, o)
    ensures GridCount(g, n) == GridHits(hit, Width(g), n)
  {
    if n > 0 {
      GridCountIsHits(g, hit, n - 1);
      RowCountIsHits(g, hit, n - 1, Width(g));
    }
  }

  /** Part 1 counts every occurrence exactly once. */
  lemma Part1IsOccurrences(g: Grid)
    requires Rectangular(g) && Part1(g).Some?
    ensures Part1(g).value == |Occurrences(g)|
  {
    var hit := o => IsOcc(g, o);
    GridCountIsHits(g, hit, |g|);
    GridHitsCard(hit, Width(g), |g|);
    assert Hits(hit, Box(Width(g), 0, |g|)) == Occurrences(g);
  }

  // ---------------------------------------------------------------------
  // Turning the grid upside down

  function Flip(g: Grid): (f: Grid)
    ensures |f| == |g|
    ensures forall y | 0 <= y < |g| :: f[y] == g[|g| - 1 - y]
    ensures Rectangular(g) ==> Rectangular(f) && Width(f) == Width(g)
  {
    seq(|g|, y requires 0 <= y < |g| => g[|g| - 1 - y])
  }

  lemma FlipTwice(g: Grid)
    ensures Flip(Flip(g)) == g
  {
  }

  /** Where an occurrence lands when the rows are reversed: a vertical
      window starts at its other end, and the two diagonals swap. */
  function FlipOcc(h: int, o: (int, int, Dir)): (int, int, Dir)
  {
    match o.2
    case Right => (o.0, h - 1 - o.1, Right)
    case Down => (o.0, h - 4 - o.1, Down)
    case UpRight => (o.0, h - 1 - o.1, DownRight)
    case DownRight => (o.0, h - 1 - o.1, UpRight)
  }

  lemma FoundFlip(g: Grid, x: int, y: int, d: Dir)
    requires Rectangular(g) && Found(g, x, y, d)
    ensures var o := FlipOcc(|g|, (x, y, d));
            0 <= o.0 < Width(g) && 0 <= o.1 < |g| && Found(Flip(g), o.0, o.1, o.2)
  {
    match d
    case Right => FlipRight(g, x, y);
    case Down => FlipDown(g, x, y);
    case UpRight => FlipUpRight(g, x, y);
    case DownRight => FlipDownRight(g, x, y);
  }

  lemma FlipRight(g: Grid, x: int, y: int)
    requires Rectangular(g) && Found(g, x, y, Right)
    ensures Found(Flip(g), x, |g| - 1 - y, Right)
  {
    var f := Flip(g);
    assert f[|g| - 1 - y] == g[y];
    assert Word(f, x, |g| - 1 - y, Right) == Word(g, x, y, Right);
  }

  lemma FlipDown(g: Grid, x: int, y: int)
    requires Rectangular(g) && Found(g, x, y, Down)
    ensures Found(Flip(g), x, |g| - 4 - y, Down)
  {
    var f, y' := Flip(g), |g| - 4 - y;
    assert f[y'] == g[y + 3] && f[y' + 1] == g[y + 2] && f[y' + 2] == g[y + 1] && f[y' + 3] == g[y];
    var w := Word(g, x, y, Down);
    assert Word(f, x, y', Down) == Reverse(w);
    MatchesReverse(w);
  }

  lemma FlipUpRight(g: Grid, x: int, y: int)
    requires Rectangular(g) && Found(g, x, y, UpRight)
    ensures Found(Flip(g), x, |g| - 1 - y, DownRight)
  {
    var f, y' := Flip(g), |g| - 1 - y;
    assert f[y'] == g[y] && f[y' + 1] == g[y - 1] && f[y' + 2] == g[y - 2] && f[y' + 3] == g[y - 3];
    assert Word(f, x, y', DownRight) == Word(g, x, y, UpRight);
  }

  lemma FlipDownRight(g: Grid, x: int, y: int)
    requires Rectangular(g) && Found(g, x, y, DownRight)
    ensures Found(Flip(g), x, |g| - 1 - y, UpRight)
  {
    var f, y' := Flip(g), |g| - 1 - y;
    assert f[y'] == g[y] && f[y' - 1] == g[y + 1] && f[y' - 2] == g[y + 2] && f[y' - 3] == g[y + 3];
    assert Word(f, x, y', UpRight) == Word(g, x, y, DownRight);
  }

  lemma InBox(o: (int, int, Dir), n: int, lo: int, hi: int)
    requires 0 <= o.0 < n && lo <= o.1 < hi
    ensures o in Box(n, lo, hi)
  {
    match o.2
    case Right =>
    case Down =>
    case UpRight =>
    case DownRight =>
  }

  /** An occurrence stays an occurrence, at its new place, upside down. */
  lemma FlipInOccurrences(g: Grid, o: (int, int, Dir))
    requires Rectangular(g) && o in Occurrences(g)
    ensures FlipOcc(|g|, o) in Occurrences(Flip(g))
  {
    FoundFlip(g, o.0, o.1, o.2);
    InBox(FlipOcc(|g|, o), Width(g), 0, |g|);
  }

  lemma FlipOccInvolution(h: int, o: (int, int, Dir))
    ensures FlipOcc(h, FlipOcc(h, o)) == o
  {
  }

  function FlipMap(h: int): ((int, int, Dir)) -> (int, int, Dir)
  {
    o => FlipOcc(h, o)
  }

  lemma FlipMapInjective(h: int, s: set<(int, int, Dir)>)
    ensures forall a, b | a in s && b in s && FlipMap(h)(a) == FlipMap(h)(b) :: a == b
  {
    forall a, b | a in s && b in s && FlipMap(h)(a) == FlipMap(h)(b) ensures a == b {
      FlipOccInvolution(h, a);
      FlipOccInvolution(h, b);
    }
  }

  lemma FlipImage(g: Grid)
    requires Rectangular(g)
    ensures Image(Occurrences(g), FlipMap(|g|)) == Occurrences(Flip(g))
  {
    FlipTwice(g);
    var occ, occ', f := Occurrences(g), Occurrences(Flip(g)), FlipMap(|g|);
    forall o | o in occ ensures f(o) in occ' {
      FlipInOccurrences(g, o);
    }
    forall o | o in occ' ensures o in Image(occ, f) {
      FlipInOccurrences(Flip(g), o);
      FlipOccInvolution(|g|, o);
      assert f(FlipOcc(|g|, o)) == o;
    }
  }

  /** Turning the grid upside down maps the occurrences one to one. */
  lemma OccurrencesFlip(g: Grid)
    requires Rectangular(g)
    ensures |Occurrences(Flip(g))| == |Occurrences(g)|
  {
    FlipMapInjective(|g|, Occurrences(g));
    ImageCard(Occurrences(g), FlipMap(|g|));
    FlipImage(g);
  }

  /** Part 1 is the same for the grid turned upside down. */
  lemma Part1Flip(g: Grid)
    requires Rectangular(g)
    ensures Part1(Flip(g)) == Part1(g)
  {
    FlipTwice(g);
    if Part1(g).Some? {
      Part1IsOccurrences(g);
      Part1IsOccurrences(Flip(g));
      OccurrencesFlip(g);
    }
  }

  // ---------------------------------------------------------------------
  // Part 2: crossed MAS

  predicate IsMas(w: string)
  {
    w == "MAS" || w == "SAM"
  }

  /** The cell is an 'A' off the border whose two diagonals both read
      MAS one way or the other. */
  predicate CrossAt(g: Grid, x: int, y: int)
    requires Rectangular(g)
  {
    0 < x < Width(g) - 1 && 0 < y < |g| - 1 && g[y][x] == 'A'
    && IsMas([g[y - 1][x - 1], 'A', g[y + 1][x + 1]])
    && IsMas([g[y - 1][x + 1], 'A', g[y + 1][x - 1]])
  }

  function CrossRow(g: Grid, y: int, n: nat): nat
    requires Rectangular(g)
  {
    if n == 0 then 0 else CrossRow(g, y, n - 1) + (if CrossAt(g, n - 1, y) then 1 else 0)
  }

  function CrossGrid(g: Grid, n: nat): nat
    requires Rectangular(g)
  {
    if n == 0 then 0 else CrossGrid(g, n - 1) + CrossRow(g, n - 1, Width(g))
  }

  /** `solve_part_2`. Only an empty grid panics, at `data[0]`. */
  function Part2(g: Grid): (r: Option<nat>)
    requires Rectangular(g)
    ensures r.None? <==> |g| == 0
  {
    if |g| == 0 then None else Some(CrossGrid(g, |g|))
  }

  /** The cells of rows lo .. hi-1, columns 0 .. n-1. */
  function Cells(n: int, lo: int, hi: int): set<(int, int)>
  {
    set x: int, y: int | 0 <= x < n && lo <= y < hi :: (x, y)
  }

  /** Every crossed cell in the grid. */
  function Crosses(g: Grid): set<(int, int)>
    requires Rectangular(g)
  {
    set c | c in Cells(Width(g), 0, |g|) && CrossAt(g, c.0, c.1)
  }

  // Counting marked cells row by row, for any test `mark` on cells.

  function Marked(mark: ((int, int)) -> bool, s: set<(int, int)>): set<(int, int)>
  {
    set c | c in s && mark(c)
  }

  function RowMarks(mark: ((int, int)) -> bool, y: int, n: nat): nat
  {
    if n == 0 then 0 else RowMarks(mark, y, n - 1) + Bit(mark((n - 1, y)))
  }

  function GridMarks(mark: ((int, int)) -> bool, w: nat, n: nat): nat
  {
    if n == 0 then 0 else GridMarks(mark, w, n - 1) + RowMarks(mark, n - 1, w)
  }

  lemma MarksUnion(mark: ((int, int)) -> bool, s: set<(int, int)>, t: set<(int, int)>)
    requires s * t == {}
    ensures |Marked(mark, s + t)| == |Marked(mark, s)| + |Marked(mark, t)|
  {
    var ms, mt := Marked(mark, s), Marked(mark, t);
    assert Marked(mark, s + t) == ms + mt;
    assert ms * mt == {};
  }

  lemma CellsRowSplit(n: int, y: int)
    requires n > 0
    ensures Cells(n, y, y + 1) == Cells(n - 1, y, y + 1) + {(n - 1, y)}
  {
    var prev, last := Cells(n - 1, y, y + 1), {(n - 1, y)};
    forall c | c in Cells(n, y, y + 1) ensures c in prev + last {
      if c.0 < n - 1 {
        assert c in prev;
      }
    }
  }

  lemma CellsGridSplit(w: int, n: int)
    requires n > 0
    ensures Cells(w, 0, n) == Cells(w, 0, n - 1) + Cells(w, n - 1, n)
  {
    var prev, row := Cells(w, 0, n - 1), Cells(w, n - 1, n);
    forall c | c in Cells(w, 0, n) ensures c in prev + row {
      if c.1 < n - 1 {
        assert c in prev;
      } else {
        assert c in row;
      }
    }
  }

  lemma {:induction false} RowMarksCard(mark: ((int, int)) -> bool, y: int, n: nat)
    ensures RowMarks(mark, y, n) == |Marked(mark, Cells(n, y, y + 1))|
  {
    if n > 0 {
      RowMarksCard(mark, y, n - 1);
      CellsRowSplit(n, y);
      assert Cells(n - 1, y, y + 1) * {(n - 1, y)} == {};
      MarksUnion(mark, Cells(n - 1, y, y + 1), {(n - 1, y)});
      var last := Marked(mark, {(n - 1, y)});
      assert last == if mark((n - 1, y)) then {(n - 1, y)} else {};
    } else {
      assert Marked(mark, Cells(n, y, y + 1)) == {};
    }
  }

  lemma {:induction false} GridMarksCard(mark: ((int, int)) -> bool, w: nat, n: nat)
    ensures GridMarks(mark, w, n) == |Marked(mark, Cells(w, 0, n))|
  {
    if n > 0 {
      GridMarksCard(mark, w, n - 1);
      RowMarksCard(mark, n - 1, w);
      CellsGridSplit(w, n);
      assert Cells(w, 0, n - 1) * Cells(w, n - 1, n) == {};
      MarksUnion(mark, Cells(w, 0, n - 1), Cells(w, n - 1, n));
    } else {
      assert Marked(mark, Cells(w, 0, n)) == {};
    }
  }

  lemma {:induction false} CrossRowIsMarks(g: Grid, mark: ((int, int)) -> bool, y: int, n: nat)
    requires Rectangular(g) && forall c :: mark(c) == CrossAt(g, c.0, c.1)
    ensures CrossRow(g, y, n) == RowMarks(mark, y, n)
  {
    if n > 0 {
      CrossRowIsMarks(g, mark, y, n - 1);
      assert mark((n - 1, y)) == CrossAt(g, n - 1, y);
    }
  }

  lemma {:induction false} CrossGridIsMarks(g: Grid, mark: ((int, int)) -> bool, n: nat)
    requires Rectangular(g) && forall c :: mark(c) == CrossAt(g, c.0, c.1)
    ensures CrossGrid(g, n) == GridMarks(mark, Width(g), n)
  {
    if n > 0 {
      CrossGridIsMarks(g, mark, n - 1);
      CrossRowIsMarks(g, mark, n - 1, Width(g));
    }
  }

  /** Part 2 counts every crossed cell exactly once. */
  lemma Part2IsCrosses(g: Grid)
    requires Rectangular(g) && |g| > 0
    ensures Part2(g) == Some(|Crosses(g)|)
  {
    var mark := (c: (int, int)) => CrossAt(g, c.0, c.1);
    CrossGridIsMarks(g, mark, |g|);
    GridMarksCard(mark, Width(g), |g|);
    assert Marked(mark, Cells(Width(g), 0, |g|)) == Crosses(g);
  }

  /** Upside down, a cross stays a cross: each diagonal becomes the other
      one read backwards. */
  lemma CrossFlip(g: Grid, x: int, y: int)
    requires Rectangular(g) && CrossAt(g, x, y)
    ensures CrossAt(Flip(g), x, |g| - 1 - y)
  {
    FlipTwice(g);
    var f, y' := Flip(g), |g| - 1 - y;
    assert f[y' - 1] == g[y + 1] && f[y' + 1] == g[y - 1];
  }

  lemma CrossFlipIn(g: Grid, c: (int, int))
    requires Rectangular(g) && c in Crosses(g)
    ensures CrossMap(|g|)(c) in Crosses(Flip(g))
  {
    CrossFlip(g, c.0, c.1);
    var c' := CrossMap(|g|)(c);
    assert c' in Cells(Width(g), 0, |g|) by {
      assert c' == (c'.0, c'.1);
    }
  }

  function CrossMap(h: int): ((int, int)) -> (int, int)
  {
    (c: (int, int)) => (c.0, h - 1 - c.1)
  }

  lemma CrossImage(g: Grid)
    requires Rectangular(g)
    ensures Image(Crosses(g), CrossMap(|g|)) == Crosses(Flip(g))
  {
    FlipTwice(g);
    var cs, cs', f := Crosses(g), Crosses(Flip(g)), CrossMap(|g|);
    forall c | c in cs ensures f(c) in cs' {
      CrossFlipIn(g, c);
    }
    forall c | c in cs' ensures c in Image(cs, f) {
      CrossFlipIn(Flip(g), c);
      assert f(f(c)) == c;
    }
  }

  /** Part 2 is the same for the grid turned upside down. */
  lemma Part2Flip(g: Grid)
    requires Rectangular(g)
    ensures Part2(Flip(g)) == Part2(g)
  {
    if |g| > 0 {
      ImageCard(Crosses(g), CrossMap(|g|));
      CrossImage(g);
      Part2IsCrosses(g);
      Part2IsCrosses(Flip(g));
    }
  }
}

=== FILE: day05.dfy ===
/** Day 05: page-ordering rules. A page list is valid when every rule whose
    two pages both occur has its first page first; invalid lists are
    repaired by moving the first page of a broken rule just before the
    second, for a bounded number of passes. */
module Day05 {
  import opened Prelude

  datatype Rule = Rule(first: nat, second: nat)

  /** Position of the first occurrence of x. */
  function IndexOf(p: seq<nat>, x: nat): (i: nat)
    requires x in p
    ensures i < |p| && p[i] == x && x !in p[..i]
  {
    if p[0] == x then 0
    else
      assert x in p[1..];
      var j := IndexOf(p[1..], x);
      assert p[..j + 1] == [p[0]] + p[1..][..j];
      j + 1
  }

  lemma IndexOfUnique(p: seq<nat>, x: nat, j: nat)
    requires j < |p| && p[j] == x && x !in p[..j]
    ensures IndexOf(p, x) == j
  {
  }

  /** A rule is respected when it does not apply, or its first page occurs
      no later than its second. */
  predicate Holds(p: seq<nat>, r: Rule)
  {
    r.first in p && r.second in p ==> IndexOf(p, r.first) <= IndexOf(p, r.second)
  }

  predicate Ordered(p: seq<nat>, rules: seq<Rule>)
  {
    forall i | 0 <= i < |rules| :: Holds(p, rules[i])
  }

  /** `validate_page`: scan the rules, failing at the first one broken. It
      accepts exactly the pages that respect every rule; with no rules
      every page is valid. */
  function Validate(p: seq<nat>, rules: seq<Rule>): (ok: bool)
    ensures ok <==> Ordered(p, rules)
  {
    if |rules| == 0 then true
    else
      var r := rules[0];
      assert forall i | 1 <= i < |rules| :: rules[1..][i - 1] == rules[i];
      if r.first in p && r.second in p && IndexOf(p, r.first) > IndexOf(p, r.second) then false
      else Validate(p, rules[1..])
  }

  /** One rule of a repair pass: when the first page comes after the second,
      remove it and insert it at the second page's position. */
  function Correct(p: seq<nat>, r: Rule): (q: seq<nat>)
    ensures |q| == |p| && multiset(q) == multiset(p)
    ensures Holds(q, r)
    ensures Holds(p, r) ==> q == p
    ensures !Holds(p, r) ==>
      var i2 := IndexOf(p, r.second);
      i2 + 1 < |q| && q[i2] == r.first && q[i2 + 1] == r.second
  {
    if r.first in p && r.second in p then
      var i1, i2 := IndexOf(p, r.first), IndexOf(p, r.second);
      if i1 > i2 then
        var q := p[..i2] + [r.first] + p[i2..i1] + p[i1 + 1..];
        CorrectFacts(p, r, i1, i2, q);
        q
      else p
    else p
  }

  lemma CorrectFacts(p: seq<nat>, r: Rule, i1: nat, i2: nat, q: seq<nat>)
    requires r.first in p && r.second in p
    requires i1 == IndexOf(p, r.first) && i2 == IndexOf(p, r.second) && i1 > i2
    requires q == p[..i2] + [r.first] + p[i2..i1] + p[i1 + 1..]
    ensures |q| == |p| && multiset(q) == multiset(p)
    ensures q[i2] == r.first && q[i2 + 1] == r.second
    ensures IndexOf(q, r.first) <= i2 && IndexOf(q, r.second) == i2 + 1
  {
    MoveBackPermutes(p, i1, i2, q);
    assert q[..i2 + 1] == p[..i2] + [r.first];
    assert q[i2 + 1] == p[i2];
    assert r.first != r.second;
    IndexOfUnique(q, r.second, i2 + 1);
    assert r.first in q[..i2 + 1];
  }

  lemma MoveBackPermutes(p: seq<nat>, i1: nat, i2: nat, q: seq<nat>)
    requires i2 < i1 < |p|
    requires q == p[..i2] + [p[i1]] + p[i2..i1] + p[i1 + 1..]
    ensures |q| == |p| && multiset(q) == multiset(p)
  {
    assert p == p[..i2] + p[i2..i1] + [p[i1]] + p[i1 + 1..];
  }

  /** One repair pass: the rules in order, each on the result of the last. */
  function FixPass(p: seq<nat>, rules: seq<Rule>): (q: seq<nat>)
    ensures |q| == |p| && multiset(q) == multiset(p)
    ensures Ordered(p, rules) ==> q == p
    decreases |rules|
  {
    if |rules| == 0 then p
    else
      assert Ordered(p, rules) ==> Holds(p, rules[0]) && Ordered(p, rules[1..]) by {
        assert forall i | 0 <= i < |rules| - 1 :: rules[1..][i] == rules[i + 1];
      }
      FixPass(Correct(p, rules[0]), rules[1..])
  }

  /** `fix_page`: with depth left, run a pass and stop as soon as the result
      is valid, otherwise recurse with one less depth. */
  function FixPage(p: seq<nat>, rules: seq<Rule>, depth: nat): (q: seq<nat>)
    ensures |q| == |p| && multiset(q) == multiset(p)
    ensures depth == 0 ==> q == p
    ensures Ordered(p, rules) ==> q == p
    decreases depth
  {
    if depth == 0 then p
    else
      var corrected := FixPass(p, rules);
      if Validate(corrected, rules) then corrected
      else FixPage(corrected, rules, depth - 1)
  }

  function Middle(p: seq<nat>): (m: nat)
    requires |p| > 0
    ensures m in p
  {
    p[|p| / 2]
  }

  predicate NonEmptyPages(pages: seq<seq<nat>>)
  {
    forall i | 0 <= i < |pages| :: |pages[i]| > 0
  }

  /** Sum of the middles of all pages: the most either part can reach. */
  function AllMiddles(pages: seq<seq<nat>>): nat
    requires NonEmptyPages(pages)
  {
    if |pages| == 0 then 0 else Middle(pages[0]) + AllMiddles(pages[1..])
  }

  /** Part 1: sum of the middle pages of the valid lists. */
  function Part1(pages: seq<seq<nat>>, rules: seq<Rule>): (r: nat)
    requires NonEmptyPages(pages)
    ensures r <= AllMiddles(pages)
  {
    if |pages| == 0 then 0
    else (if Validate(pages[0], rules) then Middle(pages[0]) else 0) + Part1(pages[1..], rules)
  }

  /** Part 2: sum of the middle pages of the invalid lists after two
      repair passes. */
  function Part2(pages: seq<seq<nat>>, rules: seq<Rule>): (r: nat)
    requires NonEmptyPages(pages)
    ensures r <= UnorderedMaxes(pages, rules)
    ensures (forall i | 0 <= i < |pages| :: Ordered(pages[i], rules)) ==> r == 0
  {
    if |pages| == 0 then 0
    else
      RepairedMiddle(pages[0], rules);
      (if !Validate(pages[0], rules) then Middle(FixPage(pages[0], rules, 2)) else 0)
      + Part2(pages[1..], rules)
  }

  /** The largest page of a non-empty list. */
  function MaxPage(p: seq<nat>): (m: nat)
    requires |p| > 0
    ensures m in p && forall i | 0 <= i < |p| :: p[i] <= m
  {
    if |p| == 1 then p[0]
    else
      var t := MaxPage(p[1..]);
      if p[0] >= t then p[0] else t
  }

  /** Reference bound for part 2: the largest page of every list that
      breaks a rule. */
  function UnorderedMaxes(pages: seq<seq<nat>>, rules: seq<Rule>): nat
    requires NonEmptyPages(pages)
  {
    if |pages| == 0 then 0
    else
      (if !Ordered(pages[0], rules) then MaxPage(pages[0]) else 0)
      + UnorderedMaxes(pages[1..], rules)
  }

  /** The two parts split the lists: with every list valid, part 1 sums all
      middles and part 2 is zero. */
  lemma {:induction false} AllValid(pages: seq<seq<nat>>, rules: seq<Rule>)
    requires NonEmptyPages(pages)
    requires forall i | 0 <= i < |pages| :: Ordered(pages[i], rules)
    ensures Part1(pages, rules) == AllMiddles(pages)
    ensures Part2(pages, rules) == 0
  {
    if |pages| > 0 {
      AllValid(pages[1..], rules);
    }
  }

  /** With no list valid, part 1 is zero. */
  lemma {:induction false} NoneValid(pages: seq<seq<nat>>, rules: seq<Rule>)
    requires NonEmptyPages(pages)
    requires forall i | 0 <= i < |pages| :: !Ordered(pages[i], rules)
    ensures Part1(pages, rules) == 0
  {
    if |pages| > 0 {
      NoneValid(pages[1..], rules);
    }
  }

  /** The page part 2 adds for a list is one of that list's own pages. */
  lemma RepairedMiddle(p: seq<nat>, rules: seq<Rule>)
    requires |p| > 0
    ensures Middle(FixPage(p, rules, 2)) in multiset(p)
  {
    var q := FixPage(p, rules, 2);
    assert Middle(q) in multiset(q);
  }
}

=== FILE: day06.dfy ===
/** Day 06: a guard walks a grid, stepping forward while the cell ahead is
    free and turning right in place when it is an obstacle, until it walks
    off the grid. The path search records every (facing, position) state and
    reports a loop as soon as one recurs. */
module Day06 {
  import opened Prelude

  datatype Direction = Up | Right | Down | Left
  datatype Point = Point(x: int, y: int)
  datatype Guard = Guard(facing: Direction, position: Point)
  datatype Map = Map(width: int, height: int, obstacles: set<Point>)
  datatype PathResult = Exited(states: set<Guard>) | Loop

  /** Clockwise quarter turn, with y growing downwards. */
  function TurnRight(d: Direction): Direction
  {
    match d
    case Up => Right
    case Right => Down
    case Down => Left
    case Left => Up
  }

  /** A turn always changes the facing, and four turns restore it. */
  lemma FourTurns(d: Direction)
    ensures TurnRight(d) != d
    ensures TurnRight(TurnRight(TurnRight(TurnRight(d)))) == d
  {
    match d
    case Up =>
    case Right =>
    case Down =>
    case Left =>
  }

  function Ahead(p: Point, d: Direction): Point
  {
    match d
    case Up => Point(p.x, p.y - 1)
    case Right => Point(p.x + 1, p.y)
    case Down => Point(p.x, p.y + 1)
    case Left => Point(p.x - 1, p.y)
  }

  predicate InGrid(p: Point, m: Map)
  {
    0 <= p.x < m.width && 0 <= p.y < m.height
  }

  /** `move_guard`: leave the grid (None), step onto a free cell, or turn
      right in place before an obstacle. */
  function Move(g: Guard, m: Map): (r: Option<Guard>)
    ensures r.None? <==> !InGrid(Ahead(g.position, g.facing), m)
    ensures r.Some? && Ahead(g.position, g.facing) !in m.obstacles ==>
      r.value.facing == g.facing && r.value.position == Ahead(g.position, g.facing)
    ensures r.Some? && Ahead(g.position, g.facing) in m.obstacles ==>
      r.value.facing == TurnRight(g.facing) && r.value.position == g.position
    ensures r.Some? ==> InGrid(r.value.position, m) || r.value.position == g.position
  {
    var next := Ahead(g.position, g.facing);
    if !InGrid(next, m) then None
    else if next in m.obstacles then Some(Guard(TurnRight(g.facing), g.position))
    else Some(Guard(g.facing, next))
  }

  // -------------------------------------------------------------------
  // The walk as a sequence of states.

  /** The state after n moves, or None once the guard has left. */
  function Iterate(g: Guard, m: Map, n: nat): Option<Guard>
  {
    if n == 0 then Some(g)
    else
      match Iterate(g, m, n - 1)
      case None => None
      case Some(h) => Move(h, m)
  }

  /** The guard never leaves the grid. */
  ghost predicate Forever(g: Guard, m: Map)
  {
    forall n: nat :: Iterate(g, m, n).Some?
  }

  /** Some state recurs after a later number of moves. */
  ghost predicate Recurs(g: Guard, m: Map)
  {
    exists i: nat, j: nat | i < j :: Iterate(g, m, j).Some? && Iterate(g, m, i) == Iterate(g, m, j)
  }

  /** The states of the first n moves, the start included. */
  ghost function Visited(g: Guard, m: Map, n: nat): set<Guard>
  {
    set i | 0 <= i <= n && Iterate(g, m, i).Some? :: Iterate(g, m, i).value
  }

  /** The guard is still on the map after k moves, leaves with the next one,
      and `states` are all the states it took. */
  ghost predicate ExitsAfter(g: Guard, m: Map, k: nat, states: set<Guard>)
  {
    Iterate(g, m, k).Some? && Iterate(g, m, k + 1).None? && states == Visited(g, m, k)
  }

  lemma {:induction false} NoneStays(g: Guard, m: Map, a: nat, b: nat)
    requires a <= b && Iterate(g, m, a).None?
    ensures Iterate(g, m, b).None?
    decreases b - a
  {
    if a < b {
      NoneStays(g, m, a, b - 1);
    }
  }

  lemma {:induction false} Shifted(g: Guard, m: Map, i: nat, j: nat, t: nat)
    requires Iterate(g, m, i) == Iterate(g, m, j)
    ensures Iterate(g, m, i + t) == Iterate(g, m, j + t)
  {
    if t > 0 {
      Shifted(g, m, i, j, t - 1);
    }
  }

  /** A recurring state makes the walk periodic, so it never ends. */
  lemma {:induction false} RecursForever(g: Guard, m: Map, i: nat, j: nat, n: nat)
    requires i < j && Iterate(g, m, j).Some? && Iterate(g, m, i) == Iterate(g, m, j)
    ensures Iterate(g, m, n).Some?
    decreases n
  {
    if n <= j {
      if Iterate(g, m, n).None? {
        NoneStays(g, m, n, j);
      }
    } else {
      Shifted(g, m, i, j, n - j);
      assert i + (n - j) == n - (j - i);
      RecursForever(g, m, i, j, n - (j - i));
    }
  }

  // -------------------------------------------------------------------
  // The path search.

  function Directions(): set<Direction>
  {
    {Up, Right, Down, Left}
  }

  lemma AllDirections(d: Direction)
    ensures d in Directions()
  {
    match d
    case Up =>
    case Right =>
    case Down =>
    case Left =>
  }

  /** Every state the walk can reach: a position on the map, or the start's
      position, with any facing. It is finite, which bounds the search. */
  ghost function Universe(start: Guard, m: Map): set<Guard>
  {
    (set d, x, y | d in Directions() && 0 <= x < m.width && 0 <= y < m.height :: Guard(d, Point(x, y)))
    + (set d | d in Directions() :: Guard(d, start.position))
  }

  lemma InUniverse(start: Guard, m: Map, g: Guard)
    requires InGrid(g.position, m) || g.position == start.position
    ensures g in Universe(start, m)
  {
    AllDirections(g.facing);
    if InGrid(g.position, m) {
      var x, y := g.position.x, g.position.y;
      assert g == Guard(g.facing, Point(x, y));
    }
  }

  lemma VisitedStep(g: Guard, m: Map, n: nat)
    requires Iterate(g, m, n + 1).Some?
    ensures Visited(g, m, n + 1) == Visited(g, m, n) + {Iterate(g, m, n + 1).value}
  {
  }

  lemma VisitedStart(g: Guard, m: Map)
    ensures Visited(g, m, 0) == {g}
  {
    assert Iterate(g, m, 0) == Some(g);
  }

  /** One more move from the n-th state keeps the search's invariant. */
  lemma StepKeeps(start: Guard, m: Map, g: Guard, n: nat, h: Guard, path: set<Guard>)
    requires Tracking(start, m, g, n, path) && Move(g, m) == Some(h)
    ensures Tracking(start, m, h, n + 1, path + {h})
    ensures h !in path ==> |Universe(start, m) - (path + {h})| < |Universe(start, m) - path|
    ensures h in path ==> Recurs(start, m)
  {
    VisitedStep(start, m, n);
    InUniverse(start, m, h);
    if h in path {
      FoundRecurrence(start, m, n, h);
    } else {
      Shrinks(Universe(start, m), path, h);
    }
  }

  lemma ExitFound(start: Guard, m: Map, g: Guard, n: nat, path: set<Guard>)
    requires Tracking(start, m, g, n, path) && Move(g, m).None?
    ensures exists k: nat :: ExitsAfter(start, m, k, path)
  {
    assert ExitsAfter(start, m, n, path);
  }

  /** Meeting a recorded state again is a recurrence. */
  lemma FoundRecurrence(start: Guard, m: Map, n: nat, h: Guard)
    requires Iterate(start, m, n + 1) == Some(h) && h in Visited(start, m, n)
    ensures Recurs(start, m)
  {
    var i :| 0 <= i <= n && Iterate(start, m, i).Some? && Iterate(start, m, i).value == h;
    assert Iterate(start, m, i) == Iterate(start, m, n + 1);
  }

  lemma Shrinks<T>(u: set<T>, path: set<T>, h: T)
    requires h in u && h !in path
    ensures |u - (path + {h})| < |u - path|
  {
    assert (u - path) - {h} == u - (path + {h});
  }

  /** The search's invariant: `g` is the state after n moves, and `path`
      holds every state so far, all within the universe. */
  ghost predicate Tracking(start: Guard, m: Map, g: Guard, n: nat, path: set<Guard>)
  {
    && Iterate(start, m, n) == Some(g)
    && path == Visited(start, m, n)
    && (InGrid(g.position, m) || g.position == start.position)
    && path <= Universe(start, m)
  }

  /** The loop of `get_guard_path`. */
  function PathFrom(start: Guard, m: Map, g: Guard, n: nat, path: set<Guard>): PathResult
    requires Tracking(start, m, g, n, path)
    decreases |Universe(start, m) - path|
  {
    match Move(g, m)
    case None => Exited(path)
    case Some(h) =>
      StepKeeps(start, m, g, n, h, path);
      if h in path then Loop
      else PathFrom(start, m, h, n + 1, path + {h})
  }

  /** A reported loop is a recurring state; a reported exit comes with the
      walk's full set of states. */
  lemma {:induction false} PathFromSound(start: Guard, m: Map, g: Guard, n: nat, path: set<Guard>)
    requires Tracking(start, m, g, n, path)
    ensures PathFrom(start, m, g, n, path).Loop? ==> Recurs(start, m)
    ensures PathFrom(start, m, g, n, path).Exited? ==>
      exists k: nat :: ExitsAfter(start, m, k, PathFrom(start, m, g, n, path).states)
    decreases |Universe(start, m) - path|
  {
    match Move(g, m)
    case None =>
      ExitFound(start, m, g, n, path);
    case Some(h) =>
      StepKeeps(start, m, g, n, h, path);
      if h !in path {
        PathFromSound(start, m, h, n + 1, path + {h});
      }
  }

  /** `get_guard_path`, starting with the start state recorded. */
  function GuardPath(start: Guard, m: Map): (r: PathResult)
    ensures r.Loop? ==> Recurs(start, m)
    ensures r.Exited? ==> exists k: nat :: ExitsAfter(start, m, k, r.states)
  {
    VisitedStart(start, m);
    InUniverse(start, m, start);
    PathFromSound(start, m, start, 0, {start});
    PathFrom(start, m, start, 0, {start})
  }

  /** The search reports a loop exactly when the guard never leaves; when it
      leaves, the states returned are exactly those of its walk. */
  lemma GuardPathClassifies(start: Guard, m: Map)
    ensures GuardPath(start, m).Loop? <==> Forever(start, m)
  {
    match GuardPath(start, m)
    case Loop =>
      var i: nat, j: nat :| i < j && Iterate(start, m, j).Some? && Iterate(start, m, i) == Iterate(start, m, j);
      forall n: nat ensures Iterate(start, m, n).Some? {
        RecursForever(start, m, i, j, n);
      }
    case Exited(states) =>
      var k: nat :| ExitsAfter(start, m, k, states);
      assert Iterate(start, m, k + 1).None?;
  }

  /** `get_guard_visited`: the positions of the walk; a loop panics. */
  function GuardVisited(start: Guard, m: Map): (r: Option<set<Point>>)
    ensures r.Some? <==> !Forever(start, m)
    ensures r.Some? ==> start.position in r.value
  {
    GuardPathClassifies(start, m);
    match GuardPath(start, m)
    case Loop => None
    case Exited(states) =>
      assert start in states by {
        var k: nat :| ExitsAfter(start, m, k, states);
        assert start == Iterate(start, m, 0).value;
      }
      Some(set g | g in states :: g.position)
  }

  /** Part 1: the number of distinct positions the guard visits. */
  function Part1(start: Guard, m: Map): (r: Option<nat>)
    ensures r.Some? <==> !Forever(start, m)
    ensures r.Some? ==> r.value >= 1
  {
    match GuardVisited(start, m)
    case None => None
    case Some(pts) => Some(|pts|)
  }

  function AddObstacle(m: Map, p: Point): Map
  {
    Map(m.width, m.height, m.obstacles + {p})
  }

  /** Part 2: among the visited positions, those where one extra obstacle
      traps the guard in a loop. Width and height are kept. */
  function Part2(start: Guard, m: Map): (r: Option<nat>)
    ensures r.Some? <==> !Forever(start, m)
    ensures r.Some? ==> r.value == |set p | p in GuardVisited(start, m).value && Forever(start, AddObstacle(m, p))|
    ensures r.Some? ==> r.value <= |GuardVisited(start, m).value|
  {
    match GuardVisited(start, m)
    case None => None
    case Some(pts) =>
      var traps := set p | p in pts && GuardPath(start, AddObstacle(m, p)).Loop?;
      assert traps == set p | p in pts && Forever(start, AddObstacle(m, p)) by {
        forall p | p in pts {
          GuardPathClassifies(start, AddObstacle(m, p));
        }
      }
      assert traps <= pts;
      SubsetCard(traps, pts);
      Some(|traps|)
  }
}

=== FILE: day07.dfy ===
/** Day 07: calibration equations. A line is valid when its values, combined
    left to right with the allowed operators, can produce the target; the
    validator works backwards from the last value. */
module Day07 {
  import opened Prelude

  datatype Operation = Add | Multiply | Concatenate

  datatype Equation = Equation(target: nat, values: seq<nat>)

  /** Every value after the first is positive: the validator divides by it
      and takes its decimal logarithm. */
  predicate TailPositive(vs: seq<nat>)
  {
    forall i | 1 <= i < |vs| :: vs[i] > 0
  }

  /** Applying an operator forwards, left to right. */
  function Apply(op: Operation, acc: nat, v: nat): nat
  {
    match op
    case Add => acc + v
    case Multiply => acc * v
    case Concatenate => acc * Pow(10, DecimalDigits(v)) + v
  }

  /** One backward step of `validate`: the target the remaining values must
      reach, or `None` when this operator is skipped (`continue`). */
  function Undo(op: Operation, t: nat, v: nat): Option<nat>
    requires v > 0
  {
    match op
    case Add => if v > t then None else Some(t - v)
    case Multiply => if t % v != 0 then None else Some(t / v)
    case Concatenate =>
      var p := Pow(10, DecimalDigits(v));
      if v > t || (t - v) % p != 0 then None else Some((t - v) / p)
  }

  /** Undoing is the exact inverse of applying: the backward step yields e
      precisely when e combined with v gives t. */
  lemma UndoApply(op: Operation, t: nat, v: nat, e: nat)
    requires v > 0
    ensures Undo(op, t, v) == Some(e) <==> Apply(op, e, v) == t
  {
    match op
    case Add =>
    case Multiply =>
      if e * v == t {
        DivModUniqueRight(t, v, e, 0);
      }
    case Concatenate =>
      var p := Pow(10, DecimalDigits(v));
      if e * p + v == t {
        DivModUniqueRight(t - v, p, e, 0);
      }
  }

  /** `validate`: with one value, compare it with the target; with more,
      try the operators in order on the last value; with none, fail. */
  function Validate(t: nat, vs: seq<nat>, ops: seq<Operation>): (r: bool)
    requires TailPositive(vs)
    ensures r ==> t in Evals(vs, ops)
    decreases |vs|, |ops| + 1
  {
    if |vs| == 1 then vs[0] == t
    else if |vs| > 1 then TryOps(t, vs, ops, 0)
    else false
  }

  function TryOps(t: nat, vs: seq<nat>, ops: seq<Operation>, j: nat): (r: bool)
    requires TailPositive(vs) && |vs| > 1 && j <= |ops|
    ensures r ==> t in Evals(vs, ops)
    decreases |vs|, |ops| - j
  {
    if j == |ops| then false
    else
      match Undo(ops[j], t, vs[|vs| - 1])
      case None => TryOps(t, vs, ops, j + 1)
      case Some(nt) =>
        var found := Validate(nt, vs[..|vs| - 1], ops);
        UndoApply(ops[j], t, vs[|vs| - 1], nt);
        if found then EvalsStep(vs, ops, nt, ops[j]); true else TryOps(t, vs, ops, j + 1)
  }

  /** One more value: an earlier result combined with it by an allowed
      operator is a result. */
  lemma EvalsStep(vs: seq<nat>, ops: seq<Operation>, e: nat, op: Operation)
    requires |vs| > 1 && e in Evals(vs[..|vs| - 1], ops) && op in ops
    ensures Apply(op, e, vs[|vs| - 1]) in Evals(vs, ops)
  {
  }

  /** Reference: every result of evaluating the values left to right with
      operators drawn from `ops`. */
  function Evals(vs: seq<nat>, ops: seq<Operation>): set<nat>
  {
    if |vs| == 0 then {}
    else if |vs| == 1 then {vs[0]}
    else
      var before := Evals(vs[..|vs| - 1], ops);
      set e, op | e in before && op in ops :: Apply(op, e, vs[|vs| - 1])
  }

  /** Some earlier result combined with the last value by one of `ops` gives t. */
  predicate ReachedBy(before: set<nat>, ops: seq<Operation>, v: nat, t: nat)
  {
    exists e, op | e in before && op in ops :: Apply(op, e, v) == t
  }

  /** The validator is sound and complete: it accepts exactly the targets
      some left-to-right evaluation reaches. */
  lemma {:induction false} ValidateIffEvals(t: nat, vs: seq<nat>, ops: seq<Operation>)
    requires TailPositive(vs)
    ensures Validate(t, vs, ops) <==> t in Evals(vs, ops)
    decreases |vs|, |ops| + 1
  {
    if |vs| > 1 {
      TryOpsIffEvals(t, vs, ops, 0);
      assert ops[0..] == ops;
      var before := Evals(vs[..|vs| - 1], ops);
      if t in Evals(vs, ops) {
        var e, op :| e in before && op in ops && t == Apply(op, e, vs[|vs| - 1]);
        assert ReachedBy(before, ops[0..], vs[|vs| - 1], t);
      }
      if TryOps(t, vs, ops, 0) {
        var e, op :| e in before && op in ops[0..] && Apply(op, e, vs[|vs| - 1]) == t;
        assert t in Evals(vs, ops);
      }
    }
  }

  lemma {:induction false} TryOpsIffEvals(t: nat, vs: seq<nat>, ops: seq<Operation>, j: nat)
    requires TailPositive(vs) && |vs| > 1 && j <= |ops|
    ensures TryOps(t, vs, ops, j) <==> ReachedBy(Evals(vs[..|vs| - 1], ops), ops[j..], vs[|vs| - 1], t)
    decreases |vs|, |ops| - j
  {
    if j < |ops| {
      var pre, v := vs[..|vs| - 1], vs[|vs| - 1];
      var before := Evals(pre, ops);
      TryOpsIffEvals(t, vs, ops, j + 1);
      assert ops[j..] == [ops[j]] + ops[j + 1..];
      if ReachedBy(before, ops[j..], v, t) {
        var e, op :| e in before && op in ops[j..] && Apply(op, e, v) == t;
        UndoApply(ops[j], t, v, e);
        if op == ops[j] {
          ValidateIffEvals(e, pre, ops);
        } else {
          assert op in ops[j + 1..];
          assert ReachedBy(before, ops[j + 1..], v, t);
        }
      }
      if ReachedBy(before, ops[j + 1..], v, t) {
        var e, op :| e in before && op in ops[j + 1..] && Apply(op, e, v) == t;
        assert op in ops[j..];
      }
      match Undo(ops[j], t, v)
      case None =>
      case Some(nt) =>
        UndoApply(ops[j], t, v, nt);
        ValidateIffEvals(nt, pre, ops);
        if nt in before {
          assert ops[j] in ops[j..];
          assert ReachedBy(before, ops[j..], v, t);
        }
    }
  }

  /** More operators reach more targets. */
  lemma {:induction false} EvalsMonotone(vs: seq<nat>, ops: seq<Operation>, ops': seq<Operation>)
    requires forall op | op in ops :: op in ops'
    ensures Evals(vs, ops) <= Evals(vs, ops')
  {
    if |vs| > 1 {
      var pre, v := vs[..|vs| - 1], vs[|vs| - 1];
      EvalsMonotone(pre, ops, ops');
      forall x | x in Evals(vs, ops) ensures x in Evals(vs, ops') {
        var e, op :| e in Evals(pre, ops) && op in ops && x == Apply(op, e, v);
      }
    }
  }

  /** Validity under a smaller operator list implies validity under a larger one. */
  lemma ValidateMonotone(t: nat, vs: seq<nat>, ops: seq<Operation>, ops': seq<Operation>)
    requires TailPositive(vs)
    requires forall op | op in ops :: op in ops'
    ensures Validate(t, vs, ops) ==> Validate(t, vs, ops')
  {
    ValidateIffEvals(t, vs, ops);
    ValidateIffEvals(t, vs, ops');
    EvalsMonotone(vs, ops, ops');
  }

  predicate WellFormed(data: seq<Equation>)
  {
    forall i | 0 <= i < |data| :: TailPositive(data[i].values)
  }

  /** Sum of the targets of the valid equations. */
  function Solve(data: seq<Equation>, ops: seq<Operation>): (r: nat)
    requires WellFormed(data)
    ensures r == ReachedSum(data, ops)
    ensures r <= SumTargets(data)
  {
    if |data| == 0 then 0
    else
      ValidateIffEvals(data[0].target, data[0].values, ops);
      (if Validate(data[0].target, data[0].values, ops) then data[0].target else 0)
      + Solve(data[1..], ops)
  }

  function SumTargets(data: seq<Equation>): nat
  {
    if |data| == 0 then 0 else data[0].target + SumTargets(data[1..])
  }

  /** Reference: the sum of the targets that some left-to-right evaluation
      of their values with `ops` reaches. */
  function ReachedSum(data: seq<Equation>, ops: seq<Operation>): nat
  {
    if |data| == 0 then 0
    else
      (if data[0].target in Evals(data[0].values, ops) then data[0].target else 0)
      + ReachedSum(data[1..], ops)
  }

  function Part1(data: seq<Equation>): (r: nat)
    requires WellFormed(data)
    ensures r == ReachedSum(data, [Add, Multiply]) && r <= SumTargets(data)
  {
    Solve(data, [Add, Multiply])
  }

  function Part2(data: seq<Equation>): (r: nat)
    requires WellFormed(data)
    ensures r == ReachedSum(data, [Add, Multiply, Concatenate]) && r <= SumTargets(data)
  {
    Solve(data, [Add, Multiply, Concatenate])
  }

  /** Allowing concatenation never loses an equation, so part 2 is at least part 1. */
  lemma {:induction false} Part1AtMostPart2(data: seq<Equation>)
    requires WellFormed(data)
    ensures Part1(data) <= Part2(data)
  {
    if |data| > 0 {
      ValidateMonotone(data[0].target, data[0].values, [Add, Multiply], [Add, Multiply, Concatenate]);
      Part1AtMostPart2(data[1..]);
    }
  }

  /** The puzzle's nine example equations. */
  function ExampleData(): seq<Equation>
  {
    [Equation(190, [10, 19]), Equation(3267, [81, 40, 27]), Equation(83, [17, 5]),
     Equation(156, [15, 6]), Equation(7290, [6, 8, 6, 15]), Equation(161011, [16, 10, 13]),
     Equation(192, [17, 8, 14]), Equation(21037, [9, 7, 18, 13]), Equation(292, [11, 6, 16, 20])]
  }

  /** The example's calibration results: 3749 with addition and
      multiplication, 11387 once concatenation is allowed. */
  lemma Example(data: seq<Equation>)
    requires data == ExampleData()
    ensures WellFormed(data)
    ensures Part1(data) == 3749 && Part2(data) == 11387
  {
    ExampleSolve(data, [Add, Multiply], [Add, Multiply, Concatenate]);
  }

  lemma ExampleSolve(data: seq<Equation>, p1: seq<Operation>, p2: seq<Operation>)
    requires data == ExampleData()
    requires p1 == [Add, Multiply] && p2 == [Add, Multiply, Concatenate]
    ensures WellFormed(data) && Solve(data, p1) == 3749 && Solve(data, p2) == 11387
  {
    ExampleFirst(data, p1, p2);
    ExampleMiddle(data, p1, p2);
    ExampleLast(data, p1, p2);
    ExampleJoin(data, p1);
    ExampleJoin(data, p2);
  }

  /** 190 and 3267 validate with either list, 83 with neither. */
  lemma ExampleFirst(data: seq<Equation>, p1: seq<Operation>, p2: seq<Operation>)
    requires data == ExampleData()
    requires p1 == [Add, Multiply] && p2 == [Add, Multiply, Concatenate]
    ensures WellFormed([data[0], data[1], data[2]])
    ensures Solve([data[0], data[1], data[2]], p1) == 3457 && Solve([data[0], data[1], data[2]], p2) == 3457
  {
    Example190(data[0], p1, p2); Example3267(data[1], p1, p2); Example83(data[2], p1, p2);
    var a1 := SolveThree(data[0], data[1], data[2], p1, true, true, false);
    var a2 := SolveThree(data[0], data[1], data[2], p2, true, true, false);
  }

  /** 156 and 7290 need concatenation, 161011 validates with neither list. */
  lemma ExampleMiddle(data: seq<Equation>, p1: seq<Operation>, p2: seq<Operation>)
    requires data == ExampleData()
    requires p1 == [Add, Multiply] && p2 == [Add, Multiply, Concatenate]
    ensures WellFormed([data[3], data[4], data[5]])
    ensures Solve([data[3], data[4], data[5]], p1) == 0 && Solve([data[3], data[4], data[5]], p2) == 7446
  {
    Example156(data[3], p1, p2); Example7290(data[4], p1, p2); Example161011(data[5], p1, p2);
    var b1 := SolveThree(data[3], data[4], data[5], p1, false, false, false);
    var b2 := SolveThree(data[3], data[4], data[5], p2, true, true, false);
  }

  /** 192 needs concatenation, 21037 validates with neither list, 292 with either. */
  lemma ExampleLast(data: seq<Equation>, p1: seq<Operation>, p2: seq<Operation>)
    requires data == ExampleData()
    requires p1 == [Add, Multiply] && p2 == [Add, Multiply, Concatenate]
    ensures WellFormed([data[6], data[7], data[8]])
    ensures Solve([data[6], data[7], data[8]], p1) == 292 && Solve([data[6], data[7], data[8]], p2) == 484
  {
    Example192(data[6], p1, p2); Example21037(data[7], p1, p2); Example292(data[8], p1, p2);
    var c1 := SolveThree(data[6], data[7], data[8], p1, false, false, true);
    var c2 := SolveThree(data[6], data[7], data[8], p2, true, false, true);
  }

  /** The example is three runs of three equations. */
  lemma ExampleJoin(data: seq<Equation>, ops: seq<Operation>)
    requires |data| == 9 && WellFormed([data[0], data[1], data[2]])
    requires WellFormed([data[3], data[4], data[5]]) && WellFormed([data[6], data[7], data[8]])
    ensures WellFormed(data)
    ensures Solve(data, ops) == Solve([data[0], data[1], data[2]], ops)
      + Solve([data[3], data[4], data[5]], ops) + Solve([data[6], data[7], data[8]], ops)
  {
    assert data == [data[0], data[1], data[2]] + [data[3], data[4], data[5]] + [data[6], data[7], data[8]];
    SolveJoin([data[0], data[1], data[2]], [data[3], data[4], data[5]], [data[6], data[7], data[8]], ops);
  }

  /** Three equations whose validity is known. */
  lemma SolveThree(x: Equation, y: Equation, z: Equation, ops: seq<Operation>, vx: bool, vy: bool, vz: bool)
    returns (sum: nat)
    requires TailPositive(x.values) && TailPositive(y.values) && TailPositive(z.values)
    requires Validate(x.target, x.values, ops) == vx && Validate(y.target, y.values, ops) == vy
    requires Validate(z.target, z.values, ops) == vz
    ensures WellFormed([x, y, z])
    ensures sum == Solve([x, y, z], ops)
    ensures sum == (if vx then x.target else 0) + (if vy then y.target else 0) + (if vz then z.target else 0)
  {
    SolveCons(z, [], ops, vz);
    assert [z] == [z] + [];
    SolveCons(y, [z], ops, vy);
    SolveCons(x, [y, z], ops, vx);
    assert [x, y, z] == [x] + ([y] + [z]);
    sum := Solve([x, y, z], ops);
  }

  /** Solving three lists one after another. */
  lemma SolveJoin(a: seq<Equation>, b: seq<Equation>, c: seq<Equation>, ops: seq<Operation>)
    requires WellFormed(a) && WellFormed(b) && WellFormed(c)
    ensures WellFormed(a + b + c)
    ensures Solve(a + b + c, ops) == Solve(a, ops) + Solve(b, ops) + Solve(c, ops)
  {
    SolveAppend(a, b, ops);
    SolveAppend(a + b, c, ops);
  }

  /** Solving is additive over concatenation. */
  lemma {:induction false} SolveAppend(a: seq<Equation>, b: seq<Equation>, ops: seq<Operation>)
    requires WellFormed(a) && WellFormed(b)
    ensures WellFormed(a + b)
    ensures Solve(a + b, ops) == Solve(a, ops) + Solve(b, ops)
  {
    if |a| > 0 {
      SolveAppend(a[1..], b, ops);
      assert (a + b)[1..] == a[1..] + b && (a + b)[0] == a[0];
    } else {
      assert a + b == b;
    }
  }

  /** Solving a list is solving its first equation and then the rest. */
  lemma SolveCons(e: Equation, rest: seq<Equation>, ops: seq<Operation>, valid: bool)
    requires TailPositive(e.values) && WellFormed(rest)
    requires Validate(e.target, e.values, ops) == valid
    ensures WellFormed([e] + rest)
    ensures Solve([e] + rest, ops) == (if valid then e.target else 0) + Solve(rest, ops)
  {
    assert ([e] + rest)[1..] == rest;
  }

  lemma Example190(e: Equation, p1: seq<Operation>, p2: seq<Operation>)
    requires e == Equation(190, [10, 19]) && p1 == [Add, Multiply] && p2 == [Add, Multiply, Concatenate]
    ensures TailPositive(e.values) && Validate(e.target, e.values, p1) && Validate(e.target, e.values, p2)
  {
    assert [10, 19][..1] == [10];
    assert Validate(10, [10], [Add, Multiply]);
    assert TryOps(190, [10, 19], [Add, Multiply], 1);
    ValidateMonotone(190, [10, 19], [Add, Multiply], [Add, Multiply, Concatenate]);
  }

  lemma Example3267(e: Equation, p1: seq<Operation>, p2: seq<Operation>)
    requires e == Equation(3267, [81, 40, 27]) && p1 == [Add, Multiply] && p2 == [Add, Multiply, Concatenate]
    ensures TailPositive(e.values) && Validate(e.target, e.values, p1) && Validate(e.target, e.values, p2)
  {
    assert [81, 40, 27][..2] == [81, 40] && [81, 40][..1] == [81];
    assert Validate(81, [81], [Add, Multiply]);
    assert Validate(121, [81, 40], [Add, Multiply]) by { assert TryOps(121, [81, 40], [Add, Multiply], 0); }
    assert TryOps(3267, [81, 40, 27], [Add, Multiply], 1);
    ValidateMonotone(3267, [81, 40, 27], [Add, Multiply], [Add, Multiply, Concatenate]);
  }

  lemma Example292(e: Equation, p1: seq<Operation>, p2: seq<Operation>)
    requires e == Equation(292, [11, 6, 16, 20]) && p1 == [Add, Multiply] && p2 == [Add, Multiply, Concatenate]
    ensures TailPositive(e.values) && Validate(e.target, e.values, p1) && Validate(e.target, e.values, p2)
  {
    assert [11, 6, 16, 20][..3] == [11, 6, 16] && [11, 6, 16][..2] == [11, 6] && [11, 6][..1] == [11];
    assert Validate(11, [11], [Add, Multiply]);
    assert Validate(17, [11, 6], [Add, Multiply]) by { assert TryOps(17, [11, 6], [Add, Multiply], 0); }
    assert Validate(272, [11, 6, 16], [Add, Multiply]) by { assert TryOps(272, [11, 6, 16], [Add, Multiply], 1); }
    assert TryOps(292, [11, 6, 16, 20], [Add, Multiply], 0);
    ValidateMonotone(292, [11, 6, 16, 20], [Add, Multiply], [Add, Multiply, Concatenate]);
  }

  lemma Example83(e: Equation, p1: seq<Operation>, p2: seq<Operation>)
    requires e == Equation(83, [17, 5]) && p1 == [Add, Multiply] && p2 == [Add, Multiply, Concatenate]
    ensures TailPositive(e.values) && !Validate(e.target, e.values, p1) && !Validate(e.target, e.values, p2)
  {
    assert Pow(10, DecimalDigits(5)) == 10;
    assert [17, 5][..1] == [17];
    assert !TryOps(83, [17, 5], [Add, Multiply, Concatenate], 0);
    ValidateMonotone(83, [17, 5], [Add, Multiply], [Add, Multiply, Concatenate]);
  }

  lemma Example161011(e: Equation, p1: seq<Operation>, p2: seq<Operation>)
    requires e == Equation(161011, [16, 10, 13]) && p1 == [Add, Multiply] && p2 == [Add, Multiply, Concatenate]
    ensures TailPositive(e.values) && !Validate(e.target, e.values, p1) && !Validate(e.target, e.values, p2)
  {
    assert Pow(10, DecimalDigits(10)) == 100 && Pow(10, DecimalDigits(13)) == 100;
    assert [16, 10, 13][..2] == [16, 10] && [16, 10][..1] == [16];
    assert !Validate(160998, [16, 10], [Add, Multiply, Concatenate]);
    assert !TryOps(161011, [16, 10, 13], [Add, Multiply, Concatenate], 0);
    ValidateMonotone(161011, [16, 10, 13], [Add, Multiply], [Add, Multiply, Concatenate]);
  }

  lemma Example21037(e: Equation, p1: seq<Operation>, p2: seq<Operation>)
    requires e == Equation(21037, [9, 7, 18, 13]) && p1 == [Add, Multiply] && p2 == [Add, Multiply, Concatenate]
    ensures TailPositive(e.values) && !Validate(e.target, e.values, p1) && !Validate(e.target, e.values, p2)
  {
    assert Pow(10, DecimalDigits(7)) == 10;
    assert Pow(10, DecimalDigits(18)) == 100 && Pow(10, DecimalDigits(13)) == 100;
    assert [9, 7, 18, 13][..3] == [9, 7, 18] && [9, 7, 18][..2] == [9, 7] && [9, 7][..1] == [9];
    assert !Validate(21006, [9, 7], [Add, Multiply, Concatenate]) by { assert !TryOps(21006, [9, 7], [Add, Multiply, Concatenate], 0); }
    assert !Validate(1168, [9, 7], [Add, Multiply, Concatenate]) by { assert !TryOps(1168, [9, 7], [Add, Multiply, Concatenate], 0); }
    assert !Validate(21024, [9, 7, 18], [Add, Multiply, Concatenate]) by { assert !TryOps(21024, [9, 7, 18], [Add, Multiply, Concatenate], 0); }
    assert !TryOps(21037, [9, 7, 18, 13], [Add, Multiply, Concatenate], 0);
    ValidateMonotone(21037, [9, 7, 18, 13], [Add, Multiply], [Add, Multiply, Concatenate]);
  }

  lemma Example156(e: Equation, p1: seq<Operation>, p2: seq<Operation>)
    requires e == Equation(156, [15, 6]) && p1 == [Add, Multiply] && p2 == [Add, Multiply, Concatenate]
    ensures TailPositive(e.values) && !Validate(e.target, e.values, p1) && Validate(e.target, e.values, p2)
  {
    assert Pow(10, DecimalDigits(6)) == 10;
    assert [15, 6][..1] == [15];
    assert Validate(15, [15], [Add, Multiply, Concatenate]);
    assert TryOps(156, [15, 6], [Add, Multiply, Concatenate], 2);
    assert !TryOps(156, [15, 6], [Add, Multiply], 0);
  }

  lemma Example7290(e: Equation, p1: seq<Operation>, p2: seq<Operation>)
    requires e == Equation(7290, [6, 8, 6, 15]) && p1 == [Add, Multiply] && p2 == [Add, Multiply, Concatenate]
    ensures TailPositive(e.values) && !Validate(e.target, e.values, p1) && Validate(e.target, e.values, p2)
  {
    assert Pow(10, DecimalDigits(6)) == 10;
    assert [6, 8, 6, 15][..3] == [6, 8, 6] && [6, 8, 6][..2] == [6, 8] && [6, 8][..1] == [6];
    assert Validate(6, [6], [Add, Multiply, Concatenate]);
    assert Validate(48, [6, 8], [Add, Multiply, Concatenate]) by { assert TryOps(48, [6, 8], [Add, Multiply, Concatenate], 1); }
    assert Validate(486, [6, 8, 6], [Add, Multiply, Concatenate]) by { assert TryOps(486, [6, 8, 6], [Add, Multiply, Concatenate], 2); }
    assert TryOps(7290, [6, 8, 6, 15], [Add, Multiply, Concatenate], 1);
    Example7290AddMultiply(e, p1);
  }

  lemma Example7290AddMultiply(e: Equation, p1: seq<Operation>)
    requires e == Equation(7290, [6, 8, 6, 15]) && p1 == [Add, Multiply]
    ensures !Validate(e.target, e.values, p1)
  {
    assert [6, 8, 6, 15][..3] == [6, 8, 6] && [6, 8, 6][..2] == [6, 8] && [6, 8][..1] == [6];
    assert !Validate(7269, [6, 8], [Add, Multiply]) by { assert !TryOps(7269, [6, 8], [Add, Multiply], 0); }
    assert !Validate(480, [6, 8], [Add, Multiply]) by { assert !TryOps(480, [6, 8], [Add, Multiply], 0); }
    assert !Validate(81, [6, 8], [Add, Multiply]) by { assert !TryOps(81, [6, 8], [Add, Multiply], 0); }
    assert !Validate(7275, [6, 8, 6], [Add, Multiply]) by { assert !TryOps(7275, [6, 8, 6], [Add, Multiply], 0); }
    assert !Validate(486, [6, 8, 6], [Add, Multiply]) by { assert !TryOps(486, [6, 8, 6], [Add, Multiply], 0); }
    assert !TryOps(7290, [6, 8, 6, 15], [Add, Multiply], 0);
  }

  lemma Example192(e: Equation, p1: seq<Operation>, p2: seq<Operation>)
    requires e == Equation(192, [17, 8, 14]) && p1 == [Add, Multiply] && p2 == [Add, Multiply, Concatenate]
    ensures TailPositive(e.values) && !Validate(e.target, e.values, p1) && Validate(e.target, e.values, p2)
  {
    assert Pow(10, DecimalDigits(8)) == 10;
    assert [17, 8, 14][..2] == [17, 8] && [17, 8][..1] == [17];
    assert Validate(17, [17], [Add, Multiply, Concatenate]);
    assert Validate(178, [17, 8], [Add, Multiply, Concatenate]) by { assert TryOps(178, [17, 8], [Add, Multiply, Concatenate], 2); }
    assert TryOps(192, [17, 8, 14], [Add, Multiply, Concatenate], 0);
    assert !Validate(178, [17, 8], [Add, Multiply]) by { assert !TryOps(178, [17, 8], [Add, Multiply], 0); }
    assert !TryOps(192, [17, 8, 14], [Add, Multiply], 0);
  }
}

=== FILE: day08.dfy ===
/** Day 08: antennas on a grid, grouped by frequency. Every ordered pair
    of distinct antennas of one frequency casts antinodes along the line
    through them, beyond the second antenna, for as long as the line stays
    on the grid. Part 1 takes only the first point past the second
    antenna; part 2 takes every point from the second antenna onwards. */
module Day08 {
  import opened Prelude

  datatype Point = Point(x: int, y: int)
  datatype Antenna = Antenna(freq: char, at: Point)
  datatype AntennaMap = AntennaMap(antennas: map<char, seq<Point>>, width: nat, height: nat)

  // ---------------------------------------------------------------------
  // Loading

  /** The antennas of one line, left to right: every character but '.'. */
  function RowAntennas(line: string, y: int): (r: seq<Antenna>)
    ensures forall a :: a in r <==>
      0 <= a.at.x < |line| && a.at.y == y && line[a.at.x] == a.freq && a.freq != '.'
  {
    if |line| == 0 then []
    else
      var x := |line| - 1;
      var init := RowAntennas(line[..x], y);
      assert forall i | 0 <= i < x :: line[..x][i] == line[i];
      init + (if line[x] == '.' then [] else [Antenna(line[x], Point(x, y))])
  }

  /** The antennas of all lines, top to bottom; an empty line has none
      but still counts for the y index. */
  function GridAntennas(lines: seq<string>): (r: seq<Antenna>)
    ensures forall a :: a in r <==>
      0 <= a.at.y < |lines| && 0 <= a.at.x < |lines[a.at.y]| &&
      lines[a.at.y][a.at.x] == a.freq && a.freq != '.'
  {
    if |lines| == 0 then []
    else
      var y := |lines| - 1;
      var init := GridAntennas(lines[..y]);
      assert forall i | 0 <= i < y :: lines[..y][i] == lines[i];
      init + RowAntennas(lines[y], y)
  }

  /** The positions of the antennas of frequency `c`, in order. */
  function Positions(s: seq<Antenna>, c: char): (r: seq<Point>)
    ensures forall p :: p in r <==> Antenna(c, p) in s
    ensures |r| <= |s|
  {
    if |s| == 0 then []
    else
      var init := Positions(s[..|s| - 1], c);
      assert s == s[..|s| - 1] + [s[|s| - 1]];
      if s[|s| - 1].freq == c then init + [s[|s| - 1].at] else init
  }

  function NonEmptyLines(lines: seq<string>): (n: nat)
    ensures n <= |lines|
  {
    if |lines| == 0 then 0
    else NonEmptyLines(lines[..|lines| - 1]) + (if |lines[|lines| - 1]| > 0 then 1 else 0)
  }

  /** `load_data` on the lines of the input: the width is the length of
      the first line, the height the number of non-empty lines, and each
      frequency maps to the positions of its antennas. */
  function LoadLines(lines: seq<string>): (m: AntennaMap)
    requires |lines| > 0
    ensures m.width == |lines[0]| && m.height == NonEmptyLines(lines)
    ensures forall c: char, p: Point :: c in m.antennas && p in m.antennas[c] <==>
      0 <= p.y < |lines| && 0 <= p.x < |lines[p.y]| && lines[p.y][p.x] == c && c != '.'
  {
    var all := GridAntennas(lines);
    var freqs := set a | a in all :: a.freq;
    var m := AntennaMap(map c | c in freqs :: Positions(all, c), |lines[0]|, NonEmptyLines(lines));
    assert forall c: char, p: Point | 0 <= p.y < |lines| && 0 <= p.x < |lines[p.y]| && lines[p.y][p.x] == c && c != '.' ::
      Antenna(c, p) in all && c in freqs;
    m
  }

  function Load(input: string): AntennaMap
  {
    LoadLines(Split(input, '\n'))
  }

  /** An input whose non-empty lines come first and share the first
      line's length. */
  predicate Tidy(lines: seq<string>)
  {
    forall y | 0 <= y < |lines| && |lines[y]| > 0 ::
      |lines[y]| == |lines[0]| && forall z | 0 <= z < y :: |lines[z]| > 0
  }

  lemma {:induction false} NonEmptyPrefix(lines: seq<string>, k: nat)
    requires k <= |lines| && forall z | 0 <= z < k :: |lines[z]| > 0
    ensures NonEmptyLines(lines) >= k
    decreases |lines|
  {
    if |lines| > 0 {
      var init := lines[..|lines| - 1];
      if k == |lines| {
        NonEmptyPrefix(init, k - 1);
      } else {
        NonEmptyPrefix(init, k);
      }
    }
  }

  /** Every antenna lies on the grid. */
  predicate OnGridMap(m: AntennaMap)
  {
    forall c, p | c in m.antennas && p in m.antennas[c] :: InGrid(m.width, m.height, p)
  }

  /** A tidy input loads to a map whose antennas all lie on its grid. */
  lemma TidyOnGrid(lines: seq<string>)
    requires |lines| > 0 && Tidy(lines)
    ensures OnGridMap(LoadLines(lines))
  {
    var m := LoadLines(lines);
    forall c, p | c in m.antennas && p in m.antennas[c]
      ensures InGrid(m.width, m.height, p)
    {
      NonEmptyPrefix(lines, p.y + 1);
    }
  }

  // ---------------------------------------------------------------------
  // Rays of antinodes

  predicate InGrid(w: int, h: int, p: Point)
  {
    0 <= p.x < w && 0 <= p.y < h
  }

  /** The point k steps of `d` beyond `from`. */
  function Along(from: Point, d: Point, k: int): Point
  {
    Point(from.x + d.x * k, from.y + d.y * k)
  }

  predicate Within(limit: Option<nat>, k: nat)
  {
    limit.None? || k <= limit.value
  }

  /** Steps from which the ray is surely off the grid. */
  function Budget(w: nat, h: nat, from: Point): nat
  {
    Abs(from.x) + Abs(from.y) + w + h + 1
  }

  lemma ScaleAtLeast(a: int, k: nat)
    requires a >= 1
    ensures a * k >= k
  {
    assert a * k - k == (a - 1) * k;
  }

  /** A nonzero step leaves the grid within the budget. */
  lemma FarOff(w: nat, h: nat, from: Point, d: Point, k: nat)
    requires d != Point(0, 0) && k >= Budget(w, h, from)
    ensures !InGrid(w, h, Along(from, d, k))
  {
    if d.x >= 1 {
      ScaleAtLeast(d.x, k);
    } else if d.x <= -1 {
      ScaleAtLeast(-d.x, k);
      assert d.x * k == -((-d.x) * k);
    } else if d.y >= 1 {
      ScaleAtLeast(d.y, k);
    } else {
      ScaleAtLeast(-d.y, k);
      assert d.y * k == -((-d.y) * k);
    }
  }

  /** The inner loop of `get_nodes`: from `step` on, insert the point
      `step` steps beyond `from` until the limit is passed or the point
      leaves the grid. */
  function Ray(w: nat, h: nat, from: Point, d: Point, step: nat, limit: Option<nat>): (r: set<Point>)
    requires d != Point(0, 0)
    ensures forall p | p in r :: InGrid(w, h, p)
    decreases if step <= Budget(w, h, from) then Budget(w, h, from) - step else 0
  {
    if !Within(limit, step) then {}
    else
      var next := Along(from, d, step);
      if !InGrid(w, h, next) then {}
      else
        if step >= Budget(w, h, from) then FarOff(w, h, from, d, step); {}
        else {next} + Ray(w, h, from, d, step + 1, limit)
  }

  /** All steps from `step` to k stay on the grid. */
  ghost predicate Clear(w: nat, h: nat, from: Point, d: Point, step: nat, k: nat)
  {
    forall j | step <= j <= k :: InGrid(w, h, Along(from, d, j))
  }

  /** The ray is exactly the points k steps beyond `from`, for k from
      `step` within the limit, such that no step before leaves the grid. */
  lemma {:induction false} RayExact(w: nat, h: nat, from: Point, d: Point, step: nat, limit: Option<nat>, p: Point)
    requires d != Point(0, 0)
    ensures p in Ray(w, h, from, d, step, limit) <==>
      exists k: nat | step <= k && Within(limit, k) :: p == Along(from, d, k) && Clear(w, h, from, d, step, k)
    decreases if step <= Budget(w, h, from) then Budget(w, h, from) - step else 0
  {
    var r := Ray(w, h, from, d, step, limit);
    var next := Along(from, d, step);
    if !Within(limit, step) {
      forall k: nat | step <= k && Within(limit, k)
        ensures false
      {
      }
    } else if !InGrid(w, h, next) {
      forall k: nat | step <= k
        ensures Clear(w, h, from, d, step, k) ==> InGrid(w, h, Along(from, d, step))
      {
      }
    } else if step >= Budget(w, h, from) {
      FarOff(w, h, from, d, step);
      assert false;
    } else {
      RayExact(w, h, from, d, step + 1, limit, p);
      if p in r {
        if p == next {
          assert Clear(w, h, from, d, step, step);
        } else {
          var k: nat :| step + 1 <= k && Within(limit, k) && p == Along(from, d, k) && Clear(w, h, from, d, step + 1, k);
          assert Clear(w, h, from, d, step, k);
        }
      }
      if exists k: nat | step <= k && Within(limit, k) :: p == Along(from, d, k) && Clear(w, h, from, d, step, k) {
        var k: nat :| step <= k && Within(limit, k) && p == Along(from, d, k) && Clear(w, h, from, d, step, k);
        if k > step {
          assert Clear(w, h, from, d, step + 1, k);
        }
      }
    }
  }

  /** The difference l2 - l1: the step from the first antenna to the
      second. */
  function Direction(l1: Point, l2: Point): Point
  {
    Point(l2.x - l1.x, l2.y - l1.y)
  }

  /** `get_nodes`: the union of the rays of every ordered pair of distinct
      antennas of one frequency, cast beyond the second antenna. */
  function Nodes(m: AntennaMap, start: nat, limit: Option<nat>): (r: set<Point>)
    ensures forall p | p in r :: InGrid(m.width, m.height, p)
  {
    set c, i, j, p | c in m.antennas && 0 <= i < |m.antennas[c]| && 0 <= j < |m.antennas[c]|
                   && m.antennas[c][i] != m.antennas[c][j]
                   && p in Ray(m.width, m.height, m.antennas[c][j], Direction(m.antennas[c][i], m.antennas[c][j]), start, limit)
      :: p
  }

  /** Part 1 counts exactly the on-grid points l2 + (l2 - l1) of the
      ordered pairs of distinct same-frequency antennas. */
  function Part1(m: AntennaMap): (r: nat)
    ensures r == |FarPoints(m)|
  {
    NodesFar(m);
    |Nodes(m, 1, Some(1))|
  }

  /** Part 2 counts every antenna on the grid that has a partner of its
      frequency elsewhere, and, when the antennas lie on the grid, at least
      the part 1 points. */
  function Part2(m: AntennaMap): (r: nat)
    ensures |PairedAntennas(m)| <= r
    ensures OnGridMap(m) ==> |FarPoints(m)| <= r
  {
    PairedAreNodes(m);
    NodesFar(m);
    if OnGridMap(m) then NodesNested(m); |Nodes(m, 0, None)| else |Nodes(m, 0, None)|
  }

  /** The point as far beyond l2 as l1 is before it. */
  function Far(l1: Point, l2: Point): Point
  {
    Point(2 * l2.x - l1.x, 2 * l2.y - l1.y)
  }

  /** Reference for part 1: the on-grid far points of every ordered pair
      of distinct antennas of one frequency. */
  function FarPoints(m: AntennaMap): set<Point>
  {
    set c, i, j | c in m.antennas && 0 <= i < |m.antennas[c]| && 0 <= j < |m.antennas[c]|
                && m.antennas[c][i] != m.antennas[c][j]
                && InGrid(m.width, m.height, Far(m.antennas[c][i], m.antennas[c][j]))
      :: Far(m.antennas[c][i], m.antennas[c][j])
  }

  /** The antennas on the grid that share their frequency with an antenna
      at another position. */
  function PairedAntennas(m: AntennaMap): set<Point>
  {
    set c, i, j | c in m.antennas && 0 <= i < |m.antennas[c]| && 0 <= j < |m.antennas[c]|
                && m.antennas[c][i] != m.antennas[c][j] && InGrid(m.width, m.height, m.antennas[c][j])
      :: m.antennas[c][j]
  }

  // ---------------------------------------------------------------------
  // Properties

  /** With start 1 and limit 1 a pair casts at most the one point past the
      second antenna at the same distance, l2 + (l2 - l1), and casts it
      exactly when it is on the grid. */
  lemma PairPart1(w: nat, h: nat, l1: Point, l2: Point)
    requires l1 != l2
    ensures var far := Point(2 * l2.x - l1.x, 2 * l2.y - l1.y);
      Ray(w, h, l2, Direction(l1, l2), 1, Some(1)) == if InGrid(w, h, far) then {far} else {}
  {
    var d := Direction(l1, l2);
    assert Ray(w, h, l2, d, 2, Some(1)) == {};
  }

  /** With start 0 and no limit, the second antenna of a pair is itself an
      antinode when it lies on the grid. */
  lemma PairPart2HasAntenna(w: nat, h: nat, l1: Point, l2: Point)
    requires l1 != l2 && InGrid(w, h, l2)
    ensures l2 in Ray(w, h, l2, Direction(l1, l2), 0, None)
  {
    var d := Direction(l1, l2);
    assert Along(l2, d, 0) == l2;
  }

  /** Every antenna on the grid that shares its frequency with an antenna
      elsewhere is a part 2 antinode. */
  lemma AntennaIsNode(m: AntennaMap, c: char, i: nat, j: nat)
    requires c in m.antennas && i < |m.antennas[c]| && j < |m.antennas[c]|
    requires m.antennas[c][i] != m.antennas[c][j] && InGrid(m.width, m.height, m.antennas[c][j])
    ensures m.antennas[c][j] in Nodes(m, 0, None)
  {
    PairPart2HasAntenna(m.width, m.height, m.antennas[c][i], m.antennas[c][j]);
  }

  /** Every part 1 antinode of a pair whose second antenna is on the grid
      is also a part 2 antinode of that pair. */
  lemma PairPart1InPart2(w: nat, h: nat, l1: Point, l2: Point)
    requires l1 != l2 && InGrid(w, h, l2)
    ensures Ray(w, h, l2, Direction(l1, l2), 1, Some(1)) <= Ray(w, h, l2, Direction(l1, l2), 0, None)
  {
    var d := Direction(l1, l2);
    forall p | p in Ray(w, h, l2, d, 1, Some(1))
      ensures p in Ray(w, h, l2, d, 0, None)
    {
      RayExact(w, h, l2, d, 1, Some(1), p);
      RayExact(w, h, l2, d, 0, None, p);
      assert Along(l2, d, 0) == l2;
      assert Clear(w, h, l2, d, 0, 1);
    }
  }

  /** On a map whose antennas lie on the grid, the part 1 antinodes are
      among the part 2 antinodes. */
  lemma NodesNested(m: AntennaMap)
    requires OnGridMap(m)
    ensures Nodes(m, 1, Some(1)) <= Nodes(m, 0, None)
    ensures |Nodes(m, 1, Some(1))| <= |Nodes(m, 0, None)|
  {
    forall p | p in Nodes(m, 1, Some(1))
      ensures p in Nodes(m, 0, None)
    {
      var c, i, j :| c in m.antennas && 0 <= i < |m.antennas[c]| && 0 <= j < |m.antennas[c]|
                   && m.antennas[c][i] != m.antennas[c][j]
                   && p in Ray(m.width, m.height, m.antennas[c][j], Direction(m.antennas[c][i], m.antennas[c][j]), 1, Some(1));
      PairPart1InPart2(m.width, m.height, m.antennas[c][i], m.antennas[c][j]);
    }
    SubsetCard(Nodes(m, 1, Some(1)), Nodes(m, 0, None));
  }

  /** Every antinode lies on the line through two distinct antennas of
      one frequency, k steps of their difference beyond the second, with
      k from the start and within the limit. */
  lemma NodeOnLine(m: AntennaMap, start: nat, limit: Option<nat>, p: Point)
    requires p in Nodes(m, start, limit)
    ensures exists c, i, j, k: nat | c in m.antennas && 0 <= i < |m.antennas[c]| && 0 <= j < |m.antennas[c]|
                                   && m.antennas[c][i] != m.antennas[c][j] && start <= k && Within(limit, k) ::
      p == Along(m.antennas[c][j], Direction(m.antennas[c][i], m.antennas[c][j]), k)
  {
    var c, i, j :| c in m.antennas && 0 <= i < |m.antennas[c]| && 0 <= j < |m.antennas[c]|
                 && m.antennas[c][i] != m.antennas[c][j]
                 && p in Ray(m.width, m.height, m.antennas[c][j], Direction(m.antennas[c][i], m.antennas[c][j]), start, limit);
    var l1, l2 := m.antennas[c][i], m.antennas[c][j];
    RayExact(m.width, m.height, l2, Direction(l1, l2), start, limit, p);
    var k: nat :| start <= k && Within(limit, k) && p == Along(l2, Direction(l1, l2), k) && Clear(m.width, m.height, l2, Direction(l1, l2), start, k);
  }

  /** The part 1 antinodes are exactly the on-grid far points. */
  lemma NodesFar(m: AntennaMap)
    ensures Nodes(m, 1, Some(1)) == FarPoints(m)
  {
    forall p | p in Nodes(m, 1, Some(1))
      ensures p in FarPoints(m)
    {
      var c, i, j :| c in m.antennas && 0 <= i < |m.antennas[c]| && 0 <= j < |m.antennas[c]|
                   && m.antennas[c][i] != m.antennas[c][j]
                   && p in Ray(m.width, m.height, m.antennas[c][j], Direction(m.antennas[c][i], m.antennas[c][j]), 1, Some(1));
      PairPart1(m.width, m.height, m.antennas[c][i], m.antennas[c][j]);
    }
    forall p | p in FarPoints(m)
      ensures p in Nodes(m, 1, Some(1))
    {
      var c, i, j :| c in m.antennas && 0 <= i < |m.antennas[c]| && 0 <= j < |m.antennas[c]|
                   && m.antennas[c][i] != m.antennas[c][j]
                   && InGrid(m.width, m.height, Far(m.antennas[c][i], m.antennas[c][j]))
                   && p == Far(m.antennas[c][i], m.antennas[c][j]);
      PairPart1(m.width, m.height, m.antennas[c][i], m.antennas[c][j]);
    }
  }

  /** Every paired antenna on the grid is a part 2 antinode. */
  lemma PairedAreNodes(m: AntennaMap)
    ensures PairedAntennas(m) <= Nodes(m, 0, None)
    ensures |PairedAntennas(m)| <= |Nodes(m, 0, None)|
  {
    forall p | p in PairedAntennas(m)
      ensures p in Nodes(m, 0, None)
    {
      var c, i, j :| c in m.antennas && 0 <= i < |m.antennas[c]| && 0 <= j < |m.antennas[c]|
                   && m.antennas[c][i] != m.antennas[c][j] && InGrid(m.width, m.height, m.antennas[c][j])
                   && p == m.antennas[c][j];
      AntennaIsNode(m, c, i, j);
    }
    SubsetCard(PairedAntennas(m), Nodes(m, 0, None));
  }
}

=== FILE: day09.dfy ===
/** Day 09: a disk map of file and free-space blocks. Part 1 moves file
    blocks one piece at a time from the end into the first free space;
    part 2 moves whole files, highest id first, into the first free block
    on their left that is large enough. The answer is the checksum. */
module Day09 {
  import opened Prelude

  datatype Block = File(id: nat, size: nat) | Empty(size: nat)

  // -------------------------------------------------------------------
  // Measures of a block sequence.

  /** Total size of the blocks of file `x`. */
  function FileSize(bs: seq<Block>, x: nat): nat
  {
    if |bs| == 0 then 0
    else (if bs[0].File? && bs[0].id == x then bs[0].size else 0) + FileSize(bs[1..], x)
  }

  /** Disk length: the sizes of all blocks, files and free space. */
  function TotalSize(bs: seq<Block>): nat
  {
    if |bs| == 0 then 0 else bs[0].size + TotalSize(bs[1..])
  }

  predicate HasFile(bs: seq<Block>)
  {
    exists j | 0 <= j < |bs| :: bs[j].File?
  }

  predicate NoEmpty(bs: seq<Block>)
  {
    forall j | 0 <= j < |bs| :: bs[j].File?
  }

  /** The ids of the file blocks. */
  function Ids(bs: seq<Block>): (r: set<nat>)
  {
    if |bs| == 0 then {}
    else (if bs[0].File? then {bs[0].id} else {}) + Ids(bs[1..])
  }

  /** An id is in `Ids` exactly when some file block carries it. */
  lemma {:induction false} IdsMember(bs: seq<Block>, x: nat)
    ensures x in Ids(bs) <==> exists j | 0 <= j < |bs| :: bs[j].File? && bs[j].id == x
  {
    if |bs| > 0 {
      IdsMember(bs[1..], x);
      if x in Ids(bs[1..]) {
        var j :| 0 <= j < |bs[1..]| && bs[1..][j].File? && bs[1..][j].id == x;
        assert bs[j + 1] == bs[1..][j];
      }
      if j :| 0 <= j < |bs| && bs[j].File? && bs[j].id == x {
        if j > 0 {
          assert bs[1..][j - 1] == bs[j];
        }
      }
    }
  }

  lemma {:induction false} IdsAppend(a: seq<Block>, b: seq<Block>)
    ensures Ids(a + b) == Ids(a) + Ids(b)
  {
    if |a| > 0 {
      IdsAppend(a[1..], b);
      assert (a + b)[1..] == a[1..] + b;
    } else {
      assert a + b == b;
    }
  }

  /** Splicing keeps the ids of the untouched parts and adds those of `mid`. */
  lemma SpliceIds(s: seq<Block>, i: nat, j: nat, mid: seq<Block>)
    requires i <= j <= |s|
    ensures Ids(Splice(s, i, j, mid)) == Ids(s[..i]) + Ids(mid) + Ids(s[j..])
    ensures Ids(s) == Ids(s[..i]) + Ids(s[i..j]) + Ids(s[j..])
  {
    IdsAppend(s[..i] + mid, s[j..]);
    IdsAppend(s[..i], mid);
    IdsAppend(s[..i], s[i..j]);
    IdsAppend(s[..i] + s[i..j], s[j..]);
    assert s == s[..i] + s[i..j] + s[j..];
  }

  lemma {:induction false} SizesAppend(a: seq<Block>, b: seq<Block>)
    ensures forall x :: FileSize(a + b, x) == FileSize(a, x) + FileSize(b, x)
    ensures TotalSize(a + b) == TotalSize(a) + TotalSize(b)
  {
    if |a| > 0 {
      SizesAppend(a[1..], b);
      assert (a + b)[1..] == a[1..] + b;
    } else {
      assert a + b == b;
    }
  }

  /** Replace the blocks `s[i..j]` by `mid`. Every edit of both parts is one. */
  function Splice(s: seq<Block>, i: nat, j: nat, mid: seq<Block>): seq<Block>
    requires i <= j <= |s|
  {
    s[..i] + mid + s[j..]
  }

  lemma SpliceSizes(s: seq<Block>, i: nat, j: nat, mid: seq<Block>)
    requires i <= j <= |s|
    ensures forall x :: FileSize(Splice(s, i, j, mid), x) + FileSize(s[i..j], x) == FileSize(s, x) + FileSize(mid, x)
    ensures TotalSize(Splice(s, i, j, mid)) + TotalSize(s[i..j]) == TotalSize(s) + TotalSize(mid)
  {
    assert s[..i] + s[i..j] == s[..j];
    assert s == s[..j] + s[j..];
    SizesAppend(s[..i] + mid, s[j..]);
    SizesAppend(s[..i], mid);
    SizesAppend(s[..i], s[i..j]);
    SizesAppend(s[..j], s[j..]);
  }

  lemma SingleIds(b: Block)
    ensures Ids([b]) == if b.File? then {b.id} else {}
  {
    assert [b][1..] == [];
  }

  lemma SingleSizes(b: Block)
    ensures forall x :: FileSize([b], x) == if b.File? && b.id == x then b.size else 0
    ensures TotalSize([b]) == b.size
  {
    assert [b][1..] == [];
  }

  // -------------------------------------------------------------------
  // Parsing the disk map.

  function DigitOf(c: char): nat
    requires IsDigit(c)
  {
    c as int - '0' as int
  }

  /** Digit k is the size of file k/2 when k is even, and of a free block
      when k is odd; free blocks of size 0 are dropped. A non-digit panics. */
  function Parse(s: string): (r: Option<seq<Block>>)
    ensures r.Some? ==> forall j | 0 <= j < |r.value| :: r.value[j].Empty? ==> r.value[j].size > 0
  {
    ParseFrom(s, 0)
  }

  function ParseFrom(s: string, k: nat): (r: Option<seq<Block>>)
    ensures r.Some? ==> forall j | 0 <= j < |r.value| :: r.value[j].Empty? ==> r.value[j].size > 0
    decreases |s| - k
  {
    if k >= |s| then Some([])
    else if !IsDigit(s[k]) then None
    else
      match ParseFrom(s, k + 1)
      case None => None
      case Some(rest) =>
        var size := DigitOf(s[k]);
        if k % 2 == 0 then Some([File(k / 2, size)] + rest)
        else if size > 0 then Some([Empty(size)] + rest)
        else Some(rest)
  }

  /** The parsed disk has the digits' total length, and file x has exactly
      the size written at position 2x. */
  lemma {:induction false} ParseSizes(s: string, k: nat)
    requires ParseFrom(s, k).Some?
    ensures forall j | k <= j < |s| :: IsDigit(s[j])
    ensures TotalSize(ParseFrom(s, k).value) == DigitSumFrom(s, k)
    ensures forall x: nat ::
      FileSize(ParseFrom(s, k).value, x) == (if k <= 2 * x < |s| then DigitOf(s[2 * x]) else 0)
    decreases |s| - k
  {
    if k < |s| {
      ParseSizes(s, k + 1);
      var rest := ParseFrom(s, k + 1).value;
      var size := DigitOf(s[k]);
      if k % 2 == 0 {
        SizesAppend([File(k / 2, size)], rest);
        SingleSizes(File(k / 2, size));
      } else if size > 0 {
        SizesAppend([Empty(size)], rest);
        SingleSizes(Empty(size));
      }
    }
  }

  /** Digit sum of the suffix from k, for strings whose suffix is digits. */
  function DigitSumFrom(s: string, k: nat): nat
    requires forall j | k <= j < |s| :: IsDigit(s[j])
    decreases |s| - k
  {
    if k >= |s| then 0 else DigitOf(s[k]) + DigitSumFrom(s, k + 1)
  }

  // -------------------------------------------------------------------
  // Checksum.

  /** `get_checksum`: each file block adds id times the positions it covers. */
  function Checksum(bs: seq<Block>): nat
  {
    ChecksumFrom(bs, 0)
  }

  function ChecksumFrom(bs: seq<Block>, k: nat): nat
  {
    if |bs| == 0 then 0
    else
      (match bs[0] case File(id, size) => id * RangeSum(k, size) case Empty(_) => 0)
      + ChecksumFrom(bs[1..], k + bs[0].size)
  }

  /** k + (k + 1) + ... + (k + n - 1). */
  function RangeSum(k: nat, n: nat): nat
    decreases n
  {
    if n == 0 then 0 else k + RangeSum(k + 1, n - 1)
  }

  /** The disk cell by cell: the file id or nothing. */
  function Cells(bs: seq<Block>): (c: seq<Option<nat>>)
    ensures |c| == TotalSize(bs)
  {
    if |bs| == 0 then []
    else
      (match bs[0]
       case File(id, size) => seq(size, _ => Some(id))
       case Empty(size) => seq(size, _ => None))
      + Cells(bs[1..])
  }

  /** Reference checksum: sum over cells of position times file id. */
  function CellSum(c: seq<Option<nat>>, k: nat): nat
  {
    if |c| == 0 then 0
    else (match c[0] case Some(id) => id * k case None => 0) + CellSum(c[1..], k + 1)
  }

  lemma {:induction false} CellSumAppend(a: seq<Option<nat>>, b: seq<Option<nat>>, k: nat)
    ensures CellSum(a + b, k) == CellSum(a, k) + CellSum(b, k + |a|)
  {
    if |a| > 0 {
      assert (a + b)[1..] == a[1..] + b;
      CellSumAppend(a[1..], b, k + 1);
    } else {
      assert a + b == b;
    }
  }

  lemma {:induction false} CellSumRun(v: Option<nat>, n: nat, k: nat)
    ensures CellSum(seq(n, _ => v), k) == match v case Some(id) => id * RangeSum(k, n) case None => 0
  {
    if n > 0 {
      var c := seq(n, _ => v);
      assert c[1..] == seq(n - 1, _ => v);
      CellSumRun(v, n - 1, k + 1);
      if v.Some? {
        var id := v.value;
        assert id * k + id * RangeSum(k + 1, n - 1) == id * (k + RangeSum(k + 1, n - 1));
      }
    }
  }

  /** The block-wise checksum is the cell-wise sum of position times id. */
  lemma {:induction false} ChecksumIsCellSum(bs: seq<Block>, k: nat)
    ensures ChecksumFrom(bs, k) == CellSum(Cells(bs), k)
  {
    if |bs| > 0 {
      var b := bs[0];
      var run: seq<Option<nat>> := match b case File(id, size) => seq(size, _ => Some(id)) case Empty(size) => seq(size, _ => None);
      assert Cells(bs) == run + Cells(bs[1..]);
      CellSumAppend(run, Cells(bs[1..]), k);
      match b {
        case File(id, size) => CellSumRun(Some(id), size, k);
        case Empty(size) => CellSumRun(None, size, k);
      }
      ChecksumIsCellSum(bs[1..], k + b.size);
    }
  }

  // -------------------------------------------------------------------
  // Part 1: move file pieces from the end into the first free block.

  /** Index of the first free block. */
  function FirstEmpty(bs: seq<Block>): (r: Option<nat>)
    ensures r.Some? ==> r.value < |bs| && bs[r.value].Empty? && forall j | 0 <= j < r.value :: bs[j].File?
    ensures r.None? ==> NoEmpty(bs)
  {
    if |bs| == 0 then None
    else if bs[0].Empty? then Some(0)
    else
      match FirstEmpty(bs[1..])
      case None => None
      case Some(i) => Some(i + 1)
  }

  /** Blocks from the first free block to the end: the unsettled region. */
  function Tail(bs: seq<Block>): nat
  {
    match FirstEmpty(bs)
    case None => 0
    case Some(i) => |bs| - i
  }

  lemma TailAtMost(bs: seq<Block>, m: nat)
    requires m <= |bs| && forall j | 0 <= j < m :: bs[j].File?
    ensures Tail(bs) <= |bs| - m
  {
  }

  lemma TailOfPrefix(bs: seq<Block>)
    requires |bs| > 0
    ensures var rest := bs[..|bs| - 1];
      && (bs[|bs| - 1].Empty? ==> Tail(rest) < Tail(bs))
      && (FirstEmpty(rest).Some? ==> Tail(rest) + 1 == Tail(bs))
  {
    var rest := bs[..|bs| - 1];
    match FirstEmpty(rest) {
      case None =>
        if bs[|bs| - 1].Empty? {
          assert FirstEmpty(bs) == Some(|bs| - 1);
        }
      case Some(i) =>
        assert bs[i] == rest[i];
        assert FirstEmpty(bs) == Some(i);
    }
  }

  lemma SplitLast(bs: seq<Block>)
    requires |bs| > 0
    ensures var rest, last := bs[..|bs| - 1], bs[|bs| - 1];
      && (forall x :: FileSize(bs, x) == FileSize(rest, x) + (if last.File? && last.id == x then last.size else 0))
      && (HasFile(bs) <==> HasFile(rest) || last.File?)
  {
    var rest, last := bs[..|bs| - 1], bs[|bs| - 1];
    assert bs == rest + [last];
    SizesAppend(rest, [last]);
    SingleSizes(last);
    if HasFile(bs) && !last.File? {
      var j :| 0 <= j < |bs| && bs[j].File?;
      assert rest[j].File?;
    }
  }

  /** The outer loop of part 1: pop the last block; drop it if free, move it
      forward otherwise. Popping from an empty disk panics. */
  function Compact(bs: seq<Block>): (r: Option<seq<Block>>)
    ensures r.Some? <==> HasFile(bs)
    ensures r.Some? ==> NoEmpty(r.value)
    ensures r.Some? ==> forall x :: FileSize(r.value, x) == FileSize(bs, x)
    decreases Tail(bs), 1
  {
    if |bs| == 0 then None
    else
      var rest, last := bs[..|bs| - 1], bs[|bs| - 1];
      SplitLast(bs);
      TailOfPrefix(bs);
      if last.Empty? then Compact(rest)
      else Fill(rest, last.id, last.size)
  }

  /** The inner loop of part 1: place the held file (id, size) into the first
      free block, splitting it over several free blocks when it does not fit. */
  function Fill(bs: seq<Block>, id: nat, size: nat): (r: Option<seq<Block>>)
    ensures r.Some?
    ensures NoEmpty(r.value)
    ensures forall x :: FileSize(r.value, x) == FileSize(bs, x) + (if x == id then size else 0)
    decreases (if FirstEmpty(bs).Some? then Tail(bs) + 1 else 0), 0
  {
    match FirstEmpty(bs)
    case None =>
      SizesAppend(bs, [File(id, size)]);
      SingleSizes(File(id, size));
      Some(bs + [File(id, size)])
    case Some(i) =>
      var e := bs[i].size;
      SingleSizes(bs[i]);
      assert bs[i..i + 1] == [bs[i]];
      if e >= size then
        var mid := [File(id, size)] + (if e > size then [Empty(e - size)] else []);
        var bs' := Splice(bs, i, i + 1, mid);
        SpliceSizes(bs, i, i + 1, mid);
        SizesAppend([File(id, size)], mid[1..]);
        assert mid == [File(id, size)] + mid[1..];
        SingleSizes(File(id, size));
        assert forall x :: FileSize(mid[1..], x) == 0 by {
          if e > size {
            SingleSizes(Empty(e - size));
          }
        }
        assert bs'[i] == File(id, size);
        assert forall j | 0 <= j < i + 1 :: bs'[j].File?;
        TailAtMost(bs', i + 1);
        Compact(bs')
      else
        var bs' := Splice(bs, i, i + 1, [File(id, e)]);
        SpliceSizes(bs, i, i + 1, [File(id, e)]);
        SingleSizes(File(id, e));
        assert forall j | 0 <= j < i + 1 :: bs'[j].File?;
        TailAtMost(bs', i + 1);
        Fill(bs', id, size - e)
  }

  /** Part 1: compact, then checksum. */
  function Part1(bs: seq<Block>): (r: Option<nat>)
    ensures r.Some? <==> HasFile(bs)
  {
    match Compact(bs)
    case None => None
    case Some(c) => Some(Checksum(c))
  }

  // -------------------------------------------------------------------
  // Part 2: move whole files, highest id first.

  /** Position of the (first) block of file `number`; `unwrap` panics when absent. */
  function FindFile(bs: seq<Block>, number: nat): (r: Option<nat>)
    ensures r.Some? ==> r.value < |bs| && bs[r.value].File? && bs[r.value].id == number
    ensures r.None? ==> forall j | 0 <= j < |bs| :: !(bs[j].File? && bs[j].id == number)
  {
    if |bs| == 0 then None
    else if bs[0].File? && bs[0].id == number then Some(0)
    else
      match FindFile(bs[1..], number)
      case None => None
      case Some(i) => Some(i + 1)
  }

  predicate Fits(b: Block, size: nat)
  {
    b.Empty? && b.size >= size
  }

  /** The first free block in `from .. limit` that can hold `size`. */
  function FindSlot(bs: seq<Block>, from: nat, limit: nat, size: nat): (r: Option<nat>)
    requires limit <= |bs|
    ensures r.Some? ==> from <= r.value < limit && Fits(bs[r.value], size)
    ensures r.Some? ==> forall j | from <= j < r.value :: !Fits(bs[j], size)
    ensures r.None? ==> forall j | from <= j < limit :: !Fits(bs[j], size)
    decreases limit - from
  {
    if from >= limit then None
    else if Fits(bs[from], size) then Some(from)
    else FindSlot(bs, from + 1, limit, size)
  }

  /** What block b adds to the size of file x. */
  function Contrib(b: Block, x: nat): nat
  {
    if b.File? && b.id == x then b.size else 0
  }

  lemma SpliceOne(s: seq<Block>, i: nat, mid: seq<Block>)
    requires i < |s|
    ensures forall x :: FileSize(Splice(s, i, i + 1, mid), x) + Contrib(s[i], x) == FileSize(s, x) + FileSize(mid, x)
    ensures TotalSize(Splice(s, i, i + 1, mid)) + s[i].size == TotalSize(s) + TotalSize(mid)
  {
    SpliceSizes(s, i, i + 1, mid);
    assert s[i..i + 1] == [s[i]];
    SingleSizes(s[i]);
  }

  /** `size` cells of free space at position i: merged into a free block
      there, inserted before a file block there, or appended at the end. */
  function Free(s: seq<Block>, i: nat, size: nat): (r: seq<Block>)
    requires i <= |s|
    ensures |r| > i && r[..i] == s[..i]
    ensures |r| == if i == |s| || s[i].File? then |s| + 1 else |s|
    ensures TotalSize(r) == TotalSize(s) + size
    ensures forall x :: FileSize(r, x) == FileSize(s, x)
    ensures Ids(r) == Ids(s)
  {
    if i == |s| || s[i].File? then
      SpliceIds(s, i, i, [Empty(size)]);
      SingleIds(Empty(size));
      assert Ids(s[i..i]) == {} by { assert s[i..i] == []; }
      SpliceSizes(s, i, i, [Empty(size)]);
      assert s[i..i] == [];
      SingleSizes(Empty(size));
      SizesAppend([], []);
      Splice(s, i, i, [Empty(size)])
    else
      SpliceIds(s, i, i + 1, [Empty(s[i].size + size)]);
      SingleIds(Empty(s[i].size + size));
      assert s[i..i + 1] == [s[i]];
      SingleIds(s[i]);
      SpliceOne(s, i, [Empty(s[i].size + size)]);
      SingleSizes(Empty(s[i].size + size));
      Splice(s, i, i + 1, [Empty(s[i].size + size)])
  }

  /** The slot k receives file `number` of the given size, and the file's old
      block at bi is removed. */
  function Relocate(bs: seq<Block>, k: nat, bi: nat, number: nat, size: nat): (r: seq<Block>)
    requires k < bi < |bs| && bs[bi] == File(number, size) && bs[k].Empty?
    ensures |r| == |bs| - 1 && r[..k] == bs[..k] && r[k] == File(number, size)
    ensures TotalSize(r) + bs[k].size == TotalSize(bs)
    ensures forall x :: FileSize(r, x) == FileSize(bs, x)
    ensures Ids(r) == Ids(bs)
  {
    var b1 := Splice(bs, k, k + 1, [File(number, size)]);
    RelocateIds(bs, k, bi, number, size);
    SpliceOne(bs, k, [File(number, size)]);
    SingleSizes(File(number, size));
    assert b1[bi] == bs[bi];
    SpliceOne(b1, bi, []);
    SizesAppend([], []);
    Splice(b1, bi, bi + 1, [])
  }

  /** Putting the file into the slot adds no new id, since the file is
      still at bi; removing it from bi loses none, since it is now at k. */
  lemma RelocateIds(bs: seq<Block>, k: nat, bi: nat, number: nat, size: nat)
    requires k < bi < |bs| && bs[bi] == File(number, size) && bs[k].Empty?
    ensures var b1 := Splice(bs, k, k + 1, [File(number, size)]);
      Ids(Splice(b1, bi, bi + 1, [])) == Ids(bs)
  {
    var b1 := Splice(bs, k, k + 1, [File(number, size)]);
    IdsMember(bs, number);
    ReplaceIds(bs, k, File(number, size));
    assert b1[k] == File(number, size) && b1[bi] == bs[bi];
    RemoveIds(b1, k, bi);
  }

  /** Replacing a free block by a file block whose id is already present
      keeps the ids. */
  lemma ReplaceIds(bs: seq<Block>, k: nat, b: Block)
    requires k < |bs| && bs[k].Empty? && b.File? && b.id in Ids(bs)
    ensures Ids(Splice(bs, k, k + 1, [b])) == Ids(bs)
  {
    SpliceIds(bs, k, k + 1, [b]);
    SingleIds(b);
    assert bs[k..k + 1] == [bs[k]];
    SingleIds(bs[k]);
  }

  /** Removing a file block whose id also sits at an earlier index keeps
      the ids. */
  lemma RemoveIds(bs: seq<Block>, k: nat, bi: nat)
    requires k < bi < |bs| && bs[k].File? && bs[bi].File? && bs[k].id == bs[bi].id
    ensures Ids(Splice(bs, bi, bi + 1, [])) == Ids(bs)
  {
    SpliceIds(bs, bi, bi + 1, []);
    assert bs[bi..bi + 1] == [bs[bi]];
    SingleIds(bs[bi]);
    assert bs[..bi][k] == bs[k];
    IdsMember(bs[..bi], bs[k].id);
  }

  /** Move file `number` into the first fitting free block left of it,
      searching from index 1. The space it leaves becomes free, merged with a
      free block right after it; left-over space in the slot is merged with
      the block after the slot when that is free. */
  function MoveFile(bs: seq<Block>, number: nat): (r: Option<seq<Block>>)
    ensures r.Some? ==> FindFile(bs, number).Some?
    ensures FindFile(bs, number).Some? && !FrontFile(bs, number) ==> r.Some?
    ensures r.Some? ==> TotalSize(r.value) == TotalSize(bs)
    ensures r.Some? ==> forall x :: FileSize(r.value, x) == FileSize(bs, x)
    ensures r.Some? && |bs| > 0 && !FrontFile(bs, number) ==> |r.value| > 0 && r.value[0] == bs[0]
    ensures r.Some? ==> MovedToSlot(bs, number, r.value)
    ensures r.Some? ==> Ids(r.value) == Ids(bs)
  {
    match FindFile(bs, number)
    case None => None
    case Some(bi) =>
      var size := bs[bi].size;
      if bi == 0 then
        match FindSlot(bs, 1, |bs|, size)
        case None => Some(bs)
        case Some(k) => MoveFront(bs, number, k)
      else
      match FindSlot(bs, 1, bi, size)
      case None => Some(bs)
      case Some(k) => Some(MoveLeft(bs, number, bi, k))
  }

  /** The move of a file into slot k left of it: the slot takes the file,
      the file's old place is freed, and the slot's leftover follows the file. */
  function MoveLeft(bs: seq<Block>, number: nat, bi: nat, k: nat): (r: seq<Block>)
    requires 1 <= k < bi < |bs| && bs[bi].File? && bs[bi].id == number && Fits(bs[k], bs[bi].size)
    ensures TotalSize(r) == TotalSize(bs)
    ensures forall x :: FileSize(r, x) == FileSize(bs, x)
    ensures Ids(r) == Ids(bs)
    ensures k < |r| && r[..k] == bs[..k] && r[k] == File(number, bs[bi].size)
  {
    var size := bs[bi].size;
    var es := bs[k].size;
    var b2 := Relocate(bs, k, bi, number, size);
    var b3 := Free(b2, bi, size);
    assert b3[..k + 1] == b2[..k + 1] by {
      assert b3[..bi][..k + 1] == b2[..bi][..k + 1];
    }
    var b4 := if es > size then Free(b3, k + 1, es - size) else b3;
    assert b4[..k + 1] == b3[..k + 1];
    assert b4[..k] == b2[..k] && b4[k] == b2[k] by {
      assert b4[..k + 1][..k] == b4[..k];
      assert b2[..k + 1][..k] == b2[..k];
      assert b4[..k + 1][k] == b4[k];
      assert b2[..k + 1][k] == b2[k];
    }
    b4
  }

  /** File `number` is the first block of the disk. */
  predicate FrontFile(bs: seq<Block>, number: nat)
  {
    |bs| > 0 && bs[0].File? && bs[0].id == number
  }

  /** The move of a file that is the first block. The slot search stops only
      at `block_index`, which it never reaches from index 1, so it runs to
      the end of the disk and may pick a slot right of the file. The freed
      front then merges with the block behind it or gets a block of its own,
      and the slot's leftover is written at `k + 1`: an index past the end,
      where `blocks[k + 1]` panics, when the slot is the last block or, after
      a merge, the second to last. */
  function MoveFront(bs: seq<Block>, number: nat, k: nat): (r: Option<seq<Block>>)
    requires FrontFile(bs, number) && 1 <= k < |bs| && Fits(bs[k], bs[0].size)
    ensures r.None? <==> bs[k].size > bs[0].size
                         && (k == |bs| - 1 || (1 < k == |bs| - 2 && bs[1].Empty?))
    ensures r.Some? ==> TotalSize(r.value) == TotalSize(bs)
    ensures r.Some? ==> forall x :: FileSize(r.value, x) == FileSize(bs, x)
    ensures r.Some? ==> Ids(r.value) == Ids(bs)
    ensures r.Some? ==> FrontMoved(bs, number, k, r.value)
  {
    var size := bs[0].size;
    var es := bs[k].size;
    var b1 := bs[k := File(number, size)];
    var b2 := b1[1..];
    FrontDrop(bs, k, number, size);
    var b3 := Free(b2, 0, size);
    FrontFreed(b2, k, number, size);
    if es <= size then Some(b3)
    else if k + 1 >= |b3| then None
    else
      var b4 := Free(b3, k + 1, es - size);
      assert b4[0] == b3[0] && b4[k - 1] == b3[k - 1] && b4[k] == b3[k] by {
        assert b4[..k + 1][0] == b4[0] && b3[..k + 1][0] == b3[0];
        assert b4[..k + 1][k - 1] == b4[k - 1] && b3[..k + 1][k - 1] == b3[k - 1];
        assert b4[..k + 1][k] == b4[k] && b3[..k + 1][k] == b3[k];
      }
      Some(b4)
  }

  /** Freeing the vacated front: a new free block shifts the file one place
      right, a merge leaves it where it is. */
  lemma FrontFreed(b2: seq<Block>, k: nat, number: nat, size: nat)
    requires 1 <= k <= |b2| && b2[k - 1] == File(number, size)
    ensures var b3 := Free(b2, 0, size);
      if b2[0].File? then b3[0] == Empty(size) && b3[k] == File(number, size)
      else b3[0] == Empty(b2[0].size + size) && b3[k - 1] == File(number, size)
  {
    if b2[0].File? {
      assert Free(b2, 0, size) == [Empty(size)] + b2;
    } else {
      assert Free(b2, 0, size) == [Empty(b2[0].size + size)] + b2[1..];
    }
  }

  /** Dropping the front file after writing it into slot k: the slot's free
      space is gone, one copy of the file remains, at k - 1. */
  lemma FrontDrop(bs: seq<Block>, k: nat, number: nat, size: nat)
    requires FrontFile(bs, number) && bs[0].size == size && 1 <= k < |bs| && bs[k].Empty?
    ensures var b2 := bs[k := File(number, size)][1..];
      && |b2| == |bs| - 1 && b2[k - 1] == File(number, size)
      && (k > 1 ==> b2[0] == bs[1])
      && TotalSize(b2) + bs[k].size == TotalSize(bs)
      && (forall x :: FileSize(b2, x) == FileSize(bs, x))
      && Ids(b2) == Ids(bs)
  {
    var b1 := bs[k := File(number, size)];
    assert b1 == Splice(bs, k, k + 1, [File(number, size)]);
    SpliceOne(bs, k, [File(number, size)]);
    SingleSizes(File(number, size));
    SpliceIds(bs, k, k + 1, [File(number, size)]);
    SingleIds(File(number, size));
    assert bs[k..k + 1] == [bs[k]];
    SingleIds(bs[k]);
    assert b1 == [b1[0]] + b1[1..];
    SizesAppend([b1[0]], b1[1..]);
    SingleSizes(b1[0]);
    IdsAppend([b1[0]], b1[1..]);
    SingleIds(b1[0]);
    assert Ids(bs[..k]) == Ids([bs[0]]) + Ids(bs[1..k]) by {
      assert bs[..k] == [bs[0]] + bs[1..k];
      IdsAppend([bs[0]], bs[1..k]);
    }
    assert number in Ids(bs[..k]) by { SingleIds(bs[0]); }
    IdsMember(b1[1..], number);
  }

  /** Where a front file ended up: in its slot, one place to the left when the
      freed front merged with the free block behind it. */
  predicate FrontMoved(bs: seq<Block>, number: nat, k: nat, r: seq<Block>)
    requires 1 <= k < |bs|
  {
    var size := bs[0].size;
    if k == 1 || bs[1].File? then
      k < |r| && r[0] == Empty(size) && r[k] == File(number, size)
    else
      k - 1 < |r| && r[0] == Empty(bs[1].size + size) && r[k - 1] == File(number, size)
  }

  /** Where the file ended up: nowhere new when no free block fits, otherwise
      in the first fitting one from index 1, which lies left of the file
      unless the file is the first block, with everything before it unchanged. */
  predicate MovedToSlot(bs: seq<Block>, number: nat, r: seq<Block>)
    requires FindFile(bs, number).Some?
  {
    var bi := FindFile(bs, number).value;
    var size := bs[bi].size;
    match FindSlot(bs, 1, if bi == 0 then |bs| else bi, size)
    case None => r == bs
    case Some(k) =>
      if bi == 0 then FrontMoved(bs, number, k, r)
      else k < |r| && r[..k] == bs[..k] && r[k] == File(number, size)
  }

  /** The id of the last file block; `unwrap` panics when there is none. */
  function MaxNumber(bs: seq<Block>): (r: Option<nat>)
    ensures r.Some? <==> HasFile(bs)
    ensures r.Some? ==> exists j | 0 <= j < |bs| :: bs[j] == File(r.value, bs[j].size)
  {
    if |bs| == 0 then None
    else if bs[|bs| - 1].File? then Some(bs[|bs| - 1].id)
    else
      var r := MaxNumber(bs[..|bs| - 1]);
      assert forall j | 0 <= j < |bs| - 1 :: bs[..|bs| - 1][j] == bs[j];
      r
  }

  /** The search for a file's block succeeds exactly for the ids present. */
  lemma IdsFind(bs: seq<Block>, x: nat)
    ensures x in Ids(bs) <==> FindFile(bs, x).Some?
  {
    IdsMember(bs, x);
  }

  /** The first block is not one of files 1 ..= number, the files that get moved. */
  predicate FrontStays(bs: seq<Block>, number: nat)
  {
    |bs| == 0 || !(bs[0].File? && 1 <= bs[0].id <= number)
  }

  /** Files `number`, `number - 1`, ..., 1 in turn; the `position(..).unwrap()`
      panics at the first id that is missing, and a file that is the first
      block may panic when it moves. */
  function MoveAll(bs: seq<Block>, number: nat): (r: Option<seq<Block>>)
    ensures r.Some? ==> forall k | 1 <= k <= number :: k in Ids(bs)
    ensures (forall k | 1 <= k <= number :: k in Ids(bs)) && FrontStays(bs, number) ==> r.Some?
    ensures r.Some? ==> Ids(r.value) == Ids(bs)
    ensures r.Some? ==> TotalSize(r.value) == TotalSize(bs)
    ensures r.Some? ==> forall x :: FileSize(r.value, x) == FileSize(bs, x)
    ensures r.Some? && |bs| > 0 && FrontStays(bs, number) ==> |r.value| > 0 && r.value[0] == bs[0]
    decreases number
  {
    if number == 0 then Some(bs)
    else
      IdsFind(bs, number);
      match MoveFile(bs, number)
      case None => None
      case Some(b) => MoveAll(b, number - 1)
  }

  /** Part 2: move every file from the highest id down to 1, then checksum. */
  function Part2(bs: seq<Block>): (r: Option<nat>)
    ensures r.Some? ==> HasFile(bs) && forall k | 1 <= k <= MaxNumber(bs).value :: k in Ids(bs)
    ensures (HasFile(bs) && (forall k | 1 <= k <= MaxNumber(bs).value :: k in Ids(bs))
             && FrontStays(bs, MaxNumber(bs).value)) ==> r.Some?
  {
    match MaxNumber(bs)
    case None => None
    case Some(m) =>
      match MoveAll(bs, m)
      case None => None
      case Some(c) => Some(Checksum(c))
  }

  /** A parsed disk holds file k exactly for the even digit positions 2k
      from k on. */
  lemma {:induction false} ParsedIds(s: string, k: nat)
    requires ParseFrom(s, k).Some?
    ensures forall x: nat :: x in Ids(ParseFrom(s, k).value) <==> k <= 2 * x < |s|
    decreases |s| - k
  {
    if k < |s| {
      ParsedIds(s, k + 1);
      var rest := ParseFrom(s, k + 1).value;
      var size := DigitOf(s[k]);
      if k % 2 == 0 {
        assert ParseFrom(s, k).value == [File(k / 2, size)] + rest;
        IdsAppend([File(k / 2, size)], rest);
        SingleIds(File(k / 2, size));
      } else if size > 0 {
        assert ParseFrom(s, k).value == [Empty(size)] + rest;
        IdsAppend([Empty(size)], rest);
        SingleIds(Empty(size));
      }
    }
  }

  /** On a parsed disk the ids run from 0 without a gap, so part 2 answers
      exactly when the digit string is not empty. */
  lemma Part2Parsed(s: string)
    requires Parse(s).Some?
    ensures Part2(Parse(s).value).Some? <==> |s| > 0
  {
    var bs := Parse(s).value;
    ParsedIds(s, 0);
    if |s| > 0 {
      IdsMember(bs, 0);
      var m := MaxNumber(bs).value;
      IdsMember(bs, m);
    } else {
      assert bs == [];
    }
  }

  /** A first-block file is moved right: file 1 of size 1 leaves the front,
      takes the free block of size 2, and leaves one cell free after it. */
  lemma FrontMoveExample(bs: seq<Block>)
    requires bs == [File(1, 1), Empty(2), File(0, 1)]
    ensures MoveFile(bs, 1) == Some([Empty(1), File(1, 1), Empty(1), File(0, 1)])
  {
    assert FindFile(bs, 1) == Some(0);
    assert FindSlot(bs, 1, 3, 1) == Some(1);
    var b2 := bs[1 := File(1, 1)][1..];
    assert b2 == [File(1, 1), File(0, 1)];
    assert Free(b2, 0, 1) == [Empty(1), File(1, 1), File(0, 1)];
    assert Free([Empty(1), File(1, 1), File(0, 1)], 2, 1) == [Empty(1), File(1, 1), Empty(1), File(0, 1)];
  }

  /** The same move on a disk that ends with the free block: the leftover
      cell is written past the end, where the source panics. */
  lemma FrontOverrunExample(bs: seq<Block>)
    requires bs == [File(1, 1), Empty(2)]
    ensures MoveFile(bs, 1).None? && FindFile(bs, 1).Some?
  {
    assert FindFile(bs, 1) == Some(0);
    assert FindSlot(bs, 1, 2, 1) == Some(1);
  }
}

=== FILE: day10.dfy ===
/** Day 10: a topographic map of digit heights. A hiking trail starts at
    height 0 and climbs by exactly one per up/down/left/right step until
    height 9. `score_peaks` maps every height-9 cell reachable from a start
    to the number of trails that reach it; part 1 counts the reachable peaks
    of every trailhead, part 2 the trails. */
module Day10 {
  import opened Prelude

  /** A cell (x, y): column, then row. */
  type Coord = (int, int)
  type Grid = seq<seq<nat>>

  /** One field per character, for `c.to_string().parse::<u8>()`. */
  function Chars(line: string): (r: seq<string>)
    ensures |r| == |line|
    ensures forall i | 0 <= i < |line| :: r[i] == [line[i]]
  {
    seq(|line|, i requires 0 <= i < |line| => [line[i]])
  }

  /** `load_data`: every non-empty line becomes a row of digits; any other
      character makes `unwrap` panic, giving None. */
  function LoadLines(lines: seq<string>): (r: Option<Grid>)
    ensures r.Some? ==> forall i | 0 <= i < |r.value| :: |r.value[i]| > 0
  {
    if lines == [] then Some([])
    else if |lines[0]| == 0 then LoadLines(lines[1..])
    else
      match (ParseAll(Chars(lines[0])), LoadLines(lines[1..]))
      case (Some(row), Some(rows)) => Some([row] + rows)
      case _ => None
  }

  function Load(input: string): Option<Grid>
  {
    LoadLines(Split(input, '\n'))
  }

  predicate Digits(g: Grid)
  {
    forall y, x | 0 <= y < |g| && 0 <= x < |g[y]| :: g[y][x] < 10
  }

  function RenderRow(row: seq<nat>): (s: string)
    requires forall x | 0 <= x < |row| :: row[x] < 10
    ensures |s| == |row| && '\n' !in s
  {
    seq(|row|, x requires 0 <= x < |row| => DigitChar(row[x]))
  }

  /** The map written out, one line per row. */
  function Render(g: Grid): (lines: seq<string>)
    requires Digits(g)
    ensures |lines| == |g|
    ensures forall y | 0 <= y < |g| :: lines[y] == RenderRow(g[y])
  {
    seq(|g|, y requires 0 <= y < |g| => RenderRow(g[y]))
  }

  lemma RowRoundTrip(row: seq<nat>)
    requires forall x | 0 <= x < |row| :: row[x] < 10
    ensures ParseAll(Chars(RenderRow(row))) == Some(row)
  {
    var fields := Chars(RenderRow(row));
    forall x | 0 <= x < |row|
      ensures ParseNat(fields[x]) == Some(row[x])
    {
      ParseDigit(row[x]);
    }
    var r := ParseAll(fields);
    assert r.Some?;
    assert r.value == row;
  }

  lemma {:induction false} LinesRoundTrip(g: Grid)
    requires Digits(g)
    requires forall y | 0 <= y < |g| :: |g[y]| > 0
    ensures LoadLines(Render(g)) == Some(g)
  {
    if g != [] {
      LinesRoundTrip(g[1..]);
      RowRoundTrip(g[0]);
      assert Render(g)[1..] == Render(g[1..]);
      assert g == [g[0]] + g[1..];
    }
  }

  /** Loading a written-out map of non-empty rows gives it back. */
  lemma LoadRoundTrip(g: Grid)
    requires Digits(g)
    requires forall y | 0 <= y < |g| :: |g[y]| > 0
    ensures Load(Join(Render(g), '\n')) == Some(g)
  {
    var lines := Render(g);
    if g == [] {
      assert Split("", '\n') == [""];
    } else {
      SplitJoin(lines, '\n');
      LinesRoundTrip(g);
    }
  }

  /** Rows all as long as the first, as the indexing by `map[0].len()`
      assumes. */
  predicate Rectangular(g: Grid)
  {
    forall y | 0 <= y < |g| :: |g[y]| == |g[0]|
  }

  predicate InGrid(g: Grid, c: Coord)
  {
    0 <= c.1 < |g| && 0 <= c.0 < |g[c.1]|
  }

  function Height(g: Grid, c: Coord): nat
    requires InGrid(g, c)
  {
    g[c.1][c.0]
  }

  /** Row-major order, the order `get_trailheads` visits cells in. */
  predicate Before(a: Coord, b: Coord)
  {
    a.1 < b.1 || (a.1 == b.1 && a.0 < b.0)
  }

  /** `get_trailheads`: every cell of height 0, each once, in row-major
      order. */
  method Trailheads(g: Grid) returns (r: seq<Coord>)
    requires Rectangular(g)
    ensures forall c :: c in r <==> InGrid(g, c) && Height(g, c) == 0
    ensures forall i, j :: 0 <= i < j < |r| ==> Before(r[i], r[j])
  {
    r := [];
    var y := 0;
    while y < |g|
      invariant 0 <= y <= |g|
      invariant forall c :: c in r <==> InGrid(g, c) && Height(g, c) == 0 && c.1 < y
      invariant forall i, j :: 0 <= i < j < |r| ==> Before(r[i], r[j])
      invariant forall i :: 0 <= i < |r| ==> r[i].1 < y
    {
      var x := 0;
      while x < |g[0]|
        invariant 0 <= x <= |g[0]|
        invariant forall c :: c in r <==>
          InGrid(g, c) && Height(g, c) == 0 && (c.1 < y || (c.1 == y && c.0 < x))
        invariant forall i, j :: 0 <= i < j < |r| ==> Before(r[i], r[j])
        invariant forall i :: 0 <= i < |r| ==> Before(r[i], (x, y))
      {
        if g[y][x] == 0 {
          r := r + [(x, y)];
        }
        x := x + 1;
      }
      y := y + 1;
    }
  }

  function Neighbours(c: Coord): seq<Coord>
  {
    [(c.0 - 1, c.1), (c.0, c.1 - 1), (c.0 + 1, c.1), (c.0, c.1 + 1)]
  }

  /** The source's bounds test: a neighbour one step past an edge. */
  predicate OffEdge(g: Grid, c: Coord)
    requires |g| > 0
  {
    c.0 == -1 || c.0 == |g[0]| || c.1 == -1 || c.1 == |g|
  }

  /** From a cell of the grid, the edge test rejects exactly the neighbours
      outside it. */
  lemma OffEdgeIsOutside(g: Grid, c: Coord, k: int)
    requires Rectangular(g) && InGrid(g, c) && 0 <= k < 4
    ensures OffEdge(g, Neighbours(c)[k]) <==> !InGrid(g, Neighbours(c)[k])
  {
  }

  function Count(m: map<Coord, nat>, c: Coord): nat
  {
    if c in m then m[c] else 0
  }

  /** Folding one result into another, adding the scores of shared peaks. */
  function Merge(a: map<Coord, nat>, b: map<Coord, nat>): (r: map<Coord, nat>)
    ensures r.Keys == a.Keys + b.Keys
    ensures forall c :: Count(r, c) == Count(a, c) + Count(b, c)
  {
    map c | c in a.Keys + b.Keys :: Count(a, c) + Count(b, c)
  }

  /** What one neighbour contributes: its own peaks when it is in the grid
      and exactly one higher, nothing otherwise. */
  function Climb(g: Grid, next: Coord, elevation: nat): (r: map<Coord, nat>)
    requires Rectangular(g) && |g| > 0 && elevation < 9
    requires InGrid(g, next) || OffEdge(g, next)
    ensures forall c :: c in r ==> InGrid(g, c) && r[c] >= 1 && Height(g, c) == 9
    decreases 9 - elevation, 0
  {
    if OffEdge(g, next) then map[]
    else if Height(g, next) == elevation + 1 then ScorePeaks(g, next, elevation + 1)
    else map[]
  }

  /** `score_peaks`: every key is a cell of the grid with a score of at
      least 1, and when the start has the given elevation every key is a
      peak of height 9. */
  function ScorePeaks(g: Grid, start: Coord, elevation: nat): (r: map<Coord, nat>)
    requires Rectangular(g) && InGrid(g, start) && elevation <= 9
    ensures forall c :: c in r ==> InGrid(g, c) && r[c] >= 1
    ensures Height(g, start) == elevation ==> forall c :: c in r ==> Height(g, c) == 9
    decreases 9 - elevation, 2
  {
    if elevation == 9 then map[start := 1]
    else ClimbAll(g, start, elevation)
  }

  /** The loop over the four neighbours, merging what each contributes. */
  function ClimbAll(g: Grid, start: Coord, elevation: nat): (r: map<Coord, nat>)
    requires Rectangular(g) && InGrid(g, start) && elevation < 9
    ensures forall c :: c in r ==> InGrid(g, c) && r[c] >= 1
    ensures Height(g, start) == elevation ==> forall c :: c in r ==> Height(g, c) == 9
    decreases 9 - elevation, 1
  {
    var n := Neighbours(start);
    var m0 := Merge(map[], Climb(g, n[0], elevation));
    var m1 := Merge(m0, Climb(g, n[1], elevation));
    var m2 := Merge(m1, Climb(g, n[2], elevation));
    Merge(m2, Climb(g, n[3], elevation))
  }

  /** A hiking trail from height `elevation`: a cell of the grid at that
      height, then, below 9, a step to a neighbour and a trail from one
      higher. */
  predicate IsTrail(g: Grid, path: seq<Coord>, elevation: nat)
    decreases |path|
  {
    && elevation <= 9
    && |path| == 10 - elevation
    && InGrid(g, path[0]) && Height(g, path[0]) == elevation
    && (elevation < 9 ==> path[1] in Neighbours(path[0]) && IsTrail(g, path[1..], elevation + 1))
  }

  lemma NeighbourInGrid(g: Grid, c: Coord, k: int)
    requires Rectangular(g) && InGrid(g, c) && 0 <= k < 4
    ensures InGrid(g, Neighbours(c)[k]) || OffEdge(g, Neighbours(c)[k])
  {
  }

  /** A neighbour one higher contributes its own peaks. */
  lemma ClimbInto(g: Grid, start: Coord, elevation: nat, k: int)
    requires Rectangular(g) && InGrid(g, start) && elevation < 9 && 0 <= k < 4
    requires InGrid(g, Neighbours(start)[k]) && Height(g, Neighbours(start)[k]) == elevation + 1
    ensures Climb(g, Neighbours(start)[k], elevation) == ScorePeaks(g, Neighbours(start)[k], elevation + 1)
  {
    OffEdgeIsOutside(g, start, k);
  }

  /** The keys from a start below 9 are the keys of its four climbs. */
  lemma ClimbKeys(g: Grid, start: Coord, elevation: nat)
    requires Rectangular(g) && InGrid(g, start) && elevation < 9
    ensures forall k | 0 <= k < 4 :: NeighbourOk(g, start, k)
    ensures
      var n := Neighbours(start);
      ScorePeaks(g, start, elevation).Keys ==
        Climb(g, n[0], elevation).Keys + Climb(g, n[1], elevation).Keys +
        Climb(g, n[2], elevation).Keys + Climb(g, n[3], elevation).Keys
  {
    NeighbourInGrid(g, start, 0);
    NeighbourInGrid(g, start, 1);
    NeighbourInGrid(g, start, 2);
    NeighbourInGrid(g, start, 3);
  }

  predicate NeighbourOk(g: Grid, c: Coord, k: int)
    requires |g| > 0 && 0 <= k < 4
  {
    InGrid(g, Neighbours(c)[k]) || OffEdge(g, Neighbours(c)[k])
  }

  /** Reference definition of the peaks reachable from a start: itself at
      height 9, otherwise the union over the neighbours in the grid that are
      exactly one higher. */
  function Reach(g: Grid, start: Coord, elevation: nat): set<Coord>
    requires Rectangular(g) && InGrid(g, start) && elevation <= 9
    decreases 9 - elevation, 1
  {
    if elevation == 9 then {start}
    else
      var n := Neighbours(start);
      ReachFrom(g, n[0], elevation) + ReachFrom(g, n[1], elevation) +
      ReachFrom(g, n[2], elevation) + ReachFrom(g, n[3], elevation)
  }

  function ReachFrom(g: Grid, next: Coord, elevation: nat): set<Coord>
    requires Rectangular(g) && |g| > 0 && elevation < 9
    decreases 9 - elevation, 0
  {
    if InGrid(g, next) && Height(g, next) == elevation + 1 then Reach(g, next, elevation + 1)
    else {}
  }

  /** The peaks `score_peaks` reports are exactly the reachable ones. */
  lemma {:induction false} KeysAreReach(g: Grid, start: Coord, elevation: nat)
    requires Rectangular(g) && InGrid(g, start) && elevation <= 9
    ensures ScorePeaks(g, start, elevation).Keys == Reach(g, start, elevation)
    decreases 9 - elevation, 1
  {
    if elevation < 9 {
      ClimbKeys(g, start, elevation);
      ClimbIsReachFrom(g, start, elevation, 0);
      ClimbIsReachFrom(g, start, elevation, 1);
      ClimbIsReachFrom(g, start, elevation, 2);
      ClimbIsReachFrom(g, start, elevation, 3);
    }
  }

  /** One neighbour: its climb reports exactly the peaks it reaches. */
  lemma {:induction false} ClimbIsReachFrom(g: Grid, start: Coord, elevation: nat, k: int)
    requires Rectangular(g) && InGrid(g, start) && elevation < 9 && 0 <= k < 4
    requires NeighbourOk(g, start, k)
    ensures Climb(g, Neighbours(start)[k], elevation).Keys == ReachFrom(g, Neighbours(start)[k], elevation)
    decreases 9 - elevation, 0
  {
    OffEdgeIsOutside(g, start, k);
    var next := Neighbours(start)[k];
    if InGrid(g, next) && Height(g, next) == elevation + 1 {
      KeysAreReach(g, next, elevation + 1);
    }
  }

  /** The peak a trail ends at is reachable from its start. */
  lemma {:induction false} TrailInReach(g: Grid, path: seq<Coord>, elevation: nat)
    requires Rectangular(g) && IsTrail(g, path, elevation)
    ensures path[|path| - 1] in Reach(g, path[0], elevation)
    decreases 9 - elevation
  {
    if elevation < 9 {
      var tail := path[1..];
      TrailInReach(g, tail, elevation + 1);
      assert path[|path| - 1] == tail[|tail| - 1];
      var n := Neighbours(path[0]);
      var k :| 0 <= k < 4 && n[k] == path[1];
      assert path[|path| - 1] in ReachFrom(g, n[k], elevation);
    }
  }

  /** Every reachable peak ends a trail from the start. */
  lemma {:induction false} ReachHasTrail(g: Grid, start: Coord, elevation: nat, peak: Coord)
    returns (path: seq<Coord>)
    requires Rectangular(g) && InGrid(g, start) && elevation <= 9
    requires Height(g, start) == elevation
    requires peak in Reach(g, start, elevation)
    ensures IsTrail(g, path, elevation)
    ensures path[0] == start && path[|path| - 1] == peak
    decreases 9 - elevation
  {
    if elevation == 9 {
      path := [start];
    } else {
      var n := Neighbours(start);
      var k := if peak in ReachFrom(g, n[0], elevation) then 0
        else if peak in ReachFrom(g, n[1], elevation) then 1
        else if peak in ReachFrom(g, n[2], elevation) then 2
        else 3;
      var next := n[k];
      assert peak in ReachFrom(g, next, elevation);
      var tail := ReachHasTrail(g, next, elevation + 1, peak);
      path := [start] + tail;
      assert path[1..] == tail;
    }
  }

  /** The peak a trail ends at is a key of the result from its start. */
  lemma TrailReachesPeak(g: Grid, path: seq<Coord>, elevation: nat)
    requires Rectangular(g) && IsTrail(g, path, elevation)
    ensures path[|path| - 1] in ScorePeaks(g, path[0], elevation)
  {
    TrailInReach(g, path, elevation);
    KeysAreReach(g, path[0], elevation);
  }

  /** Every key of the result ends a trail from the start. */
  lemma PeakHasTrail(g: Grid, start: Coord, elevation: nat, peak: Coord)
    returns (path: seq<Coord>)
    requires Rectangular(g) && InGrid(g, start) && elevation <= 9
    requires Height(g, start) == elevation
    requires peak in ScorePeaks(g, start, elevation)
    ensures IsTrail(g, path, elevation)
    ensures path[0] == start && path[|path| - 1] == peak
  {
    KeysAreReach(g, start, elevation);
    path := ReachHasTrail(g, start, elevation, peak);
  }

  /** The sum of the values of a map, in no particular order. */
  ghost function ValueSum(m: map<Coord, nat>): nat
    decreases |m|
  {
    if m == map[] then 0
    else
      var k :| k in m;
      m[k] + ValueSum(m - {k})
  }

  /** Any key can be taken out first. */
  lemma {:induction false} ValueSumRemove(m: map<Coord, nat>, k: Coord)
    requires k in m
    ensures ValueSum(m) == m[k] + ValueSum(m - {k})
    decreases |m|
  {
    var j :| j in m && ValueSum(m) == m[j] + ValueSum(m - {j});
    if j != k {
      ValueSumRemove(m - {j}, k);
      ValueSumRemove(m - {k}, j);
      assert (m - {j}) - {k} == (m - {k}) - {j};
    }
  }

  /** With every score at least 1 there are no more peaks than trails. */
  lemma {:induction false} KeysAtMostValueSum(m: map<Coord, nat>)
    requires forall c :: c in m ==> m[c] >= 1
    ensures |m.Keys| <= ValueSum(m)
    decreases |m|
  {
    if m != map[] {
      var k :| k in m;
      ValueSumRemove(m, k);
      KeysAtMostValueSum(m - {k});
      assert (m - {k}).Keys == m.Keys - {k};
    }
  }

  /** `.values().sum()`, over the map in hash order. */
  method SumValues(m: map<Coord, nat>) returns (total: nat)
    ensures total == ValueSum(m)
  {
    total := 0;
    var rest := m;
    while rest != map[]
      invariant total + ValueSum(rest) == ValueSum(m)
      decreases |rest|
    {
      var k :| k in rest;
      ValueSumRemove(rest, k);
      total := total + rest[k];
      rest := rest - {k};
    }
  }

  predicate AllHeads(g: Grid, heads: seq<Coord>)
  {
    forall i | 0 <= i < |heads| :: InGrid(g, heads[i])
  }

  /** The trailhead list: the height-0 cells in row-major order. */
  ghost predicate HeadList(g: Grid, heads: seq<Coord>)
  {
    && AllHeads(g, heads)
    && (forall c :: c in heads <==> InGrid(g, c) && Height(g, c) == 0)
    && (forall i, j :: 0 <= i < j < |heads| ==> Before(heads[i], heads[j]))
  }

  /** Part 1: the reachable peaks of every trailhead, added up. */
  function PeakCount(g: Grid, heads: seq<Coord>): nat
    requires Rectangular(g) && AllHeads(g, heads)
  {
    if heads == [] then 0
    else |ScorePeaks(g, heads[0], 0).Keys| + PeakCount(g, heads[1..])
  }

  /** Part 2: the trails of every trailhead, added up. */
  ghost function TrailCount(g: Grid, heads: seq<Coord>): nat
    requires Rectangular(g) && AllHeads(g, heads)
  {
    if heads == [] then 0
    else ValueSum(ScorePeaks(g, heads[0], 0)) + TrailCount(g, heads[1..])
  }

  method Part1(g: Grid) returns (total: nat)
    requires Rectangular(g)
    ensures exists heads :: HeadList(g, heads) && total == PeakCount(g, heads)
  {
    var heads := Trailheads(g);
    assert AllHeads(g, heads) by {
      forall i | 0 <= i < |heads|
        ensures InGrid(g, heads[i])
      {
        assert heads[i] in heads;
      }
    }
    total := PeakCount(g, heads);
    assert HeadList(g, heads);
  }

  method Part2(g: Grid) returns (total: nat)
    requires Rectangular(g)
    ensures exists heads :: HeadList(g, heads) && total == TrailCount(g, heads)
  {
    var heads := Trailheads(g);
    assert AllHeads(g, heads) by {
      forall i | 0 <= i < |heads|
        ensures InGrid(g, heads[i])
      {
        assert heads[i] in heads;
      }
    }
    total := 0;
    var i := 0;
    while i < |heads|
      invariant 0 <= i <= |heads|
      invariant total + TrailCount(g, heads[i..]) == TrailCount(g, heads)
    {
      var trails := SumValues(ScorePeaks(g, heads[i], 0));
      assert heads[i..][1..] == heads[i + 1..];
      total := total + trails;
      i := i + 1;
    }
    assert heads[i..] == [];
    assert HeadList(g, heads);
  }

  /** Every reachable peak has at least one trail, so part 1 never exceeds
      part 2. */
  lemma {:induction false} PeaksAtMostTrails(g: Grid, heads: seq<Coord>)
    requires Rectangular(g) && AllHeads(g, heads)
    ensures PeakCount(g, heads) <= TrailCount(g, heads)
  {
    if heads != [] {
      KeysAtMostValueSum(ScorePeaks(g, heads[0], 0));
      PeaksAtMostTrails(g, heads[1..]);
    }
  }
}

=== FILE: day11.dfy ===
/** Day 11: stones that change on every blink. A 0 becomes 1, a number with
    an even count of digits splits into its two halves, any other number is
    multiplied by 2024. The solver counts the stones a single stone becomes
    after n blinks, without building them. */
module Day11 {
  import opened Prelude

  /** What one stone becomes after one blink. The source lists the right
      half before the left half. */
  function Blink(s: nat): (r: seq<nat>)
    ensures 1 <= |r| <= 2
    ensures s == 0 ==> r == [1]
    ensures s > 0 && DecimalDigits(s) % 2 == 1 ==> r == [2024 * s]
    ensures |r| == 2 <==> s > 0 && DecimalDigits(s) % 2 == 0
  {
    var digits := DecimalDigits(s);
    if s == 0 then [1]
    else if digits % 2 == 0 then
      var p := Pow(10, digits / 2);
      [s % p, s / p]
    else [s * 2024]
  }

  /** A number has d digits exactly when it lies in [10^(d-1), 10^d). */
  lemma {:induction false} DigitsExact(n: nat, d: nat)
    requires d >= 1 && Pow(10, d - 1) <= n < Pow(10, d)
    ensures DecimalDigits(n) == d
  {
    if d > 1 {
      assert Pow(10, d - 1) == 10 * Pow(10, d - 2);
      assert Pow(10, d) == 10 * Pow(10, d - 1);
      DigitsExact(n / 10, d - 1);
    }
  }

  /** The split is into halves: the right half has at most half the
      digits, the left half exactly half, and writing the left half before
      the right (padded) gives the stone back. */
  lemma SplitHalves(s: nat)
    requires s > 0 && DecimalDigits(s) % 2 == 0
    ensures
      var r := Blink(s);
      var h := DecimalDigits(s) / 2;
      && r[1] * Pow(10, h) + r[0] == s
      && r[0] < Pow(10, h)
      && DecimalDigits(r[1]) == h
  {
    var d := DecimalDigits(s);
    var h := d / 2;
    var p := Pow(10, h);
    DecimalDigitsBounds(s);
    assert d == h + h && h >= 1;
    PowAdd(10, h, h);
    PowAdd(10, h - 1, h);
    assert h - 1 + h == d - 1;
    QuotientRange(s, p, Pow(10, h - 1));
    DigitsExact(s / p, h);
  }

  /** A number between lo * p and p * p has a quotient by p between lo and p. */
  lemma QuotientRange(s: nat, p: nat, lo: nat)
    requires p > 0 && lo * p <= s < p * p
    ensures lo <= s / p < p
  {
    var q := s / p;
    assert s == q * p + s % p;
    if q >= p {
      MulLess(p, q, p);
    }
    if q < lo {
      MulLess(q + 1, lo, p);
    }
  }

  lemma MulLess(a: nat, b: nat, c: nat)
    requires a <= b
    ensures a * c <= b * c
  {
  }

  /** `score`: how many stones one stone becomes after n blinks. */
  function Score(s: nat, n: nat): (r: nat)
    ensures r >= 1
    ensures n == 0 ==> r == 1
    decreases n, 0
  {
    if n == 0 then 1 else ScoreAll(Blink(s), n - 1)
  }

  /** The sum of the scores of a row of stones. */
  function ScoreAll(stones: seq<nat>, n: nat): (r: nat)
    ensures r >= |stones|
    decreases n, |stones| + 1
  {
    if |stones| == 0 then 0 else Score(stones[0], n) + ScoreAll(stones[1..], n)
  }

  // ---------------------------------------------------------------------
  // Reference: the row of stones itself

  /** One blink over a whole row: each stone replaced by what it becomes. */
  function BlinkAll(stones: seq<nat>): (r: seq<nat>)
    ensures |r| >= |stones|
  {
    if |stones| == 0 then [] else Blink(stones[0]) + BlinkAll(stones[1..])
  }

  /** The row after n blinks. */
  function Stones(stones: seq<nat>, n: nat): seq<nat>
    decreases n
  {
    if n == 0 then stones else Stones(BlinkAll(stones), n - 1)
  }

  lemma {:induction false} BlinkAllAppend(a: seq<nat>, b: seq<nat>)
    ensures BlinkAll(a + b) == BlinkAll(a) + BlinkAll(b)
  {
    if |a| > 0 {
      assert (a + b)[1..] == a[1..] + b;
      BlinkAllAppend(a[1..], b);
    } else {
      assert a + b == b;
    }
  }

  lemma {:induction false} ScoreAllAppend(a: seq<nat>, b: seq<nat>, n: nat)
    ensures ScoreAll(a + b, n) == ScoreAll(a, n) + ScoreAll(b, n)
  {
    if |a| > 0 {
      assert (a + b)[1..] == a[1..] + b;
      ScoreAllAppend(a[1..], b, n);
    } else {
      assert a + b == b;
    }
  }

  /** Scoring a row one blink ahead is scoring the blinked row. */
  lemma {:induction false} ScoreAllBlink(stones: seq<nat>, n: nat)
    requires n > 0
    ensures ScoreAll(stones, n) == ScoreAll(BlinkAll(stones), n - 1)
  {
    if |stones| > 0 {
      ScoreAllBlink(stones[1..], n);
      ScoreAllAppend(Blink(stones[0]), BlinkAll(stones[1..]), n - 1);
    }
  }

  /** The memoised count is exact: it is the length of the row the stones
      really become. */
  lemma {:induction false} ScoreAllIsLength(stones: seq<nat>, n: nat)
    ensures ScoreAll(stones, n) == |Stones(stones, n)|
    decreases n
  {
    if n == 0 {
      ScoreAllOnes(stones);
    } else {
      ScoreAllBlink(stones, n);
      ScoreAllIsLength(BlinkAll(stones), n - 1);
    }
  }

  lemma {:induction false} ScoreAllOnes(stones: seq<nat>)
    ensures ScoreAll(stones, 0) == |stones|
  {
    if |stones| > 0 {
      ScoreAllOnes(stones[1..]);
    }
  }

  /** One stone's score is the length of the row it becomes. */
  lemma ScoreIsLength(s: nat, n: nat)
    ensures Score(s, n) == |Stones([s], n)|
  {
    ScoreAllIsLength([s], n);
    assert ScoreAll([s], n) == Score(s, n) + ScoreAll([], n);
  }

  /** Stones never disappear: one more blink never lowers the count. */
  lemma {:induction false} ScoreMonotone(s: nat, n: nat)
    ensures Score(s, n) <= Score(s, n + 1)
    decreases n, 0
  {
    if n > 0 {
      ScoreAllMonotone(Blink(s), n - 1);
    }
  }

  lemma {:induction false} ScoreAllMonotone(stones: seq<nat>, n: nat)
    ensures ScoreAll(stones, n) <= ScoreAll(stones, n + 1)
    decreases n, |stones| + 1
  {
    if |stones| > 0 {
      ScoreMonotone(stones[0], n);
      ScoreAllMonotone(stones[1..], n);
    }
  }

  /** The puzzle's first example: one blink turns 0 1 10 99 999 into seven
      stones, the split halves coming right half first. */
  lemma OneBlinkExample()
    ensures BlinkAll([0, 1, 10, 99, 999]) == [1, 2024, 0, 1, 9, 9, 2021976]
  {
    assert DecimalDigits(10) == 2;
    assert DecimalDigits(99) == 2;
    assert DecimalDigits(999) == 3;
  }

  // ---------------------------------------------------------------------
  // Reading the stones and the answers

  /** `load_data`: the first line, split at spaces, every field a number;
      a field that is not a number is a panic (`None`). */
  function LoadStones(input: string): (r: Option<seq<nat>>)
    ensures r.Some? <==> forall k | 0 <= k < |Fields(input)| :: ParseNat(Fields(input)[k]).Some?
    ensures r.Some? ==> |r.value| == multiset(FirstLine(input))[' '] + 1
  {
    var line := FirstLine(input);
    SplitCount(line, ' ');
    assert Fields(input) == Split(line, ' ');
    ParseAll(Split(line, ' '))
  }

  function FirstLine(input: string): string
  {
    Split(input, '\n')[0]
  }

  /** The space-separated fields of the first line. */
  function Fields(input: string): seq<string>
  {
    Split(FirstLine(input), ' ')
  }

  /** Stones written out in decimal, separated by single spaces, on the
      first line read back as themselves, whatever follows the line. */
  lemma LoadStonesRoundTrip(stones: seq<nat>, rest: string)
    requires |stones| > 0
    ensures LoadStones(Join(NatStrings(stones), ' ') + "\n" + rest) == Some(stones)
  {
    var fields := NatStrings(stones);
    var line := Join(fields, ' ');
    forall k | 0 <= k < |fields|
      ensures ' ' !in fields[k] && '\n' !in fields[k]
    {
      NatStringAvoids(stones[k], ' ');
      NatStringAvoids(stones[k], '\n');
    }
    JoinAvoids(fields, ' ', '\n');
    SplitFirst(line, rest, '\n');
    assert line + "\n" + rest == line + ['\n'] + rest;
    SplitJoin(fields, ' ');
    ParseAllNatStrings(stones);
  }

  /** Both parts: the sum of the scores after a number of blinks (25 for
      part 1, 75 for part 2), which is the row length after that many
      blinks. */
  function Solve(stones: seq<nat>, blinks: nat): (r: nat)
    ensures r == |Stones(stones, blinks)|
    ensures r >= |stones|
  {
    ScoreAllIsLength(stones, blinks);
    ScoreAll(stones, blinks)
  }

  /** Part 1: the number of stones after 25 blinks. */
  function Part1(stones: seq<nat>): (r: nat)
    ensures r == |Stones(stones, 25)| && r >= |stones|
  {
    Solve(stones, 25)
  }

  /** Part 2: the number of stones after 75 blinks. */
  function Part2(stones: seq<nat>): (r: nat)
    ensures r == |Stones(stones, 75)| && r >= |stones|
  {
    Solve(stones, 75)
  }

  /** Part 2 counts at least as many stones as part 1. */
  lemma {:induction false} Part1AtMostPart2(stones: seq<nat>)
    ensures Part1(stones) <= Part2(stones)
  {
    var k := 25;
    while k < 75
      invariant 25 <= k <= 75
      invariant ScoreAll(stones, 25) <= ScoreAll(stones, k)
    {
      ScoreAllMonotone(stones, k);
      k := k + 1;
    }
  }
}

=== FILE: day12.dfy ===
/** Day 12: a garden map of plant letters splits into regions, the maximal
    groups of same-letter plots joined through up/down/left/right steps.
    Part 1 prices each region at area times perimeter (fence segments);
    part 2 at area times the number of straight sides. */
module Day12 {
  import opened Prelude

  /** A plot, (x, y) with both coordinates shifted up by one. */
  type Coord = (int, int)
  type Garden = map<Coord, char>

  /** The plots `load_data` reads: the character in column x of line y lands
      at (x + 1, y + 1); empty lines add nothing but still count as lines. */
  function Load(input: string): (m: Garden)
    ensures forall p :: p in m ==> p.0 >= 1 && p.1 >= 1
  {
    Plant(Split(input, '\n'))
  }

  /** The map built from the lines of the input. */
  function Plant(lines: seq<string>): (m: Garden)
    ensures forall x, y :: (x, y) in m <==> 1 <= y <= |lines| && 1 <= x <= |lines[y - 1]|
    ensures forall x, y :: (x, y) in m ==> m[(x, y)] == lines[y - 1][x - 1]
  {
    map p | p in Plots(lines) :: lines[p.1 - 1][p.0 - 1]
  }

  function RowPlots(n: nat, y: int): (r: set<Coord>)
    ensures forall x :: (x, y) in r <==> 1 <= x <= n
    ensures forall p :: p in r ==> p.1 == y
  {
    set x | 1 <= x <= n :: (x, y)
  }

  function Plots(lines: seq<string>): (r: set<Coord>)
    ensures forall x, y :: (x, y) in r <==> 1 <= y <= |lines| && 1 <= x <= |lines[y - 1]|
  {
    if lines == [] then {}
    else Plots(lines[..|lines| - 1]) + RowPlots(|lines[|lines| - 1]|, |lines|)
  }

  /** The four neighbours in the order the source visits them: left, up,
      right, down. */
  function Neighbours(p: Coord): (r: seq<Coord>)
    ensures |r| == 4
  {
    [(p.0 - 1, p.1), (p.0, p.1 - 1), (p.0 + 1, p.1), (p.0, p.1 + 1)]
  }

  /** The neighbours are the plots one step away. */
  lemma NeighboursAdjacent(p: Coord, q: Coord)
    ensures q in Neighbours(p) <==> Abs(q.0 - p.0) + Abs(q.1 - p.1) == 1
  {
  }

  lemma NeighboursSymmetric(p: Coord, q: Coord)
    ensures q in Neighbours(p) <==> p in Neighbours(q)
  {
  }

  function Get(m: Garden, p: Coord): Option<char>
  {
    if p in m then Some(m[p]) else None
  }

  /** Two plots of the map carrying the same plant. */
  predicate Same(m: Garden, p: Coord, q: Coord)
  {
    p in m && q in m && m[p] == m[q]
  }

  /** Every same-plant neighbour of p lies in r. */
  predicate ClosedAt(m: Garden, r: set<Coord>, p: Coord)
  {
    forall q :: q in Neighbours(p) && Same(m, p, q) ==> q in r
  }

  predicate Closed(m: Garden, r: set<Coord>)
  {
    forall p {:trigger ClosedAt(m, r, p)} :: p in r ==> ClosedAt(m, r, p)
  }

  /** `find_region`: insert coord, then recurse into each neighbour that is a
      plot of the same plant not yet in the region, merging what comes back.
      The plots added are same-plant plots and each of them has all its
      same-plant neighbours in the result. */
  function FindRegion(m: Garden, coord: Coord, region: set<Coord>): (r: set<Coord>)
    ensures region + {coord} <= r
    ensures forall p :: p in r && p !in region && p != coord ==> Same(m, coord, p)
    ensures forall p {:trigger ClosedAt(m, r, p)} :: p in r && p !in region ==> ClosedAt(m, r, p)
    decreases m.Keys - (region + {coord}), 1, 0
  {
    Explore(m, coord, region + {coord}, Neighbours(coord))
  }

  /** The loop over the neighbours of coord still to visit. */
  function Explore(m: Garden, coord: Coord, region: set<Coord>, nbs: seq<Coord>): (r: set<Coord>)
    ensures region <= r
    ensures forall p :: p in r && p !in region ==> Same(m, coord, p)
    ensures forall p {:trigger ClosedAt(m, r, p)} :: p in r && p !in region ==> ClosedAt(m, r, p)
    ensures forall q :: q in nbs && Same(m, coord, q) ==> q in r
    decreases m.Keys - region, 0, |nbs|
  {
    if nbs == [] then region
    else
      var q := nbs[0];
      if q !in m || Get(m, coord) != Get(m, q) || q in region then
        Explore(m, coord, region, nbs[1..])
      else
        var found := FindRegion(m, q, region);
        var r := Explore(m, coord, region + found, nbs[1..]);
        assert forall p {:trigger ClosedAt(m, r, p)} | p in r && p !in region :: ClosedAt(m, r, p) by {
          forall p | p in r && p !in region
            ensures ClosedAt(m, r, p)
          {
            if p in found {
              assert ClosedAt(m, found, p);
            }
          }
        }
        r
  }

  /** The region grown from a single plot. */
  function Region(m: Garden, c: Coord): (r: set<Coord>)
    requires c in m
    ensures c in r
    ensures forall p :: p in r ==> Same(m, c, p)
    ensures Closed(m, r)
  {
    FindRegion(m, c, {})
  }

  /** The search adds nothing outside any closed set holding its start. */
  lemma {:induction false} FindRegionLeast(m: Garden, coord: Coord, region: set<Coord>, s: set<Coord>)
    requires Closed(m, s) && coord in s
    ensures FindRegion(m, coord, region) - region <= s
    decreases m.Keys - (region + {coord}), 1, 0
  {
    ExploreLeast(m, coord, region + {coord}, Neighbours(coord), s);
  }

  lemma {:induction false} ExploreLeast(m: Garden, coord: Coord, region: set<Coord>, nbs: seq<Coord>, s: set<Coord>)
    requires Closed(m, s) && coord in s
    requires forall q :: q in nbs ==> q in Neighbours(coord)
    ensures Explore(m, coord, region, nbs) - region <= s
    decreases m.Keys - region, 0, |nbs|
  {
    if nbs != [] {
      var q := nbs[0];
      if q !in m || Get(m, coord) != Get(m, q) || q in region {
        ExploreLeast(m, coord, region, nbs[1..], s);
      } else {
        assert ClosedAt(m, s, coord);
        assert q in s;
        var found := FindRegion(m, q, region);
        FindRegionLeast(m, q, region, s);
        ExploreLeast(m, coord, region + found, nbs[1..], s);
      }
    }
  }

  /** A region is the least closed set holding its start plot: it is the
      connected same-plant component of that plot. */
  lemma RegionLeast(m: Garden, c: Coord, s: set<Coord>)
    requires c in m
    requires Closed(m, s) && c in s
    ensures Region(m, c) <= s
  {
    FindRegionLeast(m, c, {}, s);
  }

  /** The plots outside a closed set form a closed set too, since being
      same-plant neighbours is symmetric. */
  lemma ComplementClosed(m: Garden, a: set<Coord>)
    requires Closed(m, a)
    ensures Closed(m, m.Keys - a)
  {
    forall p, q | p in m.Keys - a && q in Neighbours(p) && Same(m, p, q)
      ensures q in m.Keys - a
    {
      NeighboursSymmetric(p, q);
      assert q in a ==> ClosedAt(m, a, q);
    }
  }

  /** `find_all_regions` with the key iteration order of the hash map given
      as `order`: a key already taken is skipped, otherwise its region is
      appended and taken. */
  function AllRegions(m: Garden, order: seq<Coord>, taken: set<Coord>): seq<set<Coord>>
  {
    if order == [] then []
    else if order[0] in taken then AllRegions(m, order[1..], taken)
    else
      var r := FindRegion(m, order[0], {});
      [r] + AllRegions(m, order[1..], taken + r)
  }

  /** For any key order of the hash map, the regions are pairwise disjoint
      components that together cover exactly the plots. */
  function FindAllRegions(m: Garden, order: seq<Coord>): (rs: seq<set<Coord>>)
    ensures (forall c :: c in order <==> c in m) ==> Partition(m, rs)
  {
    AllRegionsPartition(m, order);
    AllRegions(m, order, {})
  }

  predicate IsRegion(m: Garden, r: set<Coord>)
  {
    exists c :: c in m && r == Region(m, c)
  }

  predicate Covered(rs: seq<set<Coord>>, p: Coord)
  {
    exists i :: 0 <= i < |rs| && p in rs[i]
  }

  predicate RegionsOutside(rs: seq<set<Coord>>, taken: set<Coord>)
  {
    forall i :: 0 <= i < |rs| ==> rs[i] !! taken
  }

  predicate Disjoint(rs: seq<set<Coord>>)
  {
    forall i, j :: 0 <= i < j < |rs| ==> rs[i] !! rs[j]
  }

  lemma ClosedUnion(m: Garden, a: set<Coord>, b: set<Coord>)
    requires Closed(m, a) && Closed(m, b)
    ensures Closed(m, a + b)
  {
    forall p | p in a + b
      ensures ClosedAt(m, a + b, p)
    {
      if p in a {
        assert ClosedAt(m, a, p);
      } else {
        assert ClosedAt(m, b, p);
      }
    }
  }

  /** The region started at a plot outside a closed set of plots stays
      outside it, and adding it keeps the set closed. */
  lemma FreshRegion(m: Garden, c: Coord, taken: set<Coord>)
    requires c in m && c !in taken
    requires Closed(m, taken) && taken <= m.Keys
    ensures FindRegion(m, c, {}) !! taken
    ensures Closed(m, taken + FindRegion(m, c, {}))
    ensures taken + FindRegion(m, c, {}) <= m.Keys
  {
    var r := Region(m, c);
    ComplementClosed(m, taken);
    RegionLeast(m, c, m.Keys - taken);
    ClosedUnion(m, taken, r);
  }

  lemma ConsOutside(r: set<Coord>, rest: seq<set<Coord>>, taken: set<Coord>)
    requires r !! taken
    requires RegionsOutside(rest, taken + r) && Disjoint(rest)
    ensures RegionsOutside([r] + rest, taken) && Disjoint([r] + rest)
  {
    var rs := [r] + rest;
    forall i | 0 < i < |rs|
      ensures rs[i] !! taken && rs[i] !! r
    {
      assert rs[i] == rest[i - 1];
    }
    forall i, j | 0 <= i < j < |rs|
      ensures rs[i] !! rs[j]
    {
      assert rs[j] == rest[j - 1];
      if i > 0 {
        assert rs[i] == rest[i - 1];
      }
    }
  }

  /** The regions found are disjoint from the plots taken before, from each
      other, and each is grown from a plot of the map, listed in `starts`. */
  lemma {:induction false} AllRegionsOutside(m: Garden, order: seq<Coord>, taken: set<Coord>)
    returns (starts: seq<Coord>)
    requires forall c :: c in order ==> c in m
    requires Closed(m, taken) && taken <= m.Keys
    ensures |starts| == |AllRegions(m, order, taken)|
    ensures forall i :: 0 <= i < |starts| ==>
      starts[i] in m && AllRegions(m, order, taken)[i] == FindRegion(m, starts[i], {})
    ensures RegionsOutside(AllRegions(m, order, taken), taken)
    ensures Disjoint(AllRegions(m, order, taken))
  {
    starts := [];
    if order != [] {
      var c := order[0];
      if c in taken {
        starts := AllRegionsOutside(m, order[1..], taken);
      } else {
        var r := FindRegion(m, c, {});
        FreshRegion(m, c, taken);
        var rest := AllRegions(m, order[1..], taken + r);
        var more := AllRegionsOutside(m, order[1..], taken + r);
        ConsOutside(r, rest, taken);
        var rs := [r] + rest;
        assert AllRegions(m, order, taken) == rs;
        starts := [c] + more;
        forall i | 0 < i < |starts|
          ensures starts[i] in m && rs[i] == FindRegion(m, starts[i], {})
        {
          assert starts[i] == more[i - 1] && rs[i] == rest[i - 1];
        }
      }
    }
  }

  lemma {:induction false} AllRegionsCover(m: Garden, order: seq<Coord>, taken: set<Coord>)
    ensures forall c :: c in order ==> c in taken || Covered(AllRegions(m, order, taken), c)
  {
    if order != [] {
      var c := order[0];
      if c in taken {
        AllRegionsCover(m, order[1..], taken);
      } else {
        var r := FindRegion(m, c, {});
        var rest := AllRegions(m, order[1..], taken + r);
        AllRegionsCover(m, order[1..], taken + r);
        var rs := [r] + rest;
        assert AllRegions(m, order, taken) == rs;
        forall d | d in order
          ensures d in taken || Covered(rs, d)
        {
          if d == c || d in r {
            assert d in rs[0];
          } else if d !in taken {
            assert d in order[1..];
            var i :| 0 <= i < |rest| && d in rest[i];
            assert d in rs[i + 1];
          }
        }
      }
    }
  }

  /** The regions cover exactly the plots, are pairwise disjoint, and each
      is the region of a plot of the map. */
  ghost predicate Partition(m: Garden, rs: seq<set<Coord>>)
  {
    && (forall i :: 0 <= i < |rs| ==> IsRegion(m, rs[i]))
    && Disjoint(rs)
    && (forall p :: p in m <==> Covered(rs, p))
  }

  /** When `order` lists the keys, the regions found from nothing taken
      partition the map. */
  lemma AllRegionsPartition(m: Garden, order: seq<Coord>)
    ensures (forall c :: c in order <==> c in m) ==> Partition(m, AllRegions(m, order, {}))
  {
    if forall c :: c in order <==> c in m {
      var rs := AllRegions(m, order, {});
      var starts := AllRegionsOutside(m, order, {});
      AllRegionsCover(m, order, {});
      forall i | 0 <= i < |rs|
        ensures IsRegion(m, rs[i])
      {
        assert rs[i] == Region(m, starts[i]);
      }
      forall p | Covered(rs, p) ensures p in m {
        var i :| 0 <= i < |rs| && p in rs[i];
        assert IsRegion(m, rs[i]);
      }
    }
  }

  /** A fence segment as the source records it: the outside plot (x, y) and
      the index k of the neighbour direction it faces. */
  datatype Fence = Fence(x: int, y: int, k: int)

  /** The fence on side k of plot p. */
  function Side(p: Coord, k: int): (f: Fence)
    requires 0 <= k < 4
    ensures f.k == k && Owner(f) == p && Spot(f) == Neighbours(p)[k]
  {
    var q := Neighbours(p)[k];
    Fence(q.0, q.1, k)
  }

  function Spot(f: Fence): Coord
  {
    (f.x, f.y)
  }

  /** The plot inside the fence: one step back against its direction. */
  function Owner(f: Fence): Coord
  {
    if f.k == 0 then (f.x + 1, f.y)
    else if f.k == 1 then (f.x, f.y + 1)
    else if f.k == 2 then (f.x - 1, f.y)
    else (f.x, f.y - 1)
  }

  lemma SideOfOwner(f: Fence)
    requires 0 <= f.k < 4
    ensures Side(Owner(f), f.k) == f
  {
  }

  /** The fences of the plots in `done` against plots outside `region`. */
  function FencesOf(region: set<Coord>, done: set<Coord>): (r: set<Fence>)
    ensures forall f :: f in r <==> 0 <= f.k < 4 && Owner(f) in done && Spot(f) !in region
  {
    var r := set p, k | p in done && 0 <= k < 4 && Neighbours(p)[k] !in region :: Side(p, k);
    assert forall f: Fence | 0 <= f.k < 4 && Owner(f) in done && Spot(f) !in region :: f in r by {
      forall f: Fence | 0 <= f.k < 4 && Owner(f) in done && Spot(f) !in region
        ensures f in r
      {
        SideOfOwner(f);
      }
    }
    r
  }

  /** Every (plot, direction) pair whose neighbour lies outside the region. */
  function Fences(region: set<Coord>): set<Fence>
  {
    FencesOf(region, region)
  }

  /** The fences of plot p in the directions below j. */
  function CellFences(region: set<Coord>, p: Coord, j: int): (r: set<Fence>)
    requires 0 <= j <= 4
    ensures forall f :: f in r <==> 0 <= f.k < j && Owner(f) == p && Spot(f) !in region
  {
    var r := set k | 0 <= k < j && Neighbours(p)[k] !in region :: Side(p, k);
    assert forall f: Fence | 0 <= f.k < j && Owner(f) == p && Spot(f) !in region :: f in r by {
      forall f: Fence | 0 <= f.k < j && Owner(f) == p && Spot(f) !in region
        ensures f in r
      {
        SideOfOwner(f);
      }
    }
    r
  }

  /** 1 when side k of p faces a plot outside the region. */
  function Open(region: set<Coord>, p: Coord, k: int): nat
    requires 0 <= k < 4
  {
    if Neighbours(p)[k] !in region then 1 else 0
  }

  function OpenCount(region: set<Coord>, p: Coord, j: int): nat
    requires 0 <= j <= 4
  {
    if j == 0 then 0 else OpenCount(region, p, j - 1) + Open(region, p, j - 1)
  }

  lemma CellFencesStep(region: set<Coord>, p: Coord, k: int)
    requires 0 <= k < 4
    ensures |CellFences(region, p, k + 1)| == |CellFences(region, p, k)| + Open(region, p, k)
  {
    var f := Side(p, k);
    if Neighbours(p)[k] !in region {
      assert f !in CellFences(region, p, k);
      assert CellFences(region, p, k + 1) == CellFences(region, p, k) + {f};
    } else {
      assert CellFences(region, p, k + 1) == CellFences(region, p, k);
    }
  }

  /** The fences of a plot are its open sides, one for each. */
  lemma {:induction false} CellFencesCard(region: set<Coord>, p: Coord, j: int)
    requires 0 <= j <= 4
    ensures |CellFences(region, p, j)| == OpenCount(region, p, j) <= j
  {
    if j == 0 {
      assert CellFences(region, p, j) == {};
    } else {
      CellFencesCard(region, p, j - 1);
      CellFencesStep(region, p, j - 1);
    }
  }

  /** Adding a plot adds exactly its own fences. */
  lemma FencesOfAdd(region: set<Coord>, done: set<Coord>, p: Coord)
    requires p !in done
    ensures FencesOf(region, done + {p}) == FencesOf(region, done) + CellFences(region, p, 4)
    ensures |FencesOf(region, done + {p})| == |FencesOf(region, done)| + |CellFences(region, p, 4)|
  {
    assert FencesOf(region, done) !! CellFences(region, p, 4);
  }

  /** `get_perimeter`: for every plot of the region, in the hash set's order,
      count the neighbours outside the region. */
  method Perimeter(region: set<Coord>) returns (perimeter: nat)
    ensures perimeter == |Fences(region)|
  {
    perimeter := 0;
    var todo := region;
    while todo != {}
      invariant todo <= region
      invariant perimeter == |FencesOf(region, region - todo)|
      decreases |todo|
    {
      var p :| p in todo;
      var open := OpenSides(region, p);
      perimeter := perimeter + open;
      FencesOfAdd(region, region - todo, p);
      assert region - (todo - {p}) == (region - todo) + {p};
      todo := todo - {p};
    }
    assert region - todo == region;
  }

  /** The inner loop of `get_perimeter`: the neighbours of p outside the
      region. */
  method OpenSides(region: set<Coord>, p: Coord) returns (open: nat)
    ensures open == |CellFences(region, p, 4)|
  {
    open := 0;
    var k := 0;
    while k < 4
      invariant 0 <= k <= 4
      invariant open == OpenCount(region, p, k)
    {
      if Neighbours(p)[k] !in region {
        open := open + 1;
      }
      k := k + 1;
    }
    CellFencesCard(region, p, 4);
  }

  lemma {:induction false} FencesOfAtMost(region: set<Coord>, done: set<Coord>)
    ensures |FencesOf(region, done)| <= 4 * |done|
    decreases |done|
  {
    if done == {} {
      assert FencesOf(region, done) == {};
    } else {
      var p :| p in done;
      FencesOfAtMost(region, done - {p});
      FencesOfAdd(region, done - {p}, p);
      CellFencesCard(region, p, 4);
      assert done - {p} + {p} == done;
    }
  }

  /** A region has at most four fences per plot. */
  lemma PerimeterAtMost(region: set<Coord>)
    ensures |Fences(region)| <= 4 * |region|
  {
    FencesOfAtMost(region, region);
  }

  /** A lone plot is fenced on all four sides. */
  lemma PerimeterSingle(p: Coord)
    ensures |Fences({p})| == 4
  {
    var r := {p};
    assert FencesOf(r, {}) == {};
    FencesOfAdd(r, {}, p);
    assert {} + {p} == r;
    CellFencesCard(r, p, 4);
    assert OpenCount(r, p, 1) == 1;
    assert OpenCount(r, p, 2) == 2;
    assert OpenCount(r, p, 3) == 3;
    assert OpenCount(r, p, 4) == 4;
  }

  /** Coordinate i of a fence's plot, as `section[i]` reads it. */
  function At(f: Fence, i: int): int
  {
    if i == 0 then f.x else f.y
  }

  /** The sort key `(k, s[k % 2], s[(k + 1) % 2])`: a left or right fence is
      keyed by its column, then its row; an up or down fence by its row, then
      its column. */
  function Key(f: Fence): (int, int, int)
  {
    (f.k, At(f, f.k % 2), At(f, (f.k + 1) % 2))
  }

  predicate KeyLe(a: Fence, b: Fence)
  {
    var (ka, ea, ia) := Key(a);
    var (kb, eb, ib) := Key(b);
    ka < kb || (ka == kb && (ea < eb || (ea == eb && ia <= ib)))
  }

  lemma KeyInjective(a: Fence, b: Fence)
    requires Key(a) == Key(b)
    ensures a == b
  {
  }

  lemma KeyLeIsTotalPreorder()
    ensures TotalPreorder(KeyLe)
  {
  }

  /** The fence one step back along the same straight side. */
  function Pred(f: Fence): (g: Fence)
    ensures Key(g) == (Key(f).0, Key(f).1, Key(f).2 - 1)
  {
    if f.k % 2 == 0 then Fence(f.x, f.y - 1, f.k) else Fence(f.x - 1, f.y, f.k)
  }

  /** Where a new side starts: the sorted pair is not two consecutive fences
      of one straight side. */
  predicate Break(s0: Fence, s1: Fence)
  {
    var eq := s0.k % 2;
    var inc := (s0.k + 1) % 2;
    s0.k != s1.k || At(s0, eq) != At(s1, eq) || At(s0, inc) + 1 != At(s1, inc)
  }

  /** The fences that start a side: none of the side continues behind them. */
  function SideStarts(fences: set<Fence>): (r: set<Fence>)
    ensures r <= fences
    ensures forall f :: f in r <==> f in fences && Pred(f) !in fences
  {
    set f | f in fences && Pred(f) !in fences
  }

  predicate KeyLt(a: Fence, b: Fence)
  {
    KeyLe(a, b) && !KeyLe(b, a)
  }

  predicate StrictlySorted(s: seq<Fence>)
  {
    forall i, j :: 0 <= i < j < |s| ==> KeyLt(s[i], s[j])
  }

  /** In a strictly sorted list, a break comes exactly before a fence whose
      predecessor is missing, because no key lies strictly between a key and
      its predecessor's. */
  lemma BreakIffStart(s: seq<Fence>, i: int)
    requires StrictlySorted(s) && 1 <= i < |s|
    ensures Break(s[i - 1], s[i]) <==> Pred(s[i]) !in s
  {
    if !Break(s[i - 1], s[i]) {
      KeyInjective(s[i - 1], Pred(s[i]));
    }
    if Pred(s[i]) in s {
      var j :| 0 <= j < |s| && s[j] == Pred(s[i]);
      assert KeyLt(s[j], s[i]);
      if j >= i {
        assert false;
      }
      if j < i - 1 {
        assert false;
      }
    }
  }

  lemma FirstIsStart(s: seq<Fence>)
    requires StrictlySorted(s) && |s| > 0
    ensures Pred(s[0]) !in s
  {
    if Pred(s[0]) in s {
      var j :| 0 <= j < |s| && s[j] == Pred(s[0]);
      assert KeyLt(s[j], s[0]);
      assert false;
    }
  }

  lemma MultisetTwice<T>(s: seq<T>, i: int, j: int)
    requires 0 <= i < j < |s| && s[i] == s[j]
    ensures multiset(s)[s[i]] >= 2
  {
    assert s == s[..j] + [s[j]] + s[j + 1..];
    assert s[i] in multiset(s[..j]);
  }

  /** A sorted list holding each element once is strictly sorted. */
  lemma SortedDistinct(s: seq<Fence>)
    requires SortedBy(s, KeyLe)
    requires forall f :: multiset(s)[f] <= 1
    ensures StrictlySorted(s)
  {
    forall i, j | 0 <= i < j < |s|
      ensures KeyLt(s[i], s[j])
    {
      if KeyLe(s[j], s[i]) {
        KeyInjective(s[i], s[j]);
        MultisetTwice(s, i, j);
        assert false;
      }
    }
  }

  function StartsIn(s: seq<Fence>, fences: set<Fence>): set<Fence>
  {
    set f | f in s && Pred(f) !in fences
  }

  /** `get_perimeter_sections`: collect every open side of every plot as
      [x, y, k], sort by the key, and count 1 plus one per break between
      neighbours in the sorted list. For a region with fences this is the
      number of fences that start a side; with none it is 1. */
  method PerimeterSections(region: set<Coord>) returns (sections: nat)
    ensures Fences(region) == {} ==> sections == 1
    ensures Fences(region) != {} ==> sections == |SideStarts(Fences(region))|
  {
    var all := Fences(region);
    var fenceSections := CollectFences(region);
    KeyLeIsTotalPreorder();
    var sorted := Sort(fenceSections, KeyLe);
    SortedDistinct(sorted);
    forall f
      ensures f in sorted <==> f in all
    {
      assert f in sorted <==> f in multiset(sorted);
    }
    sections := CountBreaks(sorted, all);
  }

  /** The counting loop, on the sorted sections. */
  method CountBreaks(sorted: seq<Fence>, all: set<Fence>) returns (sections: nat)
    requires StrictlySorted(sorted)
    requires forall f :: f in sorted <==> f in all
    ensures all == {} ==> sections == 1
    ensures all != {} ==> sections == |SideStarts(all)|
  {
    sections := 1;
    if |sorted| == 0 {
      assert all == {} by {
        forall f | f in all
          ensures f in sorted
        {
        }
      }
      return;
    }
    FirstIsStart(sorted);
    assert StartsIn(sorted[..1], all) == {sorted[0]};
    var i := 1;
    while i < |sorted|
      invariant 1 <= i <= |sorted|
      invariant sections == |StartsIn(sorted[..i], all)|
    {
      StartsStep(sorted, all, i);
      if Break(sorted[i - 1], sorted[i]) {
        sections := sections + 1;
      }
      i := i + 1;
    }
    assert sorted[..i] == sorted;
    assert StartsIn(sorted, all) == SideStarts(all);
  }

  lemma StartsStep(sorted: seq<Fence>, all: set<Fence>, i: int)
    requires StrictlySorted(sorted)
    requires forall f :: f in sorted <==> f in all
    requires 1 <= i < |sorted|
    ensures |StartsIn(sorted[..i + 1], all)| == |StartsIn(sorted[..i], all)| + Indicator(Break(sorted[i - 1], sorted[i]))
  {
    BreakIffStart(sorted, i);
    assert sorted[..i + 1] == sorted[..i] + [sorted[i]];
    assert sorted[i] !in sorted[..i];
    if Break(sorted[i - 1], sorted[i]) {
      assert StartsIn(sorted[..i + 1], all) == StartsIn(sorted[..i], all) + {sorted[i]};
    } else {
      assert StartsIn(sorted[..i + 1], all) == StartsIn(sorted[..i], all);
    }
  }

  function Indicator(b: bool): nat
  {
    if b then 1 else 0
  }

  /** The collection loop of `get_perimeter_sections`: every fence of the
      region, each once, in the hash set's order. */
  method CollectFences(region: set<Coord>) returns (list: seq<Fence>)
    ensures forall f :: multiset(list)[f] == Indicator(f in Fences(region))
  {
    list := [];
    var todo := region;
    while todo != {}
      invariant todo <= region
      invariant forall f :: multiset(list)[f] == Indicator(f in FencesOf(region, region - todo))
      decreases |todo|
    {
      var p :| p in todo;
      var done := region - todo;
      list := CollectCell(region, p, list);
      IndicatorAdd(region, done, p);
      assert region - (todo - {p}) == done + {p};
      todo := todo - {p};
    }
    assert region - todo == region;
  }

  lemma IndicatorAdd(region: set<Coord>, done: set<Coord>, p: Coord)
    requires p !in done
    ensures forall f ::
      Indicator(f in FencesOf(region, done + {p})) == Indicator(f in FencesOf(region, done)) + Indicator(f in CellFences(region, p, 4))
  {
    FencesOfAdd(region, done, p);
  }

  /** The inner loop: push the open sides of one plot. */
  method CollectCell(region: set<Coord>, p: Coord, list0: seq<Fence>) returns (list: seq<Fence>)
    ensures forall f :: multiset(list)[f] == multiset(list0)[f] + Indicator(f in CellFences(region, p, 4))
  {
    list := list0;
    var k := 0;
    while k < 4
      invariant 0 <= k <= 4
      invariant forall f :: multiset(list)[f] == multiset(list0)[f] + Indicator(f in CellFences(region, p, k))
    {
      if Neighbours(p)[k] !in region {
        list := list + [Side(p, k)];
      }
      k := k + 1;
    }
  }

  /** Left of a plot, or left of some plot further left, the region ends:
      a non-empty region has a fence. */
  lemma {:induction false} HasFence(region: set<Coord>, p: Coord)
    requires p in region
    ensures Fences(region) != {}
    decreases LeftOf(region, p)
  {
    var left := Neighbours(p)[0];
    if left !in region {
      assert Side(p, 0) in Fences(region);
    } else {
      assert left in LeftOf(region, p) && left !in LeftOf(region, left);
      HasFence(region, left);
    }
  }

  function LeftOf(region: set<Coord>, p: Coord): (r: set<Coord>)
    ensures forall q :: q in r <==> q in region && q.0 < p.0
  {
    set q | q in region && q.0 < p.0
  }

  /** Every side starts at one of its fences, so there are no more sides
      than fences. */
  lemma SidesAtMostPerimeter(region: set<Coord>)
    ensures |SideStarts(Fences(region))| <= |Fences(region)|
  {
    SubsetCard(SideStarts(Fences(region)), Fences(region));
  }

  /** A lone plot has four sides. */
  lemma SidesSingle(p: Coord)
    ensures |SideStarts(Fences({p}))| == 4
  {
    var all := Fences({p});
    forall f | f in all
      ensures Pred(f) !in all
    {
    }
    assert SideStarts(all) == all;
    PerimeterSingle(p);
  }

  /** Area times fence count, summed over the regions. */
  function FencePrice(rs: seq<set<Coord>>): nat
  {
    if rs == [] then 0
    else FencePrice(rs[..|rs| - 1]) + |Fences(rs[|rs| - 1])| * |rs[|rs| - 1]|
  }

  /** Area times side count, summed over the regions. */
  function SidePrice(rs: seq<set<Coord>>): nat
  {
    if rs == [] then 0
    else SidePrice(rs[..|rs| - 1]) + |SideStarts(Fences(rs[|rs| - 1]))| * |rs[|rs| - 1]|
  }

  /** The bulk discount never costs more. */
  lemma {:induction false} SidePriceAtMost(rs: seq<set<Coord>>)
    ensures SidePrice(rs) <= FencePrice(rs)
  {
    if rs != [] {
      var r := rs[|rs| - 1];
      SidePriceAtMost(rs[..|rs| - 1]);
      SidesAtMostPerimeter(r);
      MulLe(|SideStarts(Fences(r))|, |Fences(r)|, |r|);
    }
  }

  lemma MulLe(a: nat, b: nat, c: nat)
    requires a <= b
    ensures a * c <= b * c
  {
  }

  /** Each region holds the plot it was grown from. */
  lemma {:induction false} AllRegionsNonEmpty(m: Garden, order: seq<Coord>, taken: set<Coord>)
    ensures forall i :: 0 <= i < |AllRegions(m, order, taken)| ==> AllRegions(m, order, taken)[i] != {}
  {
    if order != [] {
      var c := order[0];
      if c in taken {
        AllRegionsNonEmpty(m, order[1..], taken);
      } else {
        var r := FindRegion(m, c, {});
        var rest := AllRegions(m, order[1..], taken + r);
        AllRegionsNonEmpty(m, order[1..], taken + r);
        var rs := [r] + rest;
        assert AllRegions(m, order, taken) == rs;
        assert c in r;
        forall i | 0 < i < |rs|
          ensures rs[i] != {}
        {
          assert rs[i] == rest[i - 1];
        }
      }
    }
  }

  function Below(all: set<Fence>, f: Fence): (r: set<Fence>)
    ensures forall g :: g in r <==> g in all && KeyLt(g, f)
  {
    set g | g in all && KeyLt(g, f)
  }

  /** Walking back along a side ends at its start: a non-empty set of
      fences has a side start. */
  lemma {:induction false} HasSideStart(all: set<Fence>, f: Fence)
    requires f in all
    ensures SideStarts(all) != {}
    decreases Below(all, f)
  {
    var g := Pred(f);
    if g !in all {
      assert f in SideStarts(all);
    } else {
      assert g in Below(all, f) && g !in Below(all, g);
      assert Below(all, g) <= Below(all, f);
      HasSideStart(all, g);
    }
  }

  /** The section count of a non-empty region is its number of sides. */
  method RegionSides(region: set<Coord>) returns (sections: nat)
    requires region != {}
    ensures sections == |SideStarts(Fences(region))| >= 1
  {
    assert |region| > 0;
    var p :| p in region;
    HasFence(region, p);
    var f :| f in Fences(region);
    HasSideStart(Fences(region), f);
    sections := PerimeterSections(region);
  }

  /** `solve_part_1` on a loaded map whose keys come in the order `order`. */
  method Part1(m: Garden, order: seq<Coord>) returns (total: nat)
    ensures total == FencePrice(FindAllRegions(m, order))
  {
    var rs := FindAllRegions(m, order);
    total := 0;
    var i := 0;
    while i < |rs|
      invariant 0 <= i <= |rs|
      invariant total == FencePrice(rs[..i])
    {
      var perimeter := Perimeter(rs[i]);
      assert rs[..i + 1][..i] == rs[..i];
      total := total + perimeter * |rs[i]|;
      i := i + 1;
    }
    assert rs[..i] == rs;
  }

  /** `solve_part_2`: every region is non-empty, so each one's count is its
      number of sides. */
  method Part2(m: Garden, order: seq<Coord>) returns (total: nat)
    ensures total == SidePrice(FindAllRegions(m, order))
  {
    var rs := FindAllRegions(m, order);
    AllRegionsNonEmpty(m, order, {});
    total := 0;
    var i := 0;
    while i < |rs|
      invariant 0 <= i <= |rs|
      invariant total == SidePrice(rs[..i])
    {
      var sections := RegionSides(rs[i]);
      assert rs[..i + 1][..i] == rs[..i];
      total := total + sections * |rs[i]|;
      i := i + 1;
    }
    assert rs[..i] == rs;
  }
}

=== FILE: day13.dfy ===
/** Day 13: claw machines. Button A moves the claw by one vector at a cost
    of 3 tokens and button B by another at a cost of 1. A machine is won
    by pressing each button a positive whole number of times so that the
    claw lands on the prize. The solver finds the presses by Cramer's
    rule. */
module Day13 {
  import opened Prelude

  datatype Point = Point(x: int, y: int)

  /** The two button vectors and the prize position. */
  datatype Machine = Machine(a: Point, b: Point, p: Point)

  // ---------------------------------------------------------------------
  // Rust's integer division, which rounds toward zero

  /** `/` on `i64`: the quotient rounded toward zero. */
  function TruncDiv(x: int, d: int): int
    requires d != 0
  {
    var q := Abs(x) / Abs(d);
    if (x < 0) == (d < 0) then q else -q
  }

  /** `%` on `i64`: the remainder that goes with TruncDiv. */
  function TruncRem(x: int, d: int): int
    requires d != 0
  {
    x - d * TruncDiv(x, d)
  }

  /** A zero truncated remainder means d divides x, whatever the signs, and
      then the truncated quotient is the exact one. */
  lemma TruncExact(x: int, d: int)
    requires d != 0
    ensures TruncRem(x, d) == 0 <==> Abs(x) % Abs(d) == 0
    ensures TruncRem(x, d) == 0 ==> d * TruncDiv(x, d) == x
  {
    var q := Abs(x) / Abs(d);
    var r := Abs(x) % Abs(d);
    assert Abs(x) == Abs(d) * q + r;
    assert d * TruncDiv(x, d) == (if x < 0 then -(Abs(d) * q) else Abs(d) * q) by {
      if (x < 0) == (d < 0) {
        assert d * q == (if d < 0 then -(Abs(d) * q) else Abs(d) * q);
      } else {
        assert d * -q == (if d < 0 then Abs(d) * q else -(Abs(d) * q));
      }
    }
  }

  // ---------------------------------------------------------------------
  // Cramer's rule

  /** The presses n_a and n_b move the claw exactly onto the prize. */
  predicate Presses(m: Machine, na: int, nb: int)
  {
    && na * m.a.x + nb * m.b.x == m.p.x
    && na * m.a.y + nb * m.b.y == m.p.y
  }

  function Det(m: Machine): int
  {
    m.a.x * m.b.y - m.a.y * m.b.x
  }

  function DetA(m: Machine): int
  {
    m.b.y * m.p.x - m.b.x * m.p.y
  }

  function DetB(m: Machine): int
  {
    m.a.x * m.p.y - m.a.y * m.p.x
  }

  /** `find_machine_cost`: 3 n_a + n_b when Cramer's rule gives whole,
      positive presses, and 0 otherwise. A zero determinant makes the
      remainder a division by zero, which panics (`None`). */
  function Cost(m: Machine): (r: Option<int>)
    ensures r.None? <==> Det(m) == 0
    ensures r.Some? ==> r.value >= 0
  {
    var det := Det(m);
    if det == 0 then None
    else if TruncRem(DetA(m), det) == 0 && TruncRem(DetB(m), det) == 0 then
      var na := TruncDiv(DetA(m), det);
      var nb := TruncDiv(DetB(m), det);
      if na > 0 && nb > 0 then Some(3 * na + nb) else Some(0)
    else Some(0)
  }

  lemma MulCancel(d: int, x: int, y: int)
    requires d != 0 && d * x == d * y
    ensures x == y
  {
    assert d * (x - y) == 0;
    if x != y {
      MulNonZero(d, x - y);
    }
  }

  lemma MulNonZero(d: int, z: int)
    requires d != 0 && z != 0
    ensures d * z != 0
  {
    if d > 0 && z > 0 {
      MulPositive(d, z);
    } else if d > 0 {
      MulPositive(d, -z);
    } else if z > 0 {
      MulPositive(-d, z);
    } else {
      MulPositive(-d, -z);
    }
  }

  lemma MulPositive(d: int, z: int)
    requires d > 0 && z > 0
    ensures d * z > 0
  {
  }

  /** Any solution satisfies Cramer's equations det * n_a == d_a and
      det * n_b == d_b. */
  lemma CramerNecessary(m: Machine, na: int, nb: int)
    requires Presses(m, na, nb)
    ensures Det(m) * na == DetA(m)
    ensures Det(m) * nb == DetB(m)
  {
    var ax, ay, bx, bY := m.a.x, m.a.y, m.b.x, m.b.y;
    calc {
      DetA(m);
      bY * (na * ax + nb * bx) - bx * (na * ay + nb * bY);
      { Distribute(bY, na * ax, nb * bx); Distribute(bx, na * ay, nb * bY); }
      bY * (na * ax) + bY * (nb * bx) - (bx * (na * ay) + bx * (nb * bY));
      { Reassociate(bY, na, ax); Reassociate(bY, nb, bx); Reassociate(bx, na, ay); Reassociate(bx, nb, bY); }
      na * (ax * bY) + nb * (bx * bY) - na * (ay * bx) - nb * (bx * bY);
      na * (ax * bY) - na * (ay * bx);
      { Distribute(na, ax * bY, -(ay * bx)); }
      na * (ax * bY - ay * bx);
    }
    calc {
      DetB(m);
      ax * (na * ay + nb * bY) - ay * (na * ax + nb * bx);
      { Distribute(ax, na * ay, nb * bY); Distribute(ay, na * ax, nb * bx); }
      ax * (na * ay) + ax * (nb * bY) - (ay * (na * ax) + ay * (nb * bx));
      { Reassociate(ax, na, ay); Reassociate(ax, nb, bY); Reassociate(ay, na, ax); Reassociate(ay, nb, bx); }
      na * (ax * ay) + nb * (ax * bY) - na * (ax * ay) - nb * (ay * bx);
      nb * (ax * bY) - nb * (ay * bx);
      { Distribute(nb, ax * bY, -(ay * bx)); }
      nb * (ax * bY - ay * bx);
    }
  }

  /** With a non-zero determinant, Cramer's equations give a solution. */
  lemma CramerSufficient(m: Machine, na: int, nb: int)
    requires Det(m) != 0
    requires Det(m) * na == DetA(m) && Det(m) * nb == DetB(m)
    ensures Presses(m, na, nb)
  {
    var ax, ay, bx, bY, px, py := m.a.x, m.a.y, m.b.x, m.b.y, m.p.x, m.p.y;
    var det := Det(m);
    calc {
      det * (na * ax + nb * bx);
      { Distribute(det, na * ax, nb * bx); Reassociate(det, na, ax); Reassociate(det, nb, bx); }
      ax * (det * na) + bx * (det * nb);
      ax * (bY * px - bx * py) + bx * (ax * py - ay * px);
      { Distribute(ax, bY * px, -(bx * py)); Distribute(bx, ax * py, -(ay * px));
        Reassociate(ax, bY, px); Reassociate(ax, bx, py); Reassociate(bx, ax, py); Reassociate(bx, ay, px); }
      px * (ax * bY) - px * (ay * bx);
      { Distribute(px, ax * bY, -(ay * bx)); }
      det * px;
    }
    MulCancel(det, na * ax + nb * bx, px);
    calc {
      det * (na * ay + nb * bY);
      { Distribute(det, na * ay, nb * bY); Reassociate(det, na, ay); Reassociate(det, nb, bY); }
      ay * (det * na) + bY * (det * nb);
      ay * (bY * px - bx * py) + bY * (ax * py - ay * px);
      { Distribute(ay, bY * px, -(bx * py)); Distribute(bY, ax * py, -(ay * px));
        Reassociate(ay, bY, px); Reassociate(ay, bx, py); Reassociate(bY, ax, py); Reassociate(bY, ay, px); }
      py * (ax * bY) - py * (ay * bx);
      { Distribute(py, ax * bY, -(ay * bx)); }
      det * py;
    }
    MulCancel(det, na * ay + nb * bY, py);
  }

  lemma Distribute(k: int, x: int, y: int)
    ensures k * (x + y) == k * x + k * y
  {
  }

  /** k * (u * v) as u * (k * v) and the other orders a proof needs. */
  lemma Reassociate(k: int, u: int, v: int)
    ensures k * (u * v) == u * (k * v) == v * (k * u) == (k * u) * v
    ensures k * (u * v) == u * (v * k) == v * (u * k)
  {
  }

  /** A non-zero cost is 3 n_a + n_b for whole, positive presses that land
      the claw on the prize. */
  lemma CostSound(m: Machine)
    requires Cost(m).Some? && Cost(m).value != 0
    ensures exists na, nb :: na > 0 && nb > 0 && Presses(m, na, nb) && Cost(m).value == 3 * na + nb
  {
    var det := Det(m);
    TruncExact(DetA(m), det);
    TruncExact(DetB(m), det);
    var na := TruncDiv(DetA(m), det);
    var nb := TruncDiv(DetB(m), det);
    CramerSufficient(m, na, nb);
  }

  /** And every winning way is found: with a non-zero determinant, whole
      positive presses that land on the prize are the ones the cost is
      made of. */
  lemma CostComplete(m: Machine, na: int, nb: int)
    requires Det(m) != 0 && na > 0 && nb > 0 && Presses(m, na, nb)
    ensures Cost(m) == Some(3 * na + nb)
  {
    var det := Det(m);
    CramerNecessary(m, na, nb);
    TruncDivExact(DetA(m), det, na);
    TruncDivExact(DetB(m), det, nb);
  }

  /** Dividing an exact multiple leaves no remainder and gives the factor. */
  lemma TruncDivExact(x: int, d: int, k: int)
    requires d != 0 && d * k == x
    ensures TruncRem(x, d) == 0 && TruncDiv(x, d) == k
  {
    TruncExact(x, d);
    var ak := Abs(k);
    assert Abs(x) == Abs(d) * ak by {
      if (d < 0) == (k < 0) {
        assert x == Abs(d) * ak;
      } else {
        assert x == -(Abs(d) * ak);
      }
    }
    DivModUnique(Abs(x), Abs(d), ak, 0);
    MulCancel(d, TruncDiv(x, d), k);
  }

  /** So a machine is worth something exactly when it can be won. */
  lemma CostPositiveIff(m: Machine)
    requires Det(m) != 0
    ensures Cost(m).value > 0 <==> exists na, nb :: na > 0 && nb > 0 && Presses(m, na, nb)
  {
    if Cost(m).value > 0 {
      CostSound(m);
    }
    if exists na, nb :: na > 0 && nb > 0 && Presses(m, na, nb) {
      var na, nb :| na > 0 && nb > 0 && Presses(m, na, nb);
      CostComplete(m, na, nb);
    }
  }

  // ---------------------------------------------------------------------
  // The two parts

  /** The sum of the machines' costs; a panic on any machine is a panic. */
  function Total(ms: seq<Machine>): (r: Option<int>)
    ensures r.None? <==> exists i | 0 <= i < |ms| :: Det(ms[i]) == 0
    ensures r.Some? ==> r.value >= 0
  {
    if |ms| == 0 then Some(0)
    else
      assert forall i | 1 <= i < |ms| :: ms[i] == ms[1..][i - 1];
      match (Cost(ms[0]), Total(ms[1..]))
      case (Some(x), Some(y)) => Some(x + y)
      case _ => None
  }

  const Offset: int := 10_000_000_000_000

  /** Part 2's machine: the prize moved by 10^13 along both axes. */
  function Far(m: Machine): Machine
  {
    m.(p := Point(m.p.x + Offset, m.p.y + Offset))
  }

  /** The machine can be won with a positive number of presses of each
      button. */
  ghost predicate Winnable(m: Machine)
  {
    exists na, nb :: na > 0 && nb > 0 && Presses(m, na, nb)
  }

  /** Part 1 panics exactly when some machine has a zero determinant. It
      is positive exactly when some machine can be won. */
  function Part1(ms: seq<Machine>): (r: Option<int>)
    ensures r.None? <==> exists i | 0 <= i < |ms| :: Det(ms[i]) == 0
    ensures r.Some? ==> r.value >= 0
    ensures r.Some? ==> (r.value > 0 <==> exists i | 0 <= i < |ms| :: Winnable(ms[i]))
  {
    var r := Total(ms);
    if r.Some? then TotalPositive(ms); AllWinnable(ms); r else r
  }

  /** The same for every prize moved by 10^13 along both axes. */
  function Part2(ms: seq<Machine>): (r: Option<int>)
    ensures r.None? <==> exists i | 0 <= i < |ms| :: Det(ms[i]) == 0
    ensures r.Some? ==> r.value >= 0
    ensures r.Some? ==> (r.value > 0 <==> exists i | 0 <= i < |ms| :: Winnable(Far(ms[i])))
  {
    var far := seq(|ms|, i requires 0 <= i < |ms| => Far(ms[i]));
    assert forall i | 0 <= i < |ms| :: Det(far[i]) == Det(ms[i]);
    var r := Total(far);
    if r.Some? then TotalPositive(far); AllWinnable(far); r else r
  }

  /** A sum of non-negative costs is positive exactly when one of them is. */
  lemma {:induction false} TotalPositive(ms: seq<Machine>)
    requires Total(ms).Some?
    ensures forall i | 0 <= i < |ms| :: Cost(ms[i]).Some?
    ensures Total(ms).value > 0 <==> exists i | 0 <= i < |ms| :: Cost(ms[i]).value > 0
  {
    if |ms| > 0 {
      TotalPositive(ms[1..]);
      assert forall i | 1 <= i < |ms| :: ms[i] == ms[1..][i - 1];
      if Total(ms[1..]).value > 0 {
        var i :| 0 <= i < |ms[1..]| && Cost(ms[1..][i]).value > 0;
        assert Cost(ms[i + 1]).value > 0;
      }
    }
  }

  /** On machines with non-zero determinants, a positive cost marks
      exactly the machines that can be won. */
  lemma AllWinnable(ms: seq<Machine>)
    requires forall i | 0 <= i < |ms| :: Det(ms[i]) != 0
    ensures forall i | 0 <= i < |ms| :: Cost(ms[i]).value > 0 <==> Winnable(ms[i])
  {
    forall i | 0 <= i < |ms|
      ensures Cost(ms[i]).value > 0 <==> Winnable(ms[i])
    {
      CostPositiveIff(ms[i]);
    }
  }

  /** Moving the prize leaves the determinant alone, so part 2 panics
      exactly when part 1 does. */
  lemma FarSameDet(ms: seq<Machine>)
    ensures Part2(ms).None? <==> Part1(ms).None?
  {
    var far := seq(|ms|, i requires 0 <= i < |ms| => Far(ms[i]));
    assert forall i | 0 <= i < |ms| :: Det(far[i]) == Det(ms[i]);
  }

  /** A far machine is worth something exactly when whole positive presses
      reach the prize moved by 10^13 along both axes. */
  lemma FarCost(m: Machine)
    requires Det(m) != 0
    ensures Cost(Far(m)).value > 0 <==>
      exists na, nb :: na > 0 && nb > 0 &&
        na * m.a.x + nb * m.b.x == m.p.x + Offset && na * m.a.y + nb * m.b.y == m.p.y + Offset
  {
    var f := Far(m);
    assert f.a == m.a && f.b == m.b && f.p == Point(m.p.x + Offset, m.p.y + Offset);
    assert Det(f) == Det(m);
    CostPositiveIff(f);
    if Cost(f).value > 0 {
      var na, nb :| na > 0 && nb > 0 && Presses(f, na, nb);
      assert na * m.a.x + nb * m.b.x == m.p.x + Offset;
    }
    if exists na, nb :: na > 0 && nb > 0 &&
        na * m.a.x + nb * m.b.x == m.p.x + Offset && na * m.a.y + nb * m.b.y == m.p.y + Offset {
      var na, nb :| na > 0 && nb > 0 &&
        na * m.a.x + nb * m.b.x == m.p.x + Offset && na * m.a.y + nb * m.b.y == m.p.y + Offset;
      assert Presses(f, na, nb);
    }
  }

  // ---------------------------------------------------------------------
  // The example of the puzzle statement

  /** The example's four machines. */
  function ExampleMachines(): seq<Machine>
  {
    [ Machine(Point(94, 34), Point(22, 67), Point(8400, 5400)),
      Machine(Point(26, 66), Point(67, 21), Point(12748, 12176)),
      Machine(Point(17, 86), Point(84, 37), Point(7870, 6450)),
      Machine(Point(69, 23), Point(27, 71), Point(18641, 10279)) ]
  }

  /** The first machine is won with 80 presses of A and 40 of B. */
  lemma ExampleCost0(m: Machine)
    requires m == ExampleMachines()[0]
    ensures Cost(m) == Some(280)
  {
    assert Det(m) == 5550 && DetA(m) == 444000 && DetB(m) == 222000;
    assert TruncDiv(444000, 5550) == 80 && TruncDiv(222000, 5550) == 40;
  }

  /** The second machine has no whole solution. */
  lemma ExampleCost1(m: Machine)
    requires m == ExampleMachines()[1]
    ensures Cost(m) == Some(0)
  {
    assert Det(m) == -3876 && DetA(m) == -548084;
    assert TruncRem(DetA(m), -3876) != 0;
  }

  /** The third machine is won with 38 presses of A and 86 of B. */
  lemma ExampleCost2(m: Machine)
    requires m == ExampleMachines()[2]
    ensures Cost(m) == Some(200)
  {
    assert Det(m) == -6595 && DetA(m) == -250610 && DetB(m) == -567170;
    assert TruncDiv(-250610, -6595) == 38 && TruncDiv(-567170, -6595) == 86;
  }

  /** The fourth machine has no whole solution. */
  lemma ExampleCost3(m: Machine)
    requires m == ExampleMachines()[3]
    ensures Cost(m) == Some(0)
  {
    assert Det(m) == 4278 && DetA(m) == 1045978;
    assert TruncRem(DetA(m), 4278) != 0;
  }

  /** Part 1 on the example: 280 + 200 = 480 tokens. */
  lemma Part1Example()
    ensures Part1(ExampleMachines()) == Some(480)
  {
    var ms := ExampleMachines();
    ExampleCost0(ms[0]);
    ExampleCost1(ms[1]);
    ExampleCost2(ms[2]);
    ExampleCost3(ms[3]);
    assert ms[1..][1..][1..][1..] == [];
  }
}

=== FILE: day14.dfy ===
/** Day 14: robots moving in straight lines on a `width` by `height` torus.
    Part 1 lets every robot move for 100 seconds and multiplies the robot
    counts of the four quadrants. Part 2 looks for the second at which the
    robots cluster: the x and y coordinates each repeat with their own
    period, and the answer is the time at which both clusterings coincide. */
module Day14 {
  import opened Prelude

  datatype Point = Point(x: int, y: int)

  datatype Robot = Robot(position: Point, velocity: Point)

  // ---------------------------------------------------------------------
  // Euclidean remainder

  /** Adding to a value whose remainder was already taken gives the same
      remainder as adding to the value itself. */
  lemma ModAdd(a: int, b: int, w: int)
    requires w > 0
    ensures (a % w + b) % w == (a + b) % w
  {
    var q := a / w;
    assert a == w * q + a % w;
    var t := a % w + b;
    var q2, r2 := t / w, t % w;
    assert t == w * q2 + r2;
    assert a + b == w * (q + q2) + r2;
    DivModUnique(a + b, w, q + q2, r2);
  }

  /** Adding a multiple of the modulus does not change the remainder. */
  lemma ModMultiple(a: int, k: int, w: int)
    requires w > 0
    ensures (a + k * w) % w == a % w
  {
    var q, r := a / w, a % w;
    assert a == w * q + r;
    assert a + k * w == w * (q + k) + r;
    DivModUnique(a + k * w, w, q + k, r);
  }

  /** A value and its remainder differ by a multiple of the modulus. */
  lemma ModCongruent(a: int, w: int)
    requires w > 0
    ensures (a % w - a) % w == 0
  {
    var q := a / w;
    assert a % w - a == w * (-q) + 0;
    DivModUnique(a % w - a, w, -q, 0);
  }

  // ---------------------------------------------------------------------
  // Motion

  predicate OnGrid(p: Point, w: int, h: int)
  {
    0 <= p.x < w && 0 <= p.y < h
  }

  /** `move_robot`: `rem_euclid` of the straight-line position, which for a
      positive modulus is Dafny's `%`. The result is the unique cell of the
      grid congruent to the straight-line position on both axes. */
  function Move(r: Robot, dt: int, w: int, h: int): (m: Robot)
    requires w > 0 && h > 0
    ensures OnGrid(m.position, w, h)
    ensures m.velocity == r.velocity
    ensures (m.position.x - (r.position.x + r.velocity.x * dt)) % w == 0
    ensures (m.position.y - (r.position.y + r.velocity.y * dt)) % h == 0
  {
    ModCongruent(r.position.x + r.velocity.x * dt, w);
    ModCongruent(r.position.y + r.velocity.y * dt, h);
    Robot(Point((r.position.x + r.velocity.x * dt) % w, (r.position.y + r.velocity.y * dt) % h),
          r.velocity)
  }

  /** Moving for dt1 and then for dt2 is moving for dt1 + dt2. */
  lemma MoveCompose(r: Robot, dt1: int, dt2: int, w: int, h: int)
    requires w > 0 && h > 0
    ensures Move(Move(r, dt1, w, h), dt2, w, h) == Move(r, dt1 + dt2, w, h)
  {
    AxisCompose(r.position.x, r.velocity.x, dt1, dt2, w);
    AxisCompose(r.position.y, r.velocity.y, dt1, dt2, h);
  }

  lemma AxisCompose(x: int, v: int, dt1: int, dt2: int, w: int)
    requires w > 0
    ensures ((x + v * dt1) % w + v * dt2) % w == (x + v * (dt1 + dt2)) % w
  {
    ModAdd(x + v * dt1, v * dt2, w);
    assert v * dt1 + v * dt2 == v * (dt1 + dt2);
  }

  /** Moving for no time leaves a robot on the grid where it is. */
  lemma MoveZero(r: Robot, w: int, h: int)
    requires w > 0 && h > 0 && OnGrid(r.position, w, h)
    ensures Move(r, 0, w, h) == r
  {
    DivModUnique(r.position.x, w, 0, r.position.x);
    DivModUnique(r.position.y, h, 0, r.position.y);
  }

  /** After k * width seconds the x coordinate is back where it was, and
      after k * height seconds the y coordinate is. */
  lemma MoveAxisPeriods(r: Robot, k: int, w: int, h: int)
    requires w > 0 && h > 0 && OnGrid(r.position, w, h)
    ensures Move(r, k * w, w, h).position.x == r.position.x
    ensures Move(r, k * h, w, h).position.y == r.position.y
  {
    AxisReturn(r.position.x, r.velocity.x, k, w);
    AxisReturn(r.position.y, r.velocity.y, k, h);
  }

  lemma AxisReturn(x: int, v: int, k: int, w: int)
    requires 0 <= x < w
    ensures (x + v * (k * w)) % w == x
  {
    assert v * (k * w) == (v * k) * w;
    ModMultiple(x, v * k, w);
    DivModUnique(x, w, 0, x);
  }

  /** The whole picture repeats every width * height seconds. */
  lemma MovePeriod(r: Robot, dt: int, k: int, w: int, h: int)
    requires w > 0 && h > 0
    ensures Move(r, dt + k * (w * h), w, h) == Move(r, dt, w, h)
  {
    AxisPeriod(r.position.x, r.velocity.x, dt, k * h, w);
    assert k * (w * h) == (k * h) * w;
    AxisPeriod(r.position.y, r.velocity.y, dt, k * w, h);
    assert k * (w * h) == (k * w) * h;
  }

  lemma AxisPeriod(x: int, v: int, dt: int, k: int, w: int)
    requires w > 0
    ensures (x + v * (dt + k * w)) % w == (x + v * dt) % w
  {
    assert v * (dt + k * w) == v * dt + (v * k) * w;
    ModMultiple(x + v * dt, v * k, w);
  }

  /** Every robot moved for the same time. */
  function MoveAll(robots: seq<Robot>, dt: int, w: int, h: int): (moved: seq<Robot>)
    requires w > 0 && h > 0
    ensures |moved| == |robots|
    ensures forall i | 0 <= i < |robots| :: moved[i] == Move(robots[i], dt, w, h)
  {
    seq(|robots|, i requires 0 <= i < |robots| => Move(robots[i], dt, w, h))
  }

  // ---------------------------------------------------------------------
  // Quadrants

  /** The filters of `safety_factor`, quadrant q = 0..3: top-left,
      top-right, bottom-left, bottom-right. The middle row and column
      (`width / 2`, `height / 2`; both positive, so Rust's truncating
      division agrees with Dafny's) belong to no quadrant. */
  predicate InSector(p: Point, q: int, w: int, h: int)
  {
    if q == 0 then p.x < w / 2 && p.y < h / 2
    else if q == 1 then p.x > w / 2 && p.y < h / 2
    else if q == 2 then p.x < w / 2 && p.y > h / 2
    else q == 3 && p.x > w / 2 && p.y > h / 2
  }

  /** A robot lies in at most one quadrant. */
  lemma SectorsDisjoint(p: Point, q1: int, q2: int, w: int, h: int)
    requires InSector(p, q1, w, h) && InSector(p, q2, w, h)
    ensures q1 == q2
  {
  }

  /** A robot lies in no quadrant exactly when it is on the middle row or
      the middle column. */
  lemma OffSectorsIffMiddle(p: Point, w: int, h: int)
    ensures (forall q | 0 <= q < 4 :: !InSector(p, q, w, h)) <==> p.x == w / 2 || p.y == h / 2
  {
    if p.x != w / 2 && p.y != h / 2 {
      var q := (if p.x < w / 2 then 0 else 1) + (if p.y < h / 2 then 0 else 2);
      assert InSector(p, q, w, h);
    }
  }

  predicate OnMiddle(p: Point, w: int, h: int)
  {
    p.x == w / 2 || p.y == h / 2
  }

  /** `.filter(..).count()` for one quadrant. */
  function SectorCount(robots: seq<Robot>, q: int, w: int, h: int): (n: nat)
    ensures n <= |robots|
  {
    if robots == [] then 0
    else (if InSector(robots[0].position, q, w, h) then 1 else 0) + SectorCount(robots[1..], q, w, h)
  }

  /** The robots on the middle row or column. */
  function MiddleCount(robots: seq<Robot>, w: int, h: int): (n: nat)
    ensures n <= |robots|
  {
    if robots == [] then 0
    else (if OnMiddle(robots[0].position, w, h) then 1 else 0) + MiddleCount(robots[1..], w, h)
  }

  /** Every robot is counted exactly once: in one quadrant or on the
      middle lines. */
  lemma {:induction false} SectorsPartition(robots: seq<Robot>, w: int, h: int)
    ensures SectorCount(robots, 0, w, h) + SectorCount(robots, 1, w, h) +
            SectorCount(robots, 2, w, h) + SectorCount(robots, 3, w, h) +
            MiddleCount(robots, w, h) == |robots|
  {
    if robots != [] {
      SectorsPartition(robots[1..], w, h);
      OffSectorsIffMiddle(robots[0].position, w, h);
    }
  }

  /** The `sectors` vector of `safety_factor`: the four quadrant counts. */
  function Sectors(robots: seq<Robot>, w: int, h: int): (s: seq<nat>)
    ensures |s| == 4
    ensures forall q | 0 <= q < 4 :: s[q] == SectorCount(robots, q, w, h)
  {
    [SectorCount(robots, 0, w, h), SectorCount(robots, 1, w, h),
     SectorCount(robots, 2, w, h), SectorCount(robots, 3, w, h)]
  }

  /** `safety_factor`: the product of the quadrant counts, zero exactly
      when some quadrant count is zero. */
  function SafetyFactor(robots: seq<Robot>, w: int, h: int): (r: nat)
    ensures r == 0 <==> 0 in Sectors(robots, w, h)
  {
    var s := Sectors(robots, w, h);
    ProductZero(s[0], s[1], s[2], s[3]);
    s[0] * s[1] * s[2] * s[3]
  }

  lemma ProductZero(a: nat, b: nat, c: nat, d: nat)
    ensures a * b * c * d == 0 <==> a == 0 || b == 0 || c == 0 || d == 0
  {
    if a > 0 && b > 0 && c > 0 && d > 0 {
      MulAtLeast(a, b);
      MulAtLeast(a * b, c);
      MulAtLeast(a * b * c, d);
    }
  }

  /** No robot stands in quadrant q. */
  predicate EmptySector(robots: seq<Robot>, q: int, w: int, h: int)
  {
    forall i | 0 <= i < |robots| :: !InSector(robots[i].position, q, w, h)
  }

  /** A quadrant count is zero exactly when no robot stands in that quadrant. */
  lemma {:induction false} SectorCountZero(robots: seq<Robot>, q: int, w: int, h: int)
    ensures SectorCount(robots, q, w, h) == 0 <==> EmptySector(robots, q, w, h)
  {
    if robots != [] {
      SectorCountZero(robots[1..], q, w, h);
      assert forall i | 1 <= i < |robots| :: robots[i] == robots[1..][i - 1];
    }
  }

  /** The safety factor is zero exactly when some quadrant holds no robot. */
  lemma SafetyZeroIff(robots: seq<Robot>, w: int, h: int)
    ensures SafetyFactor(robots, w, h) == 0 <==> exists q | 0 <= q < 4 :: EmptySector(robots, q, w, h)
  {
    var s := Sectors(robots, w, h);
    if SafetyFactor(robots, w, h) == 0 {
      var q :| 0 <= q < 4 && s[q] == 0;
      SectorCountZero(robots, q, w, h);
    } else {
      forall q | 0 <= q < 4
        ensures !EmptySector(robots, q, w, h)
      {
        assert s[q] != 0;
        SectorCountZero(robots, q, w, h);
      }
    }
  }

  /** Part 1: the safety factor after 100 seconds; the robots return to the
      same places every width * height seconds, so it is also the factor
      after 100 + width * height seconds. */
  function Part1(robots: seq<Robot>, w: int, h: int): (r: nat)
    requires w > 0 && h > 0
    ensures r == SafetyFactor(MoveAll(robots, 100 + w * h, w, h), w, h)
    ensures r == 0 <==> 0 in Sectors(MoveAll(robots, 100, w, h), w, h)
  {
    SafetyPeriodic(robots, 100, 1, w, h);
    SafetyFactor(MoveAll(robots, 100, w, h), w, h)
  }

  /** Shifting the time by whole periods of the grid leaves the safety
      factor unchanged; in particular part 1 equals the factor after
      100 + k * width * height seconds. */
  lemma SafetyPeriodic(robots: seq<Robot>, dt: int, k: int, w: int, h: int)
    requires w > 0 && h > 0
    ensures SafetyFactor(MoveAll(robots, dt + k * (w * h), w, h), w, h) == SafetyFactor(MoveAll(robots, dt, w, h), w, h)
  {
    forall i | 0 <= i < |robots|
      ensures Move(robots[i], dt + k * (w * h), w, h) == Move(robots[i], dt, w, h)
    {
      MovePeriod(robots[i], dt, k, w, h);
    }
    assert MoveAll(robots, dt + k * (w * h), w, h) == MoveAll(robots, dt, w, h);
  }

  /** The example of the puzzle statement on its 11 by 7 grid. */
  function ExampleRobots(): seq<Robot>
  {
    [ Robot(Point(0, 4), Point(3, -3)), Robot(Point(6, 3), Point(-1, -3)),
      Robot(Point(10, 3), Point(-1, 2)), Robot(Point(2, 0), Point(2, -1)),
      Robot(Point(0, 0), Point(1, 3)), Robot(Point(3, 0), Point(-2, -2)),
      Robot(Point(7, 6), Point(-1, -3)), Robot(Point(3, 0), Point(-1, -2)),
      Robot(Point(9, 3), Point(2, 3)), Robot(Point(7, 3), Point(-1, 2)),
      Robot(Point(2, 4), Point(2, -3)), Robot(Point(9, 5), Point(-3, -3)) ]
  }

  /** The example robots after 100 seconds. */
  function ExampleMoved(): seq<Robot>
  {
    [ Robot(Point(3, 5), Point(3, -3)), Robot(Point(5, 4), Point(-1, -3)),
      Robot(Point(9, 0), Point(-1, 2)), Robot(Point(4, 5), Point(2, -1)),
      Robot(Point(1, 6), Point(1, 3)), Robot(Point(1, 3), Point(-2, -2)),
      Robot(Point(6, 0), Point(-1, -3)), Robot(Point(2, 3), Point(-1, -2)),
      Robot(Point(0, 2), Point(2, 3)), Robot(Point(6, 0), Point(-1, 2)),
      Robot(Point(4, 5), Point(2, -3)), Robot(Point(6, 6), Point(-3, -3)) ]
  }

  lemma ExampleMoves(i: int)
    requires 0 <= i < 12
    ensures Move(ExampleRobots()[i], 100, 11, 7) == ExampleMoved()[i]
  {
  }

  /** The example gives 12 on its 11 by 7 grid. */
  lemma Example()
    ensures Part1(ExampleRobots(), 11, 7) == 12
  {
    var moved := MoveAll(ExampleRobots(), 100, 11, 7);
    forall i | 0 <= i < 12
      ensures moved[i] == ExampleMoved()[i]
    {
      ExampleMoves(i);
    }
    assert moved == ExampleMoved();
    ExampleSectors();
  }

  /** The quadrant counts of the moved example robots: 1, 3, 4 and 1. */
  lemma ExampleSectors()
    ensures Sectors(ExampleMoved(), 11, 7) == [1, 3, 4, 1]
  {
    ExampleUpper();
    ExampleLower();
  }

  lemma ExampleUpper()
    ensures SectorCount(ExampleMoved(), 0, 11, 7) == 1
    ensures SectorCount(ExampleMoved(), 1, 11, 7) == 3
  {
  }

  lemma ExampleLower()
    ensures SectorCount(ExampleMoved(), 2, 11, 7) == 4
    ensures SectorCount(ExampleMoved(), 3, 11, 7) == 1
  {
  }

  // ---------------------------------------------------------------------
  // Part 2: aligning the two periods

  /** The smallest value of a non-empty list, as the `fold` with `min`
      computes it. */
  function MinOf(vs: seq<real>): (m: real)
    requires |vs| > 0
    ensures m in vs
    ensures forall j | 0 <= j < |vs| :: m <= vs[j]
  {
    if |vs| == 1 then vs[0]
    else
      var rest := MinOf(vs[1..]);
      assert rest in vs;
      if vs[0] <= rest then vs[0] else rest
  }

  /** `position(|v| v == min) + 1`: the 1-based index of the first list
      entry equal to the minimum. */
  function Position(vs: seq<real>, x: real): (i: nat)
    requires x in vs
    ensures i < |vs| && vs[i] == x
    ensures forall j | 0 <= j < i :: vs[j] != x
  {
    if vs[0] == x then 0 else
      assert x in vs[1..];
      1 + Position(vs[1..], x)
  }

  /** The second (counted from 1) at which the spread first reaches its
      minimum: the entry there is the minimum and every earlier one is
      strictly larger. */
  lemma FirstMinimum(vs: seq<real>)
    requires |vs| > 0
    ensures var i := Position(vs, MinOf(vs)) + 1;
      && 1 <= i <= |vs|
      && (forall j | 0 <= j < |vs| :: vs[i - 1] <= vs[j])
      && (forall j | 0 <= j < i - 1 :: vs[j] > vs[i - 1])
  {
  }

  /** Membership in `x_steps`: ix + k * width for some k below `max_dim`. */
  predicate InXSteps(t: int, ix: int, w: int, maxDim: nat)
    requires w > 0
  {
    t >= ix && (t - ix) % w == 0 && (t - ix) / w < maxDim
  }

  /** The candidates iy + j * height for j = from, from + 1, .., last, tried
      in order; the first one in `x_steps` is returned, and 0 when none is. */
  function Search(ix: int, iy: int, w: int, h: int, maxDim: nat, from: nat, last: nat): (t: int)
    requires w > 0 && h > 0 && iy >= 1
    ensures t != 0 ==> exists j :: from <= j <= last && t == iy + j * h && InXSteps(t, ix, w, maxDim)
    ensures t != 0 ==> forall j | from <= j <= last && iy + j * h < t :: !InXSteps(iy + j * h, ix, w, maxDim)
    ensures t == 0 ==> forall j | from <= j <= last :: !InXSteps(iy + j * h, ix, w, maxDim)
    decreases last + 1 - from
  {
    if from > last then 0
    else if InXSteps(iy + from * h, ix, w, maxDim) then iy + from * h
    else
      var t := Search(ix, iy, w, h, maxDim, from + 1, last);
      assert t != 0 ==> iy + from * h < t by {
        if t != 0 {
          var j :| from + 1 <= j <= last && t == iy + j * h;
          MulLess(from, j, h);
        }
      }
      t
  }

  lemma MulLess(a: int, b: int, h: int)
    requires a < b && h > 0
    ensures a * h < b * h
  {
    assert b * h - a * h == (b - a) * h;
    MulAtLeast(h, b - a);
    assert (b - a) * h == h * (b - a);
  }

  /** The end of `solve_part_2` as written: `result` starts at iy, but
      `height` is added before the first test, so iy itself is never tried. */
  function AlignAsWritten(ix: int, iy: int, w: int, h: int, maxDim: nat): (t: int)
    requires w > 0 && h > 0 && iy >= 1
    ensures t != 0 ==> t > iy
  {
    var t := Search(ix, iy, w, h, maxDim, 1, maxDim);
    assert t != 0 ==> t > iy by {
      if t != 0 {
        var j :| 1 <= j <= maxDim && t == iy + j * h;
        MulAtLeast(h, j);
        assert j * h == h * j;
      }
    }
    t
  }

  /** When both coordinates cluster within the first `max_dim` seconds of
      the same second, that second is skipped. */
  lemma AlignSkipsFirst()
    ensures InXSteps(5, 5, 11, 11)
    ensures AlignAsWritten(5, 5, 11, 7, 11) == 82
  {
    assert !InXSteps(12, 5, 11, 11) && !InXSteps(19, 5, 11, 11) && !InXSteps(26, 5, 11, 11);
    assert !InXSteps(33, 5, 11, 11) && !InXSteps(40, 5, 11, 11) && !InXSteps(47, 5, 11, 11);
    assert !InXSteps(54, 5, 11, 11) && !InXSteps(61, 5, 11, 11) && !InXSteps(68, 5, 11, 11);
    assert !InXSteps(75, 5, 11, 11) && InXSteps(82, 5, 11, 11);
  }

  /** The intended alignment: test iy + j * height for j = 0 .. max_dim - 1,
      so the first candidate is iy itself. */
  function Align(ix: int, iy: int, w: int, h: int, maxDim: nat): (t: int)
    requires w > 0 && h > 0 && iy >= 1
  {
    if maxDim == 0 then 0 else Search(ix, iy, w, h, maxDim, 0, maxDim - 1)
  }

  /** A non-zero answer is the first second at or after iy that is
      congruent to iy modulo height and lies in `x_steps`; with 0 no such
      second exists among the `max_dim` tried. */
  lemma AlignIsFirstMeeting(ix: int, iy: int, w: int, h: int, maxDim: nat)
    requires w > 0 && h > 0 && iy >= 1
    ensures var t := Align(ix, iy, w, h, maxDim);
      && (t != 0 ==> t >= iy && (t - iy) % h == 0 && InXSteps(t, ix, w, maxDim))
      && (forall j | 0 <= j < maxDim && (t == 0 || iy + j * h < t) :: !InXSteps(iy + j * h, ix, w, maxDim))
  {
    var t := Align(ix, iy, w, h, maxDim);
    if t != 0 {
      var j :| 0 <= j <= maxDim - 1 && t == iy + j * h && InXSteps(t, ix, w, maxDim);
      assert j * h == h * j;
      DivModUnique(t - iy, h, j, 0);
    }
  }

  /** When iy is itself in `x_steps`, the intended search answers iy. */
  lemma AlignFindsFirst(ix: int, iy: int, w: int, h: int, maxDim: nat)
    requires w > 0 && h > 0 && iy >= 1 && maxDim >= 1
    requires InXSteps(iy, ix, w, maxDim)
    ensures Align(ix, iy, w, h, maxDim) == iy
  {
  }

  /** As written, a non-zero answer is the first second after iy that is
      congruent to iy modulo height and lies in `x_steps`, among the
      candidates iy + height .. iy + max_dim * height; with 0 none of them
      does. */
  lemma AlignAsWrittenIsFirstMeeting(ix: int, iy: int, w: int, h: int, maxDim: nat)
    requires w > 0 && h > 0 && iy >= 1
    ensures var t := AlignAsWritten(ix, iy, w, h, maxDim);
      && (t != 0 ==> t > iy && (t - iy) % h == 0 && InXSteps(t, ix, w, maxDim))
      && (forall j | 1 <= j <= maxDim && (t == 0 || iy + j * h < t) :: !InXSteps(iy + j * h, ix, w, maxDim))
  {
    var t := AlignAsWritten(ix, iy, w, h, maxDim);
    if t != 0 {
      var j :| 1 <= j <= maxDim && t == iy + j * h && InXSteps(t, ix, w, maxDim);
      assert j * h == h * j;
      DivModUnique(t - iy, h, j, 0);
    }
  }

  /** Part 2 as written, from the per-second spreads of the x and the y
      coordinates (`variances_x`, `variances_y`, one entry per second
      1 .. max_dim): the candidates start one height after iy. */
  method Part2(spreadX: seq<real>, spreadY: seq<real>, w: int, h: int) returns (t: int)
    requires w > 0 && h > 0
    requires |spreadX| == |spreadY| == Max([w, h])
    ensures var ix := Position(spreadX, MinOf(spreadX)) + 1;
            var iy := Position(spreadY, MinOf(spreadY)) + 1;
      && (t != 0 ==> t > iy && (t - iy) % h == 0 && InXSteps(t, ix, w, |spreadX|))
      && (forall j | 1 <= j <= |spreadX| && (t == 0 || iy + j * h < t) :: !InXSteps(iy + j * h, ix, w, |spreadX|))
  {
    var maxDim := |spreadX|;
    assert w in [w, h];
    var ix := Position(spreadX, MinOf(spreadX)) + 1;
    var iy := Position(spreadY, MinOf(spreadY)) + 1;
    t := AlignAsWritten(ix, iy, w, h, maxDim);
    AlignAsWrittenIsFirstMeeting(ix, iy, w, h, maxDim);
  }

  /** Part 2 with the corrected search, whose first candidate is iy itself. */
  method Part2Corrected(spreadX: seq<real>, spreadY: seq<real>, w: int, h: int) returns (t: int)
    requires w > 0 && h > 0
    requires |spreadX| == |spreadY| == Max([w, h])
    ensures var ix := Position(spreadX, MinOf(spreadX)) + 1;
            var iy := Position(spreadY, MinOf(spreadY)) + 1;
      && (t != 0 ==> t >= iy && (t - iy) % h == 0 && InXSteps(t, ix, w, |spreadX|))
      && (forall j | 0 <= j < |spreadX| && (t == 0 || iy + j * h < t) :: !InXSteps(iy + j * h, ix, w, |spreadX|))
  {
    var maxDim := |spreadX|;
    assert w in [w, h];
    var ix := Position(spreadX, MinOf(spreadX)) + 1;
    var iy := Position(spreadY, MinOf(spreadY)) + 1;
    t := Align(ix, iy, w, h, maxDim);
    AlignIsFirstMeeting(ix, iy, w, h, maxDim);
  }
}

=== FILE: day15.dfy ===
/** Day 15: a robot pushing boxes in a warehouse. In the single grid every
    box fills one cell; in the doubled grid a box is stored at its left cell
    and also fills the cell to its right. A push either moves the robot one
    step together with every box in its way, or changes nothing. */
module Day15 {
  import opened Prelude

  datatype Direction = Up | Right | Down | Left

  datatype Point = Point(x: int, y: int)

  datatype Map = Map(robot: Point, boxes: set<Point>, obstacles: set<Point>, doubled: bool)

  function DX(d: Direction): int
  {
    match d
    case Right => 1
    case Left => -1
    case _ => 0
  }

  function DY(d: Direction): int
  {
    match d
    case Down => 1
    case Up => -1
    case _ => 0
  }

  predicate Horizontal(d: Direction)
  {
    d == Right || d == Left
  }

  /** The cell i steps from p in direction d. */
  function Step(p: Point, d: Direction, i: int): Point
  {
    Point(p.x + i * DX(d), p.y + i * DY(d))
  }

  lemma StepInjective(p: Point, d: Direction, i: int, j: int)
    ensures Step(p, d, i) == Step(p, d, j) <==> i == j
  {
  }

  lemma StepStep(p: Point, d: Direction, i: int)
    ensures Step(Step(p, d, i), d, 1) == Step(p, d, i + 1)
  {
  }

  /** Every point of s moved one step in direction d. */
  function Shift(s: set<Point>, d: Direction): set<Point>
  {
    set b | b in s :: Step(b, d, 1)
  }

  /** Shifting loses no box: the image has as many points as the set. */
  lemma ShiftCard(s: set<Point>, d: Direction)
    ensures |Shift(s, d)| == |s|
  {
    var f := (b: Point) => Step(b, d, 1);
    ImageCard(s, f);
    assert Shift(s, d) == Image(s, f);
  }

  // ---------------------------------------------------------------------
  // Single grid

  /** The cells strictly between the robot and the k-th cell ahead. */
  function RunSet(p: Point, d: Direction, k: int): set<Point>
  {
    set i | 1 <= i < k :: Step(p, d, i)
  }

  /** The run has one cell per step, since the cells along a ray differ. */
  lemma {:induction false} RunCard(p: Point, d: Direction, k: nat)
    requires k >= 1
    ensures |RunSet(p, d, k)| == k - 1
  {
    if k > 1 {
      RunCard(p, d, k - 1);
      RunExtend(p, d, k - 1);
    } else {
      assert RunSet(p, d, k) == {};
    }
  }

  lemma RunExtend(p: Point, d: Direction, k: nat)
    requires k >= 1
    ensures RunSet(p, d, k + 1) == RunSet(p, d, k) + {Step(p, d, k)}
    ensures Step(p, d, k) !in RunSet(p, d, k)
  {
    forall c | c in RunSet(p, d, k + 1)
      ensures c in RunSet(p, d, k) + {Step(p, d, k)}
    {
      var i :| 1 <= i < k + 1 && c == Step(p, d, i);
      if i < k {
        assert c in RunSet(p, d, k);
      }
    }
    forall i | 1 <= i < k
      ensures Step(p, d, i) != Step(p, d, k)
    {
      StepInjective(p, d, i, k);
    }
  }

  /** The cells from the k-th onwards (before `upto`) are boxes the robot
      would push. */
  predicate BoxRun(m: Map, d: Direction, from: int, upto: int)
  {
    forall i | from <= i < upto :: Step(m.robot, d, i) in m.boxes && Step(m.robot, d, i) !in m.obstacles
  }

  /** The scan of `move_robot_single`: walking from the k-th cell ahead,
      stop at an obstacle (no move) or at the first cell that holds no box
      (its distance). */
  function Scan(m: Map, d: Direction, k: nat): (r: Option<nat>)
    requires k >= 1 && BoxRun(m, d, 1, k)
    ensures r.Some? ==>
      && r.value >= k
      && BoxRun(m, d, k, r.value)
      && Step(m.robot, d, r.value) !in m.obstacles
      && Step(m.robot, d, r.value) !in m.boxes
    ensures r.None? ==>
      exists j | j >= k :: BoxRun(m, d, k, j) && Step(m.robot, d, j) in m.obstacles
    decreases |m.boxes| - k + 1
  {
    var q := Step(m.robot, d, k);
    if q in m.obstacles then
      assert BoxRun(m, d, k, k);
      None
    else if q in m.boxes then
      RunCard(m.robot, d, k + 1);
      SubsetCard(RunSet(m.robot, d, k + 1), m.boxes);
      Scan(m, d, k + 1)
    else Some(k)
  }

  /** `move_robot_single`: on finding a free cell, the robot steps forward,
      a box appears in the free cell and the box under the robot's new
      position goes away. */
  function MoveSingle(m: Map, d: Direction): (r: Map)
    ensures r.obstacles == m.obstacles && r.doubled == m.doubled
    ensures Scan(m, d, 1).None? ==> r == m
    ensures Scan(m, d, 1).Some? ==> r.robot == Step(m.robot, d, 1)
    ensures |r.boxes| == |m.boxes|
  {
    match Scan(m, d, 1)
    case None => m
    case Some(k) =>
      var next := Step(m.robot, d, 1);
      StepInjective(m.robot, d, 1, k);
      m.(robot := next, boxes := (m.boxes + {Step(m.robot, d, k)}) - {next})
  }

  /** The single-grid update is a push: every box of the run between the
      robot and the free cell moves one step, the other boxes stay. */
  lemma SinglePushShifts(m: Map, d: Direction)
    requires Scan(m, d, 1).Some?
    ensures
      var run := RunSet(m.robot, d, Scan(m, d, 1).value);
      MoveSingle(m, d).boxes == (m.boxes - run) + Shift(run, d)
  {
    var k := Scan(m, d, 1).value;
    var run := RunSet(m.robot, d, k);
    var first, last := Step(m.robot, d, 1), Step(m.robot, d, k);
    ShiftRun(m.robot, d, k);
    assert run <= m.boxes;
    assert k > 1 ==> first in run;
    assert (m.boxes - run) + ((run + {last}) - {first}) == (m.boxes + {last}) - {first};
  }

  /** Shifting a run by one step gives the run one longer without its
      first cell. */
  lemma ShiftRun(p: Point, d: Direction, k: nat)
    requires k >= 1
    ensures Shift(RunSet(p, d, k), d) == (RunSet(p, d, k) + {Step(p, d, k)}) - {Step(p, d, 1)}
  {
    var run := RunSet(p, d, k);
    forall c | c in Shift(run, d)
      ensures c in (run + {Step(p, d, k)}) - {Step(p, d, 1)}
    {
      var b :| b in run && c == Step(b, d, 1);
      var i :| 1 <= i < k && b == Step(p, d, i);
      StepStep(p, d, i);
      StepInjective(p, d, i + 1, 1);
      if i + 1 < k {
        assert c in run;
      }
    }
    forall i | 2 <= i <= k
      ensures Step(p, d, i) in Shift(run, d)
    {
      StepStep(p, d, i - 1);
      assert Step(p, d, i - 1) in run;
    }
    forall c | c in (run + {Step(p, d, k)}) - {Step(p, d, 1)}
      ensures c in Shift(run, d)
    {
      if c in run {
        var i :| 1 <= i < k && c == Step(p, d, i);
        StepInjective(p, d, i, 1);
      } else {
        StepInjective(p, d, k, 1);
      }
    }
  }

  /** In the single grid, no box sits on an obstacle and the robot stands
      on neither. */
  predicate ValidSingle(m: Map)
  {
    && m.robot !in m.obstacles
    && m.robot !in m.boxes
    && m.boxes * m.obstacles == {}
  }

  /** A push keeps the single grid valid. */
  lemma SingleKeepsValid(m: Map, d: Direction)
    requires ValidSingle(m)
    ensures ValidSingle(MoveSingle(m, d))
  {
    match Scan(m, d, 1)
    case None =>
    case Some(k) =>
      StepInjective(m.robot, d, 1, k);
  }

  // ---------------------------------------------------------------------
  // Doubled grid

  function West(p: Point): Point
  {
    Point(p.x - 1, p.y)
  }

  function East(p: Point): Point
  {
    Point(p.x + 1, p.y)
  }

  /** A cell is covered by a box stored at it or at its western neighbour. */
  predicate Covered(boxes: set<Point>, p: Point)
  {
    p in boxes || West(p) in boxes
  }

  /** The box covering a covered cell; the one stored at the cell wins. */
  function Owner(boxes: set<Point>, p: Point): Point
  {
    if p in boxes then p else West(p)
  }

  /** The boxes covering any of the cells to check. */
  function NewBoxes(boxes: set<Point>, cells: set<Point>): (r: set<Point>)
    ensures r <= boxes
  {
    set p | p in cells && Covered(boxes, p) :: Owner(boxes, p)
  }

  /** The cells a set of pushed boxes will move into and that are not their
      own: the cell beyond the box sideways, both cells ahead of it up or
      down. */
  function NextCells(d: Direction, nbs: set<Point>): set<Point>
  {
    if Horizontal(d) then
      set b | b in nbs :: Point(b.x + (if d == Right then 2 else -1), b.y)
    else
      (set b | b in nbs :: Point(b.x, b.y + DY(d))) + (set b | b in nbs :: Point(b.x + 1, b.y + DY(d)))
  }

  /** How far along direction d a cell lies. */
  function Level(c: Point, d: Direction): int
  {
    match d
    case Up => -c.y
    case Down => c.y
    case Right => c.x
    case Left => -c.x
  }

  /** How far along direction d the farther of a box's two cells lies. */
  function FarLevel(b: Point, d: Direction): int
  {
    match d
    case Up => -b.y
    case Down => b.y
    case Right => b.x + 1
    case Left => -b.x
  }

  /** What the gathering loop keeps: the boxes collected lie behind every
      cell still to check, the cells to check lie at one level, and sideways
      there is at most one of them. */
  ghost predicate GatherInv(m: Map, d: Direction, cells: set<Point>, collected: set<Point>)
  {
    && collected <= m.boxes
    && (forall b, c | b in collected && c in cells :: FarLevel(b, d) < Level(c, d))
    && (forall c1, c2 | c1 in cells && c2 in cells :: Level(c1, d) == Level(c2, d))
    && (Horizontal(d) ==> |cells| <= 1)
  }

  lemma OwnerLevel(boxes: set<Point>, c: Point, d: Direction)
    requires Covered(boxes, c)
    ensures Level(c, d) <= FarLevel(Owner(boxes, c), d)
    ensures !Horizontal(d) ==> FarLevel(Owner(boxes, c), d) == Level(c, d)
  {
  }

  lemma Singleton<T>(s: set<T>, x: T)
    requires |s| <= 1 && x in s
    ensures s == {x}
  {
    if y :| y in s && y != x {
      SubsetCard({x, y}, s);
    }
  }

  /** All boxes found in one round lie at one level. */
  lemma NewBoxesLevel(m: Map, d: Direction, cells: set<Point>, collected: set<Point>)
    requires GatherInv(m, d, cells, collected)
    ensures forall b1, b2 | b1 in NewBoxes(m.boxes, cells) && b2 in NewBoxes(m.boxes, cells) ::
      FarLevel(b1, d) == FarLevel(b2, d)
    ensures Horizontal(d) ==> |NewBoxes(m.boxes, cells)| <= 1
  {
    var nbs := NewBoxes(m.boxes, cells);
    if Horizontal(d) {
      if c :| c in cells {
        Singleton(cells, c);
        assert nbs <= {Owner(m.boxes, c)};
        SubsetCard(nbs, {Owner(m.boxes, c)});
        if b1, b2 :| b1 in nbs && b2 in nbs && b1 != b2 {
          assert false;
        }
      } else {
        assert nbs == {};
      }
    } else {
      forall b1, b2 | b1 in nbs && b2 in nbs
        ensures FarLevel(b1, d) == FarLevel(b2, d)
      {
        var c1 :| c1 in cells && Covered(m.boxes, c1) && b1 == Owner(m.boxes, c1);
        var c2 :| c2 in cells && Covered(m.boxes, c2) && b2 == Owner(m.boxes, c2);
        OwnerLevel(m.boxes, c1, d);
        OwnerLevel(m.boxes, c2, d);
      }
    }
  }

  /** The boxes found in a round lie strictly beyond every box collected. */
  lemma NewBoxesFresh(m: Map, d: Direction, cells: set<Point>, collected: set<Point>)
    requires GatherInv(m, d, cells, collected)
    ensures forall nb, b | nb in NewBoxes(m.boxes, cells) && b in collected :: FarLevel(b, d) < FarLevel(nb, d)
  {
    forall nb, b | nb in NewBoxes(m.boxes, cells) && b in collected
      ensures FarLevel(b, d) < FarLevel(nb, d)
    {
      var c :| c in cells && Covered(m.boxes, c) && nb == Owner(m.boxes, c);
      OwnerLevel(m.boxes, c, d);
    }
  }

  /** Each cell to check next lies one level beyond the box it came from. */
  lemma NextCellsLevel(d: Direction, nbs: set<Point>, c: Point)
    requires c in NextCells(d, nbs)
    ensures exists nb | nb in nbs :: Level(c, d) == FarLevel(nb, d) + 1
  {
    if Horizontal(d) {
      var nb :| nb in nbs && c == Point(nb.x + (if d == Right then 2 else -1), nb.y);
      assert Level(c, d) == FarLevel(nb, d) + 1;
    } else if c in (set b | b in nbs :: Point(b.x, b.y + DY(d))) {
      var nb :| nb in nbs && c == Point(nb.x, nb.y + DY(d));
      assert Level(c, d) == FarLevel(nb, d) + 1;
    } else {
      var nb :| nb in nbs && c == Point(nb.x + 1, nb.y + DY(d));
      assert Level(c, d) == FarLevel(nb, d) + 1;
    }
  }

  /** Sideways, one box gives one cell to check next. */
  lemma NextCellsSideways(d: Direction, nbs: set<Point>)
    requires Horizontal(d) && |nbs| <= 1
    ensures |NextCells(d, nbs)| <= 1
  {
    if nb :| nb in nbs {
      Singleton(nbs, nb);
      assert NextCells(d, nbs) == {Point(nb.x + (if d == Right then 2 else -1), nb.y)};
    } else {
      assert NextCells(d, nbs) == {};
    }
  }

  /** One round of gathering: the new boxes are fresh, and the invariant
      holds for the cells they will move into. */
  /** The cells to check next lie beyond every box collected so far. */
  lemma NextCellsAbove(m: Map, d: Direction, cells: set<Point>, collected: set<Point>)
    requires GatherInv(m, d, cells, collected)
    ensures
      var nbs := NewBoxes(m.boxes, cells);
      forall b, c | b in collected + nbs && c in NextCells(d, nbs) :: FarLevel(b, d) < Level(c, d)
  {
    var nbs := NewBoxes(m.boxes, cells);
    NewBoxesLevel(m, d, cells, collected);
    NewBoxesFresh(m, d, cells, collected);
    forall b, c | b in collected + nbs && c in NextCells(d, nbs)
      ensures FarLevel(b, d) < Level(c, d)
    {
      NextCellsLevel(d, nbs, c);
      var nb :| nb in nbs && Level(c, d) == FarLevel(nb, d) + 1;
      assert FarLevel(b, d) <= FarLevel(nb, d);
    }
  }

  /** The cells to check next all lie on one level. */
  lemma NextCellsLevelled(d: Direction, nbs: set<Point>)
    requires forall b1, b2 | b1 in nbs && b2 in nbs :: FarLevel(b1, d) == FarLevel(b2, d)
    ensures forall c1, c2 | c1 in NextCells(d, nbs) && c2 in NextCells(d, nbs) :: Level(c1, d) == Level(c2, d)
  {
    forall c1, c2 | c1 in NextCells(d, nbs) && c2 in NextCells(d, nbs)
      ensures Level(c1, d) == Level(c2, d)
    {
      NextCellsLevel(d, nbs, c1);
      NextCellsLevel(d, nbs, c2);
    }
  }

  lemma GatherStep(m: Map, d: Direction, cells: set<Point>, collected: set<Point>)
    requires GatherInv(m, d, cells, collected)
    ensures NewBoxes(m.boxes, cells) * collected == {}
    ensures GatherInv(m, d, NextCells(d, NewBoxes(m.boxes, cells)), collected + NewBoxes(m.boxes, cells))
  {
    var nbs := NewBoxes(m.boxes, cells);
    NewBoxesFresh(m, d, cells, collected);
    NewBoxesLevel(m, d, cells, collected);
    NextCellsAbove(m, d, cells, collected);
    NextCellsLevelled(d, nbs);
    if Horizontal(d) {
      NextCellsSideways(d, nbs);
    }
  }

  /** The gathering loop of `move_robot_double`: stop with no move as soon
      as a cell to check is an obstacle; otherwise collect the boxes that
      cover the cells and check the cells they move into, until no box is
      found. */
  function Gather(m: Map, d: Direction, cells: set<Point>, collected: set<Point>): (r: Option<set<Point>>)
    requires GatherInv(m, d, cells, collected)
    ensures r.Some? ==> collected <= r.value <= m.boxes
    decreases |m.boxes - collected|
  {
    if cells * m.obstacles != {} then None
    else
      var nbs := NewBoxes(m.boxes, cells);
      if nbs == {} then Some(collected)
      else
        GatherStep(m, d, cells, collected);
        var nb :| nb in nbs;
        Shrinks(m.boxes, collected, nbs, nb);
        Gather(m, d, NextCells(d, nbs), collected + nbs)
  }

  lemma Shrinks<T>(u: set<T>, c: set<T>, n: set<T>, x: T)
    requires n <= u && x in n && x !in c
    ensures |u - (c + n)| < |u - c|
  {
    assert u - (c + n) <= (u - c) - {x};
    SubsetCard(u - (c + n), (u - c) - {x});
  }

  /** The boxes a push in the doubled grid moves, or `None` when it is
      blocked. */
  function Pushed(m: Map, d: Direction): Option<set<Point>>
  {
    Gather(m, d, {Step(m.robot, d, 1)}, {})
  }

  /** `move_robot_double`: move the robot one step and every gathered box
      one step, or nothing at all. */
  function MoveDouble(m: Map, d: Direction): (r: Map)
    ensures r.obstacles == m.obstacles && r.doubled == m.doubled
    ensures Pushed(m, d).None? ==> r == m
    ensures Pushed(m, d).Some? ==>
      && r.robot == Step(m.robot, d, 1)
      && Pushed(m, d).value <= m.boxes
  {
    match Pushed(m, d)
    case None => m
    case Some(moved) => m.(robot := Step(m.robot, d, 1), boxes := (m.boxes - moved) + Shift(moved, d))
  }

  /** No two boxes overlap: the cell east of a box starts no other box. */
  predicate WellSpaced(boxes: set<Point>)
  {
    forall b | b in boxes :: East(b) !in boxes
  }

  /** In the doubled grid, no box covers an obstacle, the robot stands on
      no obstacle and under no box, and boxes do not overlap. */
  predicate ValidDouble(m: Map)
  {
    && m.robot !in m.obstacles
    && !Covered(m.boxes, m.robot)
    && (forall b | b in m.boxes :: b !in m.obstacles && East(b) !in m.obstacles)
    && WellSpaced(m.boxes)
  }

  /** A cell is settled once it is free of obstacles and every box covering
      it has been collected. */
  predicate Settled(m: Map, collected: set<Point>, t: Point)
  {
    && t !in m.obstacles
    && (t in m.boxes ==> t in collected)
    && (West(t) in m.boxes ==> West(t) in collected)
  }

  predicate Resolved(m: Map, cells: set<Point>, collected: set<Point>, t: Point)
  {
    t in cells || Settled(m, collected, t)
  }

  /** Every cell the robot or a collected box will move into is either
      still to check or already settled. */
  predicate AllResolved(m: Map, d: Direction, cells: set<Point>, collected: set<Point>, first: Point)
  {
    && Resolved(m, cells, collected, first)
    && forall nb | nb in collected ::
         Resolved(m, cells, collected, Step(nb, d, 1)) && Resolved(m, cells, collected, East(Step(nb, d, 1)))
  }

  /** With no overlap, a covered cell has exactly one box covering it. */
  lemma OwnerUnique(boxes: set<Point>, t: Point)
    requires WellSpaced(boxes) && Covered(boxes, t)
    ensures t in boxes ==> Owner(boxes, t) == t && West(t) !in boxes
    ensures West(t) in boxes ==> Owner(boxes, t) == West(t)
  {
    if West(t) in boxes {
      assert East(West(t)) == t;
    }
  }

  /** A cell checked in a round that found no obstacle is settled by the
      boxes collected in that round. */
  lemma CheckedSettles(m: Map, cells: set<Point>, collected: set<Point>, t: Point)
    requires WellSpaced(m.boxes) && t in cells && cells * m.obstacles == {}
    ensures Settled(m, collected + NewBoxes(m.boxes, cells), t)
  {
    assert t !in cells * m.obstacles;
    if Covered(m.boxes, t) {
      OwnerUnique(m.boxes, t);
    }
  }

  /** The cells a newly found box moves into are its own or are checked in
      the next round. */
  lemma NewTargetsResolved(m: Map, d: Direction, nbs: set<Point>, collected: set<Point>, nb: Point)
    requires ValidDouble(m) && nbs <= m.boxes && nbs <= collected && nb in nbs
    ensures Resolved(m, NextCells(d, nbs), collected, Step(nb, d, 1))
    ensures Resolved(m, NextCells(d, nbs), collected, East(Step(nb, d, 1)))
  {
    var next := NextCells(d, nbs);
    assert East(nb) !in m.boxes;
    assert West(East(nb)) == nb;
    match d
    case Right =>
      assert East(Step(nb, d, 1)) == Point(nb.x + 2, nb.y);
      assert Point(nb.x + 2, nb.y) in next;
    case Left =>
      assert Step(nb, d, 1) == Point(nb.x - 1, nb.y);
      assert Point(nb.x - 1, nb.y) in next;
      assert East(Step(nb, d, 1)) == nb;
    case Up =>
      assert Point(nb.x, nb.y + DY(d)) in next;
      assert Point(nb.x + 1, nb.y + DY(d)) in next;
    case Down =>
      assert Point(nb.x, nb.y + DY(d)) in next;
      assert Point(nb.x + 1, nb.y + DY(d)) in next;
  }

  /** One successful round keeps every pending cell resolved. */
  lemma ResolvedStep(m: Map, d: Direction, cells: set<Point>, collected: set<Point>, first: Point)
    requires ValidDouble(m) && collected <= m.boxes
    requires AllResolved(m, d, cells, collected, first)
    requires cells * m.obstacles == {}
    ensures AllResolved(m, d, NextCells(d, NewBoxes(m.boxes, cells)), collected + NewBoxes(m.boxes, cells), first)
  {
    var nbs := NewBoxes(m.boxes, cells);
    var next := NextCells(d, nbs);
    var all := collected + nbs;
    forall t | Resolved(m, cells, collected, t)
      ensures Resolved(m, next, all, t)
    {
      if t in cells {
        CheckedSettles(m, cells, collected, t);
      }
    }
    forall nb | nb in all
      ensures Resolved(m, next, all, Step(nb, d, 1)) && Resolved(m, next, all, East(Step(nb, d, 1)))
    {
      if nb in nbs {
        NewTargetsResolved(m, d, nbs, all, nb);
      }
    }
  }

  /** Soundness of the gathering loop: when it succeeds, every cell the
      robot or a gathered box moves into is free of obstacles and every box
      covering it was gathered. */
  lemma {:induction false} GatherResolves(m: Map, d: Direction, cells: set<Point>, collected: set<Point>, first: Point)
    requires GatherInv(m, d, cells, collected) && ValidDouble(m)
    requires AllResolved(m, d, cells, collected, first)
    ensures Gather(m, d, cells, collected).Some? ==>
      AllResolved(m, d, {}, Gather(m, d, cells, collected).value, first)
    decreases |m.boxes - collected|
  {
    if cells * m.obstacles == {} {
      var nbs := NewBoxes(m.boxes, cells);
      if nbs == {} {
        forall t | Resolved(m, cells, collected, t)
          ensures Settled(m, collected, t)
        {
          if t in cells {
            CheckedSettles(m, cells, collected, t);
          }
        }
      } else {
        GatherStep(m, d, cells, collected);
        var nb :| nb in nbs;
        Shrinks(m.boxes, collected, nbs, nb);
        ResolvedStep(m, d, cells, collected, first);
        GatherResolves(m, d, NextCells(d, nbs), collected + nbs, first);
      }
    }
  }

  /** What a successful doubled-grid push guarantees about the boxes it
      moves. */
  lemma PushedSettled(m: Map, d: Direction)
    requires ValidDouble(m) && Pushed(m, d).Some?
    ensures AllResolved(m, d, {}, Pushed(m, d).value, Step(m.robot, d, 1))
  {
    GatherResolves(m, d, {Step(m.robot, d, 1)}, {}, Step(m.robot, d, 1));
  }

  /** A doubled-grid push never gains or loses a box. */
  lemma DoubleKeepsCount(m: Map, d: Direction)
    requires ValidDouble(m)
    ensures |MoveDouble(m, d).boxes| == |m.boxes|
  {
    match Pushed(m, d)
    case None =>
    case Some(moved) =>
      PushedSettled(m, d);
      ShiftCard(moved, d);
      assert Shift(moved, d) * (m.boxes - moved) == {};
      assert |m.boxes - moved| == |m.boxes| - |moved| by {
        assert m.boxes == (m.boxes - moved) + moved;
      }
  }

  /** A doubled-grid push keeps the grid valid. */
  lemma DoubleKeepsValid(m: Map, d: Direction)
    requires ValidDouble(m)
    ensures ValidDouble(MoveDouble(m, d))
  {
    match Pushed(m, d)
    case None =>
    case Some(moved) =>
      PushedSettled(m, d);
      var r := MoveDouble(m, d);
      var shifted := Shift(moved, d);
      forall b | b in r.boxes
        ensures b !in r.obstacles && East(b) !in r.obstacles && East(b) !in r.boxes
      {
        if b in shifted {
          var nb :| nb in moved && b == Step(nb, d, 1);
          ShiftedNeighbours(m, d, moved, nb);
        } else {
          UnmovedNeighbours(m, d, moved, b);
        }
      }
  }

  lemma ShiftedNeighbours(m: Map, d: Direction, moved: set<Point>, nb: Point)
    requires ValidDouble(m) && moved <= m.boxes && nb in moved
    requires AllResolved(m, d, {}, moved, Step(m.robot, d, 1))
    ensures
      var b := Step(nb, d, 1);
      var r := (m.boxes - moved) + Shift(moved, d);
      b !in m.obstacles && East(b) !in m.obstacles && East(b) !in r
  {
    var b := Step(nb, d, 1);
    assert West(East(b)) == b;
  }

  lemma UnmovedNeighbours(m: Map, d: Direction, moved: set<Point>, b: Point)
    requires ValidDouble(m) && moved <= m.boxes && b in m.boxes && b !in moved
    requires AllResolved(m, d, {}, moved, Step(m.robot, d, 1))
    ensures East(b) !in (m.boxes - moved) + Shift(moved, d)
  {
  }

  // ---------------------------------------------------------------------
  // Walking the robot

  /** `move_robot`: the grid's mode picks the push rule. A move keeps the
      walls and the mode, keeps a valid grid valid and never gains or
      loses a box. */
  function MoveRobot(m: Map, d: Direction): (r: Map)
    ensures r.obstacles == m.obstacles && r.doubled == m.doubled
    ensures Valid(m) ==> Valid(r) && |r.boxes| == |m.boxes|
  {
    MoveKeeps(m, d);
    if m.doubled then MoveDouble(m, d) else MoveSingle(m, d)
  }

  /** Both push rules keep their kind of grid valid and keep the boxes. */
  lemma MoveKeeps(m: Map, d: Direction)
    ensures ValidSingle(m) ==> ValidSingle(MoveSingle(m, d))
    ensures ValidDouble(m) ==> ValidDouble(MoveDouble(m, d)) && |MoveDouble(m, d).boxes| == |m.boxes|
  {
    if ValidSingle(m) {
      SingleKeepsValid(m, d);
    }
    if ValidDouble(m) {
      DoubleKeepsValid(m, d);
      DoubleKeepsCount(m, d);
    }
  }

  predicate Valid(m: Map)
  {
    if m.doubled then ValidDouble(m) else ValidSingle(m)
  }

  /** The robot's moves, in order. */
  function Walk(m: Map, ds: seq<Direction>): (r: Map)
    ensures r.obstacles == m.obstacles && r.doubled == m.doubled
    decreases |ds|
  {
    if |ds| == 0 then m else Walk(MoveRobot(m, ds[0]), ds[1..])
  }

  /** Walking keeps a valid grid valid and never gains or loses a box. */
  lemma {:induction false} WalkKeeps(m: Map, ds: seq<Direction>)
    requires Valid(m)
    ensures Valid(Walk(m, ds))
    ensures |Walk(m, ds).boxes| == |m.boxes|
    decreases |ds|
  {
    if |ds| > 0 {
      WalkKeeps(MoveRobot(m, ds[0]), ds[1..]);
    }
  }

  // ---------------------------------------------------------------------
  // GPS coordinates

  function Coordinate(p: Point): int
  {
    p.x + 100 * p.y
  }

  /** Reference sum of the GPS coordinates of a set of boxes. */
  ghost function GpsTotal(s: set<Point>): int
    decreases s
  {
    if s == {} then 0
    else
      var p :| p in s;
      Coordinate(p) + GpsTotal(s - {p})
  }

  /** The sum does not depend on which box is taken first. */
  lemma {:induction false} GpsRemove(s: set<Point>, p: Point)
    requires p in s
    ensures GpsTotal(s) == Coordinate(p) + GpsTotal(s - {p})
    decreases s
  {
    var q :| q in s && GpsTotal(s) == Coordinate(q) + GpsTotal(s - {q});
    if q != p {
      GpsRemove(s - {q}, p);
      GpsRemove(s - {p}, q);
      assert s - {q} - {p} == s - {p} - {q};
    }
  }

  /** The sum over two disjoint sets is the sum of their sums. */
  lemma {:induction false} GpsUnion(a: set<Point>, b: set<Point>)
    requires a * b == {}
    ensures GpsTotal(a + b) == GpsTotal(a) + GpsTotal(b)
    decreases b
  {
    if b != {} {
      var p :| p in b;
      GpsRemove(b, p);
      GpsRemove(a + b, p);
      assert (a + b) - {p} == a + (b - {p});
      GpsUnion(a, b - {p});
    } else {
      assert a + b == a;
    }
  }

  /** Moving every box of a set one step moves the sum by the step's GPS
      weight once per box. */
  lemma {:induction false} GpsShift(s: set<Point>, d: Direction)
    ensures GpsTotal(Shift(s, d)) == GpsTotal(s) + |s| * (DX(d) + 100 * DY(d))
    decreases s
  {
    if s != {} {
      var p :| p in s;
      var rest := s - {p};
      var w := DX(d) + 100 * DY(d);
      GpsRemove(s, p);
      GpsShift(rest, d);
      ShiftRemove(s, p, d);
      GpsRemove(Shift(s, d), Step(p, d, 1));
      assert Coordinate(Step(p, d, 1)) == Coordinate(p) + w;
      assert |s| == |rest| + 1;
      MulSucc(|rest|, w);
    } else {
      assert Shift(s, d) == {};
    }
  }

  lemma MulSucc(n: int, w: int)
    ensures (n + 1) * w == n * w + w
  {
  }

  lemma ShiftRemove(s: set<Point>, p: Point, d: Direction)
    requires p in s
    ensures Step(p, d, 1) in Shift(s, d)
    ensures Shift(s, d) - {Step(p, d, 1)} == Shift(s - {p}, d)
  {
    forall b | b in s - {p}
      ensures Step(b, d, 1) != Step(p, d, 1)
    {
    }
  }

  /** Moving a set of boxes one step onto cells no other box holds moves
      the GPS sum by the step's weight for each box moved. */
  lemma PushGps(boxes: set<Point>, moved: set<Point>, d: Direction)
    requires moved <= boxes && Shift(moved, d) * (boxes - moved) == {}
    ensures GpsTotal((boxes - moved) + Shift(moved, d))
         == GpsTotal(boxes) + |moved| * (DX(d) + 100 * DY(d))
  {
    GpsUnion(boxes - moved, Shift(moved, d));
    GpsShift(moved, d);
    GpsUnion(boxes - moved, moved);
    assert boxes == (boxes - moved) + moved;
  }

  /** A doubled-grid push moves the GPS sum by the step's weight for each
      box pushed. */
  lemma DoublePushGps(m: Map, d: Direction)
    requires ValidDouble(m) && Pushed(m, d).Some?
    ensures GpsTotal(MoveDouble(m, d).boxes)
         == GpsTotal(m.boxes) + |Pushed(m, d).value| * (DX(d) + 100 * DY(d))
  {
    var moved := Pushed(m, d).value;
    PushedSettled(m, d);
    assert Shift(moved, d) * (m.boxes - moved) == {};
    PushGps(m.boxes, moved, d);
  }

  /** The run a single-grid push moves: k - 1 boxes, which land on cells
      no other box holds. */
  lemma SingleRun(m: Map, d: Direction)
    requires Scan(m, d, 1).Some?
    ensures
      var k := Scan(m, d, 1).value;
      var run := RunSet(m.robot, d, k);
      && k >= 1 && |run| == k - 1 && run <= m.boxes
      && Shift(run, d) * (m.boxes - run) == {}
  {
    var k := Scan(m, d, 1).value;
    var run := RunSet(m.robot, d, k);
    RunCard(m.robot, d, k);
    ShiftRun(m.robot, d, k);
    assert Step(m.robot, d, k) !in m.boxes;
    assert run <= m.boxes;
  }

  /** A single-grid push moves the GPS sum by the step's weight for each
      box between the robot and the free cell. */
  lemma SinglePushGps(m: Map, d: Direction)
    requires Scan(m, d, 1).Some?
    ensures GpsTotal(MoveSingle(m, d).boxes)
         == GpsTotal(m.boxes) + (Scan(m, d, 1).value - 1) * (DX(d) + 100 * DY(d))
  {
    var k := Scan(m, d, 1).value;
    var run := RunSet(m.robot, d, k);
    SinglePushShifts(m, d);
    SingleRun(m, d);
    PushGps(m.boxes, run, d);
  }

  /** `sum_gps`: the sum of x + 100 y over the boxes, taken in any order. */
  method SumGps(boxes: set<Point>) returns (total: int)
    ensures total == GpsTotal(boxes)
  {
    total := 0;
    var rest := boxes;
    while rest != {}
      invariant total + GpsTotal(rest) == GpsTotal(boxes)
      decreases |rest|
    {
      var p :| p in rest;
      GpsRemove(rest, p);
      total := total + Coordinate(p);
      rest := rest - {p};
    }
  }

  // ---------------------------------------------------------------------
  // Reading the warehouse

  /** The cells of the grid holding character c, as (column, row). */
  function CellsOf(grid: seq<string>, c: char): set<Point>
  {
    set y, x | 0 <= y < |grid| && 0 <= x < |grid[y]| && grid[y][x] == c :: Point(x, y)
  }

  predicate At(grid: seq<string>, p: Point, c: char)
  {
    0 <= p.y < |grid| && 0 <= p.x < |grid[p.y]| && grid[p.y][p.x] == c
  }

  lemma CellsOfAt(grid: seq<string>, c: char, p: Point)
    ensures p in CellsOf(grid, c) <==> At(grid, p, c)
  {
    if At(grid, p, c) {
      assert Point(p.x, p.y) in CellsOf(grid, c);
    }
  }

  /** The last position of c in a row. */
  function LastInRow(row: string, c: char): (r: Option<nat>)
    ensures r.Some? ==> r.value < |row| && row[r.value] == c && c !in row[r.value + 1..]
    ensures r.None? ==> c !in row
  {
    if |row| == 0 then None
    else if row[|row| - 1] == c then Some(|row| - 1)
    else
      var r := LastInRow(row[..|row| - 1], c);
      assert row == row[..|row| - 1] + [row[|row| - 1]];
      r
  }

  /** The last cell holding c in reading order: the robot's place, since
      each '@' the reader meets overwrites the one before. */
  function FindLast(grid: seq<string>, c: char): (r: Option<Point>)
    ensures r.Some? ==> At(grid, r.value, c)
    ensures r.Some? ==> forall y | r.value.y < y < |grid| :: c !in grid[y]
    ensures r.None? ==> forall y | 0 <= y < |grid| :: c !in grid[y]
  {
    if |grid| == 0 then None
    else
      match LastInRow(grid[|grid| - 1], c)
      case Some(x) => Some(Point(x, |grid| - 1))
      case None => FindLast(grid[..|grid| - 1], c)
  }

  /** A column in the doubled grid: each cell becomes two. */
  function Wide(p: Point): Point
  {
    Point(2 * p.x, p.y)
  }

  /** `load_data`: walls, boxes and the robot read off the grid; in the
      doubled grid walls fill both halves of their cell while the robot and
      boxes take the left half. With no robot, it stays at the origin. */
  function Load(grid: seq<string>, doubled: bool): Map
  {
    var start := match FindLast(grid, '@') case Some(p) => p case None => Point(0, 0);
    var walls := CellsOf(grid, '#');
    var boxes := CellsOf(grid, 'O');
    if doubled then
      Map(Wide(start), set b | b in boxes :: Wide(b),
          (set w | w in walls :: Wide(w)) + (set w | w in walls :: East(Wide(w))), true)
    else Map(start, boxes, walls, false)
  }

  /** Doubling a single-grid map. */
  function Widen(m: Map): Map
  {
    Map(Wide(m.robot), set b | b in m.boxes :: Wide(b),
        (set w | w in m.obstacles :: Wide(w)) + (set w | w in m.obstacles :: East(Wide(w))), true)
  }

  /** Reading the doubled grid is reading the single grid and doubling it. */
  lemma LoadDoubledIsWiden(grid: seq<string>)
    ensures Load(grid, true) == Widen(Load(grid, false))
  {
  }

  /** With a robot on it, the grid as read is valid. */
  lemma LoadValid(grid: seq<string>)
    requires exists y | 0 <= y < |grid| :: '@' in grid[y]
    ensures ValidSingle(Load(grid, false))
  {
    var m := Load(grid, false);
    var p := FindLast(grid, '@').value;
    CellsOfAt(grid, '#', p);
    CellsOfAt(grid, 'O', p);
    forall b | b in m.boxes
      ensures b !in m.obstacles
    {
      CellsOfAt(grid, '#', b);
      CellsOfAt(grid, 'O', b);
    }
  }

  /** Doubling a valid single grid gives a valid doubled grid, with as many
      boxes. */
  lemma WidenValid(m: Map)
    requires ValidSingle(m)
    ensures ValidDouble(Widen(m))
    ensures |Widen(m).boxes| == |m.boxes|
  {
    var w := Widen(m);
    forall b | b in w.boxes
      ensures b !in w.obstacles && East(b) !in w.obstacles && East(b) !in w.boxes
    {
      var a :| a in m.boxes && b == Wide(a);
      assert a !in m.boxes * m.obstacles;
      WideApart(a, m.obstacles);
      WideApart(a, m.boxes);
    }
    WideApart(m.robot, m.obstacles);
    assert !Covered(w.boxes, w.robot) by {
      WideApart(m.robot, m.boxes);
    }
    WideCard(m.boxes);
  }

  /** A doubled cell's halves meet a doubled set only where the cell was in
      the set, and a left half never starts a wall's right half. */
  lemma WideApart(p: Point, s: set<Point>)
    ensures Wide(p) in (set w | w in s :: Wide(w)) <==> p in s
    ensures Wide(p) !in (set w | w in s :: East(Wide(w)))
    ensures East(Wide(p)) in (set w | w in s :: East(Wide(w))) <==> p in s
    ensures East(Wide(p)) !in (set w | w in s :: Wide(w))
    ensures West(Wide(p)) !in (set w | w in s :: Wide(w))
  {
    assert Wide(p) in (set w | w in s :: Wide(w)) ==> p in s;
    assert East(Wide(p)) in (set w | w in s :: East(Wide(w))) ==> p in s;
  }

  lemma {:induction false} WideCard(s: set<Point>)
    ensures |set b | b in s :: Wide(b)| == |s|
    decreases s
  {
    if s != {} {
      var p :| p in s;
      WideCard(s - {p});
      assert (set b | b in s :: Wide(b)) == (set b | b in s - {p} :: Wide(b)) + {Wide(p)};
      WideApart(p, s - {p});
    } else {
      assert (set b | b in s :: Wide(b)) == {};
    }
  }

  // ---------------------------------------------------------------------
  // Moves and answers

  function MoveChar(d: Direction): char
  {
    match d
    case Up => '^'
    case Right => '>'
    case Down => 'v'
    case Left => '<'
  }

  /** The move list: arrow characters become moves, anything else (line
      breaks) is skipped. */
  function ParseMoves(s: string): (ds: seq<Direction>)
    ensures |ds| <= |s|
  {
    if |s| == 0 then []
    else
      var rest := ParseMoves(s[1..]);
      match s[0]
      case '^' => [Up] + rest
      case '>' => [Right] + rest
      case 'v' => [Down] + rest
      case '<' => [Left] + rest
      case _ => rest
  }

  /** Reading back a written move list gives the same moves; line breaks
      in between are ignored. */
  lemma {:induction false} ParseMovesRoundTrip(ds: seq<Direction>, breaks: string)
    requires forall i | 0 <= i < |breaks| :: breaks[i] == '\n'
    ensures ParseMoves(breaks + Render(ds)) == ds
  {
    if |breaks| > 0 {
      assert (breaks + Render(ds))[1..] == breaks[1..] + Render(ds);
      ParseMovesRoundTrip(ds, breaks[1..]);
    } else if |ds| > 0 {
      assert breaks + Render(ds) == [MoveChar(ds[0])] + Render(ds[1..]);
      assert ([MoveChar(ds[0])] + Render(ds[1..]))[1..] == [] + Render(ds[1..]);
      ParseMovesRoundTrip(ds[1..], []);
    } else {
      assert breaks + Render(ds) == [];
    }
  }

  function Render(ds: seq<Direction>): string
  {
    if |ds| == 0 then [] else [MoveChar(ds[0])] + Render(ds[1..])
  }

  /** `solve_part_1` and `solve_part_2`: read the warehouse, walk every
      move, sum the GPS coordinates of the boxes. */
  method Solve(grid: seq<string>, moves: string, doubled: bool) returns (answer: int)
    ensures answer == GpsTotal(Walk(Load(grid, doubled), ParseMoves(moves)).boxes)
  {
    var m := Walk(Load(grid, doubled), ParseMoves(moves));
    answer := SumGps(m.boxes);
  }

  /** Both parts end with the boxes they started with: as many in the
      doubled grid as in the single one. */
  lemma PartsKeepBoxes(grid: seq<string>, ds: seq<Direction>)
    requires exists y | 0 <= y < |grid| :: '@' in grid[y]
    ensures |Walk(Load(grid, false), ds).boxes| == |CellsOf(grid, 'O')|
    ensures |Walk(Load(grid, true), ds).boxes| == |CellsOf(grid, 'O')|
    ensures Valid(Walk(Load(grid, true), ds))
  {
    LoadValid(grid);
    LoadDoubledIsWiden(grid);
    WidenValid(Load(grid, false));
    WalkKeeps(Load(grid, false), ds);
    WalkKeeps(Load(grid, true), ds);
  }
}

=== FILE: day16.dfy ===
/** Day 16: a reindeer race through a maze. The reindeer starts on 'S'
    facing East. Moving one cell forward costs 1 point, and turning a
    quarter left or right in place costs 1000. `find_best_routes` searches
    states (cell and facing) cheapest first, and merges routes that reach
    the same state at the same score. Part 1 is the lowest score of a route
    to 'E'. Part 2 is the number of cells on the best routes. The maze is
    loaded as in day 20. */
module Day16 {
  import opened Prelude
  import Day20

  type Point = Day20.Point

  type Maze = Day20.Maze

  // ---------------------------------------------------------------------
  // Facings and moves

  datatype Facing = North | East | South | West

  const AllFacings: set<Facing> := {North, East, South, West}

  lemma EveryFacing()
    ensures forall f: Facing :: f in AllFacings
  {
    forall f: Facing
      ensures f in AllFacings
    {
      assert f.North? || f.East? || f.South? || f.West?;
    }
  }

  /** `get_step`: one cell in the facing direction, y pointing down. */
  function StepOf(f: Facing): (r: Point)
    ensures Abs(r.x) + Abs(r.y) == 1
  {
    match f
    case North => Day20.Point(0, -1)
    case East => Day20.Point(1, 0)
    case South => Day20.Point(0, 1)
    case West => Day20.Point(-1, 0)
  }

  /** `turn_right`: a quarter turn clockwise on a screen, where y points
      down. */
  function TurnRight(f: Facing): (r: Facing)
    ensures StepOf(r) == Day20.Point(-StepOf(f).y, StepOf(f).x)
  {
    match f
    case North => East
    case East => South
    case South => West
    case West => North
  }

  /** `turn_left`: undoes `turn_right`. */
  function TurnLeft(f: Facing): (r: Facing)
    ensures TurnRight(r) == f
    ensures StepOf(r) == Day20.Point(StepOf(f).y, -StepOf(f).x)
  {
    match f
    case North => West
    case East => North
    case South => East
    case West => South
  }

  /** The two turns undo each other. */
  lemma TurnsInverse(f: Facing)
    ensures TurnLeft(TurnRight(f)) == f && TurnRight(TurnLeft(f)) == f
  {
  }

  /** Four turns the same way come back to the start, and no fewer do. */
  lemma FourTurns(f: Facing)
    ensures TurnRight(TurnRight(TurnRight(TurnRight(f)))) == f
    ensures TurnLeft(TurnLeft(TurnLeft(TurnLeft(f)))) == f
    ensures TurnRight(f) != f && TurnRight(TurnRight(f)) != f && TurnRight(TurnRight(TurnRight(f))) != f
  {
  }

  /** The search's states: a cell and a facing (`RouteStep`). */
  datatype State = State(point: Point, facing: Facing)

  /** The search starts on the start cell facing East. */
  function Start(m: Maze): State
  {
    State(m.start, East)
  }

  function Forward(s: State): (r: State)
    ensures r.facing == s.facing && Day20.Adjacent(s.point, r.point)
  {
    State(Day20.Point(s.point.x + StepOf(s.facing).x, s.point.y + StepOf(s.facing).y), s.facing)
  }

  /** b is one move from a: a step forward or a turn in place. */
  predicate IsMove(a: State, b: State)
  {
    b == Forward(a) || b == State(a.point, TurnLeft(a.facing)) || b == State(a.point, TurnRight(a.facing))
  }

  /** The score of a move: a step changes the cell, a turn does not. */
  function MoveCost(a: State, b: State): nat
  {
    if b.point != a.point then 1 else 1000
  }

  /** The three options of a state, in the source's order, with their
      scores: a step forward for one point more, and a turn left or right
      in place for a thousand more. They are exactly the moves. */
  function Options(s: State, score: nat): (r: seq<(State, nat)>)
    ensures |r| == 3 && forall k | 0 <= k < 3 :: IsMove(s, r[k].0) && r[k].1 == score + MoveCost(s, r[k].0)
    ensures r[0].1 == score + 1 && r[0].0.facing == s.facing
    ensures r[1].1 == score + 1000 && r[2].1 == score + 1000
    ensures r[1].0.point == s.point && r[2].0.point == s.point
    ensures forall b | IsMove(s, b) :: b == r[0].0 || b == r[1].0 || b == r[2].0
  {
    [(Forward(s), score + 1), (State(s.point, TurnLeft(s.facing)), score + 1000),
     (State(s.point, TurnRight(s.facing)), score + 1000)]
  }

  // ---------------------------------------------------------------------
  // Routes

  /** The state before the i-th step of a route from the start. */
  function Prev(m: Maze, route: seq<State>, i: nat): State
    requires i <= |route|
  {
    if i == 0 then Start(m) else route[i - 1]
  }

  /** Where a route ends: its last state, or the start state when it is
      empty (the search's first route is empty). */
  function Last(m: Maze, route: seq<State>): State
  {
    Prev(m, route, |route|)
  }

  /** A route from the start, listed without the start state: every state
      is one move from the one before, and no state is in a wall. */
  predicate ValidRoute(m: Maze, route: seq<State>)
  {
    forall i | 0 <= i < |route| :: route[i].point !in m.walls && IsMove(Prev(m, route, i), route[i])
  }

  /** The score of a route: the sum of its moves' costs. */
  function Cost(m: Maze, route: seq<State>): nat
  {
    if |route| == 0 then 0
    else
      var n := |route| - 1;
      Cost(m, route[..n]) + MoveCost(Prev(m, route, n), route[n])
  }

  /** Every move costs at least one point, and a move that stays on its
      cell (a turn) a thousand. So a route costs at least its length, and at
      least a thousand once it turns. */
  lemma {:induction false} CostBounds(m: Maze, route: seq<State>)
    ensures Cost(m, route) >= |route|
    ensures (exists i | 0 <= i < |route| :: route[i].point == Prev(m, route, i).point) ==> Cost(m, route) >= 1000
  {
    if |route| > 0 {
      var n := |route| - 1;
      var p := route[..n];
      CostBounds(m, p);
      assert forall i | 0 <= i < n :: p[i] == route[i] && Prev(m, p, i) == Prev(m, route, i);
    }
  }

  /** Extending a route by one move out of a wall keeps it a route. */
  lemma Extend(m: Maze, route: seq<State>, next: State)
    requires ValidRoute(m, route) && IsMove(Last(m, route), next) && next.point !in m.walls
    ensures ValidRoute(m, route + [next]) && Last(m, route + [next]) == next
  {
    var r := route + [next];
    forall i | 0 <= i < |r|
      ensures r[i].point !in m.walls && IsMove(Prev(m, r, i), r[i])
    {
      if i < |route| {
        assert r[i] == route[i] && Prev(m, r, i) == Prev(m, route, i);
      }
    }
  }

  /** Extending a route by one move adds the move's cost. */
  lemma ExtendCost(m: Maze, route: seq<State>, next: State)
    ensures Cost(m, route + [next]) == Cost(m, route) + MoveCost(Last(m, route), next)
  {
    assert (route + [next])[..|route|] == route;
  }

  /** Routes that all reach s with the given score. */
  predicate RoutesTo(m: Maze, routes: seq<seq<State>>, s: State, score: nat)
  {
    forall k | 0 <= k < |routes| :: ValidRoute(m, routes[k]) && Last(m, routes[k]) == s && Cost(m, routes[k]) == score
  }

  /** Every route extended by the same state. */
  function ExtendAll(routes: seq<seq<State>>, next: State): (r: seq<seq<State>>)
    ensures |r| == |routes| && forall k | 0 <= k < |r| :: r[k] == routes[k] + [next]
  {
    seq(|routes|, k requires 0 <= k < |routes| => routes[k] + [next])
  }

  /** Extending every route to s by one move gives routes to the next
      state, scored by the move. */
  lemma ExtendAllRoutes(m: Maze, routes: seq<seq<State>>, s: State, score: nat, next: State)
    requires RoutesTo(m, routes, s, score) && IsMove(s, next) && next.point !in m.walls
    ensures RoutesTo(m, ExtendAll(routes, next), next, score + MoveCost(s, next))
  {
    forall k | 0 <= k < |routes|
      ensures ValidRoute(m, routes[k] + [next]) && Last(m, routes[k] + [next]) == next
      ensures Cost(m, routes[k] + [next]) == score + MoveCost(s, next)
    {
      Extend(m, routes[k], next);
      ExtendCost(m, routes[k], next);
    }
  }

  // ---------------------------------------------------------------------
  // The search queue

  /** A queue entry: a state, the routes that reach it, and their score. */
  datatype Entry = Entry(state: State, routes: seq<seq<State>>, score: nat)

  /** A route list that reached the end, with its score. */
  datatype Found = Found(routes: seq<seq<State>>, score: nat)

  /** The states on cells of a region. */
  function States(region: set<Point>): (r: set<State>)
    ensures forall s :: s in r <==> s.point in region
  {
    EveryFacing();
    set p, f | p in region && f in AllFacings :: State(p, f)
  }

  predicate EntryOk(m: Maze, region: set<Point>, e: Entry)
  {
    RoutesTo(m, e.routes, e.state, e.score) && e.state.point in region
  }

  predicate QueueOk(m: Maze, region: set<Point>, q: seq<Entry>)
  {
    forall e | e in q :: EntryOk(m, region, e)
  }

  /** Every route recorded as reaching the end does, at its score. */
  predicate FoundOk(m: Maze, f: Found)
  {
    forall k | 0 <= k < |f.routes| ::
      ValidRoute(m, f.routes[k]) && Last(m, f.routes[k]).point == m.end && Cost(m, f.routes[k]) == f.score
  }

  /** The first queue entry at state s with the given score, as
      `position` finds it. */
  function FirstMatch(q: seq<Entry>, s: State, score: nat): (r: Option<nat>)
    ensures r.Some? ==> r.value < |q| && q[r.value].state == s && q[r.value].score == score
    ensures r.Some? ==> forall j | 0 <= j < r.value :: !(q[j].state == s && q[j].score == score)
    ensures r.None? ==> forall j | 0 <= j < |q| :: !(q[j].state == s && q[j].score == score)
  {
    if |q| == 0 then None
    else if q[0].state == s && q[0].score == score then Some(0)
    else
      match FirstMatch(q[1..], s, score)
      case None => None
      case Some(i) => Some(i + 1)
  }

  predicate ScoreLe(a: Entry, b: Entry)
  {
    a.score <= b.score
  }

  lemma ScoreLeIsTotalPreorder()
    ensures TotalPreorder(ScoreLe)
  {
  }

  /** `sort_by_key` on the score, then `reverse`: the same entries, with
      the scores falling from front to back, so that `pop` takes an entry
      of lowest score. */
  function Reorder(q: seq<Entry>): (r: seq<Entry>)
    ensures |r| == |q| && multiset(r) == multiset(q)
    ensures forall i, j | 0 <= i < j < |r| :: r[i].score >= r[j].score
  {
    ScoreLeIsTotalPreorder();
    var sorted := Sort(q, ScoreLe);
    var r := Reverse(sorted);
    assert multiset(r) == multiset(sorted) by {
      ReverseMultiset(sorted);
    }
    r
  }

  lemma {:induction false} ReverseMultiset<T>(s: seq<T>)
    ensures multiset(Reverse(s)) == multiset(s)
    decreases |s|
  {
    if |s| > 0 {
      var n := |s| - 1;
      ReverseMultiset(s[..n]);
      assert Reverse(s) == [s[n]] + Reverse(s[..n]);
      assert s == s[..n] + [s[n]];
    }
  }

  /** A reordered queue is still well formed. */
  lemma ReorderOk(m: Maze, region: set<Point>, q: seq<Entry>)
    requires QueueOk(m, region, q)
    ensures QueueOk(m, region, Reorder(q))
  {
    forall e | e in Reorder(q)
      ensures EntryOk(m, region, e)
    {
      assert e in multiset(Reorder(q));
    }
  }

  /** The back of the reordered queue has the lowest score: `pop` takes the
      cheapest entry. */
  lemma PopTakesLowest(q: seq<Entry>)
    requires |q| > 0
    ensures forall e | e in q :: Reorder(q)[|q| - 1].score <= e.score
  {
    var r := Reorder(q);
    forall e | e in q
      ensures r[|q| - 1].score <= e.score
    {
      assert e in multiset(r);
      var i :| 0 <= i < |r| && r[i] == e;
    }
  }

  // ---------------------------------------------------------------------
  // find_best_routes

  /** Moving forward from a region cell stays in the region or hits a
      wall. */
  lemma ForwardInRegion(m: Maze, region: set<Point>, s: State)
    requires Day20.Enclosed(m.walls, region, m.start) && s.point in region
    ensures Forward(s).point in m.walls || Forward(s).point in region
  {
    var d := Day20.MoveAdjacent(s.point, Forward(s).point);
    assert Day20.Move(s.point, d) == Forward(s).point;
  }

  /** One option of the popped state: a wall is skipped; a visited state
      adds the extended routes to the first queue entry with that state and
      score, if any; a new state is visited and queued. */
  method Consider(m: Maze, ghost region: set<Point>, e: Entry, option: (State, nat), queue: seq<Entry>, visited: set<State>)
    returns (queue': seq<Entry>, visited': set<State>)
    requires Day20.Enclosed(m.walls, region, m.start) && EntryOk(m, region, e)
    requires IsMove(e.state, option.0) && option.1 == e.score + MoveCost(e.state, option.0)
    requires visited <= States(region) && QueueOk(m, region, queue)
    ensures visited <= visited' <= States(region) && QueueOk(m, region, queue')
    ensures 2 * |States(region) - visited'| + |queue'| <= 2 * |States(region) - visited| + |queue|
    ensures option.0.point in m.walls ==> queue' == queue && visited' == visited
    ensures option.0.point !in m.walls ==> option.0 in visited'
  {
    var (next, score) := option;
    if next.point in m.walls {
      return queue, visited;
    }
    if next.point != e.state.point {
      ForwardInRegion(m, region, e.state);
    }
    ExtendAllRoutes(m, e.routes, e.state, e.score, next);
    var extended := ExtendAll(e.routes, next);
    if next in visited {
      visited' := visited;
      match FirstMatch(queue, next, score)
      case None =>
        queue' := queue;
      case Some(i) =>
        var merged := Entry(next, queue[i].routes + extended, score);
        assert EntryOk(m, region, queue[i]) by {
          assert queue[i] in queue;
        }
        queue' := queue[i := merged];
        forall x | x in queue'
          ensures EntryOk(m, region, x)
        {
          var j :| 0 <= j < |queue'| && queue'[j] == x;
          if j != i {
            assert queue[j] in queue;
          }
        }
    } else {
      queue', visited' := queue + [Entry(next, extended, score)], visited + {next};
      assert States(region) - visited == (States(region) - visited') + {next};
    }
  }

  /** The search loop. It pops the cheapest entry. An entry at the end
      records its routes; any other entry considers its three options, and
      the queue is then reordered. The loop stops when the queue is empty. */
  method Search(m: Maze, ghost region: set<Point>) returns (found: seq<Found>)
    requires Day20.Enclosed(m.walls, region, m.start)
    ensures forall k | 0 <= k < |found| :: FoundOk(m, found[k])
  {
    var queue := [Entry(Start(m), [[]], 0)];
    var visited: set<State> := {};
    found := [];
    while |queue| > 0
      invariant visited <= States(region) && QueueOk(m, region, queue)
      invariant forall k | 0 <= k < |found| :: FoundOk(m, found[k])
      decreases 2 * |States(region) - visited| + |queue|
    {
      var n := |queue| - 1;
      var e := queue[n];
      assert e in queue;
      ghost var bound := 2 * |States(region) - visited| + n;
      var rest := queue[..n];
      assert QueueOk(m, region, rest) by {
        forall x | x in rest
          ensures EntryOk(m, region, x)
        {
          var j :| 0 <= j < n && rest[j] == x;
          assert queue[j] in queue;
        }
      }
      queue := rest;
      if e.state.point == m.end {
        found := found + [Found(e.routes, e.score)];
        continue;
      }
      var options := Options(e.state, e.score);
      for k := 0 to 3
        invariant visited <= States(region) && QueueOk(m, region, queue)
        invariant 2 * |States(region) - visited| + |queue| <= bound
      {
        queue, visited := Consider(m, region, e, options[k], queue, visited);
      }
      ReorderOk(m, region, queue);
      queue := Reorder(queue);
    }
  }

  // ---------------------------------------------------------------------
  // Choosing the best routes

  function Scores(found: seq<Found>): (r: seq<int>)
    ensures |r| == |found| && forall k | 0 <= k < |found| :: r[k] == found[k].score
  {
    seq(|found|, k requires 0 <= k < |found| => found[k].score)
  }

  /** The entries with the given score, in order. */
  function WithScore(found: seq<Found>, score: nat): (r: seq<Found>)
    ensures forall f :: f in r <==> f in found && f.score == score
  {
    if |found| == 0 then []
    else
      var n := |found| - 1;
      assert forall f | f in found :: f in found[..n] || f == found[n];
      WithScore(found[..n], score) + (if found[n].score == score then [found[n]] else [])
  }

  /** The end of `find_best_routes`: the lowest score among the routes that
      reached the end, and the entries with that score. With no route at
      all, `min().unwrap()` panics, and that is `None`. */
  function Best(found: seq<Found>): (r: Option<(nat, seq<Found>)>)
    ensures r.None? <==> |found| == 0
    ensures r.Some? ==> exists k | 0 <= k < |found| :: found[k].score == r.value.0
    ensures r.Some? ==> forall k | 0 <= k < |found| :: r.value.0 <= found[k].score
    ensures r.Some? ==> forall f :: f in r.value.1 <==> f in found && f.score == r.value.0
  {
    if |found| == 0 then None
    else
      var low := Min(Scores(found));
      assert low in Scores(found);
      Some((low, WithScore(found, low)))
  }

  /** Every best route is a route from the start facing East to the end,
      off the walls, scoring the lowest score found. */
  lemma BestRoutesShareLowest(m: Maze, found: seq<Found>)
    requires forall k | 0 <= k < |found| :: FoundOk(m, found[k])
    requires Best(found).Some?
    ensures var (low, best) := Best(found).value;
      forall f, k | f in best && 0 <= k < |f.routes| ::
        && ValidRoute(m, f.routes[k]) && Last(m, f.routes[k]).point == m.end && Cost(m, f.routes[k]) == low
  {
    var (low, best) := Best(found).value;
    forall f | f in best
      ensures FoundOk(m, f) && f.score == low
    {
      var j :| 0 <= j < |found| && found[j] == f;
    }
  }

  /** `find_best_routes`: the search, then the entries at the lowest score.
      Every returned route starts on the start cell facing East, never
      enters a wall, reaches the end, and scores the lowest score of any
      route the search recorded at the end. */
  method FindBestRoutes(m: Maze, ghost region: set<Point>) returns (found: seq<Found>, best: Option<(nat, seq<Found>)>)
    requires Day20.Enclosed(m.walls, region, m.start)
    ensures best.None? <==> |found| == 0
    ensures best.Some? ==> forall k | 0 <= k < |found| :: best.value.0 <= found[k].score
    ensures best.Some? ==> forall f, k | f in best.value.1 && 0 <= k < |f.routes| ::
      && ValidRoute(m, f.routes[k]) && Last(m, f.routes[k]).point == m.end && Cost(m, f.routes[k]) == best.value.0
  {
    found := Search(m, region);
    best := Best(found);
    if best.Some? {
      BestRoutesShareLowest(m, found);
    }
  }

  /** `solve_part_1`: the lowest score. */
  function Part1(found: seq<Found>): (r: Option<nat>)
    ensures r.Some? <==> |found| > 0
    ensures r.Some? ==> forall k | 0 <= k < |found| :: r.value <= found[k].score
    ensures r.Some? ==> exists k | 0 <= k < |found| :: found[k].score == r.value
  {
    match Best(found)
    case None => None
    case Some((low, _)) => Some(low)
  }

  /** The cells of the states of one route. */
  function RouteTiles(route: seq<State>): (r: set<Point>)
    ensures forall j | 0 <= j < |route| :: route[j].point in r
    ensures forall p | p in r :: exists j | 0 <= j < |route| :: route[j].point == p
  {
    set j | 0 <= j < |route| :: route[j].point
  }

  /** The cells of the states of every route of an entry. */
  function FoundTiles(routes: seq<seq<State>>): (r: set<Point>)
    ensures forall i | 0 <= i < |routes| :: RouteTiles(routes[i]) <= r
  {
    if |routes| == 0 then {}
    else
      var n := |routes| - 1;
      FoundTiles(routes[..n]) + RouteTiles(routes[n])
  }

  /** The cells of the states on the given routes, as the loops of
      `solve_part_2` collect them. */
  function Tiles(best: seq<Found>): (r: set<Point>)
    ensures forall k | 0 <= k < |best| :: FoundTiles(best[k].routes) <= r
  {
    if |best| == 0 then {}
    else
      var n := |best| - 1;
      Tiles(best[..n]) + FoundTiles(best[n].routes)
  }

  /** Every collected cell is the cell of some state on some route. */
  lemma {:induction false} TileOnRoute(best: seq<Found>, p: Point) returns (k: nat, i: nat, j: nat)
    requires p in Tiles(best)
    ensures k < |best| && i < |best[k].routes| && j < |best[k].routes[i]| && best[k].routes[i][j].point == p
    decreases |best|
  {
    var n := |best| - 1;
    if p in FoundTiles(best[n].routes) {
      k := n;
      i := FoundTileOnRoute(best[n].routes, p);
      j :| 0 <= j < |best[k].routes[i]| && best[k].routes[i][j].point == p;
    } else {
      k, i, j := TileOnRoute(best[..n], p);
      assert best[..n][k] == best[k];
    }
  }

  lemma {:induction false} FoundTileOnRoute(routes: seq<seq<State>>, p: Point) returns (i: nat)
    requires p in FoundTiles(routes)
    ensures i < |routes| && p in RouteTiles(routes[i])
    decreases |routes|
  {
    var n := |routes| - 1;
    if p in RouteTiles(routes[n]) {
      i := n;
    } else {
      i := FoundTileOnRoute(routes[..n], p);
      assert routes[..n][i] == routes[i];
    }
  }

  /** `solve_part_2` as written: it counts the cells of the route states.
      Routes are listed without their start state, so the start cell is
      counted only when some best route turns on it. */
  function Part2AsWritten(found: seq<Found>): (r: Option<nat>)
    ensures r.Some? <==> |found| > 0
  {
    match Best(found)
    case None => None
    case Some((_, best)) => Some(|Tiles(best)|)
  }

  /** On a maze whose end is the free cell just east of the start, the
      best route is that one step. The count as written leaves out the start
      cell: it counts one cell where the route covers two. */
  lemma StartCellMissed(m: Maze)
    requires m.end == Day20.Point(m.start.x + 1, m.start.y) && m.end !in m.walls
    ensures var route := [State(m.end, East)];
      && ValidRoute(m, route) && Last(m, route).point == m.end && Cost(m, route) == 1
      && Part2AsWritten([Found([route], 1)]) == Some(1)
      && Part2(m, [Found([route], 1)]) == Some(2)
  {
    OneStepRoute(m);
    OneStepCount(m.end);
    OneStepCorrected(m);
  }

  lemma OneStepCorrected(m: Maze)
    requires m.end == Day20.Point(m.start.x + 1, m.start.y)
    ensures Part2(m, [Found([[State(m.end, East)]], 1)]) == Some(2)
  {
    var f := Found([[State(m.end, East)]], 1);
    var best := [f];
    BestSingle(f);
    OneStepCount(m.end);
    assert Part2(m, best) == Some(|RouteCells(m, best)|);
    assert RouteCells(m, best) == {m.end} + {m.start};
    AddOne({m.end}, m.start);
  }

  lemma OneStepRoute(m: Maze)
    requires m.end == Day20.Point(m.start.x + 1, m.start.y) && m.end !in m.walls
    ensures var route := [State(m.end, East)];
      ValidRoute(m, route) && Last(m, route).point == m.end && Cost(m, route) == 1
  {
    var route := [State(m.end, East)];
    assert StepOf(East) == Day20.Point(1, 0);
    assert Forward(Start(m)) == route[0];
    forall i | 0 <= i < |route|
      ensures route[i].point !in m.walls && IsMove(Prev(m, route, i), route[i])
    {
      assert i == 0 && Prev(m, route, i) == Start(m);
    }
    assert route[..0] == [];
  }

  lemma OneStepCount(p: Point)
    ensures Tiles([Found([[State(p, East)]], 1)]) == {p}
    ensures Part2AsWritten([Found([[State(p, East)]], 1)]) == Some(1)
  {
    var f := Found([[State(p, East)]], 1);
    var best := [f];
    BestSingle(f);
    assert RouteTiles(f.routes[0]) == {p} by {
      assert f.routes[0][0].point == p;
    }
    assert FoundTiles(f.routes) == {p} by {
      assert f.routes[..0] == [];
    }
    assert Tiles(best) == {p} by {
      assert best[..0] == [];
    }
  }

  /** A single entry is its own best. */
  lemma BestSingle(f: Found)
    ensures Best([f]) == Some((f.score, [f]))
  {
    assert Scores([f]) == [f.score];
    assert Min([f.score]) == f.score;
    assert [f][..0] == [];
    assert WithScore([], f.score) == [];
    assert WithScore([f], f.score) == [f];
  }

  /** The cells the best routes cover: the start cell and every cell of
      their states. */
  function RouteCells(m: Maze, best: seq<Found>): (r: set<Point>)
    ensures m.start in r
    ensures forall p | p in r :: p == m.start || p in Tiles(best)
    ensures Tiles(best) <= r
  {
    Tiles(best) + {m.start}
  }

  /** Part 2: the number of cells on at least one best route, the start
      cell included. */
  function Part2(m: Maze, found: seq<Found>): (r: Option<nat>)
    ensures r.Some? <==> |found| > 0
    ensures r.Some? ==> r.value >= 1
  {
    match Best(found)
    case None => None
    case Some((_, best)) => Some(|RouteCells(m, best)|)
  }

  lemma AddOne<T>(t: set<T>, x: T)
    ensures |t + {x}| == |t| + (if x in t then 0 else 1)
  {
    if x in t {
      assert t + {x} == t;
    }
  }

  /** The two counts differ by the start cell alone: they agree exactly
      when some best route's state lies on the start cell. */
  lemma Part2Corrected(m: Maze, found: seq<Found>)
    requires |found| > 0
    ensures var best := Best(found).value.1;
      && Part2(m, found).value == Part2AsWritten(found).value + (if m.start in Tiles(best) then 0 else 1)
  {
    var best := Best(found).value.1;
    AddOne(Tiles(best), m.start);
  }
}

=== FILE: day17.dfy ===
/** Day 17: a three-bit computer with registers A, B, C, an instruction
    counter `ip` and an output tape; part 1 runs it, part 2 searches, three bits
    at a time, for an initial A that makes the program print itself. */
module Day17 {
  import opened Prelude

  datatype Computer = Computer(a: nat, b: nat, c: nat, program: seq<nat>, ip: nat, output: seq<nat>)

  /** A fresh computer: A loaded, B and C cleared, at the first instruction
      with nothing printed. It halts at once exactly when the program holds
      no full instruction. */
  function New(program: seq<nat>, a: nat): (m: Computer)
    ensures m.program == program && m.a == a && m.b == 0 && m.c == 0
    ensures m.ip == 0 && m.output == []
    ensures Halted(m) <==> |program| < 2
  {
    Computer(a, 0, 0, program, 0, [])
  }

  /** Combo operands: 0..3 are literal, 4..6 name A, B and C; 7 or more panics. */
  function Combo(m: Computer, operand: nat): (r: Option<nat>)
    ensures r.None? <==> operand > 6
    ensures operand <= 3 ==> r == Some(operand)
  {
    if operand <= 3 then Some(operand)
    else if operand == 4 then Some(m.a)
    else if operand == 5 then Some(m.b)
    else if operand == 6 then Some(m.c)
    else None
  }

  /** Opcodes whose operand is read as a combo operand (adv, bst, out, bdv, cdv). */
  predicate UsesCombo(op: nat)
  {
    op == 0 || op == 2 || 5 <= op <= 7
  }

  /** The run loop stops once no full instruction (opcode and operand) is left. */
  predicate Halted(m: Computer)
  {
    m.ip + 1 >= |m.program|
  }

  /** `after` keeps `before` as a prefix and every value added is an octal digit. */
  predicate Extends(before: seq<nat>, after: seq<nat>)
  {
    && |before| <= |after|
    && after[..|before|] == before
    && forall i | |before| <= i < |after| :: after[i] < 8
  }

  /** One instruction. `None` is the panic on an invalid combo operand. */
  function Step(m: Computer): (r: Option<Computer>)
    requires !Halted(m)
    ensures r.None? <==> UsesCombo(m.program[m.ip]) && m.program[m.ip + 1] > 6
    ensures r.Some? ==> r.value.program == m.program
    ensures r.Some? ==> Extends(m.output, r.value.output)
    ensures r.Some? ==> (|r.value.output| == |m.output| + 1 <==> m.program[m.ip] == 5)
    ensures r.Some? ==> |r.value.output| <= |m.output| + 1
    ensures r.Some? && m.program[m.ip] == 3 && m.a != 0 ==> r.value.ip == m.program[m.ip + 1]
    ensures r.Some? && !(m.program[m.ip] == 3 && m.a != 0) ==> r.value.ip == m.ip + 2
  {
    var op := m.program[m.ip];
    var operand := m.program[m.ip + 1];
    var next := m.(ip := m.ip + 2);
    var combo := Combo(m, operand);
    if UsesCombo(op) && combo.None? then None
    else if op == 0 then Some(next.(a := m.a / Pow2(combo.value)))
    else if op == 1 then Some(next.(b := Xor(m.b, operand)))
    else if op == 2 then Some(next.(b := combo.value % 8))
    else if op == 3 then
      if m.a != 0 then Some(m.(ip := operand)) else Some(next)
    else if op == 4 then Some(next.(b := Xor(m.b, m.c)))
    else if op == 5 then
      assert (m.output + [combo.value % 8])[..|m.output|] == m.output;
      Some(next.(output := m.output + [combo.value % 8]))
    else if op == 6 then Some(next.(b := m.a / Pow2(combo.value)))
    else if op == 7 then Some(next.(c := m.a / Pow2(combo.value)))
    else Some(next)
  }

  /** How a bounded run ends: halted normally, panicked, or still running
      when the step budget is spent. */
  datatype Outcome = Finished(final: Computer) | Panicked | OutOfFuel

  /** The run loop, at most `fuel` instructions. An empty program panics,
      as `program.len() - 1` underflows. */
  function Run(m: Computer, fuel: nat): (r: Outcome)
    ensures r.Finished? ==> Halted(r.final)
    ensures r.Finished? ==> r.final.program == m.program
    ensures r.Finished? ==> Extends(m.output, r.final.output)
    ensures |m.program| > 0 && Halted(m) ==> r == Finished(m)
    decreases fuel
  {
    if |m.program| == 0 then Panicked
    else if Halted(m) then Finished(m)
    else if fuel == 0 then OutOfFuel
    else
      match Step(m)
      case None => Panicked
      case Some(m') =>
        var r := Run(m', fuel - 1);
        if r.Finished? then
          ExtendsTransitive(m.output, m'.output, r.final.output);
          r
        else r
  }

  lemma ExtendsTransitive(o1: seq<nat>, o2: seq<nat>, o3: seq<nat>)
    requires Extends(o1, o2) && Extends(o2, o3)
    ensures Extends(o1, o3)
  {
    assert o3[..|o1|] == o3[..|o2|][..|o1|];
  }

  /** A run that ends within its budget ends the same way with any larger one. */
  lemma {:induction false} RunMoreFuel(m: Computer, fuel: nat, extra: nat)
    requires !Run(m, fuel).OutOfFuel?
    ensures Run(m, fuel + extra) == Run(m, fuel)
    decreases fuel
  {
    if |m.program| > 0 && !Halted(m) && fuel > 0 && Step(m).Some? {
      RunMoreFuel(Step(m).value, fuel - 1, extra);
    }
  }

  /** Output values are printed comma-separated. */
  function Render(out: seq<nat>): string
    requires forall i | 0 <= i < |out| :: out[i] < 8
  {
    Join(seq(|out|, i requires 0 <= i < |out| => [DigitChar(out[i])]), ',')
  }

  /** The program line's `split(",")` followed by a parse of every field. */
  function ParseList(s: string): Option<seq<nat>>
  {
    ParseAll(Split(s, ','))
  }

  /** Rendering part 1's answer and reading it back as a program line gives
      the same values. */
  lemma RenderParses(out: seq<nat>)
    requires |out| > 0
    requires forall i | 0 <= i < |out| :: out[i] < 8
    ensures ParseList(Render(out)) == Some(out)
  {
    var fields := seq(|out|, i requires 0 <= i < |out| => [DigitChar(out[i])]);
    SplitJoin(fields, ',');
    ParseAllDigits(out, fields);
  }

  lemma {:induction false} ParseAllDigits(out: seq<nat>, fields: seq<string>)
    requires forall i | 0 <= i < |out| :: out[i] < 8
    requires fields == seq(|out|, i requires 0 <= i < |out| => [DigitChar(out[i])])
    ensures ParseAll(fields) == Some(out)
  {
    if |out| > 0 {
      ParseDigit(out[0]);
      ParseAllDigits(out[1..], fields[1..]);
      assert out == [out[0]] + out[1..];
    }
  }

  /** Part 1: run the loaded computer and render what it printed. */
  function Part1(program: seq<nat>, a: nat, fuel: nat): (r: Option<string>)
    ensures r.Some? <==> Run(New(program, a), fuel).Finished?
    ensures r.Some? ==> ParseList(r.value) == Some(Run(New(program, a), fuel).final.output)
                        || Run(New(program, a), fuel).final.output == []
  {
    match Run(New(program, a), fuel)
    case Finished(m) =>
      if |m.output| > 0 then
        RenderParses(m.output);
        Some(Render(m.output))
      else Some(Render(m.output))
    case _ => None
  }

  // -------------------------------------------------------------------
  // Part 1's example: program 0,1,5,4,3,0 (`adv 1; out A; jnz 0`) started
  // with A = 729 prints 4,6,3,5,6,3,5,2,1,0.

  /** One pass of the example loop: three steps halve A and print the new A mod 8. */
  lemma ExamplePass(program: seq<nat>, a: nat, out: seq<nat>, fuel: nat)
    requires program == [0, 1, 5, 4, 3, 0]
    ensures a / 2 != 0 ==> Run(Computer(a, 0, 0, program, 0, out), fuel + 3)
                           == Run(Computer(a / 2, 0, 0, program, 0, out + [(a / 2) % 8]), fuel)
    ensures a / 2 == 0 ==> Run(Computer(a, 0, 0, program, 0, out), fuel + 3)
                           == Finished(Computer(0, 0, 0, program, 6, out + [0]))
  {
    var a' := a / 2;
    var m0 := Computer(a, 0, 0, program, 0, out);
    var m1 := Computer(a', 0, 0, program, 2, out);
    var m2 := Computer(a', 0, 0, program, 4, out + [a' % 8]);
    var m3 := Computer(a', 0, 0, program, if a' != 0 then 0 else 6, out + [a' % 8]);
    assert Pow2(1) == 2;
    assert Step(m0) == Some(m1);
    assert Step(m1) == Some(m2);
    assert Step(m2) == Some(m3);
    assert Run(m0, fuel + 3) == Run(m1, fuel + 2) == Run(m2, fuel + 1) == Run(m3, fuel);
  }

  /** Passes of the example loop until A reaches 0. */
  function ExamplePasses(a: nat): nat
  {
    if a / 2 == 0 then 1 else 1 + ExamplePasses(a / 2)
  }

  /** What the example loop prints: A halved, mod 8, on each pass. */
  function ExampleOutput(a: nat): seq<nat>
  {
    if a / 2 == 0 then [0] else [(a / 2) % 8] + ExampleOutput(a / 2)
  }

  /** The example loop run to its end, from any A and any output so far. */
  lemma {:induction false} ExampleLoops(program: seq<nat>, a: nat, out: seq<nat>, fuel: nat)
    requires program == [0, 1, 5, 4, 3, 0] && fuel >= 3 * ExamplePasses(a)
    ensures Run(Computer(a, 0, 0, program, 0, out), fuel)
            == Finished(Computer(0, 0, 0, program, 6, out + ExampleOutput(a)))
  {
    ExamplePass(program, a, out, fuel - 3);
    if a / 2 != 0 {
      ExampleLoops(program, a / 2, out + [(a / 2) % 8], fuel - 3);
      var x, rest := (a / 2) % 8, ExampleOutput(a / 2);
      assert ExampleOutput(a) == [x] + rest;
      assert (out + [x]) + rest == out + ([x] + rest);
    }
  }

  lemma ExamplePassCount()
    ensures ExamplePasses(729) == 10
  {
  }

  lemma ExampleOutput22()
    ensures ExampleOutput(22) == [3, 5, 2, 1, 0]
  {
    assert ExampleOutput(1) == [0];
    assert ExampleOutput(2) == [1, 0];
    assert ExampleOutput(5) == [2, 1, 0];
    assert ExampleOutput(11) == [5, 2, 1, 0];
  }

  lemma ExampleOutput182()
    ensures ExampleOutput(182) == [3, 5, 6, 3, 5, 2, 1, 0]
  {
    ExampleOutput22();
    assert ExampleOutput(45) == [6, 3, 5, 2, 1, 0];
    assert ExampleOutput(91) == [5, 6, 3, 5, 2, 1, 0];
  }

  lemma ExampleOutput729()
    ensures ExampleOutput(729) == [4, 6, 3, 5, 6, 3, 5, 2, 1, 0]
  {
    ExampleOutput182();
    assert ExampleOutput(364) == [6, 3, 5, 6, 3, 5, 2, 1, 0];
  }

  /** From A = 729 the example halts within 30 steps having printed its output. */
  lemma ExampleRun(program: seq<nat>)
    requires program == [0, 1, 5, 4, 3, 0]
    ensures Run(New(program, 729), 30) == Finished(Computer(0, 0, 0, program, 6, [4, 6, 3, 5, 6, 3, 5, 2, 1, 0]))
  {
    ExamplePassCount();
    ExampleOutput729();
    ExampleLoops(program, 729, [], 30);
  }

  /** Rendering a list of two or more values: the first digit, a comma, the rest. */
  lemma RenderCons(out: seq<nat>)
    requires |out| >= 2
    requires forall i | 0 <= i < |out| :: out[i] < 8
    ensures Render(out) == [DigitChar(out[0]), ','] + Render(out[1..])
  {
    var fields := seq(|out|, i requires 0 <= i < |out| => [DigitChar(out[i])]);
    assert fields[1..] == seq(|out[1..]|, i requires 0 <= i < |out[1..]| => [DigitChar(out[1..][i])]);
  }

  lemma RenderStep(out: seq<nat>, d: nat, rest: string)
    requires |out| >= 2 && out[0] == d
    requires forall i | 0 <= i < |out| :: out[i] < 8
    requires Render(out[1..]) == rest
    ensures Render(out) == [DigitChar(d), ','] + rest
  {
    RenderCons(out);
  }

  /** Renders the last 4 values of the example's output. */
  lemma ExampleRender6(out: seq<nat>)
    requires out == [5, 2, 1, 0]
    ensures Render(out) == "5,2,1,0"
  {
    assert Render(out[3..]) == "0";
    assert out[2..][1..] == out[3..];
    RenderStep(out[2..], 1, "0");
    assert DigitChar(1) == '1';
    assert out[1..][1..] == out[2..];
    RenderStep(out[1..], 2, "1,0");
    assert DigitChar(2) == '2';
    RenderStep(out, 5, "2,1,0");
    assert DigitChar(5) == '5';
  }

  /** Renders the last 7 values of the example's output. */
  lemma ExampleRender3(out: seq<nat>)
    requires out == [5, 6, 3, 5, 2, 1, 0]
    ensures Render(out) == "5,6,3,5,2,1,0"
  {
    ExampleRender6(out[3..]);
    assert out[2..][1..] == out[3..];
    RenderStep(out[2..], 3, "5,2,1,0");
    assert DigitChar(3) == '3';
    assert out[1..][1..] == out[2..];
    RenderStep(out[1..], 6, "3,5,2,1,0");
    assert DigitChar(6) == '6';
    RenderStep(out, 5, "6,3,5,2,1,0");
    assert DigitChar(5) == '5';
  }

  /** Renders the last 9 values of the example's output. */
  lemma ExampleRender1(out: seq<nat>)
    requires out == [6, 3, 5, 6, 3, 5, 2, 1, 0]
    ensures Render(out) == "6,3,5,6,3,5,2,1,0"
  {
    ExampleRender3(out[2..]);
    assert out[1..][1..] == out[2..];
    RenderStep(out[1..], 3, "5,6,3,5,2,1,0");
    assert DigitChar(3) == '3';
    RenderStep(out, 6, "3,5,6,3,5,2,1,0");
    assert DigitChar(6) == '6';
  }

  /** Renders the last 10 values of the example's output. */
  lemma ExampleRender0(out: seq<nat>)
    requires out == [4, 6, 3, 5, 6, 3, 5, 2, 1, 0]
    ensures Render(out) == "4,6,3,5,6,3,5,2,1,0"
  {
    ExampleRender1(out[1..]);
    RenderStep(out, 4, "6,3,5,6,3,5,2,1,0");
    assert DigitChar(4) == '4';
  }

  /** Part 1 on the example answers "4,6,3,5,6,3,5,2,1,0". */
  lemma Part1Example(program: seq<nat>)
    requires program == [0, 1, 5, 4, 3, 0]
    ensures Part1(program, 729, 30) == Some("4,6,3,5,6,3,5,2,1,0")
  {
    ExampleRun(program);
    ExampleRender0([4, 6, 3, 5, 6, 3, 5, 2, 1, 0]);
  }

  // -------------------------------------------------------------------
  // Part 2.

  /** The k-th target of the search: the last k values of the program. */
  function Target(program: seq<nat>, k: nat): seq<nat>
    requires k <= |program|
  {
    program[|program| - k..]
  }

  /** Whether the run from initial A = `a` halts and prints exactly `target`;
      `None` when the run panics or outlasts the budget. */
  function Accepts(program: seq<nat>, a: nat, target: seq<nat>, fuel: nat): (r: Option<bool>)
    ensures r.Some? <==> Run(New(program, a), fuel).Finished?
    ensures r == Some(true) <==> Prints(program, a, target, fuel)
  {
    match Run(New(program, a), fuel)
    case Finished(m) => Some(m.output == target)
    case _ => None
  }

  ghost predicate Prints(program: seq<nat>, a: nat, target: seq<nat>, fuel: nat)
  {
    Run(New(program, a), fuel).Finished? && Run(New(program, a), fuel).final.output == target
  }

  /** Candidates `8 * s + d` for one earlier solution `s` and digits d from
      `from` to 7, in order. */
  function ExtendOne(program: seq<nat>, s: nat, from: nat, target: seq<nat>, fuel: nat): (r: Option<seq<nat>>)
    requires from <= 8
    ensures r.Some? ==> forall i | 0 <= i < |r.value| ::
      r.value[i] / 8 == s && from <= r.value[i] % 8 && Prints(program, r.value[i], target, fuel)
    ensures r.Some? ==> forall x | x / 8 == s && from <= x % 8 && Prints(program, x, target, fuel) ::
      x in r.value
    decreases 8 - from
  {
    if from == 8 then Some([])
    else
      var x := 8 * s + from;
      match (Accepts(program, x, target, fuel), ExtendOne(program, s, from + 1, target, fuel))
      case (Some(ok), Some(rest)) =>
        var r := if ok then [x] + rest else rest;
        ExtendOneStep(program, s, from, target, fuel, ok, rest, r);
        Some(r)
      case _ => None
  }

  lemma ExtendOneStep(program: seq<nat>, s: nat, from: nat, target: seq<nat>, fuel: nat,
                      ok: bool, rest: seq<nat>, r: seq<nat>)
    requires from < 8
    requires ok <==> Prints(program, 8 * s + from, target, fuel)
    requires r == if ok then [8 * s + from] + rest else rest
    requires forall i | 0 <= i < |rest| ::
      rest[i] / 8 == s && from + 1 <= rest[i] % 8 && Prints(program, rest[i], target, fuel)
    requires forall x | x / 8 == s && from + 1 <= x % 8 && Prints(program, x, target, fuel) :: x in rest
    ensures forall i | 0 <= i < |r| ::
      r[i] / 8 == s && from <= r[i] % 8 && Prints(program, r[i], target, fuel)
    ensures forall x | x / 8 == s && from <= x % 8 && Prints(program, x, target, fuel) :: x in r
  {
    var x := 8 * s + from;
    DivModUnique(x, 8, s, from);
    forall y | y / 8 == s && from <= y % 8 && Prints(program, y, target, fuel) ensures y in r {
      if y % 8 == from {
        assert y == 8 * (y / 8) + y % 8;
        assert y == x;
      } else {
        assert y in rest;
      }
    }
  }

  /** One round of the search: all accepted candidates over all solutions. */
  function Extend(program: seq<nat>, sols: seq<nat>, target: seq<nat>, fuel: nat): (r: Option<seq<nat>>)
    ensures r.Some? ==> forall i | 0 <= i < |r.value| ::
      r.value[i] / 8 in sols && Prints(program, r.value[i], target, fuel)
    ensures r.Some? ==> forall x | x / 8 in sols && Prints(program, x, target, fuel) :: x in r.value
  {
    if |sols| == 0 then Some([])
    else
      match (ExtendOne(program, sols[0], 0, target, fuel), Extend(program, sols[1..], target, fuel))
      case (Some(head), Some(rest)) =>
        ExtendStep(program, sols, target, fuel, head, rest);
        Some(head + rest)
      case _ => None
  }

  lemma ExtendStep(program: seq<nat>, sols: seq<nat>, target: seq<nat>, fuel: nat,
                   head: seq<nat>, rest: seq<nat>)
    requires |sols| > 0
    requires forall i | 0 <= i < |head| :: head[i] / 8 == sols[0] && Prints(program, head[i], target, fuel)
    requires forall x | x / 8 == sols[0] && 0 <= x % 8 && Prints(program, x, target, fuel) :: x in head
    requires forall i | 0 <= i < |rest| :: rest[i] / 8 in sols[1..] && Prints(program, rest[i], target, fuel)
    requires forall x | x / 8 in sols[1..] && Prints(program, x, target, fuel) :: x in rest
    ensures forall i | 0 <= i < |head + rest| ::
      (head + rest)[i] / 8 in sols && Prints(program, (head + rest)[i], target, fuel)
    ensures forall x | x / 8 in sols && Prints(program, x, target, fuel) :: x in head + rest
  {
    var r := head + rest;
    forall i | 0 <= i < |r| ensures r[i] / 8 in sols && Prints(program, r[i], target, fuel) {
      if i < |head| {
        assert r[i] == head[i];
      } else {
        assert r[i] == rest[i - |head|];
      }
    }
    forall x | x / 8 in sols && Prints(program, x, target, fuel) ensures x in r {
      if x / 8 == sols[0] {
        assert x in head;
      } else {
        assert x / 8 in sols[1..];
        assert x in rest;
      }
    }
  }

  /** Rounds `k + 1` to `|program|` of the search, starting from `sols`. */
  function Search(program: seq<nat>, sols: seq<nat>, k: nat, fuel: nat): (r: Option<seq<nat>>)
    requires k <= |program|
    ensures r.Some? && k < |program| ==> forall i | 0 <= i < |r.value| ::
      Prints(program, r.value[i], program, fuel)
    ensures k == |program| ==> r == Some(sols)
    decreases |program| - k
  {
    if k == |program| then Some(sols)
    else
      match Extend(program, sols, Target(program, k + 1), fuel)
      case None => None
      case Some(next) =>
        var r := Search(program, next, k + 1, fuel);
        assert k + 1 == |program| ==> Target(program, k + 1) == program;
        r
  }

  /** Part 2: the smallest surviving candidate. `None` when the search
      panics, outlasts the budget, or leaves no candidate (`unwrap` on an
      empty `min`). */
  function Part2(program: seq<nat>, fuel: nat): (r: Option<nat>)
    ensures |program| == 0 ==> r == Some(0)
    ensures r.Some? && |program| > 0 ==> Prints(program, r.value, program, fuel)
    ensures r.None? <==> Search(program, [0], 0, fuel).None? || |Search(program, [0], 0, fuel).value| == 0
    ensures r.Some? ==> Search(program, [0], 0, fuel).Some?
    ensures r.Some? ==> r.value in Search(program, [0], 0, fuel).value
    ensures r.Some? ==> forall i | 0 <= i < |Search(program, [0], 0, fuel).value| ::
                          r.value <= Search(program, [0], 0, fuel).value[i]
  {
    match Search(program, [0], 0, fuel)
    case None => None
    case Some(sols) =>
      if |sols| == 0 then None
      else
        var m := Min(sols);
        assert m >= 0;
        Some(m)
  }
}

=== FILE: day18.dfy ===
/** Day 18: bytes fall onto a memory grid and block cells. `find_path` runs
    a breadth-first search from (0, 0) to the goal, the corner (largest x,
    largest y) of the fallen bytes, staying inside that rectangle and off
    the bytes. Part 1 is the length of the path after the first bytes have
    fallen; part 2 bisects on the number of fallen bytes for the byte that
    cuts the goal off. */
module Day18 {
  import opened Prelude

  datatype Point = Point(x: int, y: int)

  const Origin: Point := Point(0, 0)

  // ---------------------------------------------------------------------
  // The grid

  /** The goal: the largest x and the largest y over the fallen bytes,
      as a running maximum. */
  function Goal(obs: seq<Point>): Point
    requires |obs| > 0
  {
    if |obs| == 1 then obs[0]
    else
      var g, p := Goal(obs[..|obs| - 1]), obs[|obs| - 1];
      Point(if p.x > g.x then p.x else g.x, if p.y > g.y then p.y else g.y)
  }

  /** The goal is no smaller than any byte on either axis, and both of its
      coordinates are those of some byte. */
  lemma {:induction false} GoalIsCorner(obs: seq<Point>)
    requires |obs| > 0
    ensures forall i | 0 <= i < |obs| :: obs[i].x <= Goal(obs).x && obs[i].y <= Goal(obs).y
    ensures exists i | 0 <= i < |obs| :: obs[i].x == Goal(obs).x
    ensures exists i | 0 <= i < |obs| :: obs[i].y == Goal(obs).y
  {
    if |obs| > 1 {
      var init := obs[..|obs| - 1];
      GoalIsCorner(init);
      assert forall i | 0 <= i < |init| :: init[i] == obs[i];
      var i :| 0 <= i < |init| && init[i].x == Goal(init).x;
      var j :| 0 <= j < |init| && init[j].y == Goal(init).y;
      var last := |obs| - 1;
      assert Goal(obs).x == if obs[last].x > Goal(init).x then obs[last].x else Goal(init).x;
      assert Goal(obs).y == if obs[last].y > Goal(init).y then obs[last].y else Goal(init).y;
      var ix := if obs[last].x > Goal(init).x then last else i;
      var iy := if obs[last].y > Goal(init).y then last else j;
      assert obs[ix].x == Goal(obs).x && obs[iy].y == Goal(obs).y;
    } else {
      assert obs[0] == Goal(obs);
    }
  }

  predicate InBox(goal: Point, p: Point)
  {
    0 <= p.x <= goal.x && 0 <= p.y <= goal.y
  }

  /** A cell the search may enter: inside the rectangle and not a byte. */
  predicate Free(obs: seq<Point>, goal: Point, p: Point)
  {
    InBox(goal, p) && p !in obs
  }

  /** The cells of the rectangle, a finite set. */
  function BoxCells(goal: Point): (r: set<Point>)
    ensures forall p :: p in r <==> InBox(goal, p)
  {
    var r := set x, y | 0 <= x <= goal.x && 0 <= y <= goal.y :: Point(x, y);
    assert forall p | InBox(goal, p) :: p == Point(p.x, p.y) && p in r;
    r
  }

  predicate Adjacent(a: Point, b: Point)
  {
    Abs(a.x - b.x) + Abs(a.y - b.y) == 1
  }

  /** The four neighbours in the order the search tries them. */
  function Neighbours(c: Point): seq<Point>
  {
    [Point(c.x + 1, c.y), Point(c.x - 1, c.y), Point(c.x, c.y + 1), Point(c.x, c.y - 1)]
  }

  /** The neighbours are exactly the cells one step away. */
  lemma NeighboursAdjacent(c: Point, p: Point)
    ensures p in Neighbours(c) <==> Adjacent(c, p)
  {
  }

  // ---------------------------------------------------------------------
  // Walks

  /** The cell a walk is on before its i-th step. */
  function Before(path: seq<Point>, i: int): Point
    requires 0 <= i < |path|
  {
    if i == 0 then Origin else path[i - 1]
  }

  /** Where a walk from (0, 0) ends. */
  function End(path: seq<Point>): Point
  {
    if |path| == 0 then Origin else path[|path| - 1]
  }

  predicate Step(obs: seq<Point>, goal: Point, path: seq<Point>, i: int)
    requires 0 <= i < |path|
  {
    Free(obs, goal, path[i]) && Adjacent(Before(path, i), path[i])
  }

  /** A walk from (0, 0), listed without its start as the search records
      it: every step goes to an adjacent free cell. */
  predicate Walk(obs: seq<Point>, goal: Point, path: seq<Point>)
  {
    forall i | 0 <= i < |path| :: Step(obs, goal, path, i)
  }

  ghost predicate Reachable(obs: seq<Point>, goal: Point)
  {
    exists path :: Walk(obs, goal, path) && End(path) == goal
  }

  lemma WalkExtend(obs: seq<Point>, goal: Point, path: seq<Point>, p: Point)
    requires Walk(obs, goal, path) && Free(obs, goal, p) && Adjacent(End(path), p)
    ensures Walk(obs, goal, path + [p]) && End(path + [p]) == p
  {
    var w := path + [p];
    forall i | 0 <= i < |w|
      ensures Step(obs, goal, w, i)
    {
      if i < |path| {
        assert Step(obs, goal, path, i);
        assert w[i] == path[i];
        assert i > 0 ==> w[i - 1] == path[i - 1];
      }
    }
  }

  lemma WalkPrefix(obs: seq<Point>, goal: Point, path: seq<Point>, k: int)
    requires Walk(obs, goal, path) && 0 <= k < |path|
    ensures Walk(obs, goal, path[..k])
    ensures End(path[..k]) == Before(path, k)
  {
    var w := path[..k];
    forall i | 0 <= i < k
      ensures Step(obs, goal, w, i)
    {
      assert Step(obs, goal, path, i);
    }
  }

  // ---------------------------------------------------------------------
  // The search state

  datatype Entry = Entry(cell: Point, path: seq<Point>)

  /** A queue entry: a visited cell, reached by a walk that avoids (0, 0)
      and whose length is the level the cell was queued at. */
  predicate EntryOk(obs: seq<Point>, goal: Point, level: map<Point, nat>, e: Entry)
  {
    && e.cell in level
    && Walk(obs, goal, e.path)
    && End(e.path) == e.cell
    && |e.path| == level[e.cell]
    && Origin !in e.path
  }

  predicate NotQueued(q: seq<Entry>, v: Point)
  {
    forall i | 0 <= i < |q| :: q[i].cell != v
  }

  /** A cell that has been taken off the queue: every free neighbour is
      visited, at most one level deeper. */
  predicate Done(obs: seq<Point>, goal: Point, level: map<Point, nat>, v: Point)
  {
    v in level &&
    forall k | 0 <= k < 4 :: Free(obs, goal, Neighbours(v)[k]) ==>
      Neighbours(v)[k] in level && level[Neighbours(v)[k]] <= level[v] + 1
  }

  function Back(q: seq<Entry>): nat
    requires |q| > 0
  {
    |q[|q| - 1].path|
  }

  /** The search invariant. `level` records the length of the walk each
      visited cell was queued with. The queue, read from the back, holds
      cells of level L and then of level L + 1, each once; every visited
      cell that has left the queue has been expanded; the goal, once
      visited, has not yet left the queue. */
  ghost predicate Inv(obs: seq<Point>, goal: Point, q: seq<Entry>, visited: set<Point>, level: map<Point, nat>)
  {
    && visited == level.Keys
    && Origin in level && level[Origin] == 0
    && (forall v | v in visited :: v == Origin || Free(obs, goal, v))
    && (forall i | 0 <= i < |q| :: EntryOk(obs, goal, level, q[i]))
    && (forall i, j | 0 <= i < j < |q| :: q[i].cell != q[j].cell)
    && (forall i, j | 0 <= i < j < |q| :: |q[j].path| <= |q[i].path|)
    && (|q| > 0 ==> |q[0].path| <= Back(q) + 1)
    && (forall v | v in visited && NotQueued(q, v) :: Done(obs, goal, level, v) && (|q| > 0 ==> level[v] <= Back(q)))
    && (goal in visited ==> !NotQueued(q, goal))
  }

  /** Every walk no longer than the search level ends on a visited cell,
      at a level no deeper than the walk is long. */
  lemma {:induction false} ShortWalksVisited(obs: seq<Point>, goal: Point, level: map<Point, nat>, bound: nat, path: seq<Point>)
    requires Origin in level && level[Origin] == 0
    requires forall v | v in level && level[v] < bound :: Done(obs, goal, level, v)
    requires Walk(obs, goal, path) && |path| <= bound
    ensures End(path) in level && level[End(path)] <= |path|
    decreases |path|
  {
    if |path| > 0 {
      var k := |path| - 1;
      WalkPrefix(obs, goal, path, k);
      var prev := path[..k];
      ShortWalksVisited(obs, goal, level, bound, prev);
      var m := End(prev);
      assert Done(obs, goal, level, m);
      assert Step(obs, goal, path, k);
      NeighboursAdjacent(m, path[k]);
      var j :| 0 <= j < 4 && Neighbours(m)[j] == path[k];
    }
  }

  /** When the goal is at the back of the queue, no walk to it is shorter
      than the one recorded. */
  lemma ShortestAtBack(obs: seq<Point>, goal: Point, q: seq<Entry>, visited: set<Point>, level: map<Point, nat>, path: seq<Point>)
    requires Inv(obs, goal, q, visited, level) && |q| > 0 && q[|q| - 1].cell == goal
    requires Walk(obs, goal, path) && End(path) == goal
    ensures |q[|q| - 1].path| <= |path|
  {
    var L := Back(q);
    assert EntryOk(obs, goal, level, q[|q| - 1]);
    LevelsBounded(obs, goal, q, visited, level);
    if |path| < L {
      ShortWalksVisited(obs, goal, level, L, path);
    }
  }

  /** With the queue empty every visited cell is expanded, so every walk
      ends on a visited cell, and the goal is not one. */
  lemma EmptyUnreachable(obs: seq<Point>, goal: Point, visited: set<Point>, level: map<Point, nat>, path: seq<Point>)
    requires Inv(obs, goal, [], visited, level)
    requires Walk(obs, goal, path)
    ensures End(path) != goal
  {
    ShortWalksVisited(obs, goal, level, |path|, path);
  }

  /** Every visited cell has a level at most one past the back of the
      queue, and the queued ones are at least as deep as the back. */
  lemma LevelsBounded(obs: seq<Point>, goal: Point, q: seq<Entry>, visited: set<Point>, level: map<Point, nat>)
    requires Inv(obs, goal, q, visited, level) && |q| > 0
    ensures forall v | v in visited :: level[v] <= Back(q) + 1
    ensures forall v | v in visited && !NotQueued(q, v) :: Back(q) <= level[v]
  {
    forall v | v in visited && !NotQueued(q, v)
      ensures Back(q) <= level[v] <= Back(q) + 1
    {
      var i :| 0 <= i < |q| && q[i].cell == v;
      assert EntryOk(obs, goal, level, q[i]);
    }
  }

  // ---------------------------------------------------------------------
  // The search

  /** An entry queued while expanding `e`: a free cell that was not
      visited before, queued one level below `e`. */
  predicate AddedOk(obs: seq<Point>, goal: Point, e: Entry, visited0: set<Point>, level: map<Point, nat>, a: Entry)
  {
    && Free(obs, goal, a.cell) && a.cell !in visited0
    && EntryOk(obs, goal, level, a) && |a.path| == |e.path| + 1
  }

  predicate DistinctCells(q: seq<Entry>)
  {
    forall i, j | 0 <= i < j < |q| :: q[i].cell != q[j].cell
  }

  /** What expanding `e` has done so far, starting from `visited0` and
      `level0`: the cells visited since are exactly those of the added
      entries, each free, new, distinct and queued one level below `e`. */
  ghost predicate Growth(obs: seq<Point>, goal: Point, e: Entry, visited0: set<Point>, level0: map<Point, nat>,
                         added: seq<Entry>, visited: set<Point>, level: map<Point, nat>)
  {
    && visited0 == level0.Keys && visited == level.Keys && visited0 <= visited
    && (forall v | v in visited0 :: level[v] == level0[v])
    && (forall v | v in visited && v !in visited0 :: !NotQueued(added, v))
    && (forall i | 0 <= i < |added| :: AddedOk(obs, goal, e, visited0, level, added[i]))
    && DistinctCells(added)
    && |added| == |visited - visited0|
  }

  /** Queuing one more free, unvisited neighbour keeps the record of the
      expansion consistent. */
  lemma GrowthAdd(obs: seq<Point>, goal: Point, e: Entry, visited0: set<Point>, level0: map<Point, nat>,
                  added: seq<Entry>, visited: set<Point>, level: map<Point, nat>, nb: Point)
    requires Growth(obs, goal, e, visited0, level0, added, visited, level)
    requires EntryOk(obs, goal, level, e) && Origin in visited0
    requires Adjacent(e.cell, nb) && Free(obs, goal, nb) && nb !in visited
    ensures var entry := Entry(nb, e.path + [nb]);
      Growth(obs, goal, e, visited0, level0, [entry] + added, visited + {nb}, level[nb := |e.path| + 1])
  {
    var entry := Entry(nb, e.path + [nb]);
    CountGrows(visited0, visited, nb, |added|);
    AddedStillOk(obs, goal, e, visited0, level0, added, visited, level, nb);
    NotYetQueued(obs, goal, e, visited0, added, level, nb);
    DistinctCons(added, entry);
    AddedStillCover(e, visited0, added, visited, nb);
  }

  lemma CountGrows(visited0: set<Point>, visited: set<Point>, nb: Point, count: nat)
    requires count == |visited - visited0| && nb !in visited && visited0 <= visited
    ensures count + 1 == |visited + {nb} - visited0|
  {
    assert visited + {nb} - visited0 == (visited - visited0) + {nb};
  }

  /** An unvisited cell is on none of the added entries. */
  lemma NotYetQueued(obs: seq<Point>, goal: Point, e: Entry, visited0: set<Point>, added: seq<Entry>,
                     level: map<Point, nat>, nb: Point)
    requires forall i | 0 <= i < |added| :: AddedOk(obs, goal, e, visited0, level, added[i])
    requires nb !in level
    ensures NotQueued(added, nb)
  {
    forall i | 0 <= i < |added|
      ensures added[i].cell != nb
    {
      assert AddedOk(obs, goal, e, visited0, level, added[i]);
    }
  }

  lemma AddedStillOk(obs: seq<Point>, goal: Point, e: Entry, visited0: set<Point>, level0: map<Point, nat>,
                     added: seq<Entry>, visited: set<Point>, level: map<Point, nat>, nb: Point)
    requires Growth(obs, goal, e, visited0, level0, added, visited, level)
    requires EntryOk(obs, goal, level, e) && Origin in visited0
    requires Adjacent(e.cell, nb) && Free(obs, goal, nb) && nb !in visited
    ensures var added' := [Entry(nb, e.path + [nb])] + added;
      forall i | 0 <= i < |added'| :: AddedOk(obs, goal, e, visited0, level[nb := |e.path| + 1], added'[i])
  {
    var added', level' := [Entry(nb, e.path + [nb])] + added, level[nb := |e.path| + 1];
    WalkExtend(obs, goal, e.path, nb);
    forall i | 0 <= i < |added'|
      ensures AddedOk(obs, goal, e, visited0, level', added'[i])
    {
      if i > 0 {
        assert added'[i] == added[i - 1];
        assert AddedOk(obs, goal, e, visited0, level, added[i - 1]);
        assert EntryOk(obs, goal, level, added[i - 1]);
      }
    }
  }

  lemma DistinctCons(q: seq<Entry>, x: Entry)
    requires DistinctCells(q) && NotQueued(q, x.cell)
    ensures DistinctCells([x] + q)
  {
    var q' := [x] + q;
    forall i, j | 0 <= i < j < |q'|
      ensures q'[i].cell != q'[j].cell
    {
      assert q'[j] == q[j - 1];
      if i > 0 {
        assert q'[i] == q[i - 1];
      }
    }
  }

  lemma AddedStillCover(e: Entry, visited0: set<Point>, added: seq<Entry>, visited: set<Point>, nb: Point)
    requires forall v | v in visited && v !in visited0 :: !NotQueued(added, v)
    ensures var added' := [Entry(nb, e.path + [nb])] + added;
      forall v | v in visited + {nb} && v !in visited0 :: !NotQueued(added', v)
  {
    var added' := [Entry(nb, e.path + [nb])] + added;
    forall v | v in visited + {nb} && v !in visited0
      ensures !NotQueued(added', v)
    {
      if v == nb {
        assert added'[0].cell == v;
      } else {
        var i :| 0 <= i < |added| && added[i].cell == v;
        assert added'[i + 1].cell == v;
      }
    }
  }

  /** Expanding `e` visits cells no deeper than one level below it. */
  lemma GrowthLevels(obs: seq<Point>, goal: Point, e: Entry, visited0: set<Point>, level0: map<Point, nat>,
                     added: seq<Entry>, visited: set<Point>, level: map<Point, nat>)
    requires Growth(obs, goal, e, visited0, level0, added, visited, level)
    requires forall v | v in level0 :: level0[v] <= |e.path| + 1
    ensures forall v | v in visited :: level[v] <= |e.path| + 1
  {
    forall v | v in visited
      ensures level[v] <= |e.path| + 1
    {
      if v !in visited0 {
        var i :| 0 <= i < |added| && added[i].cell == v;
        assert AddedOk(obs, goal, e, visited0, level, added[i]);
      }
    }
  }

  /** One neighbour: `queue.insert(0, ..)` and `visited.insert(..)` when it
      is inside the rectangle, unvisited and not a byte. */
  method Offer(obs: seq<Point>, goal: Point, e: Entry, nb: Point, q: seq<Entry>, visited: set<Point>,
               ghost visited0: set<Point>, ghost level0: map<Point, nat>, ghost level: map<Point, nat>, ghost added: seq<Entry>)
    returns (q': seq<Entry>, visited': set<Point>, ghost level': map<Point, nat>, ghost added': seq<Entry>)
    requires Growth(obs, goal, e, visited0, level0, added, visited, level)
    requires EntryOk(obs, goal, level0, e) && e.cell in visited0 && Origin in visited0
    requires Adjacent(e.cell, nb)
    requires forall v | v in level0 :: level0[v] <= |e.path| + 1
    requires |added| <= |q| && q[..|added|] == added
    ensures |added'| <= |q'| &&  Growth(obs, goal, e, visited0, level0, added', visited', level')
    ensures q'[..|added'|] == added' && q'[|added'|..] == q[|added|..]
    ensures visited <= visited' && forall v | v in visited :: level'[v] == level[v]
    ensures Free(obs, goal, nb) ==> nb in visited' && level'[nb] <= |e.path| + 1
    ensures visited' - visited <= {nb}
    ensures q' == (if Free(obs, goal, nb) && nb !in visited then [Entry(nb, e.path + [nb])] else []) + q
  {
    q', visited', level', added' := q, visited, level, added;
    if Free(obs, goal, nb) && nb !in visited {
      assert EntryOk(obs, goal, level, e);
      GrowthAdd(obs, goal, e, visited0, level0, added, visited, level, nb);
      var entry := Entry(nb, e.path + [nb]);
      level' := level[nb := |e.path| + 1];
      visited' := visited + {nb};
      q' := [entry] + q;
      added' := [entry] + added;
      assert q'[|added'|..] == q[|added|..];
    } else {
      GrowthLevels(obs, goal, e, visited0, level0, added, visited, level);
    }
  }

  /** The loop over the four neighbours of the cell taken off the back of
      the queue (`rest` is the queue without it). */
  method Expand(obs: seq<Point>, goal: Point, e: Entry, rest: seq<Entry>, visited: set<Point>, ghost level: map<Point, nat>)
    returns (q: seq<Entry>, visited': set<Point>, ghost level': map<Point, nat>, ghost added: seq<Entry>)
    requires visited == level.Keys && e.cell in visited && Origin in visited
    requires EntryOk(obs, goal, level, e)
    requires forall v | v in visited :: level[v] <= |e.path| + 1
    ensures q == added + rest
    ensures Growth(obs, goal, e, visited, level, added, visited', level')
    ensures Done(obs, goal, level', e.cell)
    ensures visited <= visited' && |rest| <= |q| && q[|q| - |rest|..] == rest
    ensures forall j | 0 <= j < 4 :: Free(obs, goal, Neighbours(e.cell)[j]) ==> Neighbours(e.cell)[j] in visited'
    ensures forall i | 0 <= i < |q| - |rest| :: q[i].cell in visited' - visited
  {
    var n := Neighbours(e.cell);
    q, visited', level', added := rest, visited, level, [];
    for k := 0 to 4
      invariant |added| <= |q| && q[..|added|] == added && q[|added|..] == rest
      invariant Growth(obs, goal, e, visited, level, added, visited', level')
      invariant Covered(obs, goal, e, k, level')
    {
      NeighboursAdjacent(e.cell, n[k]);
      ghost var prior := level';
      q, visited', level', added := Offer(obs, goal, e, n[k], q, visited', visited, level, level', added);
      CoveredStep(obs, goal, e, k, prior, level');
    }
    assert q == q[..|added|] + q[|added|..];
    assert level'[e.cell] == |e.path|;
    forall i | 0 <= i < |q| - |rest|
      ensures q[i].cell in visited' - visited
    {
      assert q[i] == added[i];
      assert AddedOk(obs, goal, e, visited, level', added[i]);
    }
  }

  /** The first k neighbours of `e` that are free have been visited, no
      deeper than one level below it. */
  predicate Covered(obs: seq<Point>, goal: Point, e: Entry, k: nat, level: map<Point, nat>)
    requires k <= 4
  {
    forall j | 0 <= j < k :: Free(obs, goal, Neighbours(e.cell)[j]) ==>
      Neighbours(e.cell)[j] in level && level[Neighbours(e.cell)[j]] <= |e.path| + 1
  }

  lemma CoveredStep(obs: seq<Point>, goal: Point, e: Entry, k: nat, level: map<Point, nat>, level': map<Point, nat>)
    requires k < 4 && Covered(obs, goal, e, k, level)
    requires forall v | v in level :: v in level' && level'[v] == level[v]
    requires var nb := Neighbours(e.cell)[k];
      Free(obs, goal, nb) ==> nb in level' && level'[nb] <= |e.path| + 1
    ensures Covered(obs, goal, e, k + 1, level')
  {
  }

  // ---------------------------------------------------------------------
  // The invariant across one expansion

  lemma EntryOkExtends(obs: seq<Point>, goal: Point, level: map<Point, nat>, level': map<Point, nat>, e: Entry)
    requires EntryOk(obs, goal, level, e)
    requires forall v | v in level :: v in level' && level'[v] == level[v]
    ensures EntryOk(obs, goal, level', e)
  {
  }

  lemma DoneExtends(obs: seq<Point>, goal: Point, level: map<Point, nat>, level': map<Point, nat>, v: Point)
    requires Done(obs, goal, level, v)
    requires forall u | u in level :: u in level' && level'[u] == level[u]
    ensures Done(obs, goal, level', v)
  {
  }

  /** The new queue: the added entries, one level deeper, in front of the
      old queue without its back. */
  lemma ExpandKeepsQueue(obs: seq<Point>, goal: Point, q: seq<Entry>, visited: set<Point>, level: map<Point, nat>,
                         added: seq<Entry>, visited': set<Point>, level': map<Point, nat>)
    requires Inv(obs, goal, q, visited, level) && |q| > 0
    requires Growth(obs, goal, q[|q| - 1], visited, level, added, visited', level')
    ensures var q' := added + q[..|q| - 1];
      && (forall i | 0 <= i < |q'| :: EntryOk(obs, goal, level', q'[i]))
      && (forall i, j | 0 <= i < j < |q'| :: q'[i].cell != q'[j].cell)
      && (forall i, j | 0 <= i < j < |q'| :: |q'[j].path| <= |q'[i].path|)
      && (|q'| > 0 ==> |q'[0].path| <= Back(q') + 1 && Back(q) <= Back(q'))
  {
    var L := Back(q);
    var rest := q[..|q| - 1];
    var q' := added + rest;
    LevelsBounded(obs, goal, q, visited, level);
    forall i | 0 <= i < |q'|
      ensures EntryOk(obs, goal, level', q'[i])
      ensures L <= |q'[i].path| <= L + 1
      ensures i < |added| ==> |q'[i].path| == L + 1 && q'[i].cell !in visited
      ensures i >= |added| ==> q'[i].cell in visited
    {
      if i < |added| {
        assert AddedOk(obs, goal, q[|q| - 1], visited, level', added[i]);
      } else {
        var r := rest[i - |added|];
        assert r == q[i - |added|];
        assert EntryOk(obs, goal, level, r);
        assert !NotQueued(q, r.cell);
        EntryOkExtends(obs, goal, level, level', r);
      }
    }
    forall i, j | 0 <= i < j < |q'|
      ensures q'[i].cell != q'[j].cell
      ensures |q'[j].path| <= |q'[i].path|
    {
      if j < |added| {
        assert DistinctCells(added);
      } else if i >= |added| {
        assert q'[i] == q[i - |added|] && q'[j] == q[j - |added|];
      }
    }
  }

  /** A cell that has left the new queue is expanded, no deeper than its
      back. */
  lemma LeftQueueDone(obs: seq<Point>, goal: Point, q: seq<Entry>, visited: set<Point>, level: map<Point, nat>,
                      added: seq<Entry>, visited': set<Point>, level': map<Point, nat>, v: Point)
    requires Inv(obs, goal, q, visited, level) && |q| > 0
    requires Growth(obs, goal, q[|q| - 1], visited, level, added, visited', level')
    requires Done(obs, goal, level', q[|q| - 1].cell)
    requires var q' := added + q[..|q| - 1]; |q'| > 0 ==> Back(q) <= Back(q')
    requires v in visited' && NotQueued(added + q[..|q| - 1], v)
    ensures var q' := added + q[..|q| - 1];
      Done(obs, goal, level', v) && (|q'| > 0 ==> level'[v] <= Back(q'))
  {
    var e := q[|q| - 1];
    NotQueuedSplit(added, q, v);
    assert v in visited;
    assert EntryOk(obs, goal, level, e);
    if v != e.cell {
      DoneExtends(obs, goal, level, level', v);
    }
  }

  /** A cell on neither the added entries nor the queue without its back
      is on no added entry, and on the queue unless it is the back. */
  lemma NotQueuedSplit(added: seq<Entry>, q: seq<Entry>, v: Point)
    requires |q| > 0 && NotQueued(added + q[..|q| - 1], v)
    ensures NotQueued(added, v)
    ensures v != q[|q| - 1].cell ==> NotQueued(q, v)
  {
    var q' := added + q[..|q| - 1];
    forall i | 0 <= i < |added|
      ensures added[i].cell != v
    {
      assert q'[i] == added[i];
    }
    forall i | 0 <= i < |q| - 1
      ensures q[i].cell != v
    {
      assert q'[|added| + i] == q[i];
    }
  }

  lemma GoalStaysQueued(obs: seq<Point>, goal: Point, q: seq<Entry>, visited: set<Point>, level: map<Point, nat>,
                        added: seq<Entry>, visited': set<Point>, level': map<Point, nat>)
    requires Inv(obs, goal, q, visited, level) && |q| > 0 && q[|q| - 1].cell != goal
    requires Growth(obs, goal, q[|q| - 1], visited, level, added, visited', level')
    ensures goal in visited' ==> !NotQueued(added + q[..|q| - 1], goal)
  {
    var q' := added + q[..|q| - 1];
    if goal in visited' {
      if goal in visited {
        var i :| 0 <= i < |q| && q[i].cell == goal;
        assert q'[|added| + i].cell == goal;
      } else {
        var i :| 0 <= i < |added| && added[i].cell == goal;
        assert q'[i].cell == goal;
      }
    }
  }

  lemma ExpandKeepsInv(obs: seq<Point>, goal: Point, q: seq<Entry>, visited: set<Point>, level: map<Point, nat>,
                       added: seq<Entry>, visited': set<Point>, level': map<Point, nat>)
    requires Inv(obs, goal, q, visited, level) && |q| > 0 && q[|q| - 1].cell != goal
    requires Growth(obs, goal, q[|q| - 1], visited, level, added, visited', level')
    requires Done(obs, goal, level', q[|q| - 1].cell)
    ensures Inv(obs, goal, added + q[..|q| - 1], visited', level')
  {
    ExpandKeepsQueue(obs, goal, q, visited, level, added, visited', level');
    var q' := added + q[..|q| - 1];
    forall v | v in visited' && NotQueued(q', v)
      ensures Done(obs, goal, level', v) && (|q'| > 0 ==> level'[v] <= Back(q'))
    {
      LeftQueueDone(obs, goal, q, visited, level, added, visited', level', v);
    }
    GoalStaysQueued(obs, goal, q, visited, level, added, visited', level');
    forall v | v in visited'
      ensures v == Origin || Free(obs, goal, v)
    {
      if v !in visited {
        var i :| 0 <= i < |added| && added[i].cell == v;
        assert AddedOk(obs, goal, q[|q| - 1], visited, level', added[i]);
      }
    }
  }

  // ---------------------------------------------------------------------
  // find_path

  /** The cells the search can ever visit: (0, 0) and the rectangle. */
  function Space(goal: Point): (r: set<Point>)
    ensures Origin in r && forall p | InBox(goal, p) :: p in r
  {
    {Origin} + BoxCells(goal)
  }

  /** Each expansion either visits a new cell of the search space or
      visits none. */
  lemma Progress(space: set<Point>, visited: set<Point>, visited': set<Point>, count: nat)
    requires visited <= visited' <= space && count == |visited' - visited|
    ensures count > 0 ==> |space - visited'| < |space - visited|
    ensures count == 0 ==> visited' == visited
  {
    if count > 0 {
      var v :| v in visited' - visited;
      assert v in space - visited && v !in space - visited';
      assert space - visited' < space - visited;
    } else {
      assert visited' - visited == {};
    }
  }

  /** Everything visited lies in the search space. */
  lemma InSpace(obs: seq<Point>, goal: Point, q: seq<Entry>, visited: set<Point>, level: map<Point, nat>)
    requires Inv(obs, goal, q, visited, level)
    ensures visited <= Space(goal)
  {
  }

  /** A walk from (0, 0) to the goal that no other walk is shorter than. */
  ghost predicate Shortest(obs: seq<Point>, goal: Point, path: seq<Point>)
  {
    && Walk(obs, goal, path) && End(path) == goal
    && forall other | Walk(obs, goal, other) && End(other) == goal :: |path| <= |other|
  }

  lemma InitInv(obs: seq<Point>, goal: Point)
    ensures Inv(obs, goal, [Entry(Origin, [])], {Origin}, map[Origin := 0])
  {
  }

  /** When the goal is at the back of the queue, its walk is shortest. */
  lemma BackIsShortest(obs: seq<Point>, goal: Point, q: seq<Entry>, visited: set<Point>, level: map<Point, nat>)
    requires Inv(obs, goal, q, visited, level) && |q| > 0 && q[|q| - 1].cell == goal
    ensures Shortest(obs, goal, q[|q| - 1].path) && Origin !in q[|q| - 1].path
  {
    var e := q[|q| - 1];
    forall path | Walk(obs, goal, path) && End(path) == goal
      ensures |e.path| <= |path|
    {
      ShortestAtBack(obs, goal, q, visited, level, path);
    }
    assert EntryOk(obs, goal, level, e);
  }

  /** When the queue runs dry, the goal cannot be reached. */
  lemma DryUnreachable(obs: seq<Point>, goal: Point, visited: set<Point>, level: map<Point, nat>)
    requires Inv(obs, goal, [], visited, level)
    ensures !Reachable(obs, goal)
  {
    forall path | Walk(obs, goal, path)
      ensures End(path) != goal
    {
      EmptyUnreachable(obs, goal, visited, level, path);
    }
  }

  /** Breadth-first search from (0, 0) to the goal. It returns a shortest
      walk (without its start) exactly when the goal can be reached. */
  method FindPath(obs: seq<Point>) returns (r: Option<seq<Point>>)
    requires |obs| > 0
    ensures r.Some? ==> Shortest(obs, Goal(obs), r.value) && Origin !in r.value
    ensures r.None? <==> !Reachable(obs, Goal(obs))
  {
    var goal := Goal(obs);
    var q := [Entry(Origin, [])];
    var visited := {Origin};
    ghost var level: map<Point, nat> := map[Origin := 0];
    InitInv(obs, goal);
    while |q| > 0
      invariant Inv(obs, goal, q, visited, level)
      decreases |Space(goal) - visited|, |q|
    {
      var e := q[|q| - 1];
      var rest := q[..|q| - 1];
      if e.cell == goal {
        BackIsShortest(obs, goal, q, visited, level);
        return Some(e.path);
      }
      LevelsBounded(obs, goal, q, visited, level);
      var q', visited', level', added := Expand(obs, goal, e, rest, visited, level);
      ExpandKeepsInv(obs, goal, q, visited, level, added, visited', level');
      InSpace(obs, goal, q', visited', level');
      Progress(Space(goal), visited, visited', |added|);
      q, visited, level := q', visited', level';
    }
    DryUnreachable(obs, goal, visited, level);
    return None;
  }

  // ---------------------------------------------------------------------
  // Part 1

  /** The length of the path after the first `nFallen` bytes; `None` where
      the source panics: the slice `obstacles[..n_fallen]` past the end,
      the goal's `max().unwrap()` on no bytes, and no path. */
  method Part1(obs: seq<Point>, nFallen: nat) returns (r: Option<nat>)
    ensures r.Some? ==> 1 <= nFallen <= |obs|
    ensures r.Some? && 1 <= nFallen <= |obs| ==>
      var o := obs[..nFallen];
      exists path | Shortest(o, Goal(o), path) :: |path| == r.value
    ensures r.None? <==> nFallen == 0 || nFallen > |obs| || !Reachable(obs[..nFallen], Goal(obs[..nFallen]))
  {
    if nFallen == 0 || nFallen > |obs| {
      return None;
    }
    var found := FindPath(obs[..nFallen]);
    match found
    case None => r := None;
    case Some(path) => r := Some(|path|);
  }

  // ---------------------------------------------------------------------
  // Part 2

  /** With the first m bytes fallen, the goal cannot be reached. */
  ghost predicate Blocked(obs: seq<Point>, m: nat)
    requires 1 <= m <= |obs|
  {
    !Reachable(obs[..m], Goal(obs[..m]))
  }

  /** Which prefixes of the first n bytes block the goal, indexed by the
      number of bytes fallen (entry 0, no bytes, is unused). */
  ghost function Blocks(obs: seq<Point>, n: nat): (t: seq<bool>)
    requires n <= |obs|
    ensures |t| == n + 1
  {
    if n == 0 then [false] else Blocks(obs, n - 1) + [Blocked(obs, n)]
  }

  lemma {:induction false} BlocksAt(obs: seq<Point>, n: nat, m: nat)
    requires 1 <= m <= n <= |obs|
    ensures Blocks(obs, n)[m] == Blocked(obs, m)
    decreases n
  {
    if m < n {
      BlocksAt(obs, n - 1, m);
    }
  }

  /** The state of the bisection: the bounds and the last probe. */
  datatype Probe = Probe(lo: nat, hi: nat, mid: nat)

  /** The bisection of part 2 over the table `t` of blocked prefixes, run
      to the end from bounds `lo` and `hi` with last probe `mid`. It ends
      with adjacent bounds; the upper bound is blocked unless it never
      moved, and the lower bound is open unless it never moved. */
  function Bisect(t: seq<bool>, lo: nat, hi: nat, mid: nat): (p: Probe)
    requires lo <= hi <= |t|
    ensures lo <= p.lo <= p.hi <= hi
    ensures hi - lo >= 1 ==> p.hi == p.lo + 1
    ensures hi - lo <= 1 ==> p == Probe(lo, hi, mid)
    ensures p.hi < hi ==> t[p.hi]
    ensures p.lo > lo ==> !t[p.lo]
    ensures p.mid == mid || lo < p.mid < hi
    decreases hi - lo
  {
    if hi - lo <= 1 then Probe(lo, hi, mid)
    else
      var m := (lo + hi) / 2;
      if t[m] then Bisect(t, lo, m, m) else Bisect(t, m, hi, m)
  }

  /** The answer as the source prints it: the byte of the LAST probe, which
      is only the blocking byte when that probe was blocked; `None` where
      the loop never ran and `mid_n - 1` underflows, and where
      `max_n - min_n` underflows because `n_fallen` exceeds the byte count
      by more than one. */
  ghost function AnswerAsWritten(obs: seq<Point>, nFallen: nat): (r: Option<Point>)
    ensures r.Some? <==> nFallen + 1 < |obs| + 1
  {
    if nFallen > |obs| + 1 then None else
    var p := Bisect(Blocks(obs, |obs|), nFallen, |obs| + 1, 0);
    if p.mid == 0 then None else Some(obs[p.mid - 1])
  }

  /** The byte that cuts the goal off: the first m bytes block it while
      the first m - 1 do not (or m - 1 is the count the search starts
      from, which the source takes as open). */
  ghost predicate Cuts(obs: seq<Point>, nFallen: nat, m: nat)
  {
    nFallen < m <= |obs| && Blocked(obs, m) && (m - 1 > nFallen ==> !Blocked(obs, m - 1))
  }

  /** One probe of the bisection: the search on the first m bytes reports
      no path exactly when that prefix is blocked. */
  method Probe1(obs: seq<Point>, m: nat) returns (blocked: bool)
    requires 1 <= m <= |obs|
    ensures blocked == Blocks(obs, |obs|)[m]
  {
    var found := FindPath(obs[..m]);
    blocked := found.None?;
    BlocksAt(obs, |obs|, m);
  }

  method Part2AsWritten(obs: seq<Point>, nFallen: nat) returns (r: Option<Point>)
    ensures r == AnswerAsWritten(obs, nFallen)
  {
    if nFallen > |obs| + 1 {
      return None;
    }
    ghost var t := Blocks(obs, |obs|);
    var lo: nat, hi: nat, mid: nat := nFallen, |obs| + 1, 0;
    while hi - lo > 1
      invariant lo <= hi <= |t|
      invariant Bisect(t, lo, hi, mid) == Bisect(t, nFallen, |t|, 0)
      decreases hi - lo
    {
      mid := (lo + hi) / 2;
      var blocked := Probe1(obs, mid);
      if blocked {
        hi := mid;
      } else {
        lo := mid;
      }
    }
    assert Bisect(t, nFallen, |t|, 0).mid == mid;
    if mid == 0 {
      return None;
    }
    return Some(obs[mid - 1]);
  }

  /** Where the bisection ends: an upper bound that moved is a byte that
      cuts the goal off; one that never moved means the whole sequence
      was probed open or there was nothing to probe. */
  lemma BisectCuts(obs: seq<Point>, nFallen: nat)
    requires nFallen <= |obs| + 1
    ensures var p := Bisect(Blocks(obs, |obs|), nFallen, |obs| + 1, 0);
      && (p.hi <= |obs| ==> Cuts(obs, nFallen, p.hi))
      && (p.hi > |obs| ==> nFallen >= |obs| || !Blocked(obs, |obs|))
  {
    var t := Blocks(obs, |obs|);
    var p := Bisect(t, nFallen, |t|, 0);
    if p.hi <= |obs| {
      BlocksAt(obs, |obs|, p.hi);
      if p.hi - 1 > nFallen {
        BlocksAt(obs, |obs|, p.lo);
      }
    } else if nFallen < |obs| {
      BlocksAt(obs, |obs|, |obs|);
    }
  }

  /** Part 2 as intended: the byte at the upper bound, which the search
      saw blocked and whose predecessor it saw open. `None` when no probe
      was blocked, which includes a start count beyond the byte count,
      where the source's `max_n - min_n` underflows. */
  method Part2(obs: seq<Point>, nFallen: nat) returns (r: Option<Point>)
    ensures r.Some? ==> exists m | Cuts(obs, nFallen, m) :: r.value == obs[m - 1]
    ensures r.None? ==> nFallen >= |obs| || !Blocked(obs, |obs|)
  {
    if nFallen > |obs| + 1 {
      return None;
    }
    ghost var t := Blocks(obs, |obs|);
    var lo: nat, hi: nat := nFallen, |obs| + 1;
    ghost var mid: nat := 0;
    while hi - lo > 1
      invariant lo <= hi <= |t|
      invariant Bisect(t, lo, hi, mid) == Bisect(t, nFallen, |t|, 0)
      decreases hi - lo
    {
      var m := (lo + hi) / 2;
      var blocked := Probe1(obs, m);
      if blocked {
        hi := m;
      } else {
        lo := m;
      }
      mid := m;
    }
    assert Bisect(t, nFallen, |t|, 0).hi == hi;
    BisectCuts(obs, nFallen);
    if hi > |obs| {
      return None;
    }
    assert Cuts(obs, nFallen, hi);
    return Some(obs[hi - 1]);
  }

  // ---------------------------------------------------------------------
  // The last probe is not the blocking byte

  const ExampleObs: seq<Point> := [Point(0, 3), Point(3, 0), Point(1, 0), Point(0, 1), Point(2, 2)]

  /** The first step of a walk leaves (0, 0) to the right or downwards
      onto a cell that is not a byte. */
  lemma FirstStep(obs: seq<Point>, goal: Point, path: seq<Point>)
    requires Walk(obs, goal, path) && |path| > 0
    ensures path[0] == Point(1, 0) || path[0] == Point(0, 1)
    ensures path[0] !in obs
  {
    assert Step(obs, goal, path, 0);
  }

  /** With four bytes down, both cells next to (0, 0) inside the rectangle
      are bytes. */
  lemma ExampleBlockedAt4()
    ensures Blocked(ExampleObs, 4)
  {
    var o := ExampleObs[..4];
    assert o == [Point(0, 3), Point(3, 0), Point(1, 0), Point(0, 1)];
    var g := Goal(o);
    assert g == Point(3, 3) by {
      GoalIsCorner(o);
      var i :| 0 <= i < |o| && o[i].x == g.x;
      var j :| 0 <= j < |o| && o[j].y == g.y;
      assert o[1].x <= g.x && o[0].y <= g.y;
    }
    forall path | Walk(o, g, path)
      ensures End(path) != g
    {
      if |path| > 0 {
        FirstStep(o, g, path);
        assert false;
      }
    }
  }

  /** With three bytes down, (0, 1) is still open and the goal is reached
      round the top. */
  lemma ExampleOpenAt3()
    ensures !Blocked(ExampleObs, 3)
  {
    var o := ExampleObs[..3];
    assert o == [Point(0, 3), Point(3, 0), Point(1, 0)];
    var g := Goal(o);
    assert g == Point(3, 3) by {
      GoalIsCorner(o);
      var i :| 0 <= i < |o| && o[i].x == g.x;
      var j :| 0 <= j < |o| && o[j].y == g.y;
      assert o[1].x <= g.x && o[0].y <= g.y;
    }
    RoundTheTop();
  }

  lemma RoundTheTop()
    ensures var w := [Point(0, 1), Point(1, 1), Point(2, 1), Point(3, 1), Point(3, 2), Point(3, 3)];
      Walk([Point(0, 3), Point(3, 0), Point(1, 0)], Point(3, 3), w) && End(w) == Point(3, 3)
  {
    var o, g := [Point(0, 3), Point(3, 0), Point(1, 0)], Point(3, 3);
    var w := [Point(0, 1), Point(1, 1), Point(2, 1), Point(3, 1), Point(3, 2), Point(3, 3)];
    forall i | 0 <= i < |w|
      ensures Step(o, g, w, i)
    {
      assert w[i] != o[0] && w[i] != o[1] && w[i] != o[2];
    }
  }

  /** The source prints byte 3 (1,0), whose fall does not cut the goal off;
      the byte that does is byte 4 (0,1). */
  lemma LastProbeNotBlocker()
    ensures AnswerAsWritten(ExampleObs, 2) == Some(Point(1, 0))
    ensures Cuts(ExampleObs, 2, 4) && ExampleObs[3] == Point(0, 1)
    ensures !Cuts(ExampleObs, 2, 3)
  {
    ExampleBlockedAt4();
    ExampleOpenAt3();
    var t := Blocks(ExampleObs, 5);
    BlocksAt(ExampleObs, 5, 4);
    BlocksAt(ExampleObs, 5, 3);
    assert Bisect(t, 3, 4, 3) == Probe(3, 4, 3);
    assert Bisect(t, 2, 4, 4) == Probe(3, 4, 3);
    assert Bisect(t, 2, 6, 0) == Probe(3, 4, 3);
  }
}

=== FILE: day19.dfy ===
/** Day 19: towel patterns over the colours w, u, b, r, g, packed three bits
    per letter into a number; designs are matched against patterns by
    peeling packed suffixes off the number. */
module Day19 {
  import opened Prelude

  predicate IsColour(c: char)
  {
    c == 'w' || c == 'u' || c == 'b' || c == 'r' || c == 'g'
  }

  predicate Valid(s: string)
  {
    forall i | 0 <= i < |s| :: IsColour(s[i])
  }

  /** Three-bit code of a letter; any other character leaves the bits 0. */
  function Code(c: char): (d: nat)
    ensures d < 8
    ensures IsColour(c) <==> 1 <= d <= 5
  {
    if c == 'w' then 1
    else if c == 'u' then 2
    else if c == 'b' then 3
    else if c == 'r' then 4
    else if c == 'g' then 5
    else 0
  }

  function Letter(d: nat): (c: char)
    requires 1 <= d <= 5
    ensures IsColour(c) && Code(c) == d
  {
    if d == 1 then 'w'
    else if d == 2 then 'u'
    else if d == 3 then 'b'
    else if d == 4 then 'r'
    else 'g'
  }

  /** `convert_to_number`: shift left by three, then or in the letter's code. */
  function Convert(s: string): (n: nat)
    ensures n < Pow2(3 * |s|)
  {
    if |s| == 0 then 0
    else
      var n := 8 * Convert(s[..|s| - 1]) + Code(s[|s| - 1]);
      Pow2Plus3(3 * (|s| - 1));
      n
  }

  /** `revert_to_string`: peel three bits at a time; a code outside 1..5 is
      `unreachable!()`. Whenever unpacking succeeds it yields a valid design
      that packs back to the same number. */
  function Revert(n: nat): (r: Option<string>)
    ensures r.Some? ==> Valid(r.value) && Convert(r.value) == n
    decreases n
  {
    if n == 0 then Some("")
    else if 1 <= n % 8 <= 5 then
      match Revert(n / 8)
      case Some(t) =>
        var s := t + [Letter(n % 8)];
        assert s[..|s| - 1] == t;
        Some(s)
      case None => None
    else None
  }

  lemma Pow2Plus3(n: nat)
    ensures Pow2(n + 3) == 8 * Pow2(n)
  {
    assert Pow2(n + 3) == 2 * Pow2(n + 2) == 4 * Pow2(n + 1) == 8 * Pow2(n);
  }

  /** Unpacking a packed design gives the design back. */
  lemma {:induction false} RevertConvert(s: string)
    requires Valid(s)
    ensures Revert(Convert(s)) == Some(s)
  {
    if |s| > 0 {
      var t := s[..|s| - 1];
      var c := s[|s| - 1];
      RevertConvert(t);
      DivModUnique(Convert(s), 8, Convert(t), Code(c));
      assert s == t + [c];
    }
  }

  lemma ConvertInjective(a: string, b: string)
    requires Valid(a) && Valid(b) && Convert(a) == Convert(b)
    ensures a == b
  {
    RevertConvert(a);
    RevertConvert(b);
  }

  /** A non-empty valid design packs to at least its leading three-bit group. */
  lemma {:induction false} ConvertLower(s: string)
    requires Valid(s) && |s| > 0
    ensures Pow2(3 * (|s| - 1)) <= Convert(s)
  {
    if |s| > 1 {
      ConvertLower(s[..|s| - 1]);
      Pow2Plus3(3 * (|s| - 2));
    }
  }

  /** Packing a concatenation shifts the left part past the right one. */
  lemma {:induction false} ConvertAppend(a: string, b: string)
    ensures Convert(a + b) == Convert(a) * Pow2(3 * |b|) + Convert(b)
  {
    if |b| > 0 {
      var b' := b[..|b| - 1];
      var c := b[|b| - 1];
      assert (a + b)[..|a + b| - 1] == a + b';
      assert (a + b)[|a + b| - 1] == c;
      ConvertAppend(a, b');
      Pow2Plus3(3 * |b'|);
      var x, p, y, k := Convert(a), Pow2(3 * |b'|), Convert(b'), Code(c);
      assert Convert(a + b) == 8 * Convert(a + b') + k;
      assert Convert(a + b') == x * p + y;
      assert Convert(b) == 8 * y + k;
      assert Pow2(3 * |b|) == 8 * p;
      Shift8(x, p, y, k);
    } else {
      assert a + b == a;
    }
  }

  lemma Shift8(x: int, p: int, y: int, k: int)
    ensures 8 * (x * p + y) + k == x * (8 * p) + (8 * y + k)
  {
    assert x * (8 * p) == 8 * (x * p);
  }

  /** Shifting right by 3m bits drops the last m letters; the low 3m bits
      are the last m letters. */
  lemma SplitSuffix(s: string, m: nat)
    requires m <= |s|
    ensures Convert(s) / Pow2(3 * m) == Convert(s[..|s| - m])
    ensures Convert(s) % Pow2(3 * m) == Convert(s[|s| - m..])
  {
    var pre, suf := s[..|s| - m], s[|s| - m..];
    assert |suf| == m;
    assert s == pre + suf;
    SplitAt(pre, suf);
  }

  lemma SplitAt(a: string, b: string)
    ensures Convert(a + b) / Pow2(3 * |b|) == Convert(a)
    ensures Convert(a + b) % Pow2(3 * |b|) == Convert(b)
  {
    ConvertAppend(a, b);
    DivModUniqueRight(Convert(a + b), Pow2(3 * |b|), Convert(a), Convert(b));
  }

  // -------------------------------------------------------------------
  // Bit lengths.

  /** `ilog2`: the position of the highest set bit. */
  function Log2(n: nat): nat
    requires n > 0
  {
    if n < 2 then 0 else 1 + Log2(n / 2)
  }

  lemma {:induction false} Log2Bounds(n: nat)
    requires n > 0
    ensures Pow2(Log2(n)) <= n < Pow2(Log2(n) + 1)
  {
    if n >= 2 {
      Log2Bounds(n / 2);
    }
  }

  lemma Log2Unique(n: nat, k: nat)
    requires Pow2(k) <= n < Pow2(k + 1)
    ensures Log2(n) == k
  {
    Log2Bounds(n);
    if Log2(n) > k {
      PowMonotone(2, k + 1, Log2(n));
    } else if Log2(n) < k {
      PowMonotone(2, Log2(n) + 1, k);
    }
  }

  /** `get_bit_length`: the bit length rounded up to whole letters. The
      source's `ilog2` panics on 0. */
  function BitLength(n: nat): (l: nat)
    requires n > 0
    ensures l >= 3 && l % 3 == 0
    ensures n < Pow2(l)
  {
    var k := Log2(n) / 3 + 1;
    Log2Bounds(n);
    PowMonotone(2, Log2(n) + 1, 3 * k);
    3 * k
  }

  /** A packed non-empty pattern is three bits per letter long. */
  lemma BitLengthOfPattern(s: string)
    requires Valid(s) && |s| > 0
    ensures Convert(s) > 0
    ensures BitLength(Convert(s)) == 3 * |s|
  {
    var m := |s|;
    var p := Convert(s);
    ConvertLower(s);
    Log2Bounds(p);
    var j := Log2(p);
    if j >= 3 * m {
      PowMonotone(2, 3 * m, j);
    }
    if j + 1 <= 3 * (m - 1) {
      PowMonotone(2, j + 1, 3 * (m - 1));
    }
    DivModUnique(j, 3, m - 1, j - 3 * (m - 1));
  }

  /** The source's `d >> L`: the design with its last L bits dropped. */
  function Shift(d: nat, l: nat): (r: nat)
    ensures d > 0 && l >= 1 ==> r < d
  {
    var p := Pow2(l);
    if d > 0 && l >= 1 then
      Pow2AtLeast2(l);
      DivLess(d, p);
      d / p
    else d / p
  }

  /** The source's `d - ((d >> L) << L)`: the low L bits of d. */
  function End(d: nat, l: nat): (e: int)
    ensures e == d % Pow2(l)
    ensures e > 0 ==> d > 0
  {
    var p := Pow2(l);
    assert d == (d / p) * p + d % p;
    d - (d / p) * p
  }

  lemma EndOfSmall(d: nat, l: nat)
    requires d < Pow2(l)
    ensures End(d, l) == d
  {
    DivModUnique(d, Pow2(l), 0, d);
  }

  predicate Positive(ps: seq<nat>)
  {
    forall i | 0 <= i < |ps| :: ps[i] > 0
  }

  // -------------------------------------------------------------------
  // The two matchers on packed numbers.

  /** `count_all_combinations`: ordered ways to build the packed design from
      packed patterns, peeling one pattern off the low end at a time. No
      pattern fits the empty design, since every pattern is non-zero. */
  function Count(d: nat, ps: seq<nat>): (r: nat)
    requires Positive(ps)
    ensures d == 0 ==> r == 0
    decreases d, |ps| + 1
  {
    CountFrom(d, ps, 0)
  }

  function CountFrom(d: nat, ps: seq<nat>, i: nat): (r: nat)
    requires Positive(ps) && i <= |ps|
    ensures d == 0 ==> r == 0
    decreases d, |ps| - i
  {
    if i == |ps| then 0
    else
      var p := ps[i];
      var l := BitLength(p);
      var here := if p == d then 1 else 0;
      var rest := CountFrom(d, ps, i + 1);
      if End(d, l) == p then here + Count(Shift(d, l), ps) + rest
      else here + rest
  }

  /** `find_combination`: whether some way exists, skipping patterns larger
      than the design; never for the empty design. */
  function Find(d: nat, ps: seq<nat>): (r: bool)
    requires Positive(ps)
    ensures d == 0 ==> !r
    decreases d, |ps| + 1
  {
    FindFrom(d, ps, 0)
  }

  function FindFrom(d: nat, ps: seq<nat>, i: nat): (r: bool)
    requires Positive(ps) && i <= |ps|
    ensures d == 0 ==> !r
    decreases d, |ps| - i
  {
    if i == |ps| then false
    else
      var p := ps[i];
      if d < p then FindFrom(d, ps, i + 1)
      else if p == d then true
      else
        var l := BitLength(p);
        if End(d, l) == p && Find(Shift(d, l), ps) then true
        else FindFrom(d, ps, i + 1)
  }

  /** The early `continue` on larger patterns loses nothing: `find` holds
      exactly when the count is positive. */
  lemma {:induction false} FindIffCount(d: nat, ps: seq<nat>)
    requires Positive(ps)
    ensures Find(d, ps) <==> Count(d, ps) > 0
    decreases d, |ps| + 1
  {
    FindFromIffCountFrom(d, ps, 0);
  }

  lemma {:induction false} FindFromIffCountFrom(d: nat, ps: seq<nat>, i: nat)
    requires Positive(ps) && i <= |ps|
    ensures FindFrom(d, ps, i) <==> CountFrom(d, ps, i) > 0
    decreases d, |ps| - i
  {
    if i < |ps| {
      var p := ps[i];
      var l := BitLength(p);
      FindFromIffCountFrom(d, ps, i + 1);
      if d < p {
        EndOfSmall(d, l);
      } else if End(d, l) == p {
        FindIffCount(Shift(d, l), ps);
      }
    }
  }

  // -------------------------------------------------------------------
  // The reference: splittings of the design string itself.

  /** Ordered ways to write s as a concatenation of patterns (a pattern
      listed twice counts twice); the empty string has one, the empty split. */
  function Ways(s: string, pats: seq<string>): nat
    decreases |s|, |pats| + 1
  {
    if |s| == 0 then 1 else WaysFrom(s, pats, 0)
  }

  function WaysFrom(s: string, pats: seq<string>, i: nat): nat
    requires |s| > 0 && i <= |pats|
    decreases |s|, |pats| - i
  {
    if i == |pats| then 0
    else
      WaysTerm(s, pats, i) + WaysFrom(s, pats, i + 1)
  }

  /** The splittings whose last piece is pattern i. */
  function WaysTerm(s: string, pats: seq<string>, i: nat): nat
    requires |s| > 0 && i < |pats|
    decreases |s|, 0
  {
    var m := |pats[i]|;
    if 0 < m <= |s| && s[|s| - m..] == pats[i] then Ways(s[..|s| - m], pats) else 0
  }

  function Codes(pats: seq<string>): (ps: seq<nat>)
    requires forall i | 0 <= i < |pats| :: Valid(pats[i]) && |pats[i]| > 0
    ensures |ps| == |pats| && Positive(ps)
  {
    assert forall i | 0 <= i < |pats| :: Convert(pats[i]) > 0 by {
      forall i | 0 <= i < |pats| ensures Convert(pats[i]) > 0 {
        BitLengthOfPattern(pats[i]);
      }
    }
    seq(|pats|, i requires 0 <= i < |pats| => Convert(pats[i]))
  }

  /** The packed counter counts exactly the splittings of a non-empty design. */
  lemma {:induction false} CountIsWays(s: string, pats: seq<string>)
    requires Valid(s) && |s| > 0
    requires forall i | 0 <= i < |pats| :: Valid(pats[i]) && |pats[i]| > 0
    ensures Count(Convert(s), Codes(pats)) == Ways(s, pats)
    decreases |s|, |pats| + 2
  {
    CountFromIsWaysFrom(s, pats, 0);
  }

  lemma {:induction false} CountFromIsWaysFrom(s: string, pats: seq<string>, i: nat)
    requires Valid(s) && |s| > 0 && i <= |pats|
    requires forall i | 0 <= i < |pats| :: Valid(pats[i]) && |pats[i]| > 0
    ensures CountFrom(Convert(s), Codes(pats), i) == WaysFrom(s, pats, i)
    decreases |s|, |pats| - i + 1
  {
    if i < |pats| {
      CountFromIsWaysFrom(s, pats, i + 1);
      TermIsWays(s, pats, i);
    }
  }

  /** Pattern i contributes the same to the packed count as to the splittings. */
  lemma {:induction false} TermIsWays(s: string, pats: seq<string>, i: nat)
    requires Valid(s) && |s| > 0 && i < |pats|
    requires forall i | 0 <= i < |pats| :: Valid(pats[i]) && |pats[i]| > 0
    ensures CountFrom(Convert(s), Codes(pats), i) == WaysTerm(s, pats, i) + CountFrom(Convert(s), Codes(pats), i + 1)
    decreases |s|, 0
  {
    var ps := Codes(pats);
    var pat := pats[i];
    var d, p := Convert(s), ps[i];
    assert p == Convert(pat);
    BitLengthOfPattern(pat);
    MatchEnd(s, pat);
    if p == d {
      ConvertInjective(s, pat);
    }
    var m := |pat|;
    if m <= |s| && s[|s| - m..] == pat {
      var prefix := s[..|s| - m];
      if |prefix| > 0 {
        CountIsWays(prefix, pats);
      } else {
        assert s == pat;
      }
    }
  }

  /** A packed pattern matches the low bits of a packed design exactly when
      the design ends with the pattern, and the shift leaves the rest. */
  lemma MatchEnd(s: string, pat: string)
    requires Valid(s) && Valid(pat) && |pat| > 0
    ensures End(Convert(s), 3 * |pat|) == Convert(pat) <==> |pat| <= |s| && s[|s| - |pat|..] == pat
    ensures |pat| <= |s| ==> Shift(Convert(s), 3 * |pat|) == Convert(s[..|s| - |pat|])
  {
    var m, d, p := |pat|, Convert(s), Convert(pat);
    if m <= |s| {
      SplitSuffix(s, m);
      if End(d, 3 * m) == p {
        ConvertInjective(s[|s| - m..], pat);
      }
    } else {
      ConvertLower(pat);
      PowMonotone(2, 3 * |s|, 3 * (m - 1));
      PowMonotone(2, 3 * (m - 1), 3 * m);
      EndOfSmall(d, 3 * m);
    }
  }

  // -------------------------------------------------------------------
  // The solvers.

  /** Part 1: designs with at least one way to build them. */
  function Part1(designs: seq<nat>, ps: seq<nat>): (r: nat)
    requires Positive(ps)
    ensures r <= |designs|
  {
    if |designs| == 0 then 0
    else (if Count(designs[0], ps) > 0 then 1 else 0) + Part1(designs[1..], ps)
  }

  /** Part 2: total number of ways over all designs. Every buildable
      design has at least one way, so part 2 is at least part 1, and it is
      zero exactly when no design can be built. */
  function Part2(designs: seq<nat>, ps: seq<nat>): (r: nat)
    requires Positive(ps)
    ensures Part1(designs, ps) <= r
    ensures r == 0 <==> Part1(designs, ps) == 0
  {
    if |designs| == 0 then 0 else Count(designs[0], ps) + Part2(designs[1..], ps)
  }

  /** Both parts on packed designs agree with the string reference. */
  lemma {:induction false} PartsAreWays(designs: seq<string>, pats: seq<string>)
    requires forall i | 0 <= i < |designs| :: Valid(designs[i]) && |designs[i]| > 0
    requires forall i | 0 <= i < |pats| :: Valid(pats[i]) && |pats[i]| > 0
    ensures Part2(seq(|designs|, i requires 0 <= i < |designs| => Convert(designs[i])), Codes(pats))
            == WaysTotal(designs, pats)
    ensures Part1(seq(|designs|, i requires 0 <= i < |designs| => Convert(designs[i])), Codes(pats))
            == Buildable(designs, pats)
  {
    var ds := seq(|designs|, i requires 0 <= i < |designs| => Convert(designs[i]));
    if |designs| > 0 {
      CountIsWays(designs[0], pats);
      PartsAreWays(designs[1..], pats);
      assert ds[1..] == seq(|designs[1..]|, i requires 0 <= i < |designs[1..]| => Convert(designs[1..][i]));
    }
  }

  function WaysTotal(designs: seq<string>, pats: seq<string>): nat
  {
    if |designs| == 0 then 0 else Ways(designs[0], pats) + WaysTotal(designs[1..], pats)
  }

  function Buildable(designs: seq<string>, pats: seq<string>): nat
  {
    if |designs| == 0 then 0
    else (if Ways(designs[0], pats) > 0 then 1 else 0) + Buildable(designs[1..], pats)
  }

  /** The packing examples kept among the source's tests. */
  lemma ConvertExamples()
    ensures Convert("wu") == 10
    ensures Convert("burg") == 1701
  {
    assert "wu"[..1] == "w";
    assert "burg"[..3] == "bur" && "bur"[..2] == "bu" && "bu"[..1] == "b";
  }
}

=== FILE: day20.dfy ===
/** Day 20: a race track through a maze. `find_path` finds the track from
    the start to the end with a breadth-first search. A cheat jumps from one
    track cell to another at most `max_dist_cheat` steps away (Manhattan
    distance) through walls, and saves the track time between them less the
    length of the jump. The answer is the number of cheats that save at
    least `min_dt`. */
module Day20 {
  import opened Prelude

  datatype Point = Point(x: int, y: int)

  datatype Maze = Maze(walls: set<Point>, start: Point, end: Point)

  // ---------------------------------------------------------------------
  // Loading

  /** Line y of the input holds character c at column x. */
  predicate At(lines: seq<string>, p: Point, c: char)
  {
    0 <= p.y < |lines| && 0 <= p.x < |lines[p.y]| && lines[p.y][p.x] == c
  }

  /** q comes after p in reading order (row by row, left to right). */
  predicate Later(p: Point, q: Point)
  {
    q.y > p.y || (q.y == p.y && q.x > p.x)
  }

  /** The last column of `line` holding c. */
  function LastInLine(line: string, c: char): (r: Option<nat>)
    ensures r.Some? ==> r.value < |line| && line[r.value] == c
    ensures r.Some? ==> forall x | r.value < x < |line| :: line[x] != c
    ensures r.None? ==> forall x | 0 <= x < |line| :: line[x] != c
  {
    if |line| == 0 then None
    else if line[|line| - 1] == c then Some(|line| - 1)
    else LastInLine(line[..|line| - 1], c)
  }

  /** r holds c with no later c in reading order, or c is nowhere and r is
      (0, 0). */
  ghost predicate LastMarker(lines: seq<string>, c: char, r: Point)
  {
    || (At(lines, r, c) && forall q | At(lines, q, c) :: !Later(r, q))
    || (r == Point(0, 0) && forall q :: !At(lines, q, c))
  }

  /** Where the loader leaves the start ('S') or the end ('E'): each
      occurrence overwrites the previous one, so it is the last occurrence
      in reading order, and (0, 0) when there is none. */
  function Marker(lines: seq<string>, c: char): (r: Point)
    ensures LastMarker(lines, c, r)
  {
    if |lines| == 0 then Point(0, 0)
    else
      var n := |lines| - 1;
      assert forall q | At(lines, q, c) && q.y < n :: At(lines[..n], q, c);
      match LastInLine(lines[n], c)
      case Some(x) => Point(x, n)
      case None => Marker(lines[..n], c)
  }

  /** The wall cells: every '#'. */
  function Walls(lines: seq<string>): (r: set<Point>)
    ensures forall p :: p in r <==> At(lines, p, '#')
  {
    set y, x | 0 <= y < |lines| && 0 <= x < |lines[y]| && lines[y][x] == '#' :: Point(x, y)
  }

  /** `load_data` on the text of the input. Empty lines hold no cell but
      still count as rows. */
  function Load(input: string): (r: Maze)
    ensures forall p :: p in r.walls <==> At(Split(input, '\n'), p, '#')
    ensures LastMarker(Split(input, '\n'), 'S', r.start)
    ensures LastMarker(Split(input, '\n'), 'E', r.end)
  {
    var lines := Split(input, '\n');
    Maze(Walls(lines), Marker(lines, 'S'), Marker(lines, 'E'))
  }

  // ---------------------------------------------------------------------
  // Paths

  /** The four neighbours, in the order the search tries them: left, up,
      right, down. */
  function Move(p: Point, d: nat): Point
    requires d < 4
  {
    if d == 0 then Point(p.x - 1, p.y)
    else if d == 1 then Point(p.x, p.y - 1)
    else if d == 2 then Point(p.x + 1, p.y)
    else Point(p.x, p.y + 1)
  }

  function Dist(p: Point, q: Point): nat
  {
    Abs(q.x - p.x) + Abs(q.y - p.y)
  }

  predicate Adjacent(p: Point, q: Point)
  {
    Dist(p, q) == 1
  }

  /** The four moves reach exactly the adjacent cells. */
  lemma MoveAdjacent(p: Point, q: Point) returns (d: nat)
    requires Adjacent(p, q)
    ensures d < 4 && Move(p, d) == q
  {
    if q.x < p.x {
      d := 0;
    } else if q.y < p.y {
      d := 1;
    } else if q.x > p.x {
      d := 2;
    } else {
      d := 3;
    }
  }

  /** A path from a to b: it starts at a, ends at b, each step goes to an
      adjacent cell, and no step enters a wall. The first cell is where the
      search starts; it is never checked. */
  predicate PathFrom(walls: set<Point>, path: seq<Point>, a: Point, b: Point)
  {
    && |path| > 0 && path[0] == a && path[|path| - 1] == b
    && forall i | 0 < i < |path| :: path[i] !in walls && Adjacent(path[i - 1], path[i])
  }

  predicate Distinct(path: seq<Point>)
  {
    forall i, j | 0 <= i < j < |path| :: path[i] != path[j]
  }

  ghost predicate Reachable(walls: set<Point>, a: Point, b: Point)
  {
    exists path :: PathFrom(walls, path, a, b)
  }

  /** Every free neighbour of a cell in `done` is in `visited`. */
  predicate Closed(walls: set<Point>, done: set<Point>, visited: set<Point>)
  {
    forall p, d | p in done && 0 <= d < 4 :: Move(p, d) in walls || Move(p, d) in visited
  }

  /** A set closed under free steps holds the end of every path that
      starts in it. */
  lemma {:induction false} ClosedHoldsPaths(walls: set<Point>, s: set<Point>, path: seq<Point>, a: Point, b: Point)
    requires Closed(walls, s, s) && a in s && PathFrom(walls, path, a, b)
    ensures b in s
    decreases |path|
  {
    var n := |path| - 1;
    if n > 0 {
      var prefix := path[..n];
      assert PathFrom(walls, prefix, a, path[n - 1]) by {
        forall i | 0 < i < |prefix|
          ensures prefix[i] !in walls && Adjacent(prefix[i - 1], prefix[i])
        {
          assert prefix[i] == path[i] && prefix[i - 1] == path[i - 1];
        }
      }
      ClosedHoldsPaths(walls, s, prefix, a, path[n - 1]);
      var d := MoveAdjacent(path[n - 1], b);
      assert Move(path[n - 1], d) !in walls;
    }
  }

  // ---------------------------------------------------------------------
  // find_path

  /** A finite `region` that holds the start and that no step off a wall
      leaves: the cells the search can reach. Without one the search does
      not stop. */
  predicate Enclosed(walls: set<Point>, region: set<Point>, start: Point)
  {
    start in region && forall p, d | p in region && 0 <= d < 4 :: Move(p, d) in walls || Move(p, d) in region
  }

  /** A queue entry: a cell and the path the search reached it by. */
  datatype Entry = Entry(cell: Point, path: seq<Point>)

  /** An entry's path runs from the start to its cell, repeats no cell, and
      only passes visited cells. */
  predicate EntryOk(m: Maze, visited: set<Point>, e: Entry)
  {
    && PathFrom(m.walls, e.path, m.start, e.cell) && Distinct(e.path)
    && forall j | 0 <= j < |e.path| :: e.path[j] in visited
  }

  predicate QueueOk(m: Maze, visited: set<Point>, q: seq<Entry>)
  {
    forall i | 0 <= i < |q| :: EntryOk(m, visited, q[i])
  }

  function Cells(q: seq<Entry>): set<Point>
  {
    set i | 0 <= i < |q| :: q[i].cell
  }

  /** Extending an entry's path by a free, unvisited neighbour gives an
      entry for that neighbour. */
  lemma Extend(m: Maze, visited: set<Point>, e: Entry, next: Point)
    requires EntryOk(m, visited, e) && next !in visited && next !in m.walls && Adjacent(e.cell, next)
    ensures EntryOk(m, visited + {next}, Entry(next, e.path + [next]))
  {
    var p := e.path + [next];
    forall i, j | 0 <= i < j < |p|
      ensures p[i] != p[j]
    {
      if j == |p| - 1 {
        assert p[i] == e.path[i] && e.path[i] in visited;
      } else {
        assert p[i] == e.path[i] && p[j] == e.path[j];
      }
    }
    forall i | 0 < i < |p|
      ensures p[i] !in m.walls && Adjacent(p[i - 1], p[i])
    {
      if i < |p| - 1 {
        assert p[i] == e.path[i] && p[i - 1] == e.path[i - 1];
      }
    }
  }

  /** Queues stay fine as the visited set grows. */
  lemma QueueGrows(m: Maze, visited: set<Point>, more: set<Point>, q: seq<Entry>)
    requires visited <= more && QueueOk(m, visited, q)
    ensures QueueOk(m, more, q)
  {
  }

  /** Queuing an entry at the front adds its cell. */
  lemma QueueCons(m: Maze, visited: set<Point>, e: Entry, q: seq<Entry>)
    requires EntryOk(m, visited, e) && QueueOk(m, visited, q)
    ensures QueueOk(m, visited, [e] + q) && Cells([e] + q) == {e.cell} + Cells(q)
  {
    var r := [e] + q;
    assert r[0] == e;
    forall i | 0 < i < |r|
      ensures r[i] == q[i - 1]
    {
    }
    forall c | c in Cells(q)
      ensures c in Cells(r)
    {
      var i :| 0 <= i < |q| && q[i].cell == c;
      assert r[i + 1] == q[i];
    }
  }

  /** Popping the back of a queue leaves a queue and an entry. */
  lemma QueuePop(m: Maze, visited: set<Point>, q: seq<Entry>)
    requires |q| > 0 && QueueOk(m, visited, q)
    ensures var n := |q| - 1;
      EntryOk(m, visited, q[n]) && QueueOk(m, visited, q[..n]) && Cells(q) == Cells(q[..n]) + {q[n].cell}
  {
    var n := |q| - 1;
    assert forall i | 0 <= i < n :: q[..n][i] == q[i];
  }

  /** Cardinalities of nested sets. */
  lemma NestedCard(a: set<Point>, b: set<Point>, c: set<Point>)
    requires a <= b <= c
    ensures |c - a| == |c - b| + |b - a|
  {
    assert c - a == (c - b) + (b - a);
  }

  /** One direction of the inner loop: a free neighbour not yet visited is
      visited and queued at the front with its path. */
  method Offer(m: Maze, ghost region: set<Point>, e: Entry, d: nat, queue: seq<Entry>, visited: set<Point>)
    returns (queue': seq<Entry>, visited': set<Point>)
    requires d < 4 && Enclosed(m.walls, region, m.start) && visited <= region
    requires EntryOk(m, visited, e) && QueueOk(m, visited, queue)
    ensures visited <= visited' <= region && |visited' - visited| + |queue| == |queue'|
    ensures QueueOk(m, visited', queue') && Cells(queue') == Cells(queue) + (visited' - visited)
    ensures Move(e.cell, d) in m.walls || Move(e.cell, d) in visited'
  {
    var next := Move(e.cell, d);
    assert e.cell == e.path[|e.path| - 1] && e.cell in region;
    if next !in visited && next !in m.walls {
      Extend(m, visited, e, next);
      QueueGrows(m, visited, visited + {next}, queue);
      QueueCons(m, visited + {next}, Entry(next, e.path + [next]), queue);
      queue', visited' := [Entry(next, e.path + [next])] + queue, visited + {next};
      assert visited' - visited == {next};
    } else {
      queue', visited' := queue, visited;
      assert visited' - visited == {};
    }
  }

  /** The first d directions from c lead into a wall or a visited cell. */
  predicate Tried(walls: set<Point>, visited: set<Point>, c: Point, d: nat)
    requires d <= 4
  {
    forall d' | 0 <= d' < d :: Move(c, d') in walls || Move(c, d') in visited
  }

  lemma TriedStep(walls: set<Point>, visited: set<Point>, more: set<Point>, c: Point, d: nat)
    requires d < 4 && visited <= more && Tried(walls, visited, c, d)
    requires Move(c, d) in walls || Move(c, d) in more
    ensures Tried(walls, more, c, d + 1)
  {
  }

  /** A cell whose four directions are all tried is done. */
  lemma TriedCloses(walls: set<Point>, done: set<Point>, visited: set<Point>, c: Point)
    requires Closed(walls, done, visited) && Tried(walls, visited, c, 4)
    ensures Closed(walls, done + {c}, visited)
  {
  }

  /** The inner loop over the four directions. */
  method Expand(m: Maze, ghost region: set<Point>, e: Entry, rest: seq<Entry>, visited: set<Point>, ghost done: set<Point>)
    returns (queue: seq<Entry>, visited': set<Point>)
    requires Enclosed(m.walls, region, m.start) && visited <= region
    requires EntryOk(m, visited, e) && QueueOk(m, visited, rest)
    requires visited <= done + {e.cell} + Cells(rest) && Closed(m.walls, done, visited)
    ensures visited <= visited' <= region && QueueOk(m, visited', queue)
    ensures visited' <= done + {e.cell} + Cells(queue)
    ensures Closed(m.walls, done + {e.cell}, visited')
    ensures 5 * |region - visited'| + |queue| < 5 * |region - visited| + |rest| + 1
  {
    queue, visited' := rest, visited;
    for d := 0 to 4
      invariant visited <= visited' <= region
      invariant |visited' - visited| + |rest| == |queue|
      invariant QueueOk(m, visited', queue) && EntryOk(m, visited', e)
      invariant visited' <= done + {e.cell} + Cells(queue)
      invariant Tried(m.walls, visited', e.cell, d)
    {
      ghost var before := visited';
      queue, visited' := Offer(m, region, e, d, queue, visited');
      TriedStep(m.walls, before, visited', e.cell, d);
      NestedCard(visited, before, visited');
    }
    NestedCard(visited, visited', region);
    TriedCloses(m.walls, done, visited', e.cell);
  }

  /** The search ran dry: everything visited is done, so the end, which
      never was, cannot be reached. */
  lemma Exhausted(m: Maze, visited: set<Point>)
    requires m.start in visited && Closed(m.walls, visited, visited) && m.end !in visited
    ensures !Reachable(m.walls, m.start, m.end)
  {
    forall p | PathFrom(m.walls, p, m.start, m.end)
      ensures false
    {
      ClosedHoldsPaths(m.walls, visited, p, m.start, m.end);
    }
  }

  /** `find_path`: the search pops entries from the back of the queue and
      pushes new ones at the front, so it is breadth first. It returns the
      path of the first entry at the end, and an empty path when the queue
      runs dry. */
  method FindPath(m: Maze, ghost region: set<Point>) returns (path: seq<Point>)
    requires Enclosed(m.walls, region, m.start)
    ensures path != [] ==> PathFrom(m.walls, path, m.start, m.end) && Distinct(path)
    ensures path == [] <==> !Reachable(m.walls, m.start, m.end)
  {
    var queue := [Entry(m.start, [m.start])];
    var visited := {m.start};
    ghost var done: set<Point> := {};
    assert queue[0].cell == m.start;
    assert Cells(queue) == {m.start};
    while |queue| > 0
      invariant visited <= region && m.start in visited && QueueOk(m, visited, queue)
      invariant done <= visited <= done + Cells(queue)
      invariant Closed(m.walls, done, visited) && m.end !in done
      decreases 5 * |region - visited| + |queue|
    {
      QueuePop(m, visited, queue);
      var n := |queue| - 1;
      var e := queue[n];
      if e.cell == m.end {
        assert PathFrom(m.walls, e.path, m.start, m.end);
        return e.path;
      }
      queue, visited := Expand(m, region, e, queue[..n], visited, done);
      done := done + {e.cell};
    }
    Exhausted(m, visited);
    return [];
  }

  // ---------------------------------------------------------------------
  // find_cheats

  /** `path_map`: each cell of the path to its index. A cell listed twice
      keeps its last index, as repeated inserts do. */
  function PathMap(path: seq<Point>): (r: map<Point, nat>)
    ensures forall p :: p in r <==> p in path
    ensures forall p | p in r :: r[p] < |path| && path[r[p]] == p
    ensures forall t | 0 <= t < |path| :: t <= r[path[t]]
  {
    if |path| == 0 then map[]
    else
      var n := |path| - 1;
      PathMap(path[..n])[path[n] := n]
  }

  /** On a path that repeats no cell, the map gives each cell's own index. */
  lemma PathMapIndex(path: seq<Point>, t: nat)
    requires Distinct(path) && t < |path|
    ensures PathMap(path)[path[t]] == t
  {
  }

  /** The main directions, in the order of `directions`. */
  function Main(d: nat): (int, int)
    requires d < 4
  {
    if d == 0 then (-1, 0) else if d == 1 then (0, -1) else if d == 2 then (1, 0) else (0, 1)
  }

  /** The two secondary directions of a main one: across it. */
  function Secondary(d: nat, s: nat): (int, int)
    requires d < 4 && s < 2
  {
    if Main(d).0 == 0 then (if s == 0 then (-1, 0) else (1, 0))
    else (if s == 0 then (0, -1) else (0, 1))
  }

  /** k times a unit direction, written out so that no product is left. */
  function Scale(k: int, u: (int, int)): (r: (int, int))
    requires Abs(u.0) + Abs(u.1) == 1
    ensures Abs(r.0) + Abs(r.1) == Abs(k)
  {
    (if u.0 == 1 then k else if u.0 == -1 then -k else 0,
     if u.1 == 1 then k else if u.1 == -1 then -k else 0)
  }

  /** `k_main` steps along the main direction and `k_secondary` across it. */
  function Offset(d: nat, s: nat, kMain: int, kSecondary: int): (int, int)
    requires d < 4 && s < 2
  {
    var a := Scale(kMain, Main(d));
    var b := Scale(kSecondary, Secondary(d, s));
    (a.0 + b.0, a.1 + b.1)
  }

  /** Every offset the four nested loops try. */
  function Offsets(maxDist: int): set<(int, int)>
  {
    set d: nat, s: nat, kMain: int, kSecondary: int
      | d < 4 && s < 2 && 1 <= kMain <= maxDist && 0 <= kSecondary <= maxDist - kMain
      :: Offset(d, s, kMain, kSecondary)
  }

  /** The offsets at Manhattan distance 1 to `maxDist`. */
  predicate InDiamond(o: (int, int), maxDist: int)
  {
    1 <= Abs(o.0) + Abs(o.1) <= maxDist
  }

  /** The loops try exactly the nonzero offsets within `max_dist_cheat`. */
  lemma OffsetsAreDiamond(maxDist: int, o: (int, int))
    ensures o in Offsets(maxDist) <==> InDiamond(o, maxDist)
  {
    if o in Offsets(maxDist) {
      var d: nat, s: nat, kMain: int, kSecondary: int :|
        d < 4 && s < 2 && 1 <= kMain <= maxDist && 0 <= kSecondary <= maxDist - kMain
        && o == Offset(d, s, kMain, kSecondary);
      TriedInDiamond(maxDist, d, s, kMain, kSecondary);
    }
    if InDiamond(o, maxDist) {
      DiamondTried(maxDist, o);
    }
  }

  /** Each offset tried is in the diamond: it goes k_main along one axis
      and k_secondary along the other. */
  lemma TriedInDiamond(maxDist: int, d: nat, s: nat, kMain: int, kSecondary: int)
    requires d < 4 && s < 2 && 1 <= kMain <= maxDist && 0 <= kSecondary <= maxDist - kMain
    ensures InDiamond(Offset(d, s, kMain, kSecondary), maxDist)
  {
    var o := Offset(d, s, kMain, kSecondary);
    if d == 0 || d == 2 {
      assert Abs(o.0) == kMain && Abs(o.1) == kSecondary;
    } else {
      assert Abs(o.1) == kMain && Abs(o.0) == kSecondary;
    }
  }

  /** Each offset in the diamond is tried: along x first when it moves in
      x, else straight along y. */
  lemma DiamondTried(maxDist: int, o: (int, int))
    requires InDiamond(o, maxDist)
    ensures o in Offsets(maxDist)
  {
    var (dx, dy) := o;
    if dx < 0 && dy < 0 {
      assert o == Offset(0, 0, -dx, -dy);
    } else if dx < 0 {
      assert o == Offset(0, 1, -dx, dy);
    } else if dx > 0 && dy < 0 {
      assert o == Offset(2, 0, dx, -dy);
    } else if dx > 0 {
      assert o == Offset(2, 1, dx, dy);
    } else if dy < 0 {
      assert o == Offset(1, 0, -dy, 0);
    } else {
      assert o == Offset(3, 0, dy, 0);
    }
  }

  /** The offset from p to q: the cell q is p shifted by it. */
  function Between(p: Point, q: Point): (int, int)
  {
    (q.x - p.x, q.y - p.y)
  }

  /** The time a cheat from p to q saves: the track time between them less
      the length of the jump. */
  function Saving(pm: map<Point, nat>, p: Point, q: Point): int
    requires p in pm && q in pm
  {
    pm[q] - pm[p] - Dist(p, q)
  }

  /** The cheats `find_cheats` records: from each track cell p, each offset
      tried that lands on the track at q, within `max_dist_cheat` and saving
      at least `min_dt`, records (p, q) with its saving. The offset lands
      on q exactly when it is the offset between p and q. */
  function Cheats(path: seq<Point>, minDt: int, maxDist: int): map<(Point, Point), int>
  {
    var pm := PathMap(path);
    var keys := set p, q | p in pm && q in pm && Between(p, q) in Offsets(maxDist)
                  && Dist(p, q) <= maxDist && Saving(pm, p, q) >= minDt :: (p, q);
    map k | k in keys && k.0 in pm && k.1 in pm :: Saving(pm, k.0, k.1)
  }

  /** A pair is recorded exactly when both cells are on the track, the jump
      is 1 to `max_dist_cheat` long and it saves at least `min_dt`; what is
      recorded is the saving. */
  lemma CheatsExactly(path: seq<Point>, minDt: int, maxDist: int, p: Point, q: Point)
    ensures var pm := PathMap(path);
      && ((p, q) in Cheats(path, minDt, maxDist) <==>
           p in pm && q in pm && 1 <= Dist(p, q) <= maxDist && Saving(pm, p, q) >= minDt)
      && ((p, q) in Cheats(path, minDt, maxDist) ==> Cheats(path, minDt, maxDist)[(p, q)] == Saving(pm, p, q))
  {
    var pm := PathMap(path);
    OffsetsAreDiamond(maxDist, Between(p, q));
  }

  /** The cheats by track index: i and j index the two ends, and j - i is
      the time between them. */
  function CheatSet(path: seq<Point>, minDt: int, maxDist: int): set<(Point, Point)>
  {
    set i, j | 0 <= i < |path| && 0 <= j < |path| && 1 <= Dist(path[i], path[j]) <= maxDist
               && j - i - Dist(path[i], path[j]) >= minDt
      :: (path[i], path[j])
  }

  /** On a track that repeats no cell, the recorded cheats are the pairs of
      track indices the jump and saving bounds allow. */
  lemma CheatsByIndex(path: seq<Point>, minDt: int, maxDist: int)
    requires Distinct(path)
    ensures Cheats(path, minDt, maxDist).Keys == CheatSet(path, minDt, maxDist)
  {
    var pm := PathMap(path);
    forall k | k in Cheats(path, minDt, maxDist)
      ensures k in CheatSet(path, minDt, maxDist)
    {
      CheatsExactly(path, minDt, maxDist, k.0, k.1);
      var i, j := pm[k.0], pm[k.1];
      PathMapIndex(path, i);
      PathMapIndex(path, j);
    }
    forall k | k in CheatSet(path, minDt, maxDist)
      ensures k in Cheats(path, minDt, maxDist)
    {
      var i, j :| 0 <= i < |path| && 0 <= j < |path| && 1 <= Dist(path[i], path[j]) <= maxDist
                  && j - i - Dist(path[i], path[j]) >= minDt && k == (path[i], path[j]);
      PathMapIndex(path, i);
      PathMapIndex(path, j);
      CheatsExactly(path, minDt, maxDist, k.0, k.1);
    }
  }

  /** Raising `min_dt` never adds a cheat, so the count never grows, as the
      example tables show. */
  lemma CountFallsWithMinDt(path: seq<Point>, a: int, b: int, maxDist: int)
    requires a <= b
    ensures Cheats(path, b, maxDist).Keys <= Cheats(path, a, maxDist).Keys
    ensures |Cheats(path, b, maxDist)| <= |Cheats(path, a, maxDist)|
  {
    forall k | k in Cheats(path, b, maxDist)
      ensures k in Cheats(path, a, maxDist)
    {
      CheatsExactly(path, b, maxDist, k.0, k.1);
      CheatsExactly(path, a, maxDist, k.0, k.1);
    }
    SubsetCard(Cheats(path, b, maxDist).Keys, Cheats(path, a, maxDist).Keys);
  }

  /** A longer cheat allowance keeps every shorter cheat, so part 2 counts
      at least what part 1 does. */
  lemma CountGrowsWithReach(path: seq<Point>, minDt: int, a: int, b: int)
    requires a <= b
    ensures Cheats(path, minDt, a).Keys <= Cheats(path, minDt, b).Keys
    ensures |Cheats(path, minDt, a)| <= |Cheats(path, minDt, b)|
  {
    forall k | k in Cheats(path, minDt, a)
      ensures k in Cheats(path, minDt, b)
    {
      CheatsExactly(path, minDt, a, k.0, k.1);
      CheatsExactly(path, minDt, b, k.0, k.1);
    }
    SubsetCard(Cheats(path, minDt, a).Keys, Cheats(path, minDt, b).Keys);
  }

  /** `solve`: the number of cheats on the track `find_path` finds. */
  method Solve(m: Maze, ghost region: set<Point>, minDt: int, maxDist: int) returns (path: seq<Point>, count: nat)
    requires Enclosed(m.walls, region, m.start)
    ensures path != [] ==> PathFrom(m.walls, path, m.start, m.end) && Distinct(path)
    ensures path == [] <==> !Reachable(m.walls, m.start, m.end)
    ensures count == |CheatSet(path, minDt, maxDist)|
  {
    path := FindPath(m, region);
    count := |Cheats(path, minDt, maxDist)|;
    CheatsByIndex(path, minDt, maxDist);
  }
}

=== FILE: day21.dfy ===
/** Day 21: a code is typed on a numeric keypad by a robot arm, which is
    steered from a directional keypad by another robot, and so on up a
    chain that ends with a human. Moving between two keys is offered as
    the horizontal run then the vertical run, or the other way round,
    each only when its corner is a key, and every chain level pays the
    cheaper one. The answer sums, over the codes, the presses the human
    makes times the code's number. */
module Day21 {
  import opened Prelude

  /** A key position (x, y), y growing downward. */
  type Cell = (int, int)

  /** The two keypads: the numeric one the door robot uses and the
      directional one of every robot above it. */
  datatype Pad = Numeric | Directional

  /** The key tables of `get_numerical_direction_options` and
      `get_directional_keypress_count`. */
  const NumPad: map<char, Cell> := map[
    '0' := (1, 3), '1' := (0, 2), '2' := (1, 2), '3' := (2, 2),
    '4' := (0, 1), '5' := (1, 1), '6' := (2, 1),
    '7' := (0, 0), '8' := (1, 0), '9' := (2, 0), 'A' := (2, 3)]

  const DirPad: map<char, Cell> := map[
    '^' := (1, 0), 'v' := (1, 1), '<' := (0, 1), '>' := (2, 1), 'A' := (2, 0)]

  /** The keys of a directional keypad: four arrows and 'A'. */
  predicate IsPressKey(c: char)
  {
    c == '<' || c == '>' || c == '^' || c == 'v' || c == 'A'
  }

  predicate IsKey(pad: Pad, c: char)
  {
    if pad.Numeric? then IsDigit(c) || c == 'A' else IsPressKey(c)
  }

  /** Where a key is; `NumPadTable` and `DirPadTable` show these are the
      tables' entries. */
  function Pos(pad: Pad, c: char): Cell
    requires IsKey(pad, c)
  {
    match pad
    case Numeric => NumPos(c)
    case Directional => DirPos(c)
  }

  function NumPos(c: char): Cell
    requires IsDigit(c) || c == 'A'
  {
    if c == '0' then (1, 3) else if c == '1' then (0, 2) else if c == '2' then (1, 2)
    else if c == '3' then (2, 2) else if c == '4' then (0, 1) else if c == '5' then (1, 1)
    else if c == '6' then (2, 1) else if c == '7' then (0, 0) else if c == '8' then (1, 0)
    else if c == '9' then (2, 0) else (2, 3)
  }

  function DirPos(c: char): Cell
    requires IsPressKey(c)
  {
    if c == '^' then (1, 0) else if c == 'v' then (1, 1) else if c == '<' then (0, 1)
    else if c == '>' then (2, 1) else (2, 0)
  }

  function Height(pad: Pad): int
  {
    if pad.Numeric? then 4 else 2
  }

  /** The one cell of the box with no key: bottom left on the numeric
      pad, top left on the directional one. */
  function Gap(pad: Pad): Cell
  {
    if pad.Numeric? then (0, 3) else (0, 0)
  }

  /** `keys_locations`: the cells with a key. */
  predicate IsCell(pad: Pad, c: Cell)
  {
    0 <= c.0 < 3 && 0 <= c.1 < Height(pad) && c != Gap(pad)
  }

  /** The key predicates, positions and cells agree with the tables: a
      pad's keys fill a three-column box except its gap. */
  lemma NumPadTable()
    ensures forall c: char :: c in NumPad <==> IsKey(Numeric, c)
    ensures forall c: char | c in NumPad :: NumPad[c] == Pos(Numeric, c)
    ensures forall p: Cell :: p in NumPad.Values <==> IsCell(Numeric, p)
  {
    forall p: Cell
      ensures p in NumPad.Values <==> IsCell(Numeric, p)
    {
      if IsCell(Numeric, p) {
        var k := if p == (1, 3) then '0' else if p == (0, 2) then '1' else if p == (1, 2) then '2'
          else if p == (2, 2) then '3' else if p == (0, 1) then '4' else if p == (1, 1) then '5'
          else if p == (2, 1) then '6' else if p == (0, 0) then '7' else if p == (1, 0) then '8'
          else if p == (2, 0) then '9' else 'A';
        assert NumPad[k] == p;
      }
    }
  }

  lemma DirPadTable()
    ensures forall c: char :: c in DirPad <==> IsKey(Directional, c)
    ensures forall c: char | c in DirPad :: DirPad[c] == Pos(Directional, c)
    ensures forall p: Cell :: p in DirPad.Values <==> IsCell(Directional, p)
  {
    forall p: Cell
      ensures p in DirPad.Values <==> IsCell(Directional, p)
    {
      if IsCell(Directional, p) {
        var k := if p == (1, 0) then '^' else if p == (1, 1) then 'v' else if p == (0, 1) then '<'
          else if p == (2, 1) then '>' else 'A';
        assert DirPad[k] == p;
      }
    }
  }

  lemma KeysAreCells(pad: Pad, c: char)
    requires IsKey(pad, c)
    ensures IsCell(pad, Pos(pad, c))
  {
  }

  // ---------------------------------------------------------------------
  // Walking a press sequence

  /** Where one press moves the arm: the arrows one cell, 'A' nowhere. */
  function Step(c: char): Cell
  {
    if c == '>' then (1, 0) else if c == '<' then (-1, 0)
    else if c == 'v' then (0, 1) else if c == '^' then (0, -1) else (0, 0)
  }

  function Add(p: Cell, d: Cell): Cell
  {
    (p.0 + d.0, p.1 + d.1)
  }

  /** The arm's position after a sequence of presses. */
  function Follow(pos: Cell, presses: string): Cell
    decreases |presses|
  {
    if |presses| == 0 then pos else Follow(Add(pos, Step(presses[0])), presses[1..])
  }

  /** Every position the arm passes through is a key. */
  predicate StaysOn(pad: Pad, pos: Cell, presses: string)
    decreases |presses|
  {
    |presses| == 0 || (IsCell(pad, Add(pos, Step(presses[0]))) && StaysOn(pad, Add(pos, Step(presses[0])), presses[1..]))
  }

  lemma {:induction false} FollowAppend(pad: Pad, pos: Cell, a: string, b: string)
    ensures Follow(pos, a + b) == Follow(Follow(pos, a), b)
    ensures StaysOn(pad, pos, a + b) <==> StaysOn(pad, pos, a) && StaysOn(pad, Follow(pos, a), b)
    decreases |a|
  {
    if |a| > 0 {
      assert (a + b)[0] == a[0] && (a + b)[1..] == a[1..] + b;
      FollowAppend(pad, Add(pos, Step(a[0])), a[1..], b);
    } else {
      assert a + b == b;
    }
  }

  /** `str::repeat`. */
  function Repeat(c: char, k: nat): (r: string)
    ensures |r| == k && forall i | 0 <= i < k :: r[i] == c
  {
    if k == 0 then "" else [c] + Repeat(c, k - 1)
  }

  /** The i-th cell of a straight run of arrow c from pos. */
  function Shift(pos: Cell, c: char, i: int): Cell
  {
    if c == '>' then (pos.0 + i, pos.1) else if c == '<' then (pos.0 - i, pos.1)
    else if c == 'v' then (pos.0, pos.1 + i) else (pos.0, pos.1 - i)
  }

  /** k presses of one arrow move the arm k cells that way, passing the
      cells 1 to k of the run. */
  lemma {:induction false} RunWalk(pad: Pad, pos: Cell, c: char, k: nat)
    requires c == '<' || c == '>' || c == '^' || c == 'v'
    ensures Follow(pos, Repeat(c, k)) == Shift(pos, c, k)
    ensures StaysOn(pad, pos, Repeat(c, k)) <== forall i | 1 <= i <= k :: IsCell(pad, Shift(pos, c, i))
    decreases k
  {
    if k > 0 {
      var next := Add(pos, Step(c));
      assert next == Shift(pos, c, 1);
      assert Repeat(c, k)[1..] == Repeat(c, k - 1);
      RunWalk(pad, next, c, k - 1);
      assert forall i | 1 <= i <= k - 1 :: Shift(next, c, i) == Shift(pos, c, i + 1);
    }
  }

  // ---------------------------------------------------------------------
  // The options between two keys

  /** `x_operation`: |dx| presses of '>' or '<'. */
  function XRun(dx: int): string
  {
    Repeat(if dx > 0 then '>' else '<', Abs(dx))
  }

  /** `y_operation`: |dy| presses of 'v' or '^'. */
  function YRun(dy: int): string
  {
    Repeat(if dy > 0 then 'v' else '^', Abs(dy))
  }

  function XFirst(from: Cell, to: Cell): string
  {
    XRun(to.0 - from.0) + YRun(to.1 - from.1) + "A"
  }

  function YFirst(from: Cell, to: Cell): string
  {
    YRun(to.1 - from.1) + XRun(to.0 - from.0) + "A"
  }

  function Distance(from: Cell, to: Cell): nat
  {
    Abs(to.0 - from.0) + Abs(to.1 - from.1)
  }

  /** Every key of a press sequence is a directional key. */
  predicate Pressable(keys: string)
  {
    forall i | 0 <= i < |keys| :: IsPressKey(keys[i])
  }

  /** The two ways to move between keys: the horizontal run first, or
      the vertical run first. */
  datatype Order = Horizontal | Vertical

  /** The presses an order stands for: |dx| + |dy| arrows, then the
      press of 'A', all of them directional keys. */
  function Spell(from: Cell, to: Cell, order: Order): (r: string)
    ensures |r| == Distance(from, to) + 1 && r[Distance(from, to)] == 'A'
    ensures Pressable(r)
  {
    match order
    case Horizontal => XFirst(from, to)
    case Vertical => YFirst(from, to)
  }

  /** The corner an order turns at: (end x, start y) for the horizontal
      run first, (start x, end y) for the vertical one. */
  function Corner(from: Cell, to: Cell, order: Order): Cell
  {
    match order
    case Horizontal => (to.0, from.1)
    case Vertical => (from.0, to.1)
  }

  /** A straight move: both orders are the same presses. */
  predicate Straight(from: Cell, to: Cell)
  {
    from.0 == to.0 || from.1 == to.1
  }

  /** `get_numerical_direction_options` and the option set of
      `get_directional_keypress_count`: each order whose corner is a key.
      The source collects the spelled orders in a set, so a straight move,
      whose two orders spell the same presses, is offered once. */
  function Options(pad: Pad, s: char, e: char): (r: seq<Order>)
    requires IsKey(pad, s) && IsKey(pad, e)
  {
    var from, to := Pos(pad, s), Pos(pad, e);
    var h := IsCell(pad, Corner(from, to, Horizontal));
    var v := IsCell(pad, Corner(from, to, Vertical)) && !(h && Straight(from, to));
    (if h then [Horizontal] else []) + (if v then [Vertical] else [])
  }

  /** The two orders spell the same presses exactly when the move is
      straight: otherwise one starts with a horizontal arrow and the
      other with a vertical one. */
  lemma SameSpelling(from: Cell, to: Cell)
    ensures XFirst(from, to) == YFirst(from, to) <==> Straight(from, to)
  {
    var dx, dy := to.0 - from.0, to.1 - from.1;
    if dx == 0 {
      assert XRun(dx) == [];
      assert XFirst(from, to) == YRun(dy) + "A" == YFirst(from, to);
    } else if dy == 0 {
      assert YRun(dy) == [];
      assert XFirst(from, to) == XRun(dx) + "A" == YFirst(from, to);
    } else {
      assert XFirst(from, to)[0] in "<>" && YFirst(from, to)[0] in "^v";
    }
  }

  /** p is the spelling of one of the options from s to e. */
  predicate Offers(pad: Pad, s: char, e: char, p: string)
    requires IsKey(pad, s) && IsKey(pad, e)
  {
    var r := Options(pad, s, e);
    exists k | 0 <= k < |r| :: Spell(Pos(pad, s), Pos(pad, e), r[k]) == p
  }

  /** The options, spelled, are the set the source builds: the
      horizontal-first presses when its corner is a key and the
      vertical-first presses when its corner is, each listed once. */
  lemma OptionsAsSet(pad: Pad, s: char, e: char)
    requires IsKey(pad, s) && IsKey(pad, e)
    ensures var from, to, r := Pos(pad, s), Pos(pad, e), Options(pad, s, e);
      && |r| <= 2
      && (|r| == 2 ==> Spell(from, to, r[0]) != Spell(from, to, r[1]))
      && forall p: string :: Offers(pad, s, e, p) <==>
           || (p == XFirst(from, to) && IsCell(pad, (to.0, from.1)))
           || (p == YFirst(from, to) && IsCell(pad, (from.0, to.1)))
  {
    var from, to, r := Pos(pad, s), Pos(pad, e), Options(pad, s, e);
    SameSpelling(from, to);
    forall p: string
      ensures Offers(pad, s, e, p) <==>
           || (p == XFirst(from, to) && IsCell(pad, (to.0, from.1)))
           || (p == YFirst(from, to) && IsCell(pad, (from.0, to.1)))
    {
      if p == XFirst(from, to) && IsCell(pad, (to.0, from.1)) {
        assert Spell(from, to, r[0]) == p;
      }
      if p == YFirst(from, to) && IsCell(pad, (from.0, to.1)) {
        assert Spell(from, to, r[|r| - 1]) == p;
      }
    }
  }

  /** Each offered order takes the arm from the start key to the end key
      and passes only over keys, so it never crosses the gap. */
  lemma OptionsAvoidGap(pad: Pad, s: char, e: char, k: nat)
    requires IsKey(pad, s) && IsKey(pad, e) && k < |Options(pad, s, e)|
    ensures var from, to := Pos(pad, s), Pos(pad, e);
      var presses := Spell(from, to, Options(pad, s, e)[k]);
      Follow(from, presses) == to && StaysOn(pad, from, presses)
  {
    var from, to := Pos(pad, s), Pos(pad, e);
    KeysAreCells(pad, s);
    KeysAreCells(pad, e);
    if Options(pad, s, e)[k] == Horizontal {
      XFirstWalk(pad, from, to);
    } else {
      YFirstWalk(pad, from, to);
    }
  }

  /** A horizontal run between two keys of one row passes only over
      keys: the gap is at the row's end, so it cannot lie between them. */
  lemma HorizontalRun(pad: Pad, from: Cell, to: Cell)
    requires IsCell(pad, from) && IsCell(pad, (to.0, from.1))
    ensures to.0 > from.0 ==> forall i | 1 <= i <= to.0 - from.0 :: IsCell(pad, Shift(from, '>', i))
    ensures to.0 <= from.0 ==> forall i | 1 <= i <= from.0 - to.0 :: IsCell(pad, Shift(from, '<', i))
    ensures Shift(from, if to.0 - from.0 > 0 then '>' else '<', Abs(to.0 - from.0)) == (to.0, from.1)
  {
    var dx := to.0 - from.0;
    if dx > 0 {
      forall i | 1 <= i <= dx
        ensures IsCell(pad, Shift(from, '>', i))
      {
        assert Shift(from, '>', i) == (from.0 + i, from.1);
      }
    } else {
      forall i | 1 <= i <= -dx
        ensures IsCell(pad, Shift(from, '<', i))
      {
        assert Shift(from, '<', i) == (from.0 - i, from.1);
      }
    }
  }

  /** Likewise for a vertical run between two keys of one column. */
  lemma VerticalRun(pad: Pad, from: Cell, to: Cell)
    requires IsCell(pad, from) && IsCell(pad, (from.0, to.1))
    ensures to.1 > from.1 ==> forall i | 1 <= i <= to.1 - from.1 :: IsCell(pad, Shift(from, 'v', i))
    ensures to.1 <= from.1 ==> forall i | 1 <= i <= from.1 - to.1 :: IsCell(pad, Shift(from, '^', i))
    ensures Shift(from, if to.1 - from.1 > 0 then 'v' else '^', Abs(to.1 - from.1)) == (from.0, to.1)
  {
    var dy := to.1 - from.1;
    if dy > 0 {
      forall i | 1 <= i <= dy
        ensures IsCell(pad, Shift(from, 'v', i))
      {
        assert Shift(from, 'v', i) == (from.0, from.1 + i);
      }
    } else {
      forall i | 1 <= i <= -dy
        ensures IsCell(pad, Shift(from, '^', i))
      {
        assert Shift(from, '^', i) == (from.0, from.1 - i);
      }
    }
  }

  /** Two runs and a press, each run between keys, take the arm along
      keys only to where the runs end. */
  lemma TwoRuns(pad: Pad, from: Cell, first: string, mid: Cell, second: string, to: Cell)
    requires Follow(from, first) == mid && StaysOn(pad, from, first)
    requires Follow(mid, second) == to && StaysOn(pad, mid, second) && IsCell(pad, to)
    ensures Follow(from, first + second + "A") == to && StaysOn(pad, from, first + second + "A")
  {
    FollowAppend(pad, from, first + second, "A");
    FollowAppend(pad, from, first, second);
    assert StaysOn(pad, to, "A");
  }

  lemma XFirstWalk(pad: Pad, from: Cell, to: Cell)
    requires IsCell(pad, from) && IsCell(pad, to) && IsCell(pad, (to.0, from.1))
    ensures Follow(from, XFirst(from, to)) == to && StaysOn(pad, from, XFirst(from, to))
  {
    var dx, dy := to.0 - from.0, to.1 - from.1;
    var corner := (to.0, from.1);
    HorizontalRun(pad, from, to);
    VerticalRun(pad, corner, to);
    RunWalk(pad, from, if dx > 0 then '>' else '<', Abs(dx));
    RunWalk(pad, corner, if dy > 0 then 'v' else '^', Abs(dy));
    TwoRuns(pad, from, XRun(dx), corner, YRun(dy), to);
  }

  lemma YFirstWalk(pad: Pad, from: Cell, to: Cell)
    requires IsCell(pad, from) && IsCell(pad, to) && IsCell(pad, (from.0, to.1))
    ensures Follow(from, YFirst(from, to)) == to && StaysOn(pad, from, YFirst(from, to))
  {
    var dx, dy := to.0 - from.0, to.1 - from.1;
    var corner := (from.0, to.1);
    VerticalRun(pad, from, to);
    HorizontalRun(pad, corner, to);
    RunWalk(pad, from, if dy > 0 then 'v' else '^', Abs(dy));
    RunWalk(pad, corner, if dx > 0 then '>' else '<', Abs(dx));
    TwoRuns(pad, from, YRun(dy), corner, XRun(dx), to);
  }

  /** The two corners cannot both be the gap, so there is always an
      option and `min().unwrap()` never fails. */
  lemma OptionsNonEmpty(pad: Pad, s: char, e: char)
    requires IsKey(pad, s) && IsKey(pad, e)
    ensures |Options(pad, s, e)| >= 1
  {
    var from, to := Pos(pad, s), Pos(pad, e);
    KeysAreCells(pad, s);
    KeysAreCells(pad, e);
    if !IsCell(pad, (to.0, from.1)) {
      assert IsCell(pad, (from.0, to.1));
    }
  }

  // ---------------------------------------------------------------------
  // Presses up the chain of directional keypads

  /** `get_directional_keypress_count`: the human presses needed for the
      robot at level n to move from s to e and press e. One level is the
      human's own press; above that it is the cheapest option, each press
      of which is moved to from the one before, starting at 'A'. */
  function Count(s: char, e: char, n: nat): (r: nat)
    requires IsPressKey(s) && IsPressKey(e) && n >= 1
    ensures r >= 1
    ensures n >= 2 ==> r >= Distance(Pos(Directional, s), Pos(Directional, e)) + 1
    decreases n, 0, 0
  {
    if n == 1 then 1
    else
      OptionsNonEmpty(Directional, s, e);
      Cheapest(Pos(Directional, s), Pos(Directional, e), Options(Directional, s, e), n - 1)
  }

  /** `counts.iter().min()`: the cheapest of the orders' presses at level
      m. */
  function Cheapest(from: Cell, to: Cell, orders: seq<Order>, m: nat): (r: nat)
    requires |orders| >= 1 && m >= 1
    ensures r >= Distance(from, to) + 1
    decreases m, 1, |orders|
  {
    var first := PressCost('A', Spell(from, to, orders[0]), m);
    if |orders| == 1 then first
    else
      var rest := Cheapest(from, to, orders[1..], m);
      if rest < first then rest else first
  }

  /** The presses for a level-m robot to type `keys` starting from
      `prev`: the sum of the moves between consecutive keys. Each key
      costs at least one press. */
  function PressCost(prev: char, keys: string, m: nat): (r: nat)
    requires IsPressKey(prev) && m >= 1 && Pressable(keys)
    ensures r >= |keys|
    decreases m, 0, |keys|
  {
    if |keys| == 0 then 0
    else Count(prev, keys[0], m) + PressCost(keys[0], keys[1..], m)
  }

  /** The minimum of the orders' costs: no order is cheaper... */
  lemma {:induction false} CheapestIsMin(from: Cell, to: Cell, orders: seq<Order>, m: nat, k: nat)
    requires m >= 1 && k < |orders|
    ensures Cheapest(from, to, orders, m) <= PressCost('A', Spell(from, to, orders[k]), m)
    decreases |orders|
  {
    if k > 0 {
      assert orders[1..][k - 1] == orders[k];
      CheapestIsMin(from, to, orders[1..], m, k - 1);
    }
  }

  /** ... and one of them costs exactly that. */
  lemma {:induction false} CheapestAttained(from: Cell, to: Cell, orders: seq<Order>, m: nat) returns (k: nat)
    requires |orders| >= 1 && m >= 1
    ensures k < |orders| &&
      Cheapest(from, to, orders, m) == PressCost('A', Spell(from, to, orders[k]), m)
    decreases |orders|
  {
    if |orders| == 1 {
      k := 0;
    } else {
      var j := CheapestAttained(from, to, orders[1..], m);
      assert orders[1..][j] == orders[j + 1];
      k := if Cheapest(from, to, orders[1..], m) < PressCost('A', Spell(from, to, orders[0]), m) then j + 1 else 0;
    }
  }

  /** Above the human, no option of a move is cheaper than the move. */
  lemma CountIsMin(s: char, e: char, n: nat, k: nat)
    requires IsPressKey(s) && IsPressKey(e) && n >= 2 && k < |Options(Directional, s, e)|
    ensures var from, to := Pos(Directional, s), Pos(Directional, e);
      Count(s, e, n) <= PressCost('A', Spell(from, to, Options(Directional, s, e)[k]), n - 1)
  {
    CheapestIsMin(Pos(Directional, s), Pos(Directional, e), Options(Directional, s, e), n - 1, k);
  }

  /** ... and one of the options costs exactly the move. */
  lemma CountAttained(s: char, e: char, n: nat) returns (k: nat)
    requires IsPressKey(s) && IsPressKey(e) && n >= 2
    ensures var from, to := Pos(Directional, s), Pos(Directional, e);
      && k < |Options(Directional, s, e)| &&
      Count(s, e, n) == PressCost('A', Spell(from, to, Options(Directional, s, e)[k]), n - 1)
  {
    OptionsNonEmpty(Directional, s, e);
    k := CheapestAttained(Pos(Directional, s), Pos(Directional, e), Options(Directional, s, e), n - 1);
  }

  /** At the human's own level every key costs one press. */
  lemma {:induction false} PressCostLevel1(prev: char, keys: string)
    requires IsPressKey(prev) && Pressable(keys)
    ensures PressCost(prev, keys, 1) == |keys|
    decreases |keys|
  {
    if |keys| > 0 {
      PressCostLevel1(keys[0], keys[1..]);
    }
  }

  /** With one robot between, moving from s to e costs exactly the
      distance plus the press: every option is that long. */
  lemma CountLevel2(s: char, e: char)
    requires IsPressKey(s) && IsPressKey(e)
    ensures Count(s, e, 2) == Distance(Pos(Directional, s), Pos(Directional, e)) + 1
  {
    var from, to := Pos(Directional, s), Pos(Directional, e);
    var k := CountAttained(s, e, 2);
    PressCostLevel1('A', Spell(from, to, Options(Directional, s, e)[k]));
  }

  // ---------------------------------------------------------------------
  // The numeric keypad and the answer

  /** The cheapest option for the numeric arm's move from s to e, with n
      directional levels above it. */
  function NumericCost(s: char, e: char, n: nat): (r: nat)
    requires IsKey(Numeric, s) && IsKey(Numeric, e) && n >= 1
    ensures r >= Distance(Pos(Numeric, s), Pos(Numeric, e)) + 1
  {
    OptionsNonEmpty(Numeric, s, e);
    Cheapest(Pos(Numeric, s), Pos(Numeric, e), Options(Numeric, s, e), n)
  }

  /** `option_counts.iter().min()`: no option is cheaper than the chosen
      cost... */
  lemma NumericCostIsMin(s: char, e: char, n: nat, k: nat)
    requires IsKey(Numeric, s) && IsKey(Numeric, e) && n >= 1 && k < |Options(Numeric, s, e)|
    ensures var from, to := Pos(Numeric, s), Pos(Numeric, e);
      NumericCost(s, e, n) <= PressCost('A', Spell(from, to, Options(Numeric, s, e)[k]), n)
  {
    CheapestIsMin(Pos(Numeric, s), Pos(Numeric, e), Options(Numeric, s, e), n, k);
  }

  /** ... and one of them costs exactly that. */
  lemma NumericCostAttained(s: char, e: char, n: nat) returns (k: nat)
    requires IsKey(Numeric, s) && IsKey(Numeric, e) && n >= 1
    ensures var from, to := Pos(Numeric, s), Pos(Numeric, e);
      && k < |Options(Numeric, s, e)| &&
      NumericCost(s, e, n) == PressCost('A', Spell(from, to, Options(Numeric, s, e)[k]), n)
  {
    OptionsNonEmpty(Numeric, s, e);
    k := CheapestAttained(Pos(Numeric, s), Pos(Numeric, e), Options(Numeric, s, e), n);
  }

  /** Every key of a code is on the numeric pad. */
  predicate OnPad(code: string)
  {
    forall i | 0 <= i < |code| :: IsKey(Numeric, code[i])
  }

  /** `get_human_keypress_count` from `prev` on: the cheapest costs of the
      moves through the code, summed. */
  function HumanCount(prev: char, code: string, n: nat): (r: nat)
    requires IsKey(Numeric, prev) && n >= 1 && OnPad(code)
    ensures r >= Travel(prev, code)
    decreases |code|
  {
    if |code| == 0 then 0
    else NumericCost(prev, code[0], n) + HumanCount(code[0], code[1..], n)
  }

  /** The arm's travel over the code plus one press per key, which no
      chain can beat. */
  function Travel(prev: char, code: string): nat
    requires IsKey(Numeric, prev) && OnPad(code)
    decreases |code|
  {
    if |code| == 0 then 0
    else Distance(Pos(Numeric, prev), Pos(Numeric, code[0])) + 1 + Travel(code[0], code[1..])
  }

  /** With a single directional level (the human at the numeric robot's
      keypad) the human presses exactly the arm's travel plus one press per
      key. */
  lemma {:induction false} HumanCountLevel1(prev: char, code: string)
    requires IsKey(Numeric, prev) && OnPad(code)
    ensures HumanCount(prev, code, 1) == Travel(prev, code)
    decreases |code|
  {
    if |code| > 0 {
      HumanCountLevel1(code[0], code[1..]);
      var k := NumericCostAttained(prev, code[0], 1);
      PressCostLevel1('A', Spell(Pos(Numeric, prev), Pos(Numeric, code[0]), Options(Numeric, prev, code[0])[k]));
    }
  }

  /** A code panics unless it is non-empty, every key is on the numeric
      pad, and the part before the last key parses as a number. */
  predicate ValidCode(code: string)
  {
    |code| > 0 && OnPad(code) && ParseNat(code[..|code| - 1]).Some?
  }

  lemma MulNonNegative(a: nat, b: nat)
    ensures a * b >= 0
  {
  }

  /** A code's complexity: the human's presses times its number. */
  function Complexity(code: string, n: nat): nat
    requires ValidCode(code) && n >= 1
  {
    var presses, number := HumanCount('A', code, n), ParseNat(code[..|code| - 1]).value;
    assert presses * number >= 0 by { MulNonNegative(presses, number); }
    presses * number
  }

  /** One code's part of the sum: its complexity, or `None` when it
      panics. */
  function Score(code: string, n: nat): (r: Option<nat>)
    requires n >= 1
    ensures r.None? <==> !ValidCode(code)
  {
    if ValidCode(code) then Some(Complexity(code, n)) else None
  }

  /** `.sum()` over the scores, failing when any score is missing. */
  function Total(scores: seq<Option<nat>>): Option<nat>
    decreases |scores|
  {
    if |scores| == 0 then Some(0)
    else if scores[0].None? then None
    else match Total(scores[1..])
      case None => None
      case Some(rest) => Some(scores[0].value + rest)
  }

  /** The sum is missing exactly when one of the scores is. */
  lemma {:induction false} TotalFails(scores: seq<Option<nat>>)
    ensures Total(scores).None? <==> exists k | 0 <= k < |scores| :: scores[k].None?
    decreases |scores|
  {
    if |scores| > 0 {
      var rest := scores[1..];
      TotalFails(rest);
      assert forall k | 1 <= k < |scores| :: rest[k - 1] == scores[k];
      if exists k | 0 <= k < |rest| :: rest[k].None? {
        var k :| 0 <= k < |rest| && rest[k].None?;
        assert scores[k + 1].None?;
      }
    }
  }

  /** The sum over two lists of scores is the sum of their sums. */
  lemma {:induction false} TotalAppend(x: seq<Option<nat>>, y: seq<Option<nat>>)
    requires Total(x).Some? && Total(y).Some?
    ensures Total(x + y) == Some(Total(x).value + Total(y).value)
    decreases |x|
  {
    if |x| > 0 {
      assert (x + y)[0] == x[0] && (x + y)[1..] == x[1..] + y;
      TotalAppend(x[1..], y);
    } else {
      assert x + y == y;
    }
  }

  /** `codes.iter().map(...)`: each code's score, in order. */
  function Scores(codes: seq<string>, n: nat): (r: seq<Option<nat>>)
    requires n >= 1
    ensures |r| == |codes| && forall k | 0 <= k < |codes| :: r[k] == Score(codes[k], n)
  {
    seq(|codes|, k requires 0 <= k < |codes| => Score(codes[k], n))
  }

  /** `solve`: the complexities summed, or `None` when a code panics,
      which happens exactly when some code is not valid. */
  function Solve(codes: seq<string>, n: nat): (r: Option<nat>)
    requires n >= 1
    ensures r.None? <==> exists k | 0 <= k < |codes| :: !ValidCode(codes[k])
  {
    var scores := Scores(codes, n);
    TotalFails(scores);
    assert forall k | 0 <= k < |codes| :: scores[k].None? <==> !ValidCode(codes[k]);
    Total(scores)
  }

  /** `main`: three robots for part 1, twenty-six for part 2. Each panics
      exactly when a non-empty line of the input is not a valid code. */
  function Part1(input: string): (r: Option<nat>)
    ensures r.None? <==> BadInput(input)
  {
    var codes := Codes(input);
    CodesFail(Split(input, '\n'));
    assert codes == NonEmpty(Split(input, '\n'));
    Solve(codes, 3)
  }

  function Part2(input: string): (r: Option<nat>)
    ensures r.None? <==> BadInput(input)
  {
    var codes := Codes(input);
    CodesFail(Split(input, '\n'));
    assert codes == NonEmpty(Split(input, '\n'));
    Solve(codes, 26)
  }

  /** The input holds a line that would make the solver panic. */
  predicate BadInput(input: string)
  {
    var lines := Split(input, '\n');
    exists k | 0 <= k < |lines| :: BadLine(lines[k])
  }

  /** A line that would make the solver panic. */
  predicate BadLine(line: string)
  {
    |line| > 0 && !ValidCode(line)
  }

  /** Some kept line is an invalid code exactly when some line is bad. */
  lemma CodesFail(lines: seq<string>)
    ensures (exists k | 0 <= k < |NonEmpty(lines)| :: !ValidCode(NonEmpty(lines)[k]))
            <==> exists k | 0 <= k < |lines| :: BadLine(lines[k])
  {
    var codes := NonEmpty(lines);
    if exists k | 0 <= k < |codes| :: !ValidCode(codes[k]) {
      var k :| 0 <= k < |codes| && !ValidCode(codes[k]);
      var j :| 0 <= j < |lines| && lines[j] == codes[k];
      assert BadLine(lines[j]);
    }
    if exists k | 0 <= k < |lines| :: BadLine(lines[k]) {
      var k :| 0 <= k < |lines| && BadLine(lines[k]);
      var j :| 0 <= j < |codes| && codes[j] == lines[k];
      assert !ValidCode(codes[j]);
    }
  }


  /** `load_data`: the non-empty lines. */
  function Codes(input: string): (r: seq<string>)
    ensures forall k | 0 <= k < |r| :: |r[k]| > 0 && '\n' !in r[k] && r[k] in Split(input, '\n')
    ensures forall k | 0 <= k < |Split(input, '\n')| ::
      |Split(input, '\n')[k]| > 0 ==> Split(input, '\n')[k] in r
    ensures |r| <= |Split(input, '\n')|
  {
    var lines := Split(input, '\n');
    NonEmpty(lines)
  }
}

=== FILE: day22.dfy ===
/** Day 22: monkey-market secrets. Each buyer's secret number evolves by a
    fixed mix-and-prune step; its last decimal digit is the price. A buyer
    sells the first time the last four price changes match the chosen
    window, and part 2 picks the window that earns the most. */
module Day22 {
  import opened Prelude

  const Modulus: nat := 16777216

  lemma ModulusIsPow2()
    ensures Modulus == Pow2(24)
  {
    assert Pow2(24) == 16777216 by {
      assert Pow(2, 8) == 256;
      PowAdd(2, 8, 8);
      PowAdd(2, 16, 8);
    }
  }

  /** One mix-then-prune: exclusive-or with a transformed copy, keep the
      low 24 bits. */
  function Prune(x: nat): (r: nat)
    ensures r < Modulus
  {
    x % Modulus
  }

  /** `next_secret`: mix with the secret shifted left by 6, right by 5 and
      left by 11, pruning after each. */
  function NextSecret(s: nat): (r: nat)
    ensures r < Modulus
  {
    var a := Prune(Xor(s, s * 64));
    var b := Prune(Xor(a, a / 32));
    Prune(Xor(b, b * 2048))
  }

  /** Only the low 24 bits of a secret decide the next one. */
  lemma NextSecretLowBits(s: nat)
    ensures NextSecret(s) == NextSecret(s % Modulus)
  {
    FirstMixLowBits(s);
  }

  lemma FirstMixLowBits(s: nat)
    ensures Prune(Xor(s, s * 64)) == Prune(Xor(s % Modulus, (s % Modulus) * 64))
  {
    ModulusIsPow2();
    MixLowBits(s, 64, Pow2(24));
  }

  /** Mixing with a multiple and keeping the low bits only sees the low
      bits of the input. */
  lemma MixLowBits(s: nat, c: nat, p: nat)
    requires exists k: nat :: p == Pow2(k)
    ensures Xor(s, s * c) % p == Xor(s % p, (s % p) * c) % p
  {
    var k: nat :| p == Pow2(k);
    var l := s % p;
    XorLowBits(s, s * c, k);
    XorLowBits(l, l * c, k);
    MulMod(s, c, p);
    ModMod(s, p);
    assert Xor(s, s * c) % p == Xor(l, (s * c) % p);
    assert Xor(l, l * c) % p == Xor(l % p, (l * c) % p);
  }

  lemma ModMod(s: nat, p: nat)
    requires p > 0
    ensures (s % p) % p == s % p
  {
  }

  lemma MulMod(s: nat, c: nat, m: nat)
    requires m > 0
    ensures (s * c) % m == ((s % m) * c) % m
  {
    var q, l := s / m, s % m;
    assert s * c == m * (q * c) + l * c;
    DivModUniqueRight(s * c, m, q * c + (l * c) / m, (l * c) % m);
  }

  /** The secret after n steps, as the fold in part 1. */
  function Iterate(s: nat, n: nat): (r: nat)
    ensures n > 0 ==> r < Modulus
    decreases n
  {
    if n == 0 then s else Iterate(NextSecret(s), n - 1)
  }

  /** The secrets s_0 .. s_n of one buyer. */
  function Secrets(s: nat, n: nat): (r: seq<nat>)
    ensures |r| == n + 1 && r[0] == s
    decreases n
  {
    if n == 0 then [s] else [s] + Secrets(NextSecret(s), n - 1)
  }

  lemma {:induction false} SecretsFollow(s: nat, n: nat)
    ensures forall i | 0 <= i < n :: Secrets(s, n)[i + 1] == NextSecret(Secrets(s, n)[i])
    ensures Secrets(s, n)[n] == Iterate(s, n)
    decreases n
  {
    if n > 0 {
      SecretsFollow(NextSecret(s), n - 1);
      var r := Secrets(s, n);
      assert forall i | 1 <= i <= n :: r[i] == Secrets(NextSecret(s), n - 1)[i - 1];
    }
  }

  /** Part 1: the sum of every buyer's secret after 2000 steps. */
  function Part1(secrets: seq<nat>): (r: nat)
    ensures r <= |secrets| * (Modulus - 1)
  {
    if |secrets| == 0 then 0 else Iterate(secrets[0], 2000) + Part1(secrets[1..])
  }

  // ---------------------------------------------------------------------
  // Prices and change windows

  function Price(s: nat): (p: nat)
    ensures p < 10
  {
    s % 10
  }

  /** The price change at step k, from secret k to secret k + 1. */
  function Change(ss: seq<nat>, k: nat): (c: int)
    requires k + 1 < |ss|
    ensures -9 <= c <= 9
  {
    Price(ss[k + 1]) - Price(ss[k])
  }

  /** The last four price changes, oldest first. */
  datatype Window = Window(a: int, b: int, c: int, d: int)

  function Push(w: Window, c: int): Window
  {
    Window(w.b, w.c, w.d, c)
  }

  /** The four changes ending at step k. */
  function WindowAt(ss: seq<nat>, k: nat): Window
    requires 3 <= k && k + 1 < |ss|
  {
    Window(Change(ss, k - 3), Change(ss, k - 2), Change(ss, k - 1), Change(ss, k))
  }

  /** The shift register the source keeps, after k steps from all zeros. */
  function Register(ss: seq<nat>, k: nat): Window
    requires k < |ss|
  {
    if k == 0 then Window(0, 0, 0, 0) else Push(Register(ss, k - 1), Change(ss, k - 1))
  }

  /** From the fourth step on, the register holds exactly the last four
      changes: the starting zeros have all been shifted out. */
  lemma RegisterIsWindow(ss: seq<nat>, k: nat)
    requires 3 <= k && k + 1 < |ss|
    ensures Register(ss, k + 1) == WindowAt(ss, k)
  {
    var r0 := Register(ss, k - 3);
    assert Register(ss, k - 2) == Push(r0, Change(ss, k - 3));
    assert Register(ss, k - 1) == Push(Register(ss, k - 2), Change(ss, k - 2));
    assert Register(ss, k) == Push(Register(ss, k - 1), Change(ss, k - 1));
  }

  /** The price a buyer sells at for window w, looking from step j on: the
      price after the first step k >= 3 whose window is w. */
  function FirstSaleFrom(ss: seq<nat>, w: Window, j: nat): (r: Option<nat>)
    ensures r.Some? ==> r.value < 10
    ensures r.Some? ==> exists k | j <= k && 3 <= k && k + 1 < |ss| :: WindowAt(ss, k) == w
    decreases |ss| - j
  {
    if j + 1 >= |ss| then None
    else if j >= 3 && WindowAt(ss, j) == w then Some(Price(ss[j + 1]))
    else FirstSaleFrom(ss, w, j + 1)
  }

  /** What a buyer pays for window w: the first sale, or nothing. */
  function Sale(ss: seq<nat>, w: Window): (r: nat)
    ensures r < 10
  {
    match FirstSaleFrom(ss, w, 0)
    case Some(p) => p
    case None => 0
  }

  function Get(m: map<Window, int>, w: Window): int
  {
    if w in m then m[w] else 0
  }

  /** The windows seen at steps 3 .. k - 1. */
  function SeenBefore(ss: seq<nat>, k: nat): set<Window>
  {
    set j | 3 <= j < k && j + 1 < |ss| :: WindowAt(ss, j)
  }

  /** The inner loop of `solve_part_2` from step k on: shift the new change
      into the register, and from step 3 on credit the new price to a
      window met for the first time. */
  function Scan(ss: seq<nat>, k: nat, cur: Window, seen: set<Window>, totals: map<Window, int>): map<Window, int>
    requires k < |ss|
    decreases |ss| - k
  {
    if k + 1 == |ss| then totals
    else
      var w := Push(cur, Change(ss, k));
      if k >= 3 && w !in seen then
        Scan(ss, k + 1, w, seen + {w}, totals[w := Get(totals, w) + Price(ss[k + 1])])
      else Scan(ss, k + 1, w, seen, totals)
  }

  /** The price a window not yet seen will still earn from step k on. */
  function Credit(ss: seq<nat>, w: Window, k: nat, seen: set<Window>): nat
  {
    if w in seen then 0
    else match FirstSaleFrom(ss, w, k) case Some(p) => p case None => 0
  }

  predicate Sells(ss: seq<nat>, w: Window, k: nat, seen: set<Window>)
  {
    w !in seen && FirstSaleFrom(ss, w, k).Some?
  }

  /** What the scan credits: every window not yet seen gains the price of
      its first sale from step k on, and gets an entry exactly when it
      sells. */
  lemma {:induction false} ScanCredits(ss: seq<nat>, k: nat, seen: set<Window>, totals: map<Window, int>)
    requires k < |ss|
    requires seen == SeenBefore(ss, k)
    ensures forall w ::
      Get(Scan(ss, k, Register(ss, k), seen, totals), w) == Get(totals, w) + Credit(ss, w, k, seen)
    ensures forall w ::
      w in Scan(ss, k, Register(ss, k), seen, totals) <==> w in totals || Sells(ss, w, k, seen)
    decreases |ss| - k
  {
    if k + 1 < |ss| {
      var w0 := Push(Register(ss, k), Change(ss, k));
      assert w0 == Register(ss, k + 1);
      if k >= 3 {
        RegisterIsWindow(ss, k);
        SeenStep(ss, k);
      } else {
        assert SeenBefore(ss, k + 1) == {} == seen;
      }
      var isNew := k >= 3 && w0 !in seen;
      var seen' := if isNew then seen + {w0} else seen;
      var totals' := if isNew then totals[w0 := Get(totals, w0) + Price(ss[k + 1])] else totals;
      ScanCredits(ss, k + 1, seen', totals');
      var result := Scan(ss, k + 1, Register(ss, k + 1), seen', totals');
      assert Scan(ss, k, Register(ss, k), seen, totals) == result;
      if isNew {
        CreditFresh(ss, k, seen);
        CombineFresh(ss, k, seen, totals, result);
      } else {
        CreditSeen(ss, k, seen);
      }
    } else {
      forall w
        ensures Credit(ss, w, k, seen) == 0 && !Sells(ss, w, k, seen)
      {
      }
    }
  }

  /** Crediting the fresh window now and the rest later adds up to the
      credit from step k. */
  lemma CombineFresh(ss: seq<nat>, k: nat, seen: set<Window>, totals: map<Window, int>, result: map<Window, int>)
    requires 3 <= k && k + 1 < |ss| && WindowAt(ss, k) !in seen
    requires
      var w0 := WindowAt(ss, k);
      var totals' := totals[w0 := Get(totals, w0) + Price(ss[k + 1])];
      && (forall w :: Get(result, w) == Get(totals', w) + Credit(ss, w, k + 1, seen + {w0}))
      && (forall w :: w in result <==> w in totals' || Sells(ss, w, k + 1, seen + {w0}))
    ensures forall w :: Get(result, w) == Get(totals, w) + Credit(ss, w, k, seen)
    ensures forall w :: w in result <==> w in totals || Sells(ss, w, k, seen)
  {
    CreditFresh(ss, k, seen);
  }

  /** A window met for the first time at step k earns that step's price;
      every other window's credit is unchanged. */
  lemma CreditFresh(ss: seq<nat>, k: nat, seen: set<Window>)
    requires 3 <= k && k + 1 < |ss| && WindowAt(ss, k) !in seen
    ensures Credit(ss, WindowAt(ss, k), k, seen) == Price(ss[k + 1])
    ensures Sells(ss, WindowAt(ss, k), k, seen)
    ensures forall w | w != WindowAt(ss, k) ::
      Credit(ss, w, k, seen) == Credit(ss, w, k + 1, seen + {WindowAt(ss, k)})
      && (Sells(ss, w, k, seen) <==> Sells(ss, w, k + 1, seen + {WindowAt(ss, k)}))
    ensures Credit(ss, WindowAt(ss, k), k + 1, seen + {WindowAt(ss, k)}) == 0
    ensures !Sells(ss, WindowAt(ss, k), k + 1, seen + {WindowAt(ss, k)})
  {
  }

  /** A step whose window was met before (or that comes before step 3)
      changes no credit. */
  lemma CreditSeen(ss: seq<nat>, k: nat, seen: set<Window>)
    requires k + 1 < |ss|
    requires k >= 3 ==> WindowAt(ss, k) in seen
    ensures forall w :: Credit(ss, w, k, seen) == Credit(ss, w, k + 1, seen)
    ensures forall w :: Sells(ss, w, k, seen) <==> Sells(ss, w, k + 1, seen)
  {
  }

  lemma SeenStep(ss: seq<nat>, k: nat)
    requires 3 <= k && k + 1 < |ss|
    ensures SeenBefore(ss, k + 1) == SeenBefore(ss, k) + {WindowAt(ss, k)}
  {
  }

  /** One buyer's contribution, as the source accumulates it. */
  function Buyer(s: nat, totals: map<Window, int>): map<Window, int>
  {
    Scan(Secrets(s, 2000), 0, Window(0, 0, 0, 0), {}, totals)
  }

  /** Each buyer adds its first-sale price for every window, once. */
  lemma BuyerCredits(s: nat, totals: map<Window, int>)
    ensures forall w :: Get(Buyer(s, totals), w) == Get(totals, w) + Sale(Secrets(s, 2000), w)
    ensures forall w :: w in Buyer(s, totals) <==> w in totals || FirstSaleFrom(Secrets(s, 2000), w, 0).Some?
  {
    var ss := Secrets(s, 2000);
    assert SeenBefore(ss, 0) == {};
    ScanCredits(ss, 0, {}, totals);
    assert forall w :: Credit(ss, w, 0, {}) == Sale(ss, w);
  }

  /** `sequence_totals` after the given buyers. */
  function Totals(secrets: seq<nat>, totals: map<Window, int>): map<Window, int>
  {
    if |secrets| == 0 then totals else Totals(secrets[1..], Buyer(secrets[0], totals))
  }

  /** Reference: the bananas window w earns over all buyers. */
  function Earned(secrets: seq<nat>, w: Window): (r: nat)
    ensures r <= 9 * |secrets|
  {
    if |secrets| == 0 then 0 else Sale(Secrets(secrets[0], 2000), w) + Earned(secrets[1..], w)
  }

  /** The accumulated map holds, for every window, what it earns. */
  lemma {:induction false} TotalsAreEarned(secrets: seq<nat>, totals: map<Window, int>)
    ensures forall w :: Get(Totals(secrets, totals), w) == Get(totals, w) + Earned(secrets, w)
    ensures forall w :: w in totals ==> w in Totals(secrets, totals)
  {
    if |secrets| > 0 {
      BuyerCredits(secrets[0], totals);
      TotalsAreEarned(secrets[1..], Buyer(secrets[0], totals));
    }
  }

  /** The largest value of a non-empty map, `values().max().unwrap()`. */
  method MaxValue(m: map<Window, int>) returns (best: int)
    requires |m| > 0
    ensures best in m.Values
    ensures forall w | w in m :: m[w] <= best
  {
    var w0 :| w0 in m;
    best := m[w0];
    var rest := m.Keys - {w0};
    while rest != {}
      invariant rest <= m.Keys
      invariant best in m.Values
      invariant forall w | w in m && w !in rest :: m[w] <= best
      decreases |rest|
    {
      var w :| w in rest;
      if m[w] > best {
        best := m[w];
      }
      rest := rest - {w};
    }
  }

  /** Part 2: the most any single window earns. With no window at all the
      source panics (`None`). */
  method Part2(secrets: seq<nat>) returns (r: Option<int>)
    ensures r.None? <==> Totals(secrets, map[]) == map[]
    ensures r.Some? ==> exists w :: Earned(secrets, w) == r.value
    ensures r.Some? ==> forall w :: Earned(secrets, w) <= r.value
  {
    var totals := Totals(secrets, map[]);
    if |totals| == 0 {
      assert totals == map[];
      return None;
    }
    var best := MaxValue(totals);
    EarnedBest(secrets, totals, best);
    r := Some(best);
  }

  /** The largest accumulated total is the most any window earns. */
  lemma EarnedBest(secrets: seq<nat>, totals: map<Window, int>, best: int)
    requires totals == Totals(secrets, map[]) && |totals| > 0
    requires best in totals.Values && forall w | w in totals :: totals[w] <= best
    ensures exists w :: Earned(secrets, w) == best
    ensures forall w :: Earned(secrets, w) <= best
  {
    TotalsAreEarned(secrets, map[]);
    var wb :| wb in totals && totals[wb] == best;
    assert Earned(secrets, wb) == Get(totals, wb);
    forall w
      ensures Earned(secrets, w) <= best
    {
      assert Earned(secrets, w) == Get(totals, w);
    }
  }

  // ---------------------------------------------------------------------
  // Reading the secrets

  /** `load_data`: every non-empty line is one secret. */
  function LoadSecrets(input: string): (r: Option<seq<nat>>)
    ensures var lines := Split(input, '\n');
      r.Some? <==> forall k | 0 <= k < |lines| :: |lines[k]| > 0 ==> ParseNat(lines[k]).Some?
    ensures r.Some? ==> |r.value| <= |Split(input, '\n')|
  {
    var lines := Split(input, '\n');
    var fields := NonEmpty(lines);
    var r := ParseAll(fields);
    if r.Some? then
      assert forall k | 0 <= k < |lines| :: |lines[k]| > 0 ==> ParseNat(lines[k]).Some? by {
        forall k | 0 <= k < |lines| && |lines[k]| > 0
          ensures ParseNat(lines[k]).Some?
        {
          var i :| 0 <= i < |fields| && fields[i] == lines[k];
        }
      }
      r
    else
      var i :| 0 <= i < |fields| && ParseNat(fields[i]).None?;
      var k :| 0 <= k < |lines| && lines[k] == fields[i];
      r
  }

  /** Secrets written out one per line, followed by blank lines, read back
      as themselves. */
  lemma LoadSecretsRoundTrip(secrets: seq<nat>, blanks: seq<string>)
    requires |secrets| > 0
    requires forall k | 0 <= k < |blanks| :: blanks[k] == ""
    ensures LoadSecrets(Join(NatStrings(secrets) + blanks, '\n')) == Some(secrets)
  {
    var fields := NatStrings(secrets);
    var lines := fields + blanks;
    forall k | 0 <= k < |lines|
      ensures '\n' !in lines[k]
    {
      if k < |fields| {
        NatStringAvoids(secrets[k], '\n');
      }
    }
    SplitJoin(lines, '\n');
    NonEmptyAppend(fields, blanks);
    KeptNone(blanks);
    KeptSound(fields);
    ParseAllNatStrings(secrets);
    assert NonEmpty(Split(Join(lines, '\n'), '\n')) == fields;
  }
}

=== FILE: day23.dfy ===
/** Day 23: a network of computers given as undirected links "ab-cd".
    Part 1 counts the groups of three mutually connected computers with
    at least one name starting with 't'; part 2 grows a clique greedily
    from every computer and reports the largest one found, its names
    sorted and joined with commas. */
module Day23 {
  import opened Prelude

  /** Each computer's set of neighbours. */
  type Graph = map<string, set<string>>

  // ---------------------------------------------------------------------
  // Reading the links

  lemma JoinStartsWithFirst(parts: seq<string>, sep: char)
    requires |parts| > 0
    ensures parts[0] <= Join(parts, sep)
  {
  }

  /** One line "a-b": the pieces before the first '-' and between the
      first and the second. A line without '-' indexes past the split
      and panics, which is `None`. */
  function ParseLink(line: string): (r: Option<(string, string)>)
    ensures r.None? <==> '-' !in line
    ensures r.Some? ==> '-' !in r.value.0 && '-' !in r.value.1
    ensures r.Some? ==> r.value.0 + ['-'] + r.value.1 <= line
  {
    var parts := Split(line, '-');
    if |parts| < 2 then
      assert Join(parts, '-') == parts[0];
      None
    else
      assert line == parts[0] + ['-'] + Join(parts[1..], '-');
      JoinStartsWithFirst(parts[1..], '-');
      assert line[|parts[0]|] == '-';
      Some((parts[0], parts[1]))
  }

  /** The links of the non-empty lines, in order; one bad line fails the
      whole load. */
  function LoadLinks(lines: seq<string>): (r: Option<seq<(string, string)>>)
    ensures r.None? <==> exists k | 0 <= k < |lines| :: lines[k] != "" && '-' !in lines[k]
    ensures r.Some? ==> forall l | l in r.value :: exists k | 0 <= k < |lines| :: ParseLink(lines[k]) == Some(l)
  {
    if |lines| == 0 then Some([])
    else
      var n := |lines| - 1;
      var init := LoadLinks(lines[..n]);
      assert forall k | 0 <= k < n :: lines[..n][k] == lines[k];
      if init.None? then None
      else if lines[n] == "" then Some(init.value)
      else match ParseLink(lines[n])
        case None => None
        case Some(l) => Some(init.value + [l])
  }

  function Load(input: string): Option<seq<(string, string)>>
  {
    LoadLinks(Split(input, '\n'))
  }

  // ---------------------------------------------------------------------
  // The neighbour map

  /** Some link joins u and v, in either direction. */
  ghost predicate Linked(links: seq<(string, string)>, u: string, v: string)
  {
    exists k | 0 <= k < |links| :: links[k] == (u, v) || links[k] == (v, u)
  }

  function Endpoints(links: seq<(string, string)>): set<string>
  {
    (set k | 0 <= k < |links| :: links[k].0) + (set k | 0 <= k < |links| :: links[k].1)
  }

  /** Every neighbour is a computer with its own entry, and neighbours go
      both ways. */
  ghost predicate Symmetric(g: Graph)
  {
    forall u, v | u in g && v in g[u] :: v in g && u in g[v]
  }

  /** One link added: each end gets an entry if it had none, and each end
      becomes the other's neighbour. */
  function Connect(g: Graph, a: string, b: string): (r: Graph)
    ensures r.Keys == g.Keys + {a, b}
    ensures forall u: string, v: string :: (u in r && v in r[u]) <==> ((u in g && v in g[u]) || (u, v) == (a, b) || (u, v) == (b, a))
  {
    var g1 := g[a := (if a in g then g[a] else {}) + {b}];
    g1[b := (if b in g1 then g1[b] else {}) + {a}]
  }

  /** The links so far join u and v when the earlier ones did or the last
      one does. */
  lemma LinkedStep(links: seq<(string, string)>)
    requires |links| > 0
    ensures var n := |links| - 1;
      Endpoints(links) == Endpoints(links[..n]) + {links[n].0, links[n].1}
    ensures var n := |links| - 1;
      forall u: string, v: string :: Linked(links, u, v) <==> (Linked(links[..n], u, v) || links[n] == (u, v) || links[n] == (v, u))
  {
    var n := |links| - 1;
    assert forall k | 0 <= k < n :: links[..n][k] == links[k];
    forall u: string, v: string
      ensures Linked(links, u, v) <==> (Linked(links[..n], u, v) || links[n] == (u, v) || links[n] == (v, u))
    {
      if Linked(links, u, v) && !Linked(links[..n], u, v) {
        var k :| 0 <= k < |links| && (links[k] == (u, v) || links[k] == (v, u));
        assert k == n;
      }
    }
  }

  /** Adding the last link to the map of the earlier ones gives the map
      of them all. */
  lemma ConnectLinks(links: seq<(string, string)>, init: Graph)
    requires |links| > 0
    requires init.Keys == Endpoints(links[..|links| - 1])
    requires forall u: string, v: string :: (u in init && v in init[u]) <==> Linked(links[..|links| - 1], u, v)
    ensures var g := Connect(init, links[|links| - 1].0, links[|links| - 1].1);
      && g.Keys == Endpoints(links)
      && (forall u: string, v: string :: (u in g && v in g[u]) <==> Linked(links, u, v))
      && Symmetric(g)
  {
    LinkedStep(links);
    var g := Connect(init, links[|links| - 1].0, links[|links| - 1].1);
    forall u, v | u in g && v in g[u]
      ensures v in g && u in g[v]
    {
      assert Linked(links, u, v);
      var k :| 0 <= k < |links| && (links[k] == (u, v) || links[k] == (v, u));
      assert Linked(links, v, u);
    }
  }

  /** The neighbour map of a list of links: its computers are exactly the
      link ends, v is a neighbour of u exactly when some link joins them,
      and so the map is symmetric. */
  function GroupConnections(links: seq<(string, string)>): (g: Graph)
    ensures g.Keys == Endpoints(links)
    ensures forall u: string, v: string :: (u in g && v in g[u]) <==> Linked(links, u, v)
    ensures Symmetric(g)
  {
    if |links| == 0 then map[]
    else
      var n := |links| - 1;
      var init := GroupConnections(links[..n]);
      ConnectLinks(links, init);
      Connect(init, links[n].0, links[n].1)
  }

  // ---------------------------------------------------------------------
  // Cliques

  /** Any two distinct members are neighbours. */
  ghost predicate IsClique(g: Graph, c: set<string>)
  {
    forall u, v | u in c && v in c && u != v :: u in g && v in g[u]
  }

  /** No computer outside the clique is a neighbour of all its members. */
  ghost predicate Maximal(g: Graph, c: set<string>)
  {
    forall w | w in g && w !in c :: !(c <= g[w])
  }

  /** The order in which the map is iterated: every computer once. Rust's
      hash order is not known, so it is a parameter. */
  ghost predicate Enumerates(g: Graph, order: seq<string>)
  {
    && (set i | 0 <= i < |order| :: order[i]) == g.Keys
    && (forall i, j | 0 <= i < j < |order| :: order[i] != order[j])
  }

  /** `values().map(len).max().unwrap()`, over the computers in `vs`:
      the largest number of neighbours. */
  function MaxDegree(g: Graph, vs: seq<string>): nat
    requires |vs| > 0 && forall i | 0 <= i < |vs| :: vs[i] in g
  {
    var d := |g[vs[|vs| - 1]]|;
    if |vs| == 1 then d
    else
      var m := MaxDegree(g, vs[..|vs| - 1]);
      if d > m then d else m
  }

  /** The maximum is the degree of some computer and no computer has a
      larger one. */
  lemma {:induction false} MaxDegreeIsMax(g: Graph, vs: seq<string>)
    requires |vs| > 0 && forall i | 0 <= i < |vs| :: vs[i] in g
    ensures forall i | 0 <= i < |vs| :: |g[vs[i]]| <= MaxDegree(g, vs)
    ensures exists i | 0 <= i < |vs| :: |g[vs[i]]| == MaxDegree(g, vs)
  {
    var n := |vs| - 1;
    if n > 0 {
      MaxDegreeIsMax(g, vs[..n]);
      assert forall i | 0 <= i < n :: vs[..n][i] == vs[i];
      var i :| 0 <= i < n && |g[vs[..n][i]]| == MaxDegree(g, vs[..n]);
      if |g[vs[n]]| <= MaxDegree(g, vs[..n]) {
        assert |g[vs[i]]| == MaxDegree(g, vs);
      } else {
        assert |g[vs[n]]| == MaxDegree(g, vs);
      }
    } else {
      assert |g[vs[0]]| == MaxDegree(g, vs);
    }
  }

  lemma Listed(g: Graph, order: seq<string>, i: nat)
    requires Enumerates(g, order) && i < |order|
    ensures order[i] in g
  {
    var listed := set j | 0 <= j < |order| :: order[j];
    assert forall j | 0 <= j < |order| :: order[j] in listed;
  }

  lemma Position(g: Graph, order: seq<string>, v: string) returns (i: nat)
    requires Enumerates(g, order) && v in g
    ensures i < |order| && order[i] == v
  {
    assert v in (set j | 0 <= j < |order| :: order[j]);
    i :| 0 <= i < |order| && order[i] == v;
  }

  /** The largest degree of an iteration order is the largest degree of
      the map. */
  lemma MaxDegreeOfMap(g: Graph, order: seq<string>)
    requires Enumerates(g, order) && |order| > 0
    ensures forall i | 0 <= i < |order| :: order[i] in g
    ensures forall v | v in g :: |g[v]| <= MaxDegree(g, order)
    ensures exists v | v in g :: |g[v]| == MaxDegree(g, order)
  {
    forall i | 0 <= i < |order|
      ensures order[i] in g
    {
      Listed(g, order, i);
    }
    MaxDegreeIsMax(g, order);
    forall v | v in g
      ensures |g[v]| <= MaxDegree(g, order)
    {
      var i := Position(g, order, v);
    }
    var i :| 0 <= i < |order| && |g[order[i]]| == MaxDegree(g, order);
  }

  /** A clique through v has v's neighbours as its other members, so it
      is at most one larger than the largest degree. */
  lemma CliqueBound(g: Graph, order: seq<string>, v: string, c: set<string>)
    requires Enumerates(g, order) && |order| > 0
    requires v in g && v in c && IsClique(g, c)
    ensures |c| <= MaxDegree(g, order) + 1
  {
    assert c - {v} <= g[v];
    SubsetCard(c - {v}, g[v]);
    MaxDegreeOfMap(g, order);
  }

  /** A neighbour of every member of a clique extends it, the map being
      symmetric. */
  lemma Extend(g: Graph, c: set<string>, w: string)
    requires Symmetric(g) && IsClique(g, c) && w in g && c <= g[w]
    ensures IsClique(g, c + {w})
  {
  }

  /** The loop of `find_maximum_clique` from position k: each computer
      whose neighbours include the whole clique so far joins it, and the
      loop stops as soon as the clique is `maxLen` large. The result only
      grows the start, stays a clique, and every computer looked at was
      either taken or misses a member, unless the loop stopped early. */
  function Grow(g: Graph, order: seq<string>, maxLen: nat, k: nat, clique: set<string>): (r: set<string>)
    requires Enumerates(g, order) && Symmetric(g) && k <= |order|
    requires clique <= g.Keys && IsClique(g, clique)
    ensures clique <= r <= g.Keys && IsClique(g, r)
    ensures |r| == maxLen || forall j | k <= j < |order| :: order[j] in r || !(r <= g[order[j]])
    decreases |order| - k
  {
    if k == |order| then clique
    else
      var w := order[k];
      var next := if g[w] * clique == clique then clique + {w} else clique;
      assert IsClique(g, next) by {
        if g[w] * clique == clique {
          Extend(g, clique, w);
        }
      }
      if |next| == maxLen then next
      else
        var r := Grow(g, order, maxLen, k + 1, next);
        assert !(clique <= g[w]) ==> !(r <= g[w]);
        r
  }

  /** `find_maximum_clique`: the clique grown greedily from `vertex`,
      stopping at max degree + 1 members. */
  function FindMaximumClique(g: Graph, order: seq<string>, vertex: string): (r: set<string>)
    requires Enumerates(g, order) && Symmetric(g) && |order| > 0 && vertex in g
    ensures vertex in r && r <= g.Keys
  {
    Grow(g, order, MaxDegree(g, order) + 1, 0, {vertex})
  }

  /** The greedy clique holds the vertex, any two members are neighbours,
      it has at most max degree + 1 members, and no computer can be added
      to it: the early stop at max degree + 1 cuts nothing off. */
  lemma FindMaximumCliqueIsMaximal(g: Graph, order: seq<string>, vertex: string)
    requires Enumerates(g, order) && Symmetric(g) && |order| > 0 && vertex in g
    ensures var r := FindMaximumClique(g, order, vertex);
      && IsClique(g, r)
      && |r| <= MaxDegree(g, order) + 1
      && Maximal(g, r)
  {
    var r := FindMaximumClique(g, order, vertex);
    CliqueBound(g, order, vertex, r);
    forall w | w in g && w !in r
      ensures !(r <= g[w])
    {
      CannotExtend(g, order, vertex, w);
    }
  }

  /** A computer outside the greedy clique misses one of its members:
      either it was looked at and missed one then, or the clique already
      had max degree + 1 members and could not grow. */
  lemma CannotExtend(g: Graph, order: seq<string>, vertex: string, w: string)
    requires Enumerates(g, order) && Symmetric(g) && |order| > 0 && vertex in g
    requires w in g && w !in FindMaximumClique(g, order, vertex)
    ensures !(FindMaximumClique(g, order, vertex) <= g[w])
  {
    var maxLen := MaxDegree(g, order) + 1;
    var r := Grow(g, order, maxLen, 0, {vertex});
    if r <= g[w] {
      if |r| == maxLen {
        Extend(g, r, w);
        CliqueBound(g, order, vertex, r + {w});
        assert false;
      } else {
        var j := Position(g, order, w);
        assert false;
      }
    }
  }

  // ---------------------------------------------------------------------
  // Part 1: triangles with a 't' computer

  predicate StartsWithT(name: string)
  {
    |name| > 0 && name[0] == 't'
  }

  /** `group.sort()` on the three names. */
  function SortedGroup(a: string, b: string, c: string): (r: seq<string>)
    ensures SortedBy(r, LexLe) && multiset(r) == multiset{a, b, c}
  {
    LexLeIsTotalPreorder();
    Sort([a, b, c], LexLe)
  }

  /** The groups part 1 collects: for a computer c1 starting with 't' and
      two different neighbours c2, c3 of it with c3 a neighbour of c2, the
      sorted triple. Being a set, each group counts once. */
  function Groups(g: Graph): set<seq<string>>
  {
    set c1, c2, c3 | c1 in g && StartsWithT(c1) && c2 in g[c1] && c3 in g[c1] && c2 != c3
                     && c2 in g && c3 in g[c2] :: SortedGroup(c1, c2, c3)
  }

  /** On a symmetric map without self-links, part 1 counts the
      three-computer cliques with a member starting with 't'. */
  function Part1(g: Graph): (r: nat)
    ensures Symmetric(g) && NoSelfLinks(g) ==> r == |Triangles(g)|
  {
    GroupsCountTriangles(g);
    |Groups(g)|
  }

  /** No computer is linked to itself. */
  ghost predicate NoSelfLinks(g: Graph)
  {
    forall v | v in g :: v !in g[v]
  }

  function Members(s: seq<string>): set<string>
  {
    set x | x in s
  }

  /** The three-computer cliques with a member starting with 't'. */
  ghost function Triangles(g: Graph): set<set<string>>
  {
    set a, b, c | a in g && b in g && c in g && StartsWithT(a) && |{a, b, c}| == 3 && IsClique(g, {a, b, c}) :: {a, b, c}
  }

  lemma LexLeAntisymmetric(a: string, b: string)
    requires LexLe(a, b) && LexLe(b, a)
    ensures a == b
  {
    if |a| > 0 && |b| > 0 {
      LexLeAntisymmetric(a[1..], b[1..]);
      assert a == [a[0]] + a[1..] && b == [b[0]] + b[1..];
    }
  }

  /** An order in which no two different names are each at most the
      other. */
  ghost predicate Antisymmetric<T(!new)>(le: (T, T) -> bool)
  {
    forall x, y :: le(x, y) && le(y, x) ==> x == y
  }

  lemma LexLeIsAntisymmetric()
    ensures Antisymmetric(LexLe)
  {
    forall x, y | LexLe(x, y) && LexLe(y, x)
      ensures x == y
    {
      LexLeAntisymmetric(x, y);
    }
  }

  lemma SortedHeadLeast<T(!new)>(s: seq<T>, x: T, le: (T, T) -> bool)
    requires TotalPreorder(le) && SortedBy(s, le) && x in multiset(s)
    ensures le(s[0], x)
  {
    var j :| 0 <= j < |s| && s[j] == x;
    if j == 0 {
      assert le(x, x) || le(x, x);
    }
  }

  lemma SortedTail<T>(a: seq<T>, le: (T, T) -> bool)
    requires SortedBy(a, le) && |a| > 0
    ensures SortedBy(a[1..], le)
  {
    forall k, l | 0 <= k < l < |a| - 1 ensures le(a[1..][k], a[1..][l]) {
      assert le(a[k + 1], a[l + 1]);
    }
  }

  /** Under an antisymmetric order, two sorted lists of the same elements
      are the same list. */
  lemma {:induction false} SortedUnique<T(!new)>(a: seq<T>, b: seq<T>, le: (T, T) -> bool)
    requires TotalPreorder(le) && Antisymmetric(le)
    requires SortedBy(a, le) && SortedBy(b, le) && multiset(a) == multiset(b)
    ensures a == b
  {
    if |a| > 0 {
      assert a[0] in multiset(b) && b[0] in multiset(a);
      SortedHeadLeast(a, b[0], le);
      SortedHeadLeast(b, a[0], le);
      assert a[0] == b[0];
      assert a == [a[0]] + a[1..] && b == [b[0]] + b[1..];
      assert multiset(a[1..]) == multiset(a) - multiset{a[0]};
      assert multiset(b[1..]) == multiset(b) - multiset{b[0]};
      SortedTail(a, le);
      SortedTail(b, le);
      SortedUnique(a[1..], b[1..], le);
    } else {
      assert |b| == |multiset(b)|;
    }
  }

  /** A group holds its three names and nothing else. */
  lemma GroupMembers(a: string, b: string, c: string)
    ensures Members(SortedGroup(a, b, c)) == {a, b, c}
  {
    PermutationMembers(SortedGroup(a, b, c), a, b, c);
  }

  lemma PermutationMembers(r: seq<string>, a: string, b: string, c: string)
    requires multiset(r) == multiset{a, b, c}
    ensures Members(r) == {a, b, c}
  {
    forall x
      ensures x in r <==> x in {a, b, c}
    {
      assert x in r <==> x in multiset(r);
    }
  }

  /** Three names joined by the links part 1 checks are pairwise
      neighbours. */
  lemma TriangleClique(g: Graph, c1: string, c2: string, c3: string)
    requires Symmetric(g) && c1 in g && c2 in g[c1] && c3 in g[c1] && c2 in g && c3 in g[c2]
    ensures IsClique(g, {c1, c2, c3})
  {
  }

  /** The group of three different names is fixed by the set of names. */
  lemma GroupsByMembers(a: string, b: string, c: string, d: string, e: string, f: string)
    requires |{a, b, c}| == 3 && {a, b, c} == {d, e, f}
    ensures SortedGroup(a, b, c) == SortedGroup(d, e, f)
  {
    assert |{d, e, f}| == 3;
    assert a != b && a != c && b != c;
    assert d != e && d != f && e != f;
    assert multiset{a, b, c} == multiset{d, e, f} by {
      forall x
        ensures multiset{a, b, c}[x] == multiset{d, e, f}[x]
      {
        if x in {a, b, c} {
          assert multiset{a, b, c}[x] == 1;
          assert multiset{d, e, f}[x] == 1;
        }
      }
    }
    LexLeIsTotalPreorder();
    LexLeIsAntisymmetric();
    SortedUnique(SortedGroup(a, b, c), SortedGroup(d, e, f), LexLe);
  }

  /** The three names a group was made from. */
  predicate Makes(g: Graph, c1: string, c2: string, c3: string)
  {
    c1 in g && StartsWithT(c1) && c2 in g[c1] && c3 in g[c1] && c2 != c3 && c2 in g && c3 in g[c2]
  }

  lemma GroupSource(g: Graph, grp: seq<string>) returns (c1: string, c2: string, c3: string)
    requires grp in Groups(g)
    ensures Makes(g, c1, c2, c3) && grp == SortedGroup(c1, c2, c3)
  {
    c1, c2, c3 :| Makes(g, c1, c2, c3) && grp == SortedGroup(c1, c2, c3);
  }

  /** Without self-links, the names a group is made from are three
      different ones, and they form a triangle with a 't' member. */
  lemma MadeTriangle(g: Graph, c1: string, c2: string, c3: string)
    requires Symmetric(g) && NoSelfLinks(g) && Makes(g, c1, c2, c3)
    ensures |{c1, c2, c3}| == 3 && {c1, c2, c3} in Triangles(g)
  {
    TriangleClique(g, c1, c2, c3);
    MadeDistinct(g, c1, c2, c3);
  }

  /** Each group's names form a triangle with a 't' member. */
  lemma GroupsAreTriangles(g: Graph)
    requires Symmetric(g) && NoSelfLinks(g)
    ensures forall grp | grp in Groups(g) :: Members(grp) in Triangles(g)
  {
    forall grp | grp in Groups(g)
      ensures Members(grp) in Triangles(g)
    {
      var c1, c2, c3 := GroupSource(g, grp);
      GroupMembers(c1, c2, c3);
      MadeTriangle(g, c1, c2, c3);
    }
  }

  /** Each triangle with a 't' member is the names of a group. */
  lemma TrianglesAreGroups(g: Graph)
    ensures Triangles(g) <= Image(Groups(g), Members)
  {
    forall t | t in Triangles(g)
      ensures t in Image(Groups(g), Members)
    {
      var a, b, c :| a in g && b in g && c in g && StartsWithT(a) && |{a, b, c}| == 3 && IsClique(g, {a, b, c}) && t == {a, b, c};
      assert a != b && a != c && b != c;
      assert SortedGroup(a, b, c) in Groups(g);
      GroupMembers(a, b, c);
    }
  }

  lemma GroupPairDiffer(g: Graph, p: seq<string>, q: seq<string>)
    requires NoSelfLinks(g) && p in Groups(g) && q in Groups(g) && Members(p) == Members(q)
    ensures p == q
  {
    var a, b, c := GroupSource(g, p);
    var d, e, f := GroupSource(g, q);
    GroupMembers(a, b, c);
    GroupMembers(d, e, f);
    MadeDistinct(g, a, b, c);
    GroupsByMembers(a, b, c, d, e, f);
  }

  lemma MadeDistinct(g: Graph, c1: string, c2: string, c3: string)
    requires NoSelfLinks(g) && Makes(g, c1, c2, c3)
    ensures |{c1, c2, c3}| == 3
  {
    assert c1 != c2 && c1 != c3;
  }

  /** Different groups have different names. */
  lemma GroupsDiffer(g: Graph)
    requires NoSelfLinks(g)
    ensures forall p, q | p in Groups(g) && q in Groups(g) && Members(p) == Members(q) :: p == q
  {
    forall p, q | p in Groups(g) && q in Groups(g) && Members(p) == Members(q)
      ensures p == q
    {
      GroupPairDiffer(g, p, q);
    }
  }

  /** On a map without self-links, the groups part 1 collects are exactly
      the three-computer cliques with a 't' member, one group per clique. */
  lemma GroupsCountTriangles(g: Graph)
    ensures Symmetric(g) && NoSelfLinks(g) ==> |Groups(g)| == |Triangles(g)|
  {
    if Symmetric(g) && NoSelfLinks(g) {
      GroupsAreTriangles(g);
      TrianglesAreGroups(g);
      GroupsDiffer(g);
      assert Image(Groups(g), Members) == Triangles(g);
      ImageCard(Groups(g), Members);
    }
  }

  /** Every group is a sorted list of three names, pairwise neighbours,
      one of them starting with 't'. */
  lemma GroupShape(g: Graph, grp: seq<string>)
    requires Symmetric(g) && grp in Groups(g)
    ensures |grp| == 3 && SortedBy(grp, LexLe)
    ensures exists i | 0 <= i < 3 :: StartsWithT(grp[i])
    ensures IsClique(g, Members(grp))
  {
    var c1, c2, c3 := GroupSource(g, grp);
    GroupMembers(c1, c2, c3);
    TriangleClique(g, c1, c2, c3);
    assert c1 in grp;
    var i :| 0 <= i < |grp| && grp[i] == c1;
  }

  // ---------------------------------------------------------------------
  // Part 2: the largest greedy clique

  /** The names of a set, in some order, each once. */
  method ListOf(s: set<string>) returns (list: seq<string>)
    ensures |list| == |s| && forall x :: x in list <==> x in s
  {
    list := [];
    var rest := s;
    while rest != {}
      invariant forall x :: x in s <==> (x in list || x in rest)
      invariant forall x | x in list :: x !in rest
      invariant |list| + |rest| == |s|
      decreases |rest|
    {
      var x :| x in rest;
      list := list + [x];
      rest := rest - {x};
    }
  }

  /** The selection in `solve_part_2`: the first of the largest sets,
      replacing the best so far only on a strictly larger one. No sets
      leave the empty set. */
  method FirstLargest(cliques: seq<set<string>>) returns (best: set<string>, at: nat)
    ensures |cliques| == 0 ==> best == {}
    ensures |cliques| > 0 && cliques[0] != {} ==>
              && at < |cliques| && best == cliques[at]
              && forall j | 0 <= j < at :: |cliques[j]| < |best|
    ensures forall j | 0 <= j < |cliques| :: |cliques[j]| <= |best|
  {
    best := {};
    at := 0;
    for k := 0 to |cliques|
      invariant forall j | 0 <= j < k :: |cliques[j]| <= |best|
      invariant k > 0 && cliques[0] != {} ==> at < k && best == cliques[at] && forall j | 0 <= j < at :: |cliques[j]| < |best|
      invariant k == 0 ==> best == {} && at == 0
    {
      if |cliques[k]| > |best| {
        best := cliques[k];
        at := k;
      }
    }
  }

  /** The cliques grown from the first n computers, in order. */
  function Found(g: Graph, order: seq<string>, n: nat): (r: seq<set<string>>)
    requires Enumerates(g, order) && Symmetric(g) && n <= |order|
    ensures |r| == n && forall j | 0 <= j < n :: r[j] == FindMaximumClique(g, order, order[j])
  {
    if n == 0 then [] else Found(g, order, n - 1) + [FindMaximumClique(g, order, order[n - 1])]
  }

  /** The loop of `solve_part_2`: the first clique, in iteration order,
      of the largest size among the cliques grown from every computer. An
      empty map leaves the empty set. */
  method LargestClique(g: Graph, order: seq<string>) returns (best: set<string>)
    requires Enumerates(g, order) && Symmetric(g)
    ensures |order| == 0 ==> best == {}
    ensures |order| > 0 ==> exists i | 0 <= i < |order| ::
              && best == FindMaximumClique(g, order, order[i])
              && forall j | 0 <= j < i :: |FindMaximumClique(g, order, order[j])| < |best|
    ensures forall j | 0 <= j < |order| :: |FindMaximumClique(g, order, order[j])| <= |best|
  {
    var cliques := Found(g, order, |order|);
    var at;
    if |order| > 0 {
      assert order[0] in cliques[0];
    }
    best, at := FirstLargest(cliques);
    forall j | 0 <= j < |order|
      ensures |FindMaximumClique(g, order, order[j])| <= |best|
    {
      assert cliques[j] == FindMaximumClique(g, order, order[j]);
    }
    if |order| > 0 {
      assert best == FindMaximumClique(g, order, order[at]);
      forall j | 0 <= j < at
        ensures |FindMaximumClique(g, order, order[j])| < |best|
      {
        assert cliques[j] == FindMaximumClique(g, order, order[j]);
      }
    }
  }

  /** `solve_part_2`: the largest clique's names, sorted and joined by
      commas. */
  method Part2(g: Graph, order: seq<string>) returns (best: set<string>, names: seq<string>, answer: string)
    requires Enumerates(g, order) && Symmetric(g)
    ensures |order| == 0 ==> answer == ""
    ensures forall j | 0 <= j < |order| :: |FindMaximumClique(g, order, order[j])| <= |best|
    ensures |order| > 0 ==> exists i | 0 <= i < |order| :: best == FindMaximumClique(g, order, order[i])
    ensures SortedBy(names, LexLe) && |names| == |best| && forall x :: x in names <==> x in best
    ensures answer == Join(names, ',')
  {
    best := LargestClique(g, order);
    var list := ListOf(best);
    LexLeIsTotalPreorder();
    names := Sort(list, LexLe);
    forall x
      ensures x in names <==> x in best
    {
      assert x in names <==> x in multiset(names);
      assert x in list <==> x in multiset(list);
    }
    answer := Join(names, ',');
  }
}

=== FILE: day24.dfy ===
/** Day 24: a circuit of AND, OR and XOR gates over named wires. Part 1
    evaluates the gates whose names start with 'z' and reads them as a
    binary number. Part 2 has the building blocks for exchanging the output
    wires of gate pairs: the ancestors of a gate, the test that a swap
    makes no loop, the swap itself, and the binomial count of swap sets. */
module Day24 {
  import opened Prelude

  datatype GateType = And | Or | Xor

  /** A gate; the map holding it is keyed by its output wire. */
  datatype Gate = Gate(op: GateType, in1: string, in2: string)

  /** The fixed input wires and the gates. */
  datatype Circuit = Circuit(inputs: map<string, bool>, gates: map<string, Gate>)

  function Apply(op: GateType, a: bool, b: bool): bool
  {
    match op
    case And => a && b
    case Or => a || b
    case Xor => a != b
  }

  // ---------------------------------------------------------------------
  // Acyclic wiring

  /** Wire w is one of the two inputs of gate g. */
  predicate Feeds(gates: map<string, Gate>, w: string, g: string)
  {
    g in gates && (gates[g].in1 == w || gates[g].in2 == w)
  }

  /** rank orders the gates so that every gate reads only lower gates. */
  ghost predicate Ranked(gates: map<string, Gate>, rank: map<string, nat>)
  {
    && gates.Keys <= rank.Keys
    && forall w, g | Feeds(gates, w, g) && w in gates :: rank[w] < rank[g]
  }

  /** The solver recurses through the gates without a visited set, so it
      demands that no gate reads itself, directly or through others. */
  ghost predicate Acyclic(gates: map<string, Gate>)
  {
    exists rank :: Ranked(gates, rank)
  }

  ghost function RankOf(gates: map<string, Gate>): (rank: map<string, nat>)
    requires Acyclic(gates)
    ensures Ranked(gates, rank)
  {
    var rank :| Ranked(gates, rank); rank
  }

  /** The termination measure of every walk up the wiring. */
  ghost function Height(gates: map<string, Gate>, name: string): nat
    requires Acyclic(gates)
  {
    if name in gates then RankOf(gates)[name] + 1 else 0
  }

  lemma HeightDrops(gates: map<string, Gate>, w: string, g: string)
    requires Acyclic(gates) && Feeds(gates, w, g)
    ensures Height(gates, w) < Height(gates, g)
  {
  }

  // ---------------------------------------------------------------------
  // Evaluation

  /** The value on a gate's output wire, the source's `get_gate_output`
      without its memo. An input of the gate is read from the input wires
      when it is one, and evaluated as a gate otherwise. A wire that is
      neither is a panic (`None`). */
  function Eval(c: Circuit, name: string): (r: Option<bool>)
    requires Acyclic(c.gates)
    ensures name !in c.gates ==> r.None?
    decreases Height(c.gates, name)
  {
    if name !in c.gates then None
    else
      var g := c.gates[name];
      HeightDrops(c.gates, g.in1, name);
      HeightDrops(c.gates, g.in2, name);
      var a := if g.in1 in c.inputs then Some(c.inputs[g.in1]) else Eval(c, g.in1);
      var b := if g.in2 in c.inputs then Some(c.inputs[g.in2]) else Eval(c, g.in2);
      if a.None? || b.None? then None else Some(Apply(g.op, a.value, b.value))
  }

  /** `get_gate_output` as written: a gate already in the memo is answered
      from it; otherwise it is evaluated and its value stored. The result
      is the value and the memo afterwards, which holds the answer under
      the gate's name. */
  function EvalMemo(c: Circuit, name: string, memo: map<string, bool>)
    : (r: Option<(bool, map<string, bool>)>)
    requires Acyclic(c.gates)
    ensures name !in c.gates ==> r.None?
    ensures r.Some? ==> name in r.value.1 && r.value.1[name] == r.value.0
    decreases Height(c.gates, name)
  {
    if name !in c.gates then None
    else if name in memo then Some((memo[name], memo))
    else
      var g := c.gates[name];
      HeightDrops(c.gates, g.in1, name);
      HeightDrops(c.gates, g.in2, name);
      var ra := if g.in1 in c.inputs then Some((c.inputs[g.in1], memo))
                else EvalMemo(c, g.in1, memo);
      if ra.None? then None
      else
        var rb := if g.in2 in c.inputs then Some((c.inputs[g.in2], ra.value.1))
                  else EvalMemo(c, g.in2, ra.value.1);
        if rb.None? then None
        else
          var out := Apply(g.op, ra.value.0, rb.value.0);
          Some((out, rb.value.1[name := out]))
  }

  /** Every stored value is the gate's true value. */
  ghost predicate Consistent(c: Circuit, memo: map<string, bool>)
    requires Acyclic(c.gates)
  {
    forall w | w in memo :: Eval(c, w) == Some(memo[w])
  }

  /** A later memo keeps every earlier entry unchanged. */
  predicate Extends(memo: map<string, bool>, memo': map<string, bool>)
  {
    forall w | w in memo :: w in memo' && memo'[w] == memo[w]
  }

  /** Memoisation changes nothing: from a consistent memo, the memoised
      evaluation fails exactly when the plain one does, returns the same
      value, and leaves a consistent memo that keeps every old entry. */
  lemma {:induction false} EvalMemoSound(c: Circuit, name: string, memo: map<string, bool>)
    requires Acyclic(c.gates) && Consistent(c, memo)
    ensures EvalMemo(c, name, memo).Some? <==> Eval(c, name).Some?
    ensures EvalMemo(c, name, memo).Some? ==>
      && EvalMemo(c, name, memo).value.0 == Eval(c, name).value
      && Consistent(c, EvalMemo(c, name, memo).value.1)
      && Extends(memo, EvalMemo(c, name, memo).value.1)
    decreases Height(c.gates, name)
  {
    if name in c.gates && name !in memo {
      var g := c.gates[name];
      HeightDrops(c.gates, g.in1, name);
      HeightDrops(c.gates, g.in2, name);
      if g.in1 !in c.inputs {
        EvalMemoSound(c, g.in1, memo);
      }
      var ra := if g.in1 in c.inputs then Some((c.inputs[g.in1], memo))
                else EvalMemo(c, g.in1, memo);
      if ra.Some? {
        if g.in2 !in c.inputs {
          EvalMemoSound(c, g.in2, ra.value.1);
        }
        var rb := if g.in2 in c.inputs then Some((c.inputs[g.in2], ra.value.1))
                  else EvalMemo(c, g.in2, ra.value.1);
        if rb.Some? {
          var out := Apply(g.op, ra.value.0, rb.value.0);
          assert Eval(c, name) == Some(out);
          assert EvalMemo(c, name, memo) == Some((out, rb.value.1[name := out]));
          StoreKeeps(c, memo, ra.value.1, rb.value.1, name, out);
        } else {
          assert EvalMemo(c, name, memo).None? && Eval(c, name).None?;
        }
      } else {
        assert EvalMemo(c, name, memo).None? && Eval(c, name).None?;
      }
    }
  }

  /** Storing a gate's true value in a memo that is still true and extends
      the one the evaluation started from. */
  lemma StoreKeeps(c: Circuit, memo: map<string, bool>, ma: map<string, bool>, mb: map<string, bool>,
                   name: string, out: bool)
    requires Acyclic(c.gates) && name !in memo
    requires Consistent(c, mb) && Eval(c, name) == Some(out)
    requires Extends(memo, ma) && Extends(ma, mb)
    ensures Consistent(c, mb[name := out]) && Extends(memo, mb[name := out])
  {
  }

  /** A gate whose every ancestor wire is an input or a gate has a value:
      evaluation fails only through a missing wire. */
  lemma {:induction false} EvalDefined(c: Circuit, name: string)
    requires Acyclic(c.gates) && name in c.gates
    requires forall w | w in Parents(c.gates, name) :: w in c.inputs || w in c.gates
    ensures Eval(c, name).Some?
    decreases Height(c.gates, name)
  {
    var g := c.gates[name];
    HeightDrops(c.gates, g.in1, name);
    HeightDrops(c.gates, g.in2, name);
    if g.in1 !in c.inputs {
      EvalDefined(c, g.in1);
    }
    if g.in2 !in c.inputs {
      EvalDefined(c, g.in2);
    }
  }

  // ---------------------------------------------------------------------
  // Registers

  /** What one gate adds to register p: 2^i when it is named p‹i› and is
      on, 0 when it is off or not named after p. The evaluation and the
      index parse may panic. */
  function Contribution(c: Circuit, p: char, name: string): (r: Option<nat>)
    requires Acyclic(c.gates)
  {
    if |name| == 0 || name[0] != p then Some(0)
    else
      match Eval(c, name)
      case None => None
      case Some(false) => Some(0)
      case Some(true) =>
        match ParseNat(name[1..])
        case None => None
        case Some(i) => Some(Pow2(i))
  }

  function Add(x: Option<nat>, y: Option<nat>): Option<nat>
  {
    if x.Some? && y.Some? then Some(x.value + y.value) else None
  }

  /** `get_register`: the contributions of the gates, in the order the map
      hands out its keys. */
  function Register(c: Circuit, p: char, keys: seq<string>): Option<nat>
    requires Acyclic(c.gates)
  {
    if |keys| == 0 then Some(0)
    else Add(Contribution(c, p, keys[0]), Register(c, p, keys[1..]))
  }

  /** The register fails exactly when one of its gates fails, and is 0
      exactly when every gate contributes nothing. */
  lemma {:induction false} RegisterCases(c: Circuit, p: char, keys: seq<string>)
    requires Acyclic(c.gates)
    ensures Register(c, p, keys).None? <==>
      exists i | 0 <= i < |keys| :: Contribution(c, p, keys[i]).None?
    ensures Register(c, p, keys) == Some(0) <==>
      forall i | 0 <= i < |keys| :: Contribution(c, p, keys[i]) == Some(0)
  {
    if |keys| > 0 {
      RegisterCases(c, p, keys[1..]);
      assert forall i | 1 <= i < |keys| :: keys[i] == keys[1..][i - 1];
    }
  }

  lemma {:induction false} RegisterAppend(c: Circuit, p: char, a: seq<string>, b: seq<string>)
    requires Acyclic(c.gates)
    ensures Register(c, p, a + b) == Add(Register(c, p, a), Register(c, p, b))
  {
    if |a| == 0 {
      assert a + b == b;
    } else {
      assert (a + b)[0] == a[0];
      assert (a + b)[1..] == a[1..] + b;
      RegisterAppend(c, p, a[1..], b);
    }
  }

  /** Removing one key from the order takes out exactly its contribution. */
  lemma RegisterRemove(c: Circuit, p: char, b: seq<string>, j: nat)
    requires Acyclic(c.gates) && j < |b|
    ensures Register(c, p, b) == Add(Contribution(c, p, b[j]), Register(c, p, b[..j] + b[j + 1..]))
  {
    var u, x, v := b[..j], [b[j]], b[j + 1..];
    assert b == (u + x) + v;
    RegisterAppend(c, p, u + x, v);
    RegisterAppend(c, p, u, x);
    RegisterAppend(c, p, u, v);
    RegisterSingle(c, p, b[j]);
    AddShuffle(Register(c, p, u), Contribution(c, p, b[j]), Register(c, p, v));
  }

  lemma AddShuffle(ru: Option<nat>, cx: Option<nat>, rv: Option<nat>)
    ensures Add(Add(ru, Add(cx, Some(0))), rv) == Add(cx, Add(ru, rv))
  {
  }

  lemma RegisterSingle(c: Circuit, p: char, x: string)
    requires Acyclic(c.gates)
    ensures Register(c, p, [x]) == Add(Contribution(c, p, x), Some(0))
  {
    assert [x][1..] == [];
  }

  lemma MultisetRemove<T>(b: seq<T>, j: nat)
    requires j < |b|
    ensures multiset(b[..j] + b[j + 1..]) == multiset(b) - multiset{b[j]}
  {
    assert b == b[..j] + [b[j]] + b[j + 1..];
  }

  /** The register does not depend on the order in which the map hands out
      its keys. */
  lemma {:induction false} RegisterPermutation(c: Circuit, p: char, a: seq<string>, b: seq<string>)
    requires Acyclic(c.gates) && multiset(a) == multiset(b)
    ensures Register(c, p, a) == Register(c, p, b)
    decreases |a|
  {
    if |a| > 0 {
      var x := a[0];
      assert x in multiset(b);
      var j :| 0 <= j < |b| && b[j] == x;
      MultisetRemove(a, 0);
      MultisetRemove(b, j);
      assert a[..0] + a[1..] == a[1..];
      RegisterPermutation(c, p, a[1..], b[..j] + b[j + 1..]);
      RegisterRemove(c, p, b, j);
    }
  }

  /** The source's loop over the gate names, sharing one memo with the
      earlier calls: it computes the register, and the memo stays true. */
  method GetRegister(c: Circuit, p: char, keys: seq<string>, memo: map<string, bool>)
    returns (r: Option<nat>, memo': map<string, bool>)
    requires Acyclic(c.gates) && Consistent(c, memo)
    ensures r == Register(c, p, keys)
    ensures r.Some? ==> Consistent(c, memo') && Extends(memo, memo')
  {
    var value := 0;
    memo' := memo;
    var i := 0;
    while i < |keys|
      invariant 0 <= i <= |keys|
      invariant Register(c, p, keys[..i]) == Some(value)
      invariant Consistent(c, memo') && Extends(memo, memo')
    {
      var name := keys[i];
      assert keys[..i + 1] == keys[..i] + [name];
      RegisterAppend(c, p, keys[..i], [name]);
      assert Register(c, p, [name]) == Add(Contribution(c, p, name), Some(0));
      RegisterAppend(c, p, keys[..i + 1], keys[i + 1..]);
      assert keys[..i + 1] + keys[i + 1..] == keys;
      if |name| > 0 && name[0] == p {
        EvalMemoSound(c, name, memo');
        var e := EvalMemo(c, name, memo');
        if e.None? {
          return None, memo';
        }
        memo' := e.value.1;
        if e.value.0 {
          var index := ParseNat(name[1..]);
          if index.None? {
            return None, memo';
          }
          value := value + Pow2(index.value);
        }
      }
      i := i + 1;
    }
    assert keys[..i] == keys;
    r := Some(value);
  }

  /** Part 1: the 'z' register, with the keys in map order. Any other
      order of the same keys gives the same answer. */
  method Part1(c: Circuit, keys: seq<string>) returns (r: Option<nat>)
    requires Acyclic(c.gates)
    requires multiset(keys) == multiset(c.gates.Keys)
    ensures forall order | multiset(order) == multiset(c.gates.Keys) :: r == Register(c, 'z', order)
    ensures r.None? <==> exists i | 0 <= i < |keys| :: Contribution(c, 'z', keys[i]).None?
  {
    var memo;
    r, memo := GetRegister(c, 'z', keys, map[]);
    RegisterCases(c, 'z', keys);
    forall order | multiset(order) == multiset(c.gates.Keys)
      ensures r == Register(c, 'z', order)
    {
      RegisterPermutation(c, 'z', keys, order);
    }
  }

  // ---------------------------------------------------------------------
  // Ancestors and swaps

  /** `get_all_gate_parents`: every wire the gate reads, directly or
      through other gates; nothing for a wire that is not a gate. */
  function Parents(gates: map<string, Gate>, name: string): (r: set<string>)
    requires Acyclic(gates)
    ensures name !in gates ==> r == {}
    ensures forall v | Feeds(gates, v, name) :: v in r
    decreases Height(gates, name)
  {
    if name !in gates then {}
    else
      var g := gates[name];
      HeightDrops(gates, g.in1, name);
      HeightDrops(gates, g.in2, name);
      {g.in1, g.in2} + Parents(gates, g.in1) + Parents(gates, g.in2)
  }

  /** A set of wires that contains the inputs of each of its gates. */
  ghost predicate Closed(gates: map<string, Gate>, s: set<string>)
  {
    forall w, v | w in s && Feeds(gates, v, w) :: v in s
  }

  /** The ancestors are closed: an ancestor's inputs are ancestors too. */
  lemma {:induction false} ParentsClosed(gates: map<string, Gate>, name: string)
    requires Acyclic(gates)
    ensures Closed(gates, Parents(gates, name))
    decreases Height(gates, name)
  {
    if name in gates {
      var g := gates[name];
      HeightDrops(gates, g.in1, name);
      HeightDrops(gates, g.in2, name);
      ParentsClosed(gates, g.in1);
      ParentsClosed(gates, g.in2);
    }
  }

  /** And they are the least such set: any closed set holding the gate's
      inputs holds all its ancestors. Together with ParentsClosed, this
      makes the ancestors the transitive closure of "is an input of". */
  lemma {:induction false} ParentsLeast(gates: map<string, Gate>, name: string, s: set<string>)
    requires Acyclic(gates) && Closed(gates, s)
    requires forall v | Feeds(gates, v, name) :: v in s
    ensures Parents(gates, name) <= s
    decreases Height(gates, name)
  {
    if name in gates {
      var g := gates[name];
      HeightDrops(gates, g.in1, name);
      HeightDrops(gates, g.in2, name);
      assert Feeds(gates, g.in1, name) && Feeds(gates, g.in2, name);
      ParentsLeast(gates, g.in1, s);
      ParentsLeast(gates, g.in2, s);
    }
  }

  /** Every ancestor gate sits strictly lower than the gate. */
  lemma {:induction false} ParentsBelow(gates: map<string, Gate>, name: string, w: string)
    requires Acyclic(gates) && w in Parents(gates, name) && w in gates
    ensures Height(gates, w) < Height(gates, name)
    decreases Height(gates, name)
  {
    var g := gates[name];
    HeightDrops(gates, g.in1, name);
    HeightDrops(gates, g.in2, name);
    if w in Parents(gates, g.in1) {
      ParentsBelow(gates, g.in1, w);
    } else if w in Parents(gates, g.in2) {
      ParentsBelow(gates, g.in2, w);
    }
  }

  /** No gate is its own ancestor. */
  lemma NotOwnAncestor(gates: map<string, Gate>, name: string)
    requires Acyclic(gates)
    ensures name !in Parents(gates, name)
  {
    if name in Parents(gates, name) {
      ParentsBelow(gates, name, name);
    }
  }

  /** `can_swap_gates`: neither gate is an ancestor of the other. */
  function CanSwap(gates: map<string, Gate>, a: string, b: string): (r: bool)
    requires Acyclic(gates)
    ensures r ==> !Feeds(gates, a, b) && !Feeds(gates, b, a)
  {
    a !in Parents(gates, b) && b !in Parents(gates, a)
  }

  /** A swap is refused exactly when one gate can reach the other through
      a chain of inputs: membership in every closed set around its inputs. */
  lemma CanSwapReach(gates: map<string, Gate>, a: string, b: string)
    requires Acyclic(gates)
    ensures !CanSwap(gates, a, b) <==>
      (forall s | Closed(gates, s) && (forall v | Feeds(gates, v, b) :: v in s) :: a in s) ||
      (forall s | Closed(gates, s) && (forall v | Feeds(gates, v, a) :: v in s) :: b in s)
  {
    ParentsClosed(gates, a);
    ParentsClosed(gates, b);
    forall s | Closed(gates, s) && (forall v | Feeds(gates, v, b) :: v in s)
      ensures Parents(gates, b) <= s
    {
      ParentsLeast(gates, b, s);
    }
    forall s | Closed(gates, s) && (forall v | Feeds(gates, v, a) :: v in s)
      ensures Parents(gates, a) <= s
    {
      ParentsLeast(gates, a, s);
    }
  }

  /** A gate may always be swapped with itself. */
  lemma CanSwapSelf(gates: map<string, Gate>, a: string)
    requires Acyclic(gates)
    ensures CanSwap(gates, a, a)
  {
    NotOwnAncestor(gates, a);
  }

  /** `swap_gate_outputs`: the two gates trade places and every other gate
      stays. A name that is not a gate is a panic. */
  function Swap(gates: map<string, Gate>, a: string, b: string): (r: Option<map<string, Gate>>)
    ensures r.None? <==> a !in gates || b !in gates
    ensures r.Some? ==> r.value.Keys == gates.Keys
    ensures r.Some? ==> r.value[a] == gates[b] && r.value[b] == gates[a]
    ensures r.Some? ==> forall k | k in gates && k != a && k != b :: r.value[k] == gates[k]
  {
    if a in gates && b in gates then Some(gates[a := gates[b]][b := gates[a]]) else None
  }

  /** Swapping twice restores the circuit. */
  lemma SwapTwice(gates: map<string, Gate>, a: string, b: string)
    requires a in gates && b in gates
    ensures Swap(Swap(gates, a, b).value, a, b) == Some(gates)
  {
    var once := Swap(gates, a, b).value;
    var twice := Swap(once, a, b).value;
    assert twice.Keys == gates.Keys;
    assert forall k | k in gates :: twice[k] == gates[k];
    assert twice == gates;
  }

  /** The order of the pair does not matter. */
  lemma SwapSymmetric(gates: map<string, Gate>, a: string, b: string)
    ensures Swap(gates, a, b) == Swap(gates, b, a)
  {
    if a in gates && b in gates {
      var ab := Swap(gates, a, b).value;
      var ba := Swap(gates, b, a).value;
      assert ab.Keys == ba.Keys;
      assert forall k | k in gates :: ab[k] == ba[k];
      assert ab == ba;
    }
  }

  // ---------------------------------------------------------------------
  // Counting swap sets

  /** Pascal's triangle: the number of ways to choose k of n. */
  function Binom(n: nat, k: nat): nat
  {
    if k == 0 then 1 else if n == 0 then 0 else Binom(n - 1, k - 1) + Binom(n - 1, k)
  }

  lemma {:induction false} BinomAbove(n: nat, k: nat)
    requires k > n
    ensures Binom(n, k) == 0
  {
    if n > 0 {
      BinomAbove(n - 1, k - 1);
      BinomAbove(n - 1, k);
    }
  }

  lemma Distrib(k: int, x: int, y: int)
    ensures k * (x + y) == k * x + k * y
  {
  }

  lemma MulPred(k: int, x: int)
    ensures k * x == (k - 1) * x + x
  {
  }

  lemma {:induction false} BinomOne(n: nat)
    ensures Binom(n, 1) == n
  {
    if n > 0 {
      BinomOne(n - 1);
    }
  }

  /** k * C(n, k) == n * C(n - 1, k - 1). */
  lemma {:induction false} Absorb(n: nat, k: nat)
    requires 1 <= k && 1 <= n
    ensures k * Binom(n, k) == n * Binom(n - 1, k - 1)
  {
    if k == 1 {
      BinomOne(n);
    } else if n == 1 {
      BinomAbove(0, k - 1);
      BinomAbove(1, k);
    } else {
      Absorb(n - 1, k);
      Absorb(n - 1, k - 1);
      var x, y := Binom(n - 1, k - 1), Binom(n - 1, k);
      var a, b := Binom(n - 2, k - 2), Binom(n - 2, k - 1);
      assert Binom(n, k) == x + y;
      assert x == a + b;
      Distrib(k, x, y);
      MulPred(k, x);
      MulPred(n, x);
      Distrib(n - 1, a, b);
    }
  }

  /** (n - j) * C(n, j) == n * C(n - 1, j). */
  lemma {:induction false} AbsorbLow(n: nat, j: nat)
    requires 1 <= n && j <= n
    ensures (n - j) * Binom(n, j) == n * Binom(n - 1, j)
  {
    if j == 0 {
    } else if j == n {
      BinomAbove(n - 1, j);
    } else {
      AbsorbLow(n - 1, j);
      AbsorbLow(n - 1, j - 1);
      var x, y := Binom(n - 1, j - 1), Binom(n - 1, j);
      var a, b := Binom(n - 2, j - 1), Binom(n - 2, j);
      assert Binom(n, j) == x + y;
      assert y == a + b;
      Distrib(n - j, x, y);
      MulPred(n - j, y);
      MulPred(n, y);
      Distrib(n - 1, a, b);
    }
  }

  /** The accumulator of the source's fold after the values 1..k. */
  function Fold(n: nat, k: nat): nat
    requires k <= n
  {
    if k == 0 then 1
    else
      var acc := Fold(n, k - 1);
      MulNat(acc, n - k + 1);
      acc * (n - k + 1) / k
  }

  lemma MulNat(a: nat, b: nat)
    ensures a * b >= 0
  {
  }

  lemma MulDivCancel(k: nat, x: nat)
    requires k > 0
    ensures (k * x) / k == x
  {
    DivModUnique(k * x, k, x, 0);
  }

  /** Each fold step divides exactly, and after k steps the accumulator is
      C(n, k). */
  lemma {:induction false} FoldIsBinom(n: nat, k: nat)
    requires k <= n
    ensures Fold(n, k) == Binom(n, k)
    ensures k > 0 ==> Fold(n, k - 1) * (n - k + 1) == k * Binom(n, k)
  {
    if k > 0 {
      FoldIsBinom(n, k - 1);
      Absorb(n, k);
      AbsorbLow(n, k - 1);
      var f, b := Fold(n, k - 1), Binom(n, k);
      assert f * (n - k + 1) == (n - (k - 1)) * f;
      assert f * (n - k + 1) == k * b;
      MulDivCancel(k, b);
    }
  }

  /** `count_combinations`: 0 when r > n, otherwise the fold. */
  function CountCombinations(n: nat, r: nat): (c: nat)
    ensures c == Binom(n, r)
  {
    if r > n then BinomAbove(n, r); 0
    else FoldIsBinom(n, r); Fold(n, r)
  }
}

=== FILE: day25.dfy ===
/** Day 25: schematics of locks and keys, separated by blank lines. A
    lock's top row is solid, a key's bottom row is. Each is read as five
    column heights, counted from the solid edge. A lock and a key fit when
    no column's heights add up to more than five, and the answer is the
    number of fitting (lock, key) pairs. */
module Day25 {
  import opened Prelude

  const Width: nat := 5

  // ---------------------------------------------------------------------
  // Reading a schematic

  /** `str::lines`: the pieces between newlines, without the empty piece
      a final newline leaves. */
  function TextLines(s: string): (r: seq<string>)
    ensures forall k | 0 <= k < |r| :: '\n' !in r[k]
  {
    var parts := Split(s, '\n');
    if parts[|parts| - 1] == "" then parts[..|parts| - 1] else parts
  }

  predicate HashAt(row: string, i: nat)
  {
    i < |row| && row[i] == '#'
  }

  /** A '#' past the fifth column: `colums[i] += 1` is out of bounds. */
  predicate Overflows(row: string)
  {
    exists i | Width <= i < |row| :: row[i] == '#'
  }

  /** The rows with a '#' in column i. */
  function HashRows(rows: seq<string>, i: nat): (r: set<nat>)
    ensures forall k | k in r :: k < |rows|
  {
    set k | 0 <= k < |rows| && HashAt(rows[k], i)
  }

  /** One row of the inner loop: every '#' adds one to its column. */
  function AddRow(cols: seq<nat>, row: string): (r: seq<nat>)
    requires |cols| == Width
    ensures |r| == Width
  {
    seq(Width, i requires 0 <= i < Width => cols[i] + (if HashAt(row, i) then 1 else 0))
  }

  lemma HashRowsStep(rows: seq<string>, i: nat)
    requires |rows| > 0
    ensures var n := |rows| - 1;
      |HashRows(rows, i)| == |HashRows(rows[..n], i)| + (if HashAt(rows[n], i) then 1 else 0)
  {
    var n := |rows| - 1;
    var before := HashRows(rows[..n], i);
    assert forall k | 0 <= k < n :: rows[..n][k] == rows[k];
    if HashAt(rows[n], i) {
      assert HashRows(rows, i) == before + {n};
      assert n !in before;
    } else {
      assert HashRows(rows, i) == before;
    }
  }

  /** The column heights of the counted rows, as the loop over rows adds
      them up. Each height is the number of rows with a '#' in that
      column, so at most the number of rows. A '#' past the fifth column
      panics, and that is `None`. */
  function Columns(rows: seq<string>): (r: Option<seq<nat>>)
    ensures r.None? <==> exists k | 0 <= k < |rows| :: Overflows(rows[k])
    ensures r.Some? ==> |r.value| == Width
    ensures r.Some? ==> forall i | 0 <= i < Width :: r.value[i] == |HashRows(rows, i)| && r.value[i] <= |rows|
  {
    if |rows| == 0 then Some(seq(Width, i => 0))
    else
      var n := |rows| - 1;
      var init := Columns(rows[..n]);
      assert forall k | 0 <= k < n :: rows[..n][k] == rows[k];
      if init.None? || Overflows(rows[n]) then None
      else
        var r := AddRow(init.value, rows[n]);
        assert forall i | 0 <= i < Width :: r[i] == |HashRows(rows, i)| && r[i] <= |rows| by {
          forall i | 0 <= i < Width
            ensures r[i] == |HashRows(rows, i)| && r[i] <= |rows|
          {
            HashRowsStep(rows, i);
          }
        }
        Some(r)
  }

  /** Reversing the rows does not change how many have a '#' in a
      column. */
  lemma ReverseHashRows(rows: seq<string>, i: nat)
    ensures |HashRows(Reverse(rows), i)| == |HashRows(rows, i)|
  {
    var n := |rows|;
    var f := (k: nat) => if k < n then n - 1 - k else k;
    var back := HashRows(Reverse(rows), i);
    assert Image(back, f) == HashRows(rows, i) by {
      forall k | k in HashRows(rows, i)
        ensures k in Image(back, f)
      {
        assert f(n - 1 - k) == k;
      }
    }
    ImageCard(back, f);
  }

  datatype Schematic = Schematic(isLock: bool, heights: seq<nat>)

  /** One block of the input: a lock when it starts with "#####". A key's
      rows are reversed so that both are counted from the solid edge, and
      the first row (the edge) is skipped. */
  function ReadBlock(block: string): (r: Option<Schematic>)
    ensures r.Some? ==> |r.value.heights| == Width
  {
    var isLock := |block| >= 5 && block[..5] == "#####";
    var rows := TextLines(block);
    var ordered := if isLock then rows else Reverse(rows);
    var counted := if |ordered| == 0 then [] else ordered[1..];
    match Columns(counted)
    case None => None
    case Some(h) => Some(Schematic(isLock, h))
  }

  /** The rows a block is measured over: all but the top one of a lock,
      all but the bottom one of a key. */
  function Body(rows: seq<string>, isLock: bool): seq<string>
  {
    if |rows| == 0 then [] else if isLock then rows[1..] else rows[..|rows| - 1]
  }

  /** A block reads as a lock exactly when it starts with "#####". Its
      heights are the counts of '#' per column over all rows but the solid
      edge, so each is at most the number of rows less one. */
  lemma ReadBlockHeights(block: string)
    requires ReadBlock(block).Some?
    ensures var s := ReadBlock(block).value;
      var rows := TextLines(block);
      && (s.isLock <==> |block| >= 5 && block[..5] == "#####")
      && |s.heights| == Width
      && forall i | 0 <= i < Width ::
           s.heights[i] == |HashRows(Body(rows, s.isLock), i)| && s.heights[i] <= if |rows| == 0 then 0 else |rows| - 1
  {
    var s := ReadBlock(block).value;
    var rows := TextLines(block);
    if !s.isLock && |rows| > 0 {
      var counted := Reverse(rows)[1..];
      assert counted == Reverse(rows[..|rows| - 1]);
      forall i | 0 <= i < Width
        ensures s.heights[i] == |HashRows(Body(rows, s.isLock), i)|
      {
        ReverseHashRows(rows[..|rows| - 1], i);
      }
    }
  }

  /** The end of `load_data`: the blocks, read in order, sorted into the
      lock heights and the key heights; a block that panics makes the
      whole load fail. */
  function Collect(read: seq<Option<Schematic>>): (r: Option<(seq<seq<nat>>, seq<seq<nat>>)>)
    ensures r.None? <==> exists k | 0 <= k < |read| :: read[k].None?
    ensures r.Some? ==> |r.value.0| + |r.value.1| == |read|
    ensures r.Some? ==> forall h | h in r.value.0 :: exists k | 0 <= k < |read| :: read[k] == Some(Schematic(true, h))
    ensures r.Some? ==> forall h | h in r.value.1 :: exists k | 0 <= k < |read| :: read[k] == Some(Schematic(false, h))
  {
    if |read| == 0 then Some(([], []))
    else
      var n := |read| - 1;
      var init := Collect(read[..n]);
      assert forall k | 0 <= k < n :: read[..n][k] == read[k];
      if init.None? || read[n].None? then None
      else
        var (locks, keys) := init.value;
        if read[n].value.isLock then Some((locks + [read[n].value.heights], keys))
        else Some((locks, keys + [read[n].value.heights]))
  }

  function Load(input: string): Option<(seq<seq<nat>>, seq<seq<nat>>)>
  {
    var blocks := SplitOn(input, "\n\n");
    Collect(seq(|blocks|, k requires 0 <= k < |blocks| => ReadBlock(blocks[k])))
  }

  // ---------------------------------------------------------------------
  // Counting fitting pairs

  /** `lock.iter().zip(key.iter()).all(|(l, k)| l + k <= 5)`. */
  predicate Fits(lock: seq<nat>, key: seq<nat>)
  {
    forall i | 0 <= i < |lock| && i < |key| :: lock[i] + key[i] <= 5
  }

  /** The fitting pairs, by lock and key index, among the first `a` locks. */
  function FitPairs(locks: seq<seq<nat>>, keys: seq<seq<nat>>, a: nat): set<(nat, nat)>
    requires a <= |locks|
  {
    set i, j | 0 <= i < a && 0 <= j < |keys| && Fits(locks[i], keys[j]) :: (i, j)
  }

  /** The keys among the first `b` that fit `lock`. */
  function FitKeys(lock: seq<nat>, keys: seq<seq<nat>>, b: nat): set<nat>
    requires b <= |keys|
  {
    set j | 0 <= j < b && Fits(lock, keys[j])
  }

  lemma FitKeysStep(lock: seq<nat>, keys: seq<seq<nat>>, b: nat)
    requires b < |keys|
    ensures |FitKeys(lock, keys, b + 1)| == |FitKeys(lock, keys, b)| + if Fits(lock, keys[b]) then 1 else 0
  {
    if Fits(lock, keys[b]) {
      assert FitKeys(lock, keys, b + 1) == FitKeys(lock, keys, b) + {b};
    } else {
      assert FitKeys(lock, keys, b + 1) == FitKeys(lock, keys, b);
    }
  }

  /** Taking one more lock adds the keys that fit it. */
  lemma FitPairsStep(locks: seq<seq<nat>>, keys: seq<seq<nat>>, a: nat)
    requires a < |locks|
    ensures |FitPairs(locks, keys, a + 1)| == |FitPairs(locks, keys, a)| + |FitKeys(locks[a], keys, |keys|)|
  {
    var row := FitKeys(locks[a], keys, |keys|);
    var f := (j: nat) => (a, j);
    var before, after := FitPairs(locks, keys, a), FitPairs(locks, keys, a + 1);
    forall p | p in after
      ensures p in before + Image(row, f)
    {
      if p.0 == a {
        assert p.1 in row && f(p.1) == p;
      }
    }
    assert after == before + Image(row, f);
    assert before !! Image(row, f);
    ImageCard(row, f);
  }

  /** The nested loops of part 1 count exactly the fitting pairs. */
  method Part1(locks: seq<seq<nat>>, keys: seq<seq<nat>>) returns (total: nat)
    ensures total == |FitPairs(locks, keys, |locks|)|
  {
    total := 0;
    for a := 0 to |locks|
      invariant total == |FitPairs(locks, keys, a)|
    {
      var count := 0;
      for b := 0 to |keys|
        invariant count == |FitKeys(locks[a], keys, b)|
      {
        FitKeysStep(locks[a], keys, b);
        if Fits(locks[a], keys[b]) {
          count := count + 1;
        }
      }
      FitPairsStep(locks, keys, a);
      total := total + count;
    }
  }

  // ---------------------------------------------------------------------
  // The example

  /** The example's two locks and three keys give three fitting pairs. */
  lemma ExampleCount()
    ensures |FitPairs([[0, 5, 3, 4, 3], [1, 2, 0, 5, 3]],
                      [[5, 0, 2, 1, 3], [4, 3, 4, 0, 2], [3, 0, 2, 0, 1]], 2)| == 3
  {
    var locks := [[0, 5, 3, 4, 3], [1, 2, 0, 5, 3]];
    var keys := [[5, 0, 2, 1, 3], [4, 3, 4, 0, 2], [3, 0, 2, 0, 1]];
    assert locks[0][4] + keys[0][4] == 6 && locks[0][1] + keys[1][1] == 8 && locks[1][0] + keys[0][0] == 6;
    assert Fits(locks[0], keys[2]) && Fits(locks[1], keys[1]) && Fits(locks[1], keys[2]);
    assert FitPairs(locks, keys, 2) == {(0, 2), (1, 1), (1, 2)};
  }
}

=== FILE: prelude.dfy ===
/** Small vocabulary shared by every solver: an optional value for the
    places where the solvers panic, unbounded integer helpers for the
    fixed-width arithmetic the solvers use, bitwise exclusive-or on naturals,
    a generic insertion sort and a decimal parser. */
module Prelude {

  /** A value that may be missing: `None` stands for the source's panics
      (`unwrap` on nothing, a failed `parse`, an index out of range). */
  datatype Option<T> = None | Some(value: T)

  function Abs(x: int): nat
  {
    if x < 0 then -x else x
  }

  function Pow(b: nat, e: nat): (r: nat)
    ensures b > 0 ==> r > 0
  {
    if e == 0 then 1 else b * Pow(b, e - 1)
  }

  function Pow2(k: nat): (r: nat)
    ensures r > 0
  {
    Pow(2, k)
  }

  lemma {:induction false} PowAdd(b: nat, e1: nat, e2: nat)
    ensures Pow(b, e1 + e2) == Pow(b, e1) * Pow(b, e2)
  {
    if e1 > 0 {
      PowAdd(b, e1 - 1, e2);
      calc {
        Pow(b, e1 + e2);
        b * Pow(b, e1 - 1 + e2);
        b * (Pow(b, e1 - 1) * Pow(b, e2));
        (b * Pow(b, e1 - 1)) * Pow(b, e2);
      }
    }
  }

  lemma {:induction false} PowMonotone(b: nat, e1: nat, e2: nat)
    requires b > 0 && e1 <= e2
    ensures Pow(b, e1) <= Pow(b, e2)
  {
    if e1 < e2 {
      PowMonotone(b, e1, e2 - 1);
      assert Pow(b, e2) == b * Pow(b, e2 - 1);
    }
  }

  /** Number of decimal digits, the source's `n.ilog10() + 1` for n > 0
      (and 1 for 0, the value the stone solver uses there). */
  function DecimalDigits(n: nat): (d: nat)
    ensures d >= 1
  {
    if n < 10 then 1 else 1 + DecimalDigits(n / 10)
  }

  lemma {:induction false} DecimalDigitsBounds(n: nat)
    ensures n < Pow(10, DecimalDigits(n))
    ensures n >= 1 ==> Pow(10, DecimalDigits(n) - 1) <= n
  {
    if n >= 10 {
      DecimalDigitsBounds(n / 10);
    }
  }

  /** Bitwise exclusive-or of two naturals, bit by bit from the least
      significant end. */
  function Xor(x: nat, y: nat): nat
    decreases x + y
  {
    if x == 0 then y
    else if y == 0 then x
    else 2 * Xor(x / 2, y / 2) + (x % 2 + y % 2) % 2
  }

  lemma {:induction false} XorBound(x: nat, y: nat, k: nat)
    requires x < Pow2(k) && y < Pow2(k)
    ensures Xor(x, y) < Pow2(k)
    decreases k
  {
    if x != 0 && y != 0 {
      assert k > 0;
      XorBound(x / 2, y / 2, k - 1);
    }
  }

  /** Exclusive-or commutes with keeping the low k bits: the property that
      makes "mix, then prune" independent of the discarded high bits. */
  lemma {:induction false} XorLowBits(x: nat, y: nat, k: nat)
    ensures Xor(x, y) % Pow2(k) == Xor(x % Pow2(k), y % Pow2(k))
    decreases k
  {
    if k == 0 {
      assert Pow2(0) == 1;
      assert x % 1 == 0 && y % 1 == 0;
    } else {
      var p := Pow2(k - 1);
      assert Pow2(k) == 2 * p;
      XorLowBits(x / 2, y / 2, k - 1);
      HalfMod(x, p);
      HalfMod(y, p);
      var xl, yl := x % (2 * p), y % (2 * p);
      assert xl / 2 == (x / 2) % p && xl % 2 == x % 2;
      assert yl / 2 == (y / 2) % p && yl % 2 == y % 2;
      XorUnfold(x, y);
      XorUnfold(xl, yl);
      var h := Xor(x / 2, y / 2);
      var b := (x % 2 + y % 2) % 2;
      assert Xor(x, y) == 2 * h + b;
      assert Xor(xl, yl) == 2 * (h % p) + b;
      DoubleMod(h, b, p);
    }
  }

  lemma XorUnfold(x: nat, y: nat)
    ensures Xor(x, y) == 2 * Xor(x / 2, y / 2) + (x % 2 + y % 2) % 2
  {
    if x == 0 {
      XorUnfoldZeroLeft(x, y);
    } else if y == 0 {
      XorUnfoldZeroRight(x, y);
    }
  }

  lemma XorUnfoldZeroLeft(x: nat, y: nat)
    requires x == 0
    ensures Xor(x, y) == 2 * Xor(x / 2, y / 2) + (x % 2 + y % 2) % 2
  {
    assert Xor(0, y / 2) == y / 2;
    assert y == 2 * (y / 2) + y % 2;
  }

  lemma XorUnfoldZeroRight(x: nat, y: nat)
    requires x != 0 && y == 0
    ensures Xor(x, y) == 2 * Xor(x / 2, y / 2) + (x % 2 + y % 2) % 2
  {
    assert Xor(x / 2, 0) == x / 2;
  }

  /** Euclidean division is determined by its quotient-remainder equation. */
  lemma DivModUnique(x: int, d: int, q: int, r: int)
    requires d > 0 && 0 <= r < d && x == d * q + r
    ensures x / d == q && x % d == r
  {
    var q0, r0 := x / d, x % d;
    assert x == d * q0 + r0;
    assert d * (q - q0) == r0 - r;
    if q > q0 {
      MulAtLeast(d, q - q0);
    } else if q < q0 {
      MulAtLeast(d, q0 - q);
    }
  }

  lemma DivModUniqueRight(x: int, d: int, q: int, r: int)
    requires d > 0 && 0 <= r < d && x == q * d + r
    ensures x / d == q && x % d == r
  {
    assert q * d == d * q;
    DivModUnique(x, d, q, r);
  }

  lemma MulAtLeast(d: int, k: int)
    requires d > 0 && k >= 1
    ensures d * k >= d
  {
    assert d * k == d + d * (k - 1);
  }

  lemma DivLess(d: nat, p: nat)
    requires d > 0 && p >= 2
    ensures d / p < d
  {
    var q, r := d / p, d % p;
    assert d == p * q + r;
    assert p * q == q * (p - 2) + 2 * q;
    assert q * (p - 2) >= 0;
    assert 2 * q <= d;
  }

  lemma Pow2AtLeast2(l: nat)
    requires l >= 1
    ensures Pow2(l) >= 2
  {
    PowMonotone(2, 1, l);
    assert Pow(2, 1) == 2 * Pow(2, 0);
  }

  lemma HalfMod(x: nat, p: nat)
    requires p > 0
    ensures (x % (2 * p)) / 2 == (x / 2) % p
    ensures (x % (2 * p)) % 2 == x % 2
  {
    var q := x / (2 * p);
    var r := x % (2 * p);
    assert x == (2 * p) * q + r;
    var rh, rb := r / 2, r % 2;
    assert r == 2 * rh + rb;
    assert x == 2 * (p * q + rh) + rb;
    DivModUnique(x, 2, p * q + rh, rb);
    assert rh < p;
    DivModUnique(x / 2, p, q, rh);
  }

  lemma DoubleMod(h: nat, b: nat, p: nat)
    requires p > 0 && b < 2
    ensures (2 * h + b) % (2 * p) == 2 * (h % p) + b
  {
    var q := h / p;
    var r := h % p;
    assert h == p * q + r;
    assert 2 * h + b == (2 * p) * q + (2 * r + b);
    DivModUnique(2 * h + b, 2 * p, q, 2 * r + b);
  }

  function Sum(s: seq<int>): int
  {
    if |s| == 0 then 0 else s[0] + Sum(s[1..])
  }

  lemma {:induction false} SumAppend(a: seq<int>, b: seq<int>)
    ensures Sum(a + b) == Sum(a) + Sum(b)
  {
    if |a| == 0 {
      assert a + b == b;
    } else {
      assert (a + b)[0] == a[0];
      assert (a + b)[1..] == a[1..] + b;
      SumAppend(a[1..], b);
    }
  }

  // ---------------------------------------------------------------------
  // Sorting with a caller-supplied total preorder.

  ghost predicate TotalPreorder<T(!new)>(le: (T, T) -> bool)
  {
    && (forall a, b :: le(a, b) || le(b, a))
    && (forall a, b, c :: le(a, b) && le(b, c) ==> le(a, c))
  }

  predicate SortedBy<T>(s: seq<T>, le: (T, T) -> bool)
  {
    forall i, j :: 0 <= i < j < |s| ==> le(s[i], s[j])
  }

  function Insert<T(!new)>(x: T, s: seq<T>, le: (T, T) -> bool): (r: seq<T>)
    requires TotalPreorder(le) && SortedBy(s, le)
    ensures SortedBy(r, le)
    ensures multiset(r) == multiset(s) + multiset{x}
    ensures |r| == |s| + 1
  {
    if |s| == 0 then [x]
    else if le(x, s[0]) then
      InsertFront(x, s, le);
      [x] + s
    else
      var t := Insert(x, s[1..], le);
      InsertBehind(x, s, t, le);
      [s[0]] + t
  }

  lemma InsertFront<T(!new)>(x: T, s: seq<T>, le: (T, T) -> bool)
    requires TotalPreorder(le) && SortedBy(s, le) && |s| > 0 && le(x, s[0])
    ensures SortedBy([x] + s, le)
  {
    var r := [x] + s;
    forall i, j | 0 <= i < j < |r| ensures le(r[i], r[j]) {
      if i == 0 {
        assert r[j] == s[j - 1];
        if j > 1 {
          assert le(s[0], s[j - 1]);
        }
      } else {
        assert r[i] == s[i - 1] && r[j] == s[j - 1];
      }
    }
  }

  lemma InsertBehind<T(!new)>(x: T, s: seq<T>, t: seq<T>, le: (T, T) -> bool)
    requires TotalPreorder(le) && SortedBy(s, le) && |s| > 0 && !le(x, s[0])
    requires SortedBy(t, le) && multiset(t) == multiset(s[1..]) + multiset{x}
    ensures SortedBy([s[0]] + t, le)
    ensures multiset([s[0]] + t) == multiset(s) + multiset{x}
  {
    assert s == [s[0]] + s[1..];
    assert le(s[0], x);
    forall k | 0 <= k < |t| ensures le(s[0], t[k]) {
      assert t[k] in multiset(t);
      if t[k] != x {
        assert t[k] in multiset(s[1..]);
        var m :| 0 <= m < |s[1..]| && s[1..][m] == t[k];
        assert s[m + 1] == t[k];
      }
    }
  }

  function Sort<T(!new)>(s: seq<T>, le: (T, T) -> bool): (r: seq<T>)
    requires TotalPreorder(le)
    ensures SortedBy(r, le)
    ensures multiset(r) == multiset(s)
    ensures |r| == |s|
  {
    if |s| == 0 then []
    else
      assert s == [s[0]] + s[1..];
      Insert(s[0], Sort(s[1..], le), le)
  }

  /** Lexicographic order on strings, the order of Rust's `sort` on `String`. */
  predicate LexLe(a: string, b: string)
  {
    if |a| == 0 then true
    else if |b| == 0 then false
    else if a[0] != b[0] then a[0] < b[0]
    else LexLe(a[1..], b[1..])
  }

  lemma {:induction false} LexLeTotal(a: string, b: string)
    ensures LexLe(a, b) || LexLe(b, a)
  {
    if |a| > 0 && |b| > 0 && a[0] == b[0] {
      LexLeTotal(a[1..], b[1..]);
    }
  }

  lemma {:induction false} LexLeTransitive(a: string, b: string, c: string)
    requires LexLe(a, b) && LexLe(b, c)
    ensures LexLe(a, c)
  {
    if |a| > 0 && |b| > 0 && |c| > 0 && a[0] == b[0] && b[0] == c[0] {
      LexLeTransitive(a[1..], b[1..], c[1..]);
    }
  }

  lemma LexLeIsTotalPreorder()
    ensures TotalPreorder(LexLe)
  {
    forall a, b ensures LexLe(a, b) || LexLe(b, a) {
      LexLeTotal(a, b);
    }
    forall a, b, c | LexLe(a, b) && LexLe(b, c) ensures LexLe(a, c) {
      LexLeTransitive(a, b, c);
    }
  }

  /** Joins strings with a separator, like `join(",")`. */
  function Join(parts: seq<string>, sep: char): string
  {
    if |parts| == 0 then ""
    else if |parts| == 1 then parts[0]
    else parts[0] + [sep] + Join(parts[1..], sep)
  }

  /** Splits at every separator, like `str::split`: n separators give n + 1
      parts, the empty string gives one empty part. */
  function Split(s: string, sep: char): (parts: seq<string>)
    ensures |parts| >= 1
    ensures forall i | 0 <= i < |parts| :: sep !in parts[i]
    ensures Join(parts, sep) == s
  {
    if |s| == 0 then [""]
    else if s[0] == sep then
      var rest := Split(s[1..], sep);
      assert s == [sep] + s[1..];
      [""] + rest
    else
      var rest := Split(s[1..], sep);
      var r := [[s[0]] + rest[0]] + rest[1..];
      assert r[1..] == rest[1..];
      assert Join(r, sep) == [s[0]] + Join(rest, sep);
      assert s == [s[0]] + s[1..];
      r
  }

  /** Splitting undoes joining when no part holds the separator. */
  lemma {:induction false} SplitJoin(parts: seq<string>, sep: char)
    requires |parts| >= 1
    requires forall i | 0 <= i < |parts| :: sep !in parts[i]
    ensures Split(Join(parts, sep), sep) == parts
  {
    if |parts| == 1 {
      SplitPlain(parts[0], sep);
    } else {
      SplitJoin(parts[1..], sep);
      SplitFirst(parts[0], Join(parts[1..], sep), sep);
      assert parts == [parts[0]] + parts[1..];
    }
  }

  /** Joining keeps out a character that is neither in a part nor the
      separator. */
  lemma {:induction false} JoinAvoids(parts: seq<string>, sep: char, c: char)
    requires c != sep && forall i | 0 <= i < |parts| :: c !in parts[i]
    ensures c !in Join(parts, sep)
  {
    if |parts| > 1 {
      JoinAvoids(parts[1..], sep, c);
    }
  }

  /** One piece more than there are separators. */
  lemma {:induction false} SplitCount(s: string, sep: char)
    ensures |Split(s, sep)| == multiset(s)[sep] + 1
  {
    if |s| > 0 {
      SplitCount(s[1..], sep);
      assert s == [s[0]] + s[1..];
    }
  }

  lemma {:induction false} SplitPlain(p: string, sep: char)
    requires sep !in p
    ensures Split(p, sep) == [p]
  {
    if |p| > 0 {
      SplitPlain(p[1..], sep);
      assert p == [p[0]] + p[1..];
    }
  }

  lemma {:induction false} SplitFirst(p: string, t: string, sep: char)
    requires sep !in p
    ensures Split(p + [sep] + t, sep) == [p] + Split(t, sep)
  {
    var s := p + [sep] + t;
    if |p| == 0 {
      assert s == [sep] + t;
      assert s[1..] == t;
    } else {
      assert s[0] == p[0];
      assert s[1..] == p[1..] + [sep] + t;
      SplitFirst(p[1..], t, sep);
      assert p == [p[0]] + p[1..];
    }
  }

  /** sep starts at position j of s. */
  predicate At(s: string, sep: string, j: nat)
  {
    j + |sep| <= |s| && s[j..j + |sep|] == sep
  }

  /** sep occurs in s at some position. */
  predicate Occurs(s: string, sep: string)
  {
    exists j: nat | j <= |s| :: At(s, sep, j)
  }

  /** The first index at or after i where sep starts in s. */
  function FindFrom(s: string, sep: string, i: nat): (r: Option<nat>)
    requires |sep| > 0 && i <= |s|
    ensures r.Some? ==> i <= r.value && r.value + |sep| <= |s| && s[r.value..r.value + |sep|] == sep
    ensures r.Some? ==> forall j: nat | i <= j < r.value :: !At(s, sep, j)
    ensures r.None? ==> forall j: nat | i <= j :: !At(s, sep, j)
    decreases |s| - i
  {
    if i + |sep| > |s| then None
    else if s[i..i + |sep|] == sep then Some(i)
    else FindFrom(s, sep, i + 1)
  }

  /** Joins strings with a string separator. */
  function JoinOn(parts: seq<string>, sep: string): string
  {
    if |parts| == 0 then ""
    else if |parts| == 1 then parts[0]
    else parts[0] + sep + JoinOn(parts[1..], sep)
  }

  /** `str::split` with a string separator: the pieces between the
      occurrences of sep found left to right without overlap. */
  function SplitOn(s: string, sep: string): (parts: seq<string>)
    requires |sep| > 0
    ensures |parts| >= 1
    ensures JoinOn(parts, sep) == s
    ensures forall k | 0 <= k < |parts| :: !Occurs(parts[k], sep)
    decreases |s|
  {
    match FindFrom(s, sep, 0)
    case None => [s]
    case Some(i) =>
      var rest := SplitOn(s[i + |sep|..], sep);
      var parts := [s[..i]] + rest;
      assert parts[1..] == rest;
      assert s == s[..i] + sep + s[i + |sep|..];
      PrefixMisses(s, sep, i);
      parts
  }

  /** A prefix holds no occurrence that does not start before its end in s. */
  lemma PrefixMisses(s: string, sep: string, i: nat)
    requires |sep| > 0 && i <= |s| && forall j: nat | j < i :: !At(s, sep, j)
    ensures !Occurs(s[..i], sep)
  {
    forall j: nat | j <= i ensures !At(s[..i], sep, j) {
      if j + |sep| <= i {
        assert s[..i][j..j + |sep|] == s[j..j + |sep|];
        assert !At(s, sep, j);
      }
    }
  }

  /** The elements in the opposite order. */
  function Reverse<T>(s: seq<T>): (r: seq<T>)
    ensures |r| == |s| && forall k | 0 <= k < |s| :: r[k] == s[|s| - 1 - k]
  {
    seq(|s|, k requires 0 <= k < |s| => s[|s| - 1 - k])
  }

  /** Smallest element of a non-empty sequence, `iter().min().unwrap()`. */
  function Min(s: seq<int>): (m: int)
    requires |s| > 0
    ensures m in s
    ensures forall i | 0 <= i < |s| :: m <= s[i]
  {
    if |s| == 1 then s[0]
    else
      var t := Min(s[1..]);
      assert forall i | 1 <= i < |s| :: s[i] == s[1..][i - 1];
      if s[0] <= t then s[0] else t
  }

  /** Largest element of a non-empty sequence, `iter().max().unwrap()`. */
  function Max(s: seq<int>): (m: int)
    requires |s| > 0
    ensures m in s
    ensures forall i | 0 <= i < |s| :: s[i] <= m
  {
    if |s| == 1 then s[0]
    else
      var t := Max(s[1..]);
      assert forall i | 1 <= i < |s| :: s[i] == s[1..][i - 1];
      if s[0] >= t then s[0] else t
  }

  // ---------------------------------------------------------------------
  // Decimal parsing, as `str::parse::<usize>()`: an optional '+' and a
  // non-empty run of ASCII digits.

  predicate IsDigit(c: char)
  {
    '0' <= c <= '9'
  }

  function DigitsValue(s: string): nat
    requires forall i | 0 <= i < |s| :: IsDigit(s[i])
  {
    if |s| == 0 then 0
    else
      assert IsDigit(s[|s| - 1]);
      10 * DigitsValue(s[..|s| - 1]) + (s[|s| - 1] as int - '0' as int)
  }

  function ParseNat(s: string): (r: Option<nat>)
    ensures r.Some? ==> |s| > 0
  {
    var body := if |s| > 0 && s[0] == '+' then s[1..] else s;
    if |body| > 0 && forall i | 0 <= i < |body| :: IsDigit(body[i])
    then Some(DigitsValue(body))
    else None
  }

  /** Parses every field, failing when any field fails, as a `map` of
      `parse().unwrap()` over the fields does. */
  function ParseAll(fields: seq<string>): (r: Option<seq<nat>>)
    ensures r.Some? ==> |r.value| == |fields|
    ensures r.Some? ==> forall i | 0 <= i < |fields| :: ParseNat(fields[i]) == Some(r.value[i])
    ensures r.None? ==> exists i | 0 <= i < |fields| :: ParseNat(fields[i]).None?
  {
    if |fields| == 0 then Some([])
    else
      match (ParseNat(fields[0]), ParseAll(fields[1..]))
      case (Some(v), Some(vs)) =>
        assert forall i | 1 <= i < |fields| :: fields[i] == fields[1..][i - 1];
        Some([v] + vs)
      case (None, _) => None
      case (_, None) =>
        assert forall i | 0 <= i < |fields| - 1 :: fields[1..][i] == fields[i + 1];
        None
  }

  function DigitChar(d: nat): (c: char)
    requires d < 10
    ensures IsDigit(c)
  {
    ('0' as int + d) as char
  }

  /** A single digit reads back as itself. */
  lemma ParseDigit(d: nat)
    requires d < 10
    ensures ParseNat([DigitChar(d)]) == Some(d)
  {
    var s := [DigitChar(d)];
    assert s[0] != '+';
    assert s[..0] == [];
    assert DigitsValue(s) == 10 * DigitsValue([]) + (s[0] as int - '0' as int);
  }

  /** Decimal digits of a number, most significant first. */
  function NatString(n: nat): (s: string)
    ensures |s| >= 1
    ensures forall i | 0 <= i < |s| :: IsDigit(s[i])
  {
    if n < 10 then [DigitChar(n)] else NatString(n / 10) + [DigitChar(n % 10)]
  }

  lemma {:induction false} NatStringParses(n: nat)
    ensures ParseNat(NatString(n)) == Some(n)
    ensures DigitsValue(NatString(n)) == n
  {
    var s := NatString(n);
    assert s[0] != '+';
    if n < 10 {
      ParseDigit(n);
    } else {
      NatStringParses(n / 10);
      assert s[..|s| - 1] == NatString(n / 10);
    }
  }

  /** Each number written out in decimal. */
  function NatStrings(xs: seq<nat>): (r: seq<string>)
    ensures |r| == |xs| && forall i | 0 <= i < |xs| :: r[i] == NatString(xs[i])
  {
    if |xs| == 0 then [] else [NatString(xs[0])] + NatStrings(xs[1..])
  }

  /** Numbers written out in decimal parse back to themselves. */
  lemma {:induction false} ParseAllNatStrings(xs: seq<nat>)
    ensures ParseAll(NatStrings(xs)) == Some(xs)
  {
    if |xs| > 0 {
      var fields := NatStrings(xs);
      NatStringParses(xs[0]);
      ParseAllNatStrings(xs[1..]);
      assert fields[0] == NatString(xs[0]) && fields[1..] == NatStrings(xs[1..]);
      assert xs == [xs[0]] + xs[1..];
    }
  }

  /** A decimal string holds no character other than a digit. */
  lemma NatStringAvoids(n: nat, c: char)
    requires !IsDigit(c)
    ensures c !in NatString(n)
  {
  }

  /** A number of at most k digits prints in at most k characters. */
  lemma {:induction false} NatStringLength(n: nat, k: nat)
    requires 1 <= k && n < Pow(10, k)
    ensures |NatString(n)| <= k
  {
    if n >= 10 {
      assert Pow(10, k) == 10 * Pow(10, k - 1);
      NatStringLength(n / 10, k - 1);
    }
  }

  /** An injective map neither merges nor drops elements, so the image of
      a set is as large as the set. */
  lemma {:induction false} ImageCard<A, B>(s: set<A>, f: A -> B)
    requires forall a, b | a in s && b in s && f(a) == f(b) :: a == b
    ensures |Image(s, f)| == |s|
    decreases |s|
  {
    if s != {} {
      var a :| a in s;
      var rest := s - {a};
      ImageCard(rest, f);
      assert Image(s, f) == Image(rest, f) + {f(a)};
      assert f(a) !in Image(rest, f);
    }
  }

  function Image<A, B>(s: set<A>, f: A -> B): (r: set<B>)
    ensures forall a | a in s :: f(a) in r
    ensures forall b | b in r :: exists a | a in s :: f(a) == b
  {
    set a | a in s :: f(a)
  }

  /** A subset is no larger than its superset. */
  lemma SubsetCard<T>(a: set<T>, b: set<T>)
    requires a <= b
    ensures |a| <= |b|
  {
    assert b == a + (b - a);
  }

  // ---------------------------------------------------------------------
  // Keeping the non-empty lines

  /** The lines that are not empty, in order: `filter(|l| l.len() > 0)`. */
  function NonEmpty(lines: seq<string>): (r: seq<string>)
    ensures forall k | 0 <= k < |r| :: |r[k]| > 0 && r[k] in lines
    ensures forall k | 0 <= k < |lines| :: |lines[k]| > 0 ==> lines[k] in r
    ensures |r| <= |lines|
    ensures |r| == |lines| <==> forall k | 0 <= k < |lines| :: |lines[k]| > 0
    ensures (forall k | 0 <= k < |lines| :: |lines[k]| > 0) ==> r == lines
  {
    KeptSound(lines);
    Kept(lines)
  }

  /** The filter `l.len() > 0` itself. */
  function Kept(lines: seq<string>): seq<string>
  {
    if |lines| == 0 then []
    else (if |lines[0]| > 0 then [lines[0]] else []) + Kept(lines[1..])
  }

  lemma KeptSound(lines: seq<string>)
    ensures var r := Kept(lines);
      && (forall k | 0 <= k < |r| :: |r[k]| > 0 && r[k] in lines)
      && (forall k | 0 <= k < |lines| :: |lines[k]| > 0 ==> lines[k] in r)
      && |r| <= |lines|
      && (|r| == |lines| <==> forall k | 0 <= k < |lines| :: |lines[k]| > 0)
      && ((forall k | 0 <= k < |lines| :: |lines[k]| > 0) ==> r == lines)
  {
    KeptMembers(lines);
    KeptLength(lines);
    if forall k | 0 <= k < |lines| :: |lines[k]| > 0 {
      KeptAll(lines);
    }
  }

  lemma {:induction false} KeptMembers(lines: seq<string>)
    ensures forall k | 0 <= k < |Kept(lines)| :: |Kept(lines)[k]| > 0 && Kept(lines)[k] in lines
    ensures forall k | 0 <= k < |lines| :: |lines[k]| > 0 ==> lines[k] in Kept(lines)
  {
    if |lines| > 0 {
      KeptMembers(lines[1..]);
      assert lines == [lines[0]] + lines[1..];
      assert forall k | 1 <= k < |lines| :: lines[k] == lines[1..][k - 1];
    }
  }

  lemma {:induction false} KeptLength(lines: seq<string>)
    ensures |Kept(lines)| <= |lines|
    ensures |Kept(lines)| == |lines| <==> forall k | 0 <= k < |lines| :: |lines[k]| > 0
  {
    if |lines| > 0 {
      KeptLength(lines[1..]);
      assert forall k | 1 <= k < |lines| :: lines[k] == lines[1..][k - 1];
    }
  }

  lemma {:induction false} KeptNone(lines: seq<string>)
    requires forall k | 0 <= k < |lines| :: lines[k] == ""
    ensures NonEmpty(lines) == []
  {
    if |lines| > 0 {
      KeptNone(lines[1..]);
    }
  }

  lemma {:induction false} KeptAll(lines: seq<string>)
    requires forall k | 0 <= k < |lines| :: |lines[k]| > 0
    ensures Kept(lines) == lines
  {
    if |lines| > 0 {
      assert forall k | 0 <= k < |lines[1..]| :: lines[1..][k] == lines[k + 1];
      KeptAll(lines[1..]);
      assert lines == [lines[0]] + lines[1..];
    }
  }

  /** The filter works line by line: filtering two runs of lines one after
      the other is filtering each. With `NonEmptyLine` this fixes the result:
      the non-empty lines, each once, in their order. */
  lemma NonEmptyAppend(a: seq<string>, b: seq<string>)
    ensures NonEmpty(a + b) == NonEmpty(a) + NonEmpty(b)
  {
    KeptAppend(a, b);
  }

  lemma {:induction false} KeptAppend(a: seq<string>, b: seq<string>)
    ensures Kept(a + b) == Kept(a) + Kept(b)
  {
    if |a| == 0 {
      assert a + b == b;
    } else {
      var ab := a + b;
      assert ab[1..] == a[1..] + b && ab[0] == a[0];
      KeptAppend(a[1..], b);
      if |a[0]| > 0 {
        calc {
          Kept(ab);
          [a[0]] + Kept(a[1..] + b);
          [a[0]] + (Kept(a[1..]) + Kept(b));
          ([a[0]] + Kept(a[1..])) + Kept(b);
        }
      } else {
        calc {
          Kept(ab);
          [] + Kept(a[1..] + b);
          Kept(a[1..]) + Kept(b);
        }
      }
    }
  }

  /** A single line is kept exactly when it is not empty. */
  lemma NonEmptyLine(l: string)
    ensures NonEmpty([l]) == if |l| > 0 then [l] else []
  {
    assert [l][1..] == [];
  }
}
